=== FILE: README.md ===
# toasterbot game core in Dafny

This project models the game logic of toasterbot, a Discord bot that hosts chat games. The model covers three parts:

- **The session framework.** This covers:
  - the per-channel seat registry and the start flow of a game (`Game`);
  - the challenge handshake (`AcceptEmbed`) and the open multiplayer lobby (`MultiplayerEmbed`);
  - the page cursor of paginated embeds and the per-user command cooldowns;
  - the sub-command parser, command and alias lookup, group-command dispatch and the constructor defaults of `Command`;
  - the order in which `interactionCreate` gates a slash command.
- **The game engines.** Blackjack, hangman, mastermind, connect four, minesweeper, rock-paper-scissors-lizard-Spock, the duel player, scrabble, trivia and yahtzee.
- **Small helpers and tables.** Ordinal suffixes, code-block lists, integer choice lists, HTML unescaping and message interpolation, the help formatting, and the alphanumeric/emoji tables.

Every collector callback is modelled as one step of a pure state machine. The events a collector receives before it expires are a finite sequence, and expiry is the end of that sequence. Randomness is supplied as input:

- shuffles are given permutations or draws;
- dice are given rolls;
- sampled words are given words.

The current time is an integer number of milliseconds passed in by the caller. Word lists are abstract sets of strings. Messages are kept as their translation keys.

One module per source component, in one file each. Shared models of runtime behaviour are kept apart:

- `Wrappers`: `Option`, `||` on optional numbers, and promise settling;
- `Text`: decimal strings, `join`, `trim` over JavaScript's white space, `slice`, and lower-casing of the characters whose lower case is in `a-z`;
- `Collection`: discord.js `Collection` as an ordered key/value list;
- `Random`: Fisher-Yates shuffle and `sample` over given draws.

The source's quirks are modelled as written, each with a lemma that exhibits it:

- `maxPlayers` reads `(max ?? challenger) ? 2 : 4` (`GameSession.MaxPlayersIgnoresValue`).
- A declined challenge leaves the host seated (`GameSession.DeclineLeavesHostSeated`).
- Paginating an empty list goes to page 0 (`Paginator.EmptyListGoesToPageZero`).
- `enabled` is always true (`Command.EnabledOptionIgnored`).
- Ordinals read 11st, 12nd, 13rd (`Helpers.OrdinalExamples`).
- A natural blackjack against a three-card 21 is not paid (`Blackjack.BlackjackTieNotPaid`).
- A blackjack draw from an empty deck throws inside the button handler, so the collector runs on. A double-down keeps its doubled bet (`Blackjack.EmptyDeckDoubleDown`). With the player's hand broken, each stand against a dealer already at the stay value pays again (`Blackjack.BrokenStandPaysAgain`).
- A scrabble rack holds one tile fewer than `lettersPerRound`, so the 50-point bonus is unreachable (`ScrabbleLetters.NoBonus`).
- A wrong trivia answer is never cleared and can score in a later round (`Trivia.StaleAnswerScores`).
- `DuelPlayer.restart` sets spells to 3 and leaves mirrors alone (`Duel.RestartVersusNew`).
- A yahtzee category can be selected twice and is then counted twice (`YahtzeeSheet.SelectAgainOvercounts`).
- A single distinct yahtzee face is a straight of length 0 (`YahtzeeSheet.SingleFaceLengthZero`).

The reverse emoji table is modelled both ways. As written, its keys are the emoji's UTF-8 bytes read as Windows-1254 text (`EmojiTables.WrittenKeyIsMisreadEmoji`), so no reaction is found. Under that table, a connect-four game ends on its first turn (`Connect4.WrittenFirstTurnEnds`), and a yahtzee REROLL redraws every die (`Yahtzee.WrittenRerollRedrawsAll`). The games themselves use the intended table, as listed under "## Findings".

The scrabble pause between rounds is modelled both ways too. As written, `option ?? solo ? 1 s : 5 s` gives one second for any chosen pause (`Scrabble.IntermediateOptionIgnored`). The game uses the intended `Scrabble.IntendedIntermediateTime`.

## Model

| member | source | states |
|---|---|---|
| GameSession.Clear | src/structures/game/Game.ts:35-37 | afterwards no channel has a seat set |
| GameSession.SetChannel | src/structures/game/Game.ts:169-175 | the channel gets an empty seat set only when it has none; every existing set, including the channel's own, is kept as it was |
| GameSession.SetChannelIdempotent | src/structures/game/Game.ts:169-175 | calling `setChannel` twice is the same as calling it once |
| GameSession.AddPlayer | src/structures/game/Game.ts:177-182 | the user id joins the channel's seat set; every other channel is untouched |
| GameSession.AddPlayerIdempotent | src/structures/game/Game.ts:177-182 | adding a seat that is already held changes nothing (set semantics) |
| GameSession.RemoveAllPlayers | src/structures/game/Game.ts:142-152 | every id of the session loses its seat in the channel; any other id keeps exactly the seat it had; other channels are untouched |
| GameSession.MaxPlayers | src/structures/game/Game.ts:125-128 | the lobby maximum is always 2 or 4: it is 2 exactly when `pmax` is given and non-zero, or is absent while the command has a challenger option |
| GameSession.MaxPlayersIgnoresValue | src/structures/game/Game.ts:127 | a requested `pmax` of 10 yields a maximum of 2, and a `pmax` of 0 yields 4 |
| GameSession.CheckChallenger | src/structures/game/Game.ts:197-243 | a bot or the host is refused before any prompt; the challenge is accepted exactly when the handshake accepts; only then is the challenger seated as player 2 |
| GameSession.Numbered | src/structures/game/Game.ts:268-273 | the lobby's players are numbered 1..n in lobby order |
| GameSession.CheckMultiplayer | src/structures/game/Game.ts:245-276 | the result is the lobby's answer; a failed lobby changes nothing; a started lobby has between min and max players with the host first, and they become players 1..n, each seated in the channel |
| GameSession.AfterChallenge | src/structures/game/Game.ts:120-139 | after the challenge step, a game that was played leaves none of its players seated; a failed lobby keeps the session's players |
| GameSession.Start | src/structures/game/Game.ts:100-140 | the host cannot host exactly when already seated in the channel, and then nobody is seated; otherwise the host is player 1; a refused challenge releases the host's seat |
| GameSession.Seated | src/structures/game/Game.ts:109-140 | once the host is seated, the host stays player 1 whatever the challenge step decides, the session never reports that the host cannot host, and a refused challenge leaves the host unseated |
| GameSession.RunCommand | src/commands/multiplayer/trivia.ts:118-123 | the command's outcome and players are those of `start`; on a throw it releases the seats |
| GameSession.ReleasedOnEveryPath | src/commands/multiplayer/trivia.ts:118-123 | with the release on error, no session ends with one of its players still seated, whatever the inputs |
| GameSession.AfterChallengeReleases | src/structures/game/Game.ts:128-139 | unless `play` throws, every path after the challenge releases the session's seats |
| GameSession.DeclineLeavesHostSeated | src/structures/game/Game.ts:232-241 | a declined challenge throws, since it reads the nickname of the still empty seat 2; the host stays seated, so the next `start` in that channel is refused |
| GameSession.BotOrSelfRefused | src/structures/game/Game.ts:111-118 | a bot or self challenge is refused whatever the clicks |
| GameSession.AcceptedChallengerPlays | src/structures/game/Game.ts:241-242 | an accepted challenger without a lobby plays as player 2 beside the host as player 1 |
| Lobby.NewConfig | src/utils/MultiplayerEmbed.ts:63-78 | omitted options give bounds 2..4; the time limit is the given one unless it is missing or 0, in which case it is 120000 |
| Lobby.Init | src/utils/MultiplayerEmbed.ts:252-256 | the host is the only player before any input, nobody is kicked, nothing is settled |
| Lobby.Remove | src/utils/MultiplayerEmbed.ts:373 | every occurrence of the id is dropped, the order is kept, and the first element survives unless it is the id |
| Lobby.RemoveDistinct | src/utils/MultiplayerEmbed.ts:360 | removing a seated player from a list without repeats keeps it without repeats and shortens it by exactly one |
| Lobby.Kick | src/utils/MultiplayerEmbed.ts:358-368 | the result is true exactly when `kicked` is set and the id is a seated non-host; such a player is removed, and appended to the kicked list only when `kicked` is set; the host is never removed |
| Lobby.Invite | src/utils/MultiplayerEmbed.ts:350-356 | a bot gives `undefined` and changes nothing; anyone else ends up seated, and the result is true exactly when the count grew, which is when they were not seated before |
| Lobby.Unkick | src/utils/MultiplayerEmbed.ts:370-375 | a bot gives `undefined`; anyone else loses every occurrence in the kicked list, every other entry is kept, and the result says whether they were listed |
| Lobby.Execute | src/utils/MultiplayerEmbed.ts:157-225 | a host command never settles the lobby, and only `invite` grows it, never past the maximum |
| Lobby.OnMessage | src/utils/MultiplayerEmbed.ts:227-250 | a message without the prefix or without a command word changes nothing; no message settles the lobby or takes it past the maximum |
| Lobby.OnButton | src/utils/MultiplayerEmbed.ts:292-342 | JOIN seats an unseated user only when one more fits; LEAVE removes only a seated non-host and does not record a kick; START settles true only for the host while `canStart` holds; END settles false for the host; any other button settles false |
| Lobby.Step | src/utils/MultiplayerEmbed.ts:261-290 | once settled nothing changes; clicks from kicked users or bots, and messages from anyone but the host, are filtered out |
| Lobby.AwaitResponse | src/utils/MultiplayerEmbed.ts:252-348 | a lobby that started satisfied `canStart`; the host is always the first player and nobody is seated twice; the lobby never exceeds its maximum |
| Lobby.StepKeepsInvariant | src/utils/MultiplayerEmbed.ts:292-342 | every delivered event keeps the host seated first and nobody seated twice, and never takes the lobby past its maximum |
| Lobby.ButtonKeepsInvariant | src/utils/MultiplayerEmbed.ts:292-342 | every button click keeps that invariant and the maximum |
| Lobby.MessageKeepsInvariant | src/utils/MultiplayerEmbed.ts:227-250 | every host message keeps that invariant and the maximum |
| Lobby.RunKeepsInvariant | src/utils/MultiplayerEmbed.ts:267-347 | any sequence of events keeps that invariant and the maximum |
| Lobby.KickedJoinIgnored | src/utils/MultiplayerEmbed.ts:261-263 | a JOIN from a user on the kicked list changes nothing |
| Lobby.KickThenJoin | src/utils/MultiplayerEmbed.ts:358-363 | after the host kicks a seated player, that player's JOIN is ignored |
| Lobby.LeaveThenJoin | src/utils/MultiplayerEmbed.ts:309-318 | a player who left with LEAVE is not on the kicked list and can join again when there is room |
| AcceptEmbed.TimeLimit | src/utils/AcceptEmbed.ts:45 | the time limit is the given one unless it is missing or 0, in which case it is 30000 |
| AcceptEmbed.Step | src/utils/AcceptEmbed.ts:60-94 | a click from anyone but the challenged user, or after the first handled click, changes nothing; the first click from the challenged user settles the promise |
| AcceptEmbed.AwaitResponse | src/utils/AcceptEmbed.ts:48-100 | an acceptance needs an ACCEPT click by the challenged user |
| AcceptEmbed.RunFrozen | src/utils/AcceptEmbed.ts:72-79 | once one click has been handled nothing changes any more (`max: 1`) |
| AcceptEmbed.RunFrom | src/utils/AcceptEmbed.ts:66-98 | from the start, the run settles on the reference decision: the challenged user's first click decides, and only ACCEPT accepts |
| AcceptEmbed.AwaitResponseMatchesDecision | src/utils/AcceptEmbed.ts:81-98 | the handshake is accepted exactly when the challenged user's first click is ACCEPT; DECLINE and any other button decline |
| AcceptEmbed.OthersIgnored | src/utils/AcceptEmbed.ts:60 | clicks by anybody else are filtered out and change nothing |
| AcceptEmbed.LaterClicksIgnored | src/utils/AcceptEmbed.ts:66-79 | after the first qualifying click, later clicks do not change the answer, although `end` calls `resolve(false)` again |
| AcceptEmbed.TimeoutDeclines | src/utils/AcceptEmbed.ts:96-98 | expiry with no click from the challenged user declines |
| Paginator.PerPage | src/utils/PaginatedEmbed.ts:68 | the page size is the given one, or 10 when none is given (`??`, so an explicit 0 is kept) |
| Paginator.TotalPages | src/utils/PaginatedEmbed.ts:80-81 | `ceil(count / perPage)`: the pages hold every item, the last page is not empty, and there are no pages exactly when there are no items |
| Paginator.Create | src/utils/PaginatedEmbed.ts:37-81 | a new paginator starts on page 1, not stopped, with the total computed from the item count |
| Paginator.Update | src/utils/PaginatedEmbed.ts:111-121 | `update` replaces the items, recomputes the total and resets the page to 1 |
| Paginator.UpdatePage | src/utils/PaginatedEmbed.ts:133-153 | FIRST goes to 1, BACK to max(p-1, 1), NEXT to min(p+1, total), LAST to total; TRASH stops the collector without moving; any other id does nothing |
| Paginator.OnClick | src/utils/PaginatedEmbed.ts:92-102 | a stopped paginator ignores further clicks |
| Paginator.RunStaysInRange | src/utils/PaginatedEmbed.ts:133-153 | with at least one page, any sequence of clicks keeps 1 <= page <= total and never changes the total |
| Paginator.EmptyListGoesToPageZero | src/utils/PaginatedEmbed.ts:141-146 | with no items the total is 0, and NEXT or LAST set the page to 0 |
| Paginator.DisplayedTotal | src/utils/PaginatedEmbed.ts:161 | the displayed total is the real one, floored at 1 |
| Paginator.Window | src/utils/PaginatedEmbed.ts:155-157 | the visible items are `items[(p-1)*perPage, p*perPage)`, truncated at the end and never padded; page 0 shows nothing |
| Paginator.Fields | src/utils/PaginatedEmbed.ts:168 | the fields are the fixed embed fields followed by the window |
| Paginator.ItemOnItsPage | src/utils/PaginatedEmbed.ts:155-168 | item i appears at position `i % perPage` of page `i / perPage + 1`, which is in range |
| Paginator.DisabledButtonsWouldNotMove | src/utils/PaginatedEmbed.ts:173-176 | Back is disabled exactly when BACK would not move the page, and Next exactly when NEXT would not |
| Paginator.ThreePageExample | src/utils/PaginatedEmbed.ts:133-168 | 23 items at 10 a page make 3 pages; NEXT, NEXT, NEXT, BACK, LAST, FIRST visit pages 2, 3, 3, 2, 3, 1; page 3 shows the last 3 items |
| Cooldown.GetCooldownData | src/structures/handlers/CooldownHandler.ts:13-37 | a live cooldown returns the time left and keeps the stamp; otherwise the request is admitted and stamped with now; no other (command, user) pair is affected |
| Cooldown.FirstRequestAdmitted | src/structures/handlers/CooldownHandler.ts:15-36 | the first request for a (command, user) pair is admitted and records the current time |
| Cooldown.RepeatRefused | src/structures/handlers/CooldownHandler.ts:21-31 | an immediate repeat of an admitted request is refused with the whole cooldown left |
| Cooldown.ExpiredAdmitted | src/structures/handlers/CooldownHandler.ts:24-25 | a request at or after stamp + cooldown is admitted |
| Cooldown.ZeroStampIgnored | src/structures/handlers/CooldownHandler.ts:23 | a recorded stamp of 0 counts as no stamp |
| SubCommandHandler.Register | src/structures/handlers/SubCommandHandler.ts:37-39 | every configured sub-command is reachable under its name, no other name is registered, and keys stay unique |
| SubCommandHandler.RegisterStep | src/structures/handlers/SubCommandHandler.ts:37-39 | one more `set` keeps the registry keyed by exactly the names seen so far |
| SubCommandHandler.TimeLimit | src/structures/handlers/SubCommandHandler.ts:43 | a configured non-zero limit is used; a missing or zero limit falls back to ten minutes |
| SubCommandHandler.NewHandler | src/structures/handlers/SubCommandHandler.ts:36-44 | a new handler registers every sub-command, keeps the prefix, starts with no cooldowns and takes the defaulted time limit |
| SubCommandHandler.CommandName | src/structures/handlers/SubCommandHandler.ts:71-77 | a name is found only when the trimmed message starts with the prefix, and it is a non-empty word without spaces |
| SubCommandHandler.FindByAlias | src/structures/handlers/SubCommandHandler.ts:80 | the result is the command at some position that lists the alias, and no command before that position lists it; none exactly when no command lists it |
| SubCommandHandler.Lookup | src/structures/handlers/SubCommandHandler.ts:79-80 | the exact name wins; the alias search is tried only when no command has that name; nothing is found only when neither matches |
| SubCommandHandler.OnMessage | src/structures/handlers/SubCommandHandler.ts:70-87 | the cooldown callback fires exactly when the message names a registered command that the author used within its cooldown; messages without the prefix leave the handler unchanged |
| SubCommandHandler.ExactNameFirst | src/structures/handlers/SubCommandHandler.ts:79-80 | a registered name always resolves to the command registered under that name, even when another command lists it as an alias |
| CommandHandler.AddExistingAliases | src/structures/handlers/CommandHandler.ts:69-74 | no error exactly when all aliases are new and pairwise distinct, and then all are recorded; on error, the index of the first clash is reported and only the aliases before it are recorded |
| CommandHandler.FindByAlias | src/structures/handlers/CommandHandler.ts:77 | the result is the command at some position that lists the name as an alias, and no command before that position lists it; none exactly when no command lists it |
| CommandHandler.GetCommand | src/structures/handlers/CommandHandler.ts:76-78 | lookup by exact name first and by alias second; undefined exactly when neither matches |
| CommandHandler.RegisterTwice | src/structures/handlers/CommandHandler.ts:69-74 | registering a second command succeeds exactly when its aliases avoid all earlier ones and each other |
| CommandHandler.RepeatedAliasThrows | src/structures/handlers/CommandHandler.ts:71 | a command listing the same alias twice throws at the second copy |
| GroupCommand.SubCommandOption | src/structures/handlers/GroupCommand.ts:22-29 | the pushed option is a `SUB_COMMAND` with the sub-command's name, description and options |
| GroupCommand.SetCommand | src/structures/handlers/GroupCommand.ts:20-30 | the sub-command is stored under its name, every other name is untouched, and one option is appended |
| GroupCommand.RunInteraction | src/structures/handlers/GroupCommand.ts:15-18 | the interaction is dispatched to the sub-command registered under the chosen name, and there is none when the name is unknown |
| GroupCommand.SetThenRun | src/structures/handlers/GroupCommand.ts:15-30 | after `setCommand`, choosing that name dispatches to that command |
| GroupCommand.SameNameTwice | src/structures/handlers/GroupCommand.ts:20-30 | setting two commands with one name keeps only the second in the collection but pushes two options with that name |
| Command.New | src/structures/Command.ts:57-73 | each field takes the option when it is given and truthy, and the documented default otherwise; `enabled` is always true |
| Command.EnabledOptionIgnored | src/structures/Command.ts:62 | `enabled: false` builds the same command as leaving the option out |
| Command.ZeroCooldownDefaults | src/structures/Command.ts:69 | a cooldown of 0 is replaced by the 3000 ms default |
| InteractionGate.Missing | src/events/interactionCreate.ts:39-46 | a required permission is reported exactly when the holder lacks it, or when there is no holder at all |
| InteractionGate.Gate | src/events/interactionCreate.ts:16-90 | bots and non-commands are ignored; the checks run in order owner-only, guild-only, member permissions, bot permissions (text channels only), cooldown (owners exempt); the command runs exactly when all pass, and only a run by a non-owner records a cooldown stamp |
| InteractionGate.OwnerBypassesCooldown | src/events/interactionCreate.ts:70-81 | an owner is never refused for a cooldown and never stamped |
| InteractionGate.PermissionsOnlyInTextChannels | src/events/interactionCreate.ts:35-68 | outside a text channel no permission is checked: the outcome does not depend on any permission set |
| InteractionGate.OwnerCheckFirst | src/events/interactionCreate.ts:23-28 | an owner-only command used by a non-owner is refused as such, whatever the guild, channel or permissions |
| InteractionGate.RepeatWithinCooldownRefused | src/events/interactionCreate.ts:70-81 | a non-owner who just ran a command is refused if they repeat it before its cooldown has elapsed |
| Helpers.Ordinal | src/helpers/ordinal.ts:1-14 | the number's decimal text followed by a suffix chosen by its last digit alone: `st`, `nd`, `rd` for 1, 2, 3 and `th` otherwise |
| Helpers.OrdinalExamples | src/helpers/ordinal.ts:4-13 | 1st, 2nd, 3rd, 4th and 20th as expected, and the teens come out as 11st, 12nd, 13rd because only the last digit is looked at |
| Helpers.BackQuote | src/helpers/codeBlockList.ts:2 | each item is wrapped in single back-quotes, in order |
| Helpers.CodeBlockList | src/helpers/codeBlockList.ts:1-3 | an empty list gives the empty string; otherwise the first quoted item leads and the length is the quoted items plus one separator between each pair |
| Helpers.QuotedLength | src/helpers/codeBlockList.ts:2 | quoting adds exactly two characters per item |
| Helpers.CodeBlockListSnoc | src/helpers/codeBlockList.ts:1-3 | appending an item appends the separator and that quoted item to the joined text |
| Helpers.DefaultMap | src/helpers/generateIntegerChoices.ts:7-13 | choice `i` has value `i + 1` and a name that is that value's decimal text |
| Helpers.GenerateIntegerChoices | src/helpers/generateIntegerChoices.ts:15-19 | exactly `n` choices, the `i`-th made by the map function from `i` |
| Helpers.DefaultChoices | src/helpers/generateIntegerChoices.ts:15-19 | with the default map the choices are 1..n in increasing order and each name parses back to its value |
| Internalization.ReplaceAll | src/structures/handlers/InternalizationHandler.ts:9 | a global replace: text without the pattern's first character is unchanged, and a replacement no longer than the pattern never lengthens the text |
| Internalization.NoMatchUnchanged | src/structures/handlers/InternalizationHandler.ts:9 | a text in which the pattern occurs nowhere is returned unchanged |
| Internalization.UnescapeHTML | src/structures/handlers/InternalizationHandler.ts:8-10 | decoding never lengthens the text and leaves text without `&` unchanged |
| Internalization.NoEntityUnchanged | src/structures/handlers/InternalizationHandler.ts:8-10 | a text holding none of the three entities is returned unchanged |
| Internalization.AmpIsDecodedLast | src/structures/handlers/InternalizationHandler.ts:9 | `&amp;lt;` decodes to `&lt;` and not to `<`, because `&amp;` is replaced after the other two |
| Internalization.UnescapeCons | src/structures/handlers/InternalizationHandler.ts:8-10 | decoding the escape of one character followed by any text gives that character followed by the decoded text |
| Internalization.UnescapeEscape | src/structures/handlers/InternalizationHandler.ts:8-10 | decoding undoes HTML escaping of `<`, `>` and `&` for every text |
| Internalization.Format | src/structures/handlers/InternalizationHandler.ts:18-23 | the decoded value wrapped in double back-quotes for `codeBlock`, in `**` for `bold`, and bare for any other format |
| Internalization.FormatShowsOriginal | src/structures/handlers/InternalizationHandler.ts:18-23 | formatting an escaped value shows the original value in every format |
| Help.FormatOption | src/commands/util/help.ts:194-201 | an option is shown in back-quotes, inside `<>` when required and `[]` when optional, with its name in the middle |
| Help.FormatOptions | src/commands/util/help.ts:192-204 | one formatted entry per option, in order |
| Help.FormatOptionInjective | src/commands/util/help.ts:196-200 | the formatted text determines the option's name and whether it is required |
| Help.Values | src/commands/util/help.ts:102 | the registered commands in insertion order |
| Help.InGroup | src/commands/util/help.ts:116-118 | exactly the registered commands of the chosen group |
| Help.InGroupAppend | src/commands/util/help.ts:116-118 | the filter keeps registration order: filtering two lists joined is the two filtered lists joined |
| Help.SelectCategory | src/commands/util/help.ts:115-121 | `all` selects every command; any other value selects exactly the commands of that group |
| Help.SelectCategoryAppend | src/commands/util/help.ts:115-121 | the selection keeps registration order: selecting from two lists joined is the two selections joined |
| Help.FirstIndex | src/commands/util/help.ts:48-50 | the position of the first occurrence of a value in a list |
| Help.Uniq | src/commands/util/help.ts:48-50 | duplicates removed, same elements, each value once, in the order of their first occurrences, first element kept first |
| Help.Groups | src/commands/util/help.ts:49 | the group of each command, in order |
| Help.CategoryValues | src/commands/util/help.ts:48-65 | the menu starts with `all`, followed by each group that some command has, each once, in the order in which the groups first appear among the commands |
| Help.CategoriesAreInhabited | src/commands/util/help.ts:57-65 | every group offered in the menu selects at least one command |
| Help.AliasesField | src/commands/util/help.ts:140-145 | `NA` exactly when the command has no aliases; otherwise the first alias leads in double back-quotes, and a single alias is the whole field |
| Help.AliasesFieldSnoc | src/commands/util/help.ts:140-145 | one more alias adds a space and that alias in double back-quotes at the end: the field lists every alias, in order, separated by single spaces |
| Help.Quote | src/commands/util/help.ts:142 | each alias wrapped in double back-quotes, in order |
| Help.RunInteraction | src/commands/util/help.ts:37-45 | without an argument the listing of all commands and the category menu; with one, "not found" exactly when the lookup by name or alias fails, and otherwise that command's details |
| ExtendedUser.New | src/structures/game/ExtendedUser.ts:17-20 | the nickname is the given one, or the username when none is given |
| ExtendedUser.FromMember | src/structures/game/ExtendedUser.ts:8-20 | the user is kept; the nickname is the member's server nickname when there is one, and the username otherwise |
| ExtendedUser.FromMemberFormat | src/structures/game/ExtendedUser.ts:8-24 | a member without a server nickname is formatted like the plain user, and one with a nickname is shown under that nickname |
| ExtendedUser.FormatUserStatic | src/structures/game/ExtendedUser.ts:13-15 | username, `#`, discriminator |
| ExtendedUser.FormatUser | src/structures/game/ExtendedUser.ts:22-24 | nickname, `#`, discriminator |
| ExtendedUser.FormatWithoutNickname | src/structures/game/ExtendedUser.ts:13-24 | without a nickname the instance format equals the static format |
| ExtendedUser.FormatShowsNickname | src/structures/game/ExtendedUser.ts:19-24 | a given nickname is what the instance format starts with |
| ExtendedUser.NewPlayer | src/structures/Player.ts:15-18 | the player id is kept only when it is given and non-zero; the nickname field is never set |
| ExtendedUser.PlayerIgnoresNickname | src/structures/Player.ts:13-18 | a nickname in the config has no effect on the player |
| Point.New | src/structures/game/Point.ts:16-20 | the point has the given row, column and value |
| Point.IsEqualEquivalence | src/structures/game/Point.ts:22-24 | `isEqual` is an equivalence that ignores the value: points are equal exactly when they differ at most in value |
| Point.NewExplorePoint | src/structures/game/ExplorePoint.ts:4-12 | a new explore point is unexplored |
| Point.SetExplored | src/structures/game/ExplorePoint.ts:14-16 | afterwards the point is explored and its position and value are unchanged |
| Point.SetExploredIdempotent | src/structures/game/ExplorePoint.ts:14-16 | marking twice is the same as marking once |
| EmojiTables.AlphanumericToEmoji | src/constants/alphanumericToEmoji.ts:5-45 | defined exactly on the 39 keys; a letter maps to its regional indicator and a digit to the digit followed by the keycap |
| EmojiTables.IntendedEmojiToAlphanumeric | src/constants/emojiToAlphanumeric.ts:5-45 | the reverse table as intended, keyed by the real emoji: a digit emoji gives the number 0..9 (a number, not a string), a regional indicator gives its lower-case letter |
| EmojiTables.EmojiToAlphanumeric | src/constants/emojiToAlphanumeric.ts:5-45 | the reverse table as written: a digit entry is the digit followed by the three characters `âƒ£`, and gives the number 0..9; a letter entry gives one lower-case letter |
| EmojiTables.WrittenTable | src/constants/emojiToAlphanumeric.ts:5-45 | the table as written is defined exactly on the 39 written keys, and each maps back to the entry whose written key it is |
| EmojiTables.EmojiNotWrittenKey | src/constants/emojiToAlphanumeric.ts:5-45 | no emoji of the forward table is a key of the table as written, so looking it up gives `undefined` |
| EmojiTables.WrittenKeyIsMisreadEmoji | src/constants/emojiToAlphanumeric.ts:5-45 | each written key is the forward table's emoji for that entry, encoded as UTF-8 and read back as Windows-1254 |
| EmojiTables.DecodeEncode | src/constants/alphanumericToEmoji.ts:5-45 | looking a key's emoji up in the intended reverse table gives the key back, as a number for digits |
| EmojiTables.EncodeDecode | src/constants/emojiToAlphanumeric.ts:5-45 | every emoji the intended reverse table knows is the emoji of the key it maps to |
| EmojiTables.AlphanumericToEmojiInjective | src/constants/alphanumericToEmoji.ts:5-45 | no two keys share an emoji |
| EmojiTables.ReverseDomain | src/constants/emojiToAlphanumeric.ts:5-45 | the intended reverse table is defined exactly on the emoji of the forward table |
| Card.New | src/structures/game/Card.ts:57-62 | the card keeps value, suit and display, and is black exactly for spades and clubs |
| Card.Make | src/structures/game/Card.ts:22-26 | the deck's card for a value and suit is displayed as the bold suit emoji followed by the value |
| Card.OrderedDeck | src/structures/game/Card.ts:17-29 | 52 cards, values in the listed order, each value in the four suits in order |
| Card.OrderedDeckComplete | src/structures/game/Card.ts:20-29 | each value-suit pair sits at exactly one position of the unshuffled deck |
| Card.OrderedDeckDistinct | src/structures/game/Card.ts:20-29 | no card repeats in the unshuffled deck |
| Card.GenerateDeck | src/structures/game/Card.ts:16-31 | the shuffled deck is a permutation of the 52 ordered cards |
| Card.GeneratedDeckHasEveryCardOnce | src/structures/game/Card.ts:16-31 | every value-suit pair occurs exactly once in a generated deck, whatever the shuffle |
| Board.Generate | src/structures/game/Game.ts:88-94 | `height` rows of `width` cells, every cell holding the mapped value |
| Board.Set | src/structures/game/Game.ts:88-94 | writing a cell changes that cell only and keeps the board's shape |
| BlackjackHand.GameValue | src/games/Blackjack/BlackjackCard.ts:15-21 | face cards count 10, an ace 11, any other card its number, which lies in 2..10 |
| BlackjackHand.OrderedDeck | src/games/Blackjack/BlackjackCard.ts:8-31 | the plain ordered deck with each card's game value attached |
| BlackjackHand.GenerateDeck | src/games/Blackjack/BlackjackCard.ts:7-33 | the shuffled deck is a permutation of the ordered 52 cards; with the same draws its cards are, position by position, those of the plain shuffled deck, and each carries its game value |
| BlackjackHand.ShuffledCards | src/games/Blackjack/BlackjackCard.ts:7-33 | with the same draws, the blackjack deck and the plain deck are shuffled alike, card for card |
| BlackjackHand.DeckCardsValued | src/games/Blackjack/BlackjackCard.ts:11-29 | any arrangement of the ordered deck gives each card the game value of its face |
| Random.ShuffleProjects | src/games/Blackjack/BlackjackCard.ts:32 | the shuffle moves positions, not values: two lists that correspond position by position still do after the same shuffle |
| BlackjackHand.CountRange | src/games/Blackjack/BlackjackCard.ts:11-31 | counting a property that holds exactly on one index range gives the range's length |
| BlackjackHand.DeckComposition | src/games/Blackjack/BlackjackCard.ts:11-31 | the deck holds 4 aces and 16 cards worth ten |
| BlackjackHand.Reduce | src/games/Blackjack/BlackjackPlayerBase.ts:10-13 | the loop lowers the sum by ten per ace used, stops at 21 or below unless aces run out, and never lowers a sum to 11 or less |
| BlackjackHand.CalculateHand | src/games/Blackjack/BlackjackPlayerBase.ts:3-16 | the value lies between the sum with every ace as 1 and the sum with every ace as 11, differs from that sum by a multiple of 10, is over 21 only when every ace already counts 1, and drops below the raw sum only while staying above 11 |
| BlackjackHand.HandValueDetermined | src/games/Blackjack/BlackjackPlayerBase.ts:3-16 | those four properties determine the value: any number that has them all is the hand's value |
| BlackjackHand.AddCard | src/games/Blackjack/BlackjackPlayerBase.ts:35-38 | the card is appended and the hand value is recomputed from the whole hand |
| BlackjackHand.Restart | src/games/Blackjack/BlackjackPlayerBase.ts:50-53 | the hand is emptied and its value is 0 |
| BlackjackHand.BlackjackIsAceAndTen | src/games/Blackjack/BlackjackPlayerBase.ts:29-31 | a two-card 21 is exactly an ace and a ten-valued card |
| BlackjackHand.Shown | src/games/Blackjack/BlackjackPlayerBase.ts:42-47 | each card's display, except that the last one is hidden when asked |
| BlackjackHand.GetDisplay | src/games/Blackjack/BlackjackPlayerBase.ts:40-48 | the shown cards joined by commas: empty for an empty hand, the single card alone for one card |
| BlackjackHand.DisplaySnoc | src/games/Blackjack/BlackjackPlayerBase.ts:35-48 | with nothing hidden, drawing a card appends `, ` and its display to the text |
| BlackjackPlayer.New | src/games/Blackjack/BlackjackPlayer.ts:31-35 | starting money and minimum bet as given, with an empty hand |
| BlackjackPlayer.Win | src/games/Blackjack/BlackjackPlayer.ts:37-39 | the bet is added to the money and nothing else changes |
| BlackjackPlayer.Lose | src/games/Blackjack/BlackjackPlayer.ts:41-43 | the bet is taken from the money, nothing else changes, and money stays non-negative when the bet was affordable |
| BlackjackPlayer.SetBet | src/games/Blackjack/BlackjackPlayer.ts:49-51 | the bet becomes the given amount; money, minimum bet and hand are kept |
| BlackjackPlayer.DoubleDown | src/games/Blackjack/BlackjackPlayer.ts:58-60 | the bet doubles and nothing else changes; when doubling was allowed the new bet is affordable |
| BlackjackPlayer.Restart | src/games/Blackjack/BlackjackPlayer.ts:53-56 | hand and bet are cleared; money and minimum bet are kept |
| BlackjackPlayer.WinLoseInverse | src/games/Blackjack/BlackjackPlayer.ts:37-43 | winning and losing the same bet cancel out |
| BlackjackPlayer.LosingValidBetKeepsMoney | src/games/Blackjack/BlackjackPlayer.ts:27-29 | losing a valid bet, or a valid bet doubled when doubling is allowed, never leaves negative money |
| Blackjack.Initialize | src/games/Blackjack/Blackjack.ts:109-117 | each option replaces its default (stay 16, rounds 5, reshuffle 3, bet 5, money 100) only when given and non-zero, so no setting is ever 0 |
| Blackjack.NewGame | src/games/Blackjack/Blackjack.ts:109-118 | round 0, a full shuffled deck, the player with the configured money and minimum bet, an empty dealer hand |
| Blackjack.NewGameNotTerminal | src/games/Blackjack/Blackjack.ts:105-107 | a new game is never already over, since the round count is at least 1 |
| Blackjack.Hit | src/games/Blackjack/Blackjack.ts:285-288 | the top (last) card moves from the deck to the hand; with an empty deck there is no card to add; no card is lost or created |
| Blackjack.Deal | src/games/Blackjack/Blackjack.ts:120-129 | four pops alternate player, dealer, player, dealer, so the player gets the 1st and 3rd card from the top and the dealer the 2nd and 4th; nothing else changes and no card is lost |
| Blackjack.DealerDraw | src/games/Blackjack/Blackjack.ts:305-307 | the dealer draws from the top until reaching the stay value; a dealer already there, or an empty deck, draws nothing; stopping short of the stay value happens only with the deck used up; no card is lost |
| Blackjack.Compare | src/games/Blackjack/Blackjack.ts:309-326 | a dealer bust is a player win; otherwise the higher hand wins and equal hands are a push, whatever the blackjack messages say |
| Blackjack.Pay | src/games/Blackjack/Blackjack.ts:309-326 | a win adds the bet, a loss takes it, a push leaves the money alone, and nothing else changes |
| Blackjack.BlackjackTieNotPaid | src/games/Blackjack/Blackjack.ts:318-321 | a natural blackjack against a dealer's three-card 21 is announced as a player blackjack win but pays nothing |
| Blackjack.Stand | src/games/Blackjack/Blackjack.ts:304-328 | a dealer who reaches the stay value pays the player by comparing the final hands; a dealer left below it has used up the deck and nobody is paid; only deck, dealer and money change, and the set of cards is kept |
| Blackjack.OnLose | src/games/Blackjack/Blackjack.ts:330-334 | the bet is lost and nothing else changes |
| Blackjack.PlayerHit | src/games/Blackjack/Blackjack.ts:348 | the player gets the top card and nothing else changes; with an empty deck there is none |
| Blackjack.DisabledButtons | src/games/Blackjack/Blackjack.ts:384-420 | every button is disabled while betting; while playing only double-down can be disabled, exactly when twice the bet exceeds the money |
| Blackjack.Notice | src/games/Blackjack/Blackjack.ts:264-272 | an invalid bet is "too low" exactly when below the minimum, and "too high" only when above the money |
| Blackjack.AwaitBet | src/games/Blackjack/Blackjack.ts:237-283 | the first message from the host, all digits when trimmed, whose bet is valid is taken; earlier ones are refused; with none the game ends |
| Blackjack.Collect | src/games/Blackjack/Blackjack.ts:343-380 | a hit or double-down on the empty deck breaks the player's hand and keeps the collector running, and nothing else breaks it; double-down always doubles the bet, and when it does not settle some hand broke; each click moves money by the bet it leaves or not at all; money moves without settling only on a stand with the player's hand broken; only an intact round settles or is ended by the player; a covered, affordable bet stays non-negative while the player's hand is intact; no card is lost and the round invariant is kept |
| Blackjack.HitStep | src/games/Blackjack/Blackjack.ts:347-355 | an empty deck breaks the player's hand and changes nothing else; otherwise the round settles only on a bust, which loses the bet |
| Blackjack.StandStep | src/games/Blackjack/Blackjack.ts:304-328 | the dealer's hand breaks exactly when it stays below the stay value; otherwise the player is paid the bet either way or nothing, and the round settles exactly when the player's hand is intact |
| Blackjack.DoubleStep | src/games/Blackjack/Blackjack.ts:362-371 | the bet is doubled in every case, also when the draw on an empty deck throws; a covered, affordable bet stays non-negative; a double-down that does not settle has broken a hand and moved no money |
| Blackjack.EmptyDeckDoubleDown | src/games/Blackjack/Blackjack.ts:362-365 | on an empty deck double-down keeps the doubled bet, breaks the player's hand and leaves the collector running |
| Blackjack.BrokenStandPaysAgain | src/games/Blackjack/Blackjack.ts:304-328 | with the player's hand broken and a winning dealer already at the stay value, a stand takes the bet without ending the round, and a second stand takes it again |
| Blackjack.DoubleDownDrawsOne | src/games/Blackjack/Blackjack.ts:362-371 | double-down draws exactly one card and doubles the bet; a bust on it loses twice the bet; otherwise the round settles unless the dealer runs out of cards |
| Blackjack.HitBustLoses | src/games/Blackjack/Blackjack.ts:347-351 | a hit that goes over 21 settles the round and loses the bet |
| Blackjack.Round | src/games/Blackjack/Blackjack.ts:290-382 | a round times out, unchanged, exactly when nothing was collected; broken hands stay broken and the round invariant is kept; no card is lost |
| Blackjack.RoundSettled | src/games/Blackjack/Blackjack.ts:304-380 | only an intact round settles or is ended by the player, a settled round moves the bet or twice it, and once the dealer's hand is broken the round cannot settle |
| Blackjack.RoundMoney | src/games/Blackjack/Blackjack.ts:304-380 | while the player's hand stays intact, money moves only when the round settles, and a covered bet, with double-down shown only when affordable, leaves it non-negative |
| Blackjack.BeginRound | src/games/Blackjack/Blackjack.ts:58-63 | the round number goes up by one and the deck is replaced by a fresh shuffled one exactly on reshuffle rounds |
| Blackjack.EndRound | src/games/Blackjack/Blackjack.ts:79-101 | after a settled or idle round the game goes on exactly when rounds remain and the player can still bet, and then hands and bet are cleared |
| Blackjack.DealAndPlay | src/games/Blackjack/Blackjack.ts:73-101 | after the deal and the buttons, the game stops with "rounds done" only at the last round and with "cannot bet" only when the money is below the minimum; the player ends the game only from an intact round; money stays non-negative unless the round broke the player's hand |
| Blackjack.PlayRound | src/games/Blackjack/Blackjack.ts:58-102 | one pass of the loop body: the round number goes up by one, the stop reasons are justified, and non-negative money stays non-negative unless the round broke the player's hand |
| Blackjack.Play | src/games/Blackjack/Blackjack.ts:56-103 | the game stops with a justified reason, money never goes negative unless some round broke the player's hand, and the round count never passes the configured number of rounds |
| Hangman.WithinBounds | src/games/Hangman.ts:69 | exactly the listed words whose length lies between the bounds |
| Hangman.Initialize | src/games/Hangman.ts:55-93 | the bounds warning appears exactly when both bounds are non-zero and the minimum exceeds the maximum; a word taken from a list respects the bounds; lives default to 8 only when missing (0 is kept); an unknown difficulty throws |
| Hangman.FoundCountFull | src/games/Hangman.ts:243-250 | the count of found letters reaches the word length exactly when every letter is guessed or a symbol |
| Hangman.GuessedIffAllFound | src/games/Hangman.ts:243-250 | the word counts as guessed exactly when every character of it is a guessed letter or a symbol |
| Hangman.Guess | src/games/Hangman.ts:189-214 | a letter already guessed is refused; a new letter is recorded and costs a life exactly when it is not in the word |
| Hangman.GuessKeepsInvariant | src/games/Hangman.ts:192-196 | guessed letters stay distinct, and lives plus the number of missed letters stay constant |
| Hangman.AwaitLetter | src/games/Hangman.ts:170-233 | the first message from the host that is a single letter not yet guessed is taken; messages before it are refused; without one the game ends |
| Hangman.TakenMessageIsLetter | src/games/Hangman.ts:171-178 | a message the filter lets through is one ASCII letter, and the guess recorded is its lower-case form |
| Hangman.Play | src/games/Hangman.ts:41-53 | the game finishes exactly in a terminal state; the word never changes; guesses only grow, one per turn at most; lives never rise nor go below zero from a non-negative start; lives plus misses stay constant |
| Hangman.Display | src/games/Hangman.ts:151-168 | one symbol per character of the word: a dash for a space, a hidden marker exactly for an unguessed letter, and the letter's emoji only for a guessed one |
| Hangman.GuessedIffNothingHidden | src/games/Hangman.ts:151-168 | the word is guessed exactly when the display hides nothing |
| Mastermind.CalculateMaxTurns | src/games/Mastermind.ts:25-36 | 8, 11 and 15 turns for words of 3, 4 and 5 letters, 20 for longer words, and an error below 3 |
| Mastermind.RemoveFirst | src/games/Mastermind.ts:244 | `replace` with a string pattern removes one occurrence of the letter when there is one, and changes nothing otherwise |
| Mastermind.CountBulls | src/games/Mastermind.ts:242-249 | the first loop counts the positions where guess and secret agree, collects the secret's other letters, and leaves the guess's letters minus the matched ones |
| Mastermind.CountCows | src/games/Mastermind.ts:251-256 | the second loop counts the common letters of the two leftovers, with multiplicity |
| Mastermind.CalculateBullsAndCows | src/games/Mastermind.ts:237-259 | bulls are the matching positions; cows are the size of the multiset intersection of the unmatched secret letters with the guess's letters left after removing the matched ones |
| Mastermind.BullsAndCowsBounded | src/games/Mastermind.ts:237-259 | bulls plus cows never exceed the secret's length |
| Mastermind.AllBullsIffSecret | src/games/Mastermind.ts:237-249 | for a guess of the secret's length, every position is a bull exactly when the guess is the secret |
| Mastermind.GetWarning | src/games/Mastermind.ts:261-280 | no warning exactly when the word has the secret's length and is in the dictionary; otherwise too short, too long or unknown, checked in that order |
| Mastermind.OfLength | src/games/Mastermind.ts:38-40 | exactly the listed words of the requested length |
| Mastermind.Initialize | src/games/Mastermind.ts:79-97 | length defaults to 5 and turns to the computed maximum only when missing; the computation fails, only without a turns option, below 3 letters; otherwise a difficulty other than COMMON, WORDNIK and ALL is an error exactly when given; the secret has the chosen length and comes from the list of the chosen difficulty (COMMON when none is given); there is no secret exactly when that list has no word of the length |
| Mastermind.Record | src/games/Mastermind.ts:196-221 | guessing the secret wins at once without recording; any other word is recorded with its bulls and cows and ends the game exactly at the last turn |
| Mastermind.AwaitWord | src/games/Mastermind.ts:144-235 | at most one guess is recorded per turn, and it is a dictionary word of the right length that is not the secret; a win leaves the state as it was |
| Mastermind.Play | src/games/Mastermind.ts:59-77 | the secret and the turn limit never change, the turn never passes the limit, at most one guess is recorded per turn, recorded guesses are never the secret, and "out of turns" happens only at the limit |
| Connect4.ReactionOf | src/games/Connect4/Connect4.ts:24-34 | the reaction for column `c` is the keycap digit that the intended reverse table reads as `c + 1`, and that the table as written does not know |
| Connect4.ColumnOf | src/games/Connect4/Connect4.ts:242 | with the intended reverse table, a column reaction is read back as the column whose reaction it is |
| Connect4.Reactions | src/games/Connect4/Connect4.ts:120 | the first `width` column reactions, in order |
| Connect4.Initialize | src/games/Connect4/Connect4.ts:97-122 | a board of the given or default (7 by 6) size, every cell empty, turn 1, and every column offered |
| Connect4.LowestEmpty | src/games/Connect4/Connect4.ts:291-296 | the scan from the bottom row up finds the lowest empty cell of the column, and finds none only when the column is full |
| Connect4.DropTile | src/games/Connect4/Connect4.ts:289-297 | the tile lands in the lowest empty cell of the column and no other cell changes; a full column is left alone |
| Connect4.DropOnStacked | src/games/Connect4/Connect4.ts:289-327 | on a board where tiles rest on one another, a drop is a no-op exactly when the top cell is taken, and otherwise the new tile becomes the column's top |
| Connect4.TrailingRun | src/games/Connect4/Connect4.ts:130-139 | the loop's counter is the length of the run of the value ending at the current position |
| Connect4.Streak | src/games/Connect4/Connect4.ts:130-140 | the loop's maximum reaches the target exactly when the sequence holds that many equal values in a row |
| Connect4.IsWinningStreak | src/games/Connect4/Connect4.ts:125-141 | true exactly when four equal values lie next to each other |
| Connect4.Window | src/games/Connect4/Connect4.ts:151-164 | seven cells along one direction centred on the top tile of the column, with cells off the board read as empty |
| Connect4.CheckWin | src/games/Connect4/Connect4.ts:124-167 | true exactly when one of the four directions gives a winning window |
| Connect4.EmptyColumnNoWin | src/games/Connect4/Connect4.ts:144-154 | a column with no tile never wins, since every window is then read as empty |
| Connect4.WinIffLineOfFour | src/games/Connect4/Connect4.ts:124-167 | a win is exactly four of the player's tiles in a line, vertical, horizontal or diagonal, through the top tile of the column just played |
| Connect4.Seat | src/games/Connect4/Connect4.ts:169-173 | the player of a turn is seat 1 or 2 |
| Connect4.SeatIsParity | src/games/Connect4/Connect4.ts:169-173 | the seat of turn `t` is `(t mod 2) + 1`, the number `player` computes |
| Connect4.SeatsAlternate | src/games/Connect4/Connect4.ts:169-173 | consecutive turns belong to different seats, and every second turn to the same one |
| Connect4.IndexOf | src/games/Connect4/Connect4.ts:246 | the first position of the reaction, or -1 when absent |
| Connect4.Splice | src/games/Connect4/Connect4.ts:247 | `splice(i, 1)` removes position `i`; with -1 it removes the last element |
| Connect4.SpliceRemoves | src/games/Connect4/Connect4.ts:245-248 | removing a present reaction from a list without repeats leaves exactly the others, still without repeats |
| Connect4.NextDrop | src/games/Connect4/Connect4.ts:222-237 | the first reaction, added or removed, by the player to move on an offered column; earlier events are ignored; none means a timeout |
| Connect4.Drop | src/games/Connect4/Connect4.ts:240-248 | an offered column always takes the tile; its reaction stays offered exactly while the column is not full, and the board invariant is kept |
| Connect4.DropKeepsInv | src/games/Connect4/Connect4.ts:240-248 | dropping and removing the reaction of a newly full column keeps the offered reactions equal to the open columns |
| Connect4.Turn | src/games/Connect4/Connect4.ts:79-287 | the turn advances by one; the mover is the seat of the new turn and plays an existing column; the turn wins exactly when `checkWin` holds for that drop; a timeout exactly when no drop arrives |
| Connect4.Loop | src/games/Connect4/Connect4.ts:79-87 | the loop stops on a win, a timeout or at turn 1023; the turn never passes 1023; one move per completed turn; a win is justified by `checkWin` on the last move; the moves alternate seats, starting with the seat of the first turn played |
| Connect4.Resume | src/games/Connect4/Connect4.ts:79-87 | once a turn has ended, a timeout or a win stops the loop and any other drop leads into the next turn, with the same promises as the whole loop |
| Connect4.EndsAfter | src/games/Connect4/Connect4.ts:79-83 | a drop by the seat of the next turn, put before the moves of the rest of the loop, still gives alternating moves, one per turn, with a win's drop last |
| Connect4.PrependAlternates | src/games/Connect4/Connect4.ts:79-173 | a move by the seat of turn `t` before moves alternating from turn `t + 1` alternates from turn `t` |
| Connect4.AlternatesAt | src/games/Connect4/Connect4.ts:79-173 | in moves alternating from turn `t`, the `i`-th is made by the seat of turn `t + i` |
| Connect4.Play | src/games/Connect4/Connect4.ts:59-95 | a bot or self challenge is refused without a board, a declined challenge ends the game, and otherwise moves alternate starting with the host, wins are justified, and fewer than 1023 moves are made |
| Connect4.HostDropsFirst | src/games/Connect4/Connect4.ts:72-173 | the host (seat 1) makes the first, third, ... drop and the challenger (seat 2) the second, fourth, ... |
| Connect4.WrittenColumn | src/games/Connect4/Connect4.ts:242 | as written, every column reaction gives no column (`undefined - 1` is NaN) |
| Connect4.DropHidden | src/games/Connect4/Connect4.ts:289-297 | `dropTile(val, NaN)` keeps the number of rows and never touches the "NaN" property of a row below the scan's start |
| Connect4.TopHidden | src/games/Connect4/Connect4.ts:143-150 | the row `checkWin` finds with column NaN: the first row from the top whose "NaN" property is set, none when no row has it |
| Connect4.WrittenTurn | src/games/Connect4/Connect4.ts:79-287 | a turn as written times out exactly when the repaired turn would: no accepted reaction arrives |
| Connect4.WrittenLandingWins | src/games/Connect4/Connect4.ts:240-297 | as written, a drop that lands always wins: the top set "NaN" property is the mover's and the horizontal window holds it seven times |
| Connect4.LandingRow | src/games/Connect4/Connect4.ts:289-297 | the scan of `dropTile` writes the lowest unset row, and every row above it is unset |
| Connect4.StackedDown | src/games/Connect4/Connect4.ts:289-297 | in a column filled from the bottom, every row below a set row is set |
| Connect4.TopHiddenAt | src/games/Connect4/Connect4.ts:143-150 | the found row is a set row with only unset rows above it |
| Connect4.WrittenFirstTurnEnds | src/games/Connect4/Connect4.ts:79-297 | as written, a game ends on its first turn: the host never reacts and the game times out, or the host's first accepted reaction wins with the visible board still empty |
| Minesweeper.Neighbour | src/games/Minesweeper.ts:356-364 | each of the eight search directions leads to an adjacent cell |
| Minesweeper.Dfs | src/games/Minesweeper.ts:346-368 | an explored cell is skipped and changes nothing; a new cell is appended to the list; a zero cell is marked explored and the explored set stays closed under zero neighbours |
| Minesweeper.Visit | src/games/Minesweeper.ts:356-364 | after the recursive calls every zero neighbour of the cell is explored |
| Minesweeper.DfsRegion | src/games/Minesweeper.ts:331-368 | a search started at an unexplored zero cell lists one whole 8-connected zero region with the cells bordering it |
| Minesweeper.PickFirstLongest | src/games/Minesweeper.ts:339-341 | the kept list is the longest seen, and among equally long lists the first, because only a strictly longer one replaces it |
| Minesweeper.LocalsRegions | src/games/Minesweeper.ts:331-344 | every list the row-major scan builds is a region, and every zero cell lies in one of them |
| Minesweeper.FindLargestSafeRegion | src/games/Minesweeper.ts:323-371 | empty exactly when the board has no zero cell, and otherwise a whole zero region |
| Minesweeper.LargestRegion | src/games/Minesweeper.ts:323-371 | the result is the first of the largest regions found by the scan, and the regions found cover every zero cell |
| Minesweeper.RegionEmptyIff | src/games/Minesweeper.ts:323-371 | nothing is revealed exactly when no cell has zero mines around it |
| Minesweeper.AroundPos | src/games/Minesweeper.ts:139-150 | each of the eight cells read around a cell is adjacent to it |
| Minesweeper.Read | src/games/Minesweeper.ts:139-148 | an off-board read gives `undefined`, an on-board read the cell |
| Minesweeper.MineCountZero | src/games/Minesweeper.ts:139-156 | a count is zero exactly when no adjacent cell is a mine |
| Minesweeper.SameMinesSameCount | src/games/Minesweeper.ts:135-158 | the count depends only on where the mines are, so the counts already written during the loop do not disturb it |
| Minesweeper.CountBoard | src/games/Minesweeper.ts:135-160 | mines stay in place and every other cell holds the number of mines around it |
| Minesweeper.FillCounts | src/games/Minesweeper.ts:135-160 | the in-place double loop computes the counted board |
| Minesweeper.FillRow | src/games/Minesweeper.ts:136-159 | one row of the loop fills that row's counts and touches no other row |
| Minesweeper.RowMajor | src/games/Minesweeper.ts:119-123 | every cell of the board exactly once |
| Minesweeper.Pop | src/games/Minesweeper.ts:128-132 | the last listed safe cell becomes a mine and moves to the end of the mine list |
| Minesweeper.PlaceMines | src/games/Minesweeper.ts:127-133 | `mines` pops move the last cells of the shuffled list, in reverse order, to the mine list; no cell is lost |
| Minesweeper.PopKeepsCells | src/games/Minesweeper.ts:128-132 | a pop only moves a cell between the lists |
| Minesweeper.PopKeepsLaid | src/games/Minesweeper.ts:128-132 | a pop keeps every mine-list cell marked on the board and every safe-list cell unmarked |
| Minesweeper.KeyInjective | src/games/Minesweeper.ts:333-354 | on boards of at most 10 by 10 the `explored` keys of different cells differ |
| Minesweeper.RemoveRevealed | src/games/Minesweeper.ts:170-179 | exactly the safe cells outside the revealed region remain, still without repeats |
| Minesweeper.Start | src/games/Minesweeper.ts:111-125 | an empty board and a shuffled list of all its cells |
| Minesweeper.RegionMineFree | src/games/Minesweeper.ts:168 | the revealed region holds no mine |
| Minesweeper.Deal | src/games/Minesweeper.ts:111-179 | the dealt game: the requested number of distinct mines, every other cell counted, the revealed region empty or a whole zero region, and the safe list every other cell once |
| Minesweeper.PlacedCells | src/games/Minesweeper.ts:119-133 | after placing, the mines are distinct and the safe list is exactly the other cells |
| Minesweeper.Initialize | src/games/Minesweeper.ts:93-109 | too many mines exactly when the board has no more cells than mines; too few exactly when the count is not positive; otherwise a dealt game, revealing by default |
| Minesweeper.Press | src/games/Minesweeper.ts:279-317 | safe and mine pop their own list and log the popped cell with 1-based coordinates; an empty list logs nothing; the board and region never change |
| Minesweeper.PressSound | src/games/Minesweeper.ts:280-304 | a cell logged as safe is never a mine and one logged as a mine is one |
| Minesweeper.Collect | src/games/Minesweeper.ts:256-321 | as written, the game settles only when the collector ends with nothing collected; after any host click it never settles |
| Minesweeper.Await | src/games/Minesweeper.ts:256-321 | as written, the game settles exactly when the host clicked nothing |
| Minesweeper.GiveUpNeverSettles | src/games/Minesweeper.ts:269-311 | a single give-up click ends the collector, but `play` never returns |
| Minesweeper.CollectSettling | src/games/Minesweeper.ts:256-321 | with the end handler resolving on every path, the game always settles, with the same board, logs and region |
| Minesweeper.AwaitSettling | src/games/Minesweeper.ts:256-321 | the corrected wait always settles and otherwise agrees with the written one |
| Minesweeper.CollectSound | src/games/Minesweeper.ts:276-319 | every log produced during the game is truthful about mines |
| Minesweeper.PlayGame | src/games/Minesweeper.ts:85-91 | no game is played exactly when the set-up refuses the options; otherwise it is played on the dealt board and, with the corrected `end` handler, always comes to an end |
| Minesweeper.CellEmoji | src/games/Minesweeper.ts:223 | a mine shows the bomb, a count the keycap digit |
| Minesweeper.Render | src/games/Minesweeper.ts:218-231 | one emoji per cell, hidden behind a spoiler exactly when spoilers are on and the cell is not shown |
| Minesweeper.SpoilerRule | src/games/Minesweeper.ts:224-228 | without spoilers everything shows; with them a cell shows exactly when revealing is on and it lies in the region |
| Minesweeper.OpeningShowsNoMine | src/games/Minesweeper.ts:168-228 | a cell visible at the start is never a bomb but its mine count |
| Rps.Wins | src/games/RPS/types.ts:4-55 | each choice beats two other choices |
| Rps.Id | src/games/RPS/types.ts:57-65 | a choice's button id is a key of at least four letters |
| Rps.Parse | src/games/RPS/RPS.ts:208 | a button id read as a choice is that choice's id |
| Rps.IdRoundTrip | src/games/RPS/types.ts:57-65 | every choice's id reads back as that choice, and every choice is listed |
| Rps.BeatsIsCyclic | src/games/RPS/types.ts:4-55 | the table is the cyclic rule: on the cycle Rock, Spock, Paper, Lizard, Scissors, each choice beats the two before it |
| Rps.MatchupTable | src/games/RPS/types.ts:4-55 | no choice beats itself, each beats exactly two, and of two different choices exactly one beats the other |
| Rps.Select | src/games/RPS/RPSPlayer.ts:23-25 | the choice is replaced and the wins are kept |
| Rps.Deselect | src/games/RPS/RPSPlayer.ts:27-29 | the choice is cleared and the wins are kept |
| Rps.Win | src/games/RPS/RPSPlayer.ts:31-33 | one more win, the choice kept |
| Rps.Configure | src/games/RPS/RPS.ts:37-41 | wins default to 1, time to 20000 ms and the pause to 5000 ms when missing or zero; valid options give 1..7 wins |
| Rps.Collect | src/games/RPS/RPS.ts:205-212 | clicks only change choices, never wins; once both have chosen, the collector stops and later clicks do nothing; a choice once made stays made |
| Rps.HostKeepsLastPress | src/games/RPS/RPS.ts:205-212 | while the challenger has not chosen, the host's choice is the last button the host pressed |
| Rps.LastChoiceFirst | src/games/RPS/RPS.ts:205-212 | the last press can be computed one click at a time from the front |
| Rps.Resolve | src/games/RPS/RPS.ts:214-236 | an unfinished round changes nothing; otherwise equal choices draw, the table decides the winner who gains exactly one win, and both choices are cleared |
| Rps.Loop | src/games/RPS/RPS.ts:70-78 | rounds repeat until someone reaches the required wins or a round times out; no one passes the required wins; only the final round can be unfinished; wins never decrease |
| Rps.Play | src/games/RPS/RPS.ts:60-86 | the challenge is always asked first; then a bot challenger, a self-challenge and a refusal each end the game; a finished game has exactly one player at the required wins |
| Rps.FinishedOnce | src/games/RPS/RPS.ts:88-90 | when the loop finishes, exactly one player has the required number of wins |
| Duel.Entries | src/games/Duel/types.ts:3-29 | every choice has a non-empty label and emoji |
| Duel.Parse | src/games/Duel/types.ts:3-31 | an id read as a choice is that choice's id |
| Duel.IdIsKey | src/games/Duel/types.ts:49-51 | each choice's id reads back as the choice, and no two choices share an id |
| Duel.ItemFactory | src/games/Duel/DuelPlayer.ts:12-25 | gun, sword and spell give weapons of that kind; every other value, including no choice at all, gives a mirror |
| Duel.SpeedOrder | src/games/Duel/types.ts:72-88 | the gun is faster than the sword, which is faster than the spell, and only the gun has to reload |
| Duel.ProtectionTable | src/games/Duel/types.ts:111-121 | against each protection, every weapon is reflected, defended or destroys it, and exactly one of those; the mirror breaks on a sword, the shield on a spell, and the shield reflects nothing |
| Duel.New | src/games/Duel/DuelPlayer.ts:27-103 | no wins, no choice, no ammunition, not reloaded, three shields and mirrors, and swords and spells from the settings |
| Duel.NewReportsItems | src/games/Duel/DuelPlayer.ts:86-92 | a new player reports a weapon and a protection although it holds neither, because the fields start undefined and the getters compare with null |
| Duel.Deselect | src/games/Duel/DuelPlayer.ts:146-151 | choice, weapon and protection are cleared and reloading reset; ammunition, wins and counters are kept |
| Duel.Select | src/games/Duel/DuelPlayer.ts:105-108 | the choice is set while weapon and protection are cleared and reloading reset; wins, ammunition and every item counter are kept |
| Duel.SelectAfterDeselect | src/games/Duel/DuelPlayer.ts:105-151 | a `deselect` before `select` changes nothing, since `select` deselects first |
| Duel.SelectOverrides | src/games/Duel/DuelPlayer.ts:105-108 | selecting twice is the same as selecting the second choice only |
| Duel.ConfirmChoice | src/games/Duel/DuelPlayer.ts:110-144 | the chosen item's counter goes down by one (the gun has none); a gun toggles the ammunition and reloads when it was empty; a weapon is held as the weapon and anything else as the protection |
| Duel.GunAlternates | src/games/Duel/DuelPlayer.ts:121-131 | confirming the gun twice returns the ammunition to what it was and touches no counter |
| Duel.ConfirmWithoutChoice | src/games/Duel/DuelPlayer.ts:12-144 | confirming with no choice holds a mirror without spending one |
| Duel.Win | src/games/Duel/DuelPlayer.ts:153-155 | one more win; choice, items, ammunition, reload flag and counters are kept |
| Duel.WinsReachRequired | src/games/Duel/DuelPlayer.ts:153-170 | a new player has won after exactly the required number of wins and, since `hasWon` compares with `===`, no longer after one more |
| Duel.Reload | src/games/Duel/DuelPlayer.ts:172-174 | the reload flag is set; wins, choice, items, ammunition and counters are kept |
| Duel.Shoot | src/games/Duel/DuelPlayer.ts:176-178 | the reload flag is cleared; wins, choice, items, ammunition and counters are kept |
| Duel.ReloadShootLastWins | src/games/Duel/DuelPlayer.ts:172-178 | of a reload and a shot, the later one decides the flag; shooting after reloading restores a player who had not reloaded |
| Duel.Restart | src/games/Duel/DuelPlayer.ts:180-188 | swords come back from the settings but spells come back as 3, shields as 3, mirrors are not restored, ammunition is emptied, and wins are kept |
| Duel.RestartVersusNew | src/games/Duel/DuelPlayer.ts:98-188 | a restarted player differs from a new one exactly in wins, mirrors, spells and the cleared items; restarting twice is restarting once |
| ScrabbleLetters.Repeat | src/games/Scrabble/ScrabbleLetterSystem.ts:8-10 | `n` copies of one tile and nothing else |
| ScrabbleLetters.LettersFrom | src/games/Scrabble/ScrabbleLetterSystem.ts:8-10 | the letter tiles from a given letter on, each letter as often as the standard set holds it |
| ScrabbleLetters.PoolCounts | src/games/Scrabble/ScrabbleLetterSystem.ts:8-10 | the pool holds each letter as often as the standard English set, two blanks, and nothing else |
| ScrabbleLetters.PoolSize | src/games/Scrabble/ScrabbleLetterSystem.ts:8-10 | the pool has 100 tiles |
| ScrabbleLetters.LetterValue | src/games/Scrabble/ScrabbleLetterSystem.ts:15-43 | letters are worth 1 to 10, a blank 0, and any other character has no value |
| ScrabbleLetters.LetterSum | src/games/Scrabble/ScrabbleLetterSystem.ts:61-64 | the sum exists exactly when every character has a value (otherwise the score is `NaN`) |
| ScrabbleLetters.LetterSumBounds | src/games/Scrabble/ScrabbleLetterSystem.ts:15-64 | a lower-case word's letters sum to between its length and ten times its length |
| ScrabbleLetters.WordScore | src/games/Scrabble/ScrabbleLetterSystem.ts:60-71 | letter sum times length, plus 50 when the word uses exactly `lettersPerRound` letters |
| ScrabbleLetters.Distribution | src/games/Scrabble/ScrabbleLetterSystem.ts:125-133 | the keys are exactly the rack's tiles, each with its number of copies |
| ScrabbleLetters.Insert | src/games/Scrabble/ScrabbleLetterSystem.ts:112 | one step of the sort: the tile is inserted and the result is sorted and a permutation |
| ScrabbleLetters.Sort | src/games/Scrabble/ScrabbleLetterSystem.ts:112 | `sort()` yields the same tiles in order |
| ScrabbleLetters.GetNextLetters | src/games/Scrabble/ScrabbleLetterSystem.ts:109-117 | the rack is the current window of the shuffled pool, sorted when asked; the window moves on by `lettersPerRound`; the distribution is the rack's |
| ScrabbleLetters.New | src/games/Scrabble/ScrabbleLetterSystem.ts:73-107 | the pool is shuffled, and the first rack is its first `lettersPerRound - 1` tiles, since the window ends at `lettersPerRound - 1` |
| ScrabbleLetters.Advance | src/games/Scrabble/ScrabbleLetterSystem.ts:109-117 | `n` more rounds move the window by `n` times `lettersPerRound` and change nothing else |
| ScrabbleLetters.RackOfRound | src/games/Scrabble/ScrabbleLetterSystem.ts:104-115 | the rack of round `k` is the window from `(k-1)·L` to `k·L - 1` of the shuffled pool, where `L` is `lettersPerRound` |
| ScrabbleLetters.RackAfter | src/games/Scrabble/ScrabbleLetterSystem.ts:109-117 | the window of round `k` for any system that starts with the first window |
| ScrabbleLetters.RackSize | src/games/Scrabble/ScrabbleLetterSystem.ts:104-110 | while the pool lasts, every rack has `lettersPerRound - 1` tiles |
| ScrabbleLetters.TileFor | src/games/Scrabble/ScrabbleLetterSystem.ts:82-93 | a letter takes its own tile or a blank, and only a tile that is on the rack |
| ScrabbleLetters.Spend | src/games/Scrabble/ScrabbleLetterSystem.ts:80-98 | spending keeps the same tile kinds as keys |
| ScrabbleLetters.SpendTracks | src/games/Scrabble/ScrabbleLetterSystem.ts:80-98 | while spending, each count is the rack's count minus the tiles used so far |
| ScrabbleLetters.ValidWordFits | src/games/Scrabble/ScrabbleLetterSystem.ts:79-101 | a valid word is in the dictionary and can be laid with distinct tiles from the rack, so it is no longer than the rack |
| ScrabbleLetters.NoBonus | src/games/Scrabble/ScrabbleLetterSystem.ts:67-110 | with a rack one tile short of `lettersPerRound`, no valid word earns the 50-point bonus |
| ScrabbleLetters.LettersDisplay | src/games/Scrabble/ScrabbleLetterSystem.ts:119-123 | a blank shows as the yellow square and a letter as its regional indicator |
| Scrabble.NewPlayer | src/games/Scrabble/ScrabblePlayer.ts:4-12 | a new player has score 0 and no word or gain |
| Scrabble.AddScore | src/games/Scrabble/ScrabblePlayer.ts:26-30 | the value is added to the score and becomes the gain; the word is recorded |
| Scrabble.Deselect | src/games/Scrabble/ScrabblePlayer.ts:32-35 | word and gain are cleared and the score is kept |
| Scrabble.Apply | src/games/Scrabble/ScrabblePlayer.ts:26-35 | calls on a player never change who the player is |
| Scrabble.ScoreIsSumOfGains | src/games/Scrabble/ScrabblePlayer.ts:26-35 | after any sequence of calls the score is the starting score plus every value added, and word and gain are those of the last call |
| Scrabble.IntermediateTime | src/games/Scrabble/Scrabble.ts:82 | as written, a given non-zero option yields one second whatever it asks for; with no option, one second alone and five with others |
| Scrabble.IntendedIntermediateTime | src/games/Scrabble/Scrabble.ts:82 | the given option is the time between rounds; the defaults are as before |
| Scrabble.IntermediateOptionIgnored | src/games/Scrabble/Scrabble.ts:82 | asking for 15 seconds in multiplayer gives 1 second as written, and 15 as intended |
| Scrabble.Configure | src/games/Scrabble/Scrabble.ts:76-85 | each option or its default (10 letters, unsorted, solo, 30 s, 10 rounds); the pause between rounds is the given one, else one second alone and five with others; the offered choices keep 1-10 rounds, 7-10 letters and a pause of 1-15 seconds |
| Scrabble.Nickname | src/games/Scrabble/Scrabble.ts:234 | the server nickname when there is a non-empty one, else the user name |
| Scrabble.Filter | src/games/Scrabble/Scrabble.ts:258-271 | the kept messages all pass, and none are kept exactly when none pass |
| Scrabble.Collected | src/games/Scrabble/Scrabble.ts:258-271 | at most one message alone and a thousand with others, each of at least three letters, only the host's in solo mode, and none exactly when none qualify |
| Text.Trim | src/games/Scrabble/Scrabble.ts:259 | `trim` keeps a contiguous middle of the text that neither starts nor ends with white space, and everything it drops before and after is white space |
| Text.LowerCharIsLower | src/games/Scrabble/Scrabble.ts:259-262 | a character lower-cases into `a-z` exactly when it is an ASCII letter or the Kelvin sign, so the filter's `[A-Za-z]` test after `toLowerCase` accepts exactly those |
| Scrabble.Last | src/games/Scrabble/Scrabble.ts:229-236 | an author's last message exists exactly when the author wrote one |
| Scrabble.IndexOfAuthor | src/games/Scrabble/Scrabble.ts:231 | the first position holding the author, or the end |
| Scrabble.Put | src/games/Scrabble/Scrabble.ts:231-235 | writing an author's entry keeps one entry per author, overwrites the author's own and leaves the others in place |
| Scrabble.Unique | src/games/Scrabble/Scrabble.ts:225-238 | one entry per author, covering every author, each the author's last message |
| Scrabble.UniqueEmpty | src/games/Scrabble/Scrabble.ts:225-279 | no entry exactly when no message was collected |
| Scrabble.Points | src/games/Scrabble/Scrabble.ts:242-246 | a valid word scores its word score and any other scores 0; never negative |
| Scrabble.Lookup | src/games/Scrabble/Scrabble.ts:247-252 | a player with the id from the board, or proof that none has it |
| Scrabble.IndexOf | src/games/Scrabble/Scrabble.ts:247-252 | the player's position, which is the end exactly when the player is missing |
| Scrabble.Step | src/games/Scrabble/Scrabble.ts:241-254 | one entry updates the author's record, or adds one at the end, and leaves every other player's lookup unchanged |
| Scrabble.LookupUpdate | src/games/Scrabble/Scrabble.ts:247-248 | replacing a record changes only that id's lookup |
| Scrabble.LookupAppend | src/games/Scrabble/Scrabble.ts:249-252 | adding a new id's record changes only that id's lookup |
| Scrabble.EntryOf | src/games/Scrabble/Scrabble.ts:240-241 | the author's entry of the round, present exactly when the author sent one |
| Scrabble.Standing | src/games/Scrabble/Scrabble.ts:240-255 | updating the standings keeps ids distinct, scores non-negative and the existing players in order |
| Scrabble.StandingSpec | src/games/Scrabble/Scrabble.ts:240-255 | a player who sent a word gains exactly that word's points on top of the previous score (or of zero when new); every other player is unchanged |
| Scrabble.HighestFrom | src/games/Scrabble/Scrabble.ts:210-216 | the loop picks the first player with the highest score |
| Scrabble.Highest | src/games/Scrabble/Scrabble.ts:209-216 | the chosen player has the highest score, and no earlier player ties it |
| Scrabble.RoundRecord | src/games/Scrabble/Scrabble.ts:208-223 | the record shows the top player's word (or the not-available text) and gain (or 0) with the current rack |
| Scrabble.LeaderWithoutWord | src/games/Scrabble/Scrabble.ts:209-222 | a leader who sent nothing this round is recorded with no word and 0, even when another player scored |
| Scrabble.InsertByScore | src/games/Scrabble/Scrabble.ts:103 | inserting into ascending standings keeps them ascending and keeps the records |
| Scrabble.SortByScore | src/games/Scrabble/Scrabble.ts:103 | the standings are sorted by ascending score and are a permutation of the records |
| Scrabble.WithScoreAppend | src/games/Scrabble/Scrabble.ts:103 | the records with one score split over a concatenation |
| Scrabble.WithScoreAbove | src/games/Scrabble/Scrabble.ts:103 | ascending standings that start above a score hold no record with it |
| Scrabble.InsertStable | src/games/Scrabble/Scrabble.ts:103 | inserting puts the new record after every record with its score |
| Scrabble.SortStable | src/games/Scrabble/Scrabble.ts:103 | the sort is stable: the records of each score keep their order |
| Scrabble.WinnersFrom | src/games/Scrabble/Scrabble.ts:187-199 | after a player has been seen, a best score exists |
| Scrabble.MaxScore | src/games/Scrabble/Scrabble.ts:187-199 | the highest score on the board, reached by some player |
| Scrabble.AtScoreNone | src/games/Scrabble/Scrabble.ts:193-198 | no player is at a score above every score |
| Scrabble.WinnersInvariant | src/games/Scrabble/Scrabble.ts:189-199 | the loop keeps the best score so far and every player who reached it, in order |
| Scrabble.WinnersAtMax | src/games/Scrabble/Scrabble.ts:186-203 | the winners are exactly the players with the highest score, in order, and the score shown is that score |
| Scrabble.EndOf | src/games/Scrabble/Scrabble.ts:180-206 | solo mode shows the host's score; otherwise the players at the top score |
| Scrabble.AppendGain | src/games/Scrabble/Scrabble.ts:218-222 | a record with a non-negative gain keeps the history free of negative gains |
| Scrabble.Restart | src/games/Scrabble/Scrabble.ts:87-92 | every player's word and gain are cleared, round and history are kept, and the next rack is dealt |
| Scrabble.Loop | src/games/Scrabble/Scrabble.ts:52-69 | every round played advances the round number, never past the total |
| Scrabble.LoopCases | src/games/Scrabble/Scrabble.ts:52-69 | one pass of the loop: a round without words ends inactive on the next round number, the last round ends on its own state and not inactive, and any other round restarts and hands its state to the rest of the loop |
| Scrabble.LoopHistory | src/games/Scrabble/Scrabble.ts:52-69 | one history line per round that got words: an inactive end has one line fewer than the rounds started, a finished game one per round; no gain is negative |
| Scrabble.LoopEnding | src/games/Scrabble/Scrabble.ts:52-206 | a game that is not abandoned ends on non-empty ascending standings, with the host's score in solo mode and the top-score players otherwise |
| Scrabble.PlayRound | src/games/Scrabble/Scrabble.ts:53-281 | a round with no qualifying word ends the game; otherwise the round number goes up, one history line is added, and the standings are ascending and non-empty |
| Scrabble.Ranked | src/games/Scrabble/Scrabble.ts:53-60 | after the standing is updated the round number goes up by one, the history gains exactly the round record at its end and keeps every earlier line, and the players are the same records in ascending score order, all sane, and only the host in solo mode |
| Scrabble.Scoring | src/games/Scrabble/Scrabble.ts:279-280 | after a round with words some player is on the board, and in solo mode only the host |
| Scrabble.SoloStanding | src/games/Scrabble/Scrabble.ts:240-264 | a solo round's standings hold only the host |
| Scrabble.SortKeeps | src/games/Scrabble/Scrabble.ts:103 | sorting keeps what holds of each record |
| Scrabble.RestartKeeps | src/games/Scrabble/Scrabble.ts:87-92 | clearing the words keeps the records sane and the host alone |
| Scrabble.Play | src/games/Scrabble/Scrabble.ts:50-70 | the game runs from round 1 to at most the total; it ends inactive exactly when it stops before the last round; a solo end reports the host's score and a multiplayer end the top-score players |
| Trivia.Position | src/games/Trivia/types.ts:4-11 | each of the four letters labels one of the four answer positions |
| Trivia.PointCost | src/games/Trivia/Trivia.ts:29-41 | a true/false question is worth 1; a multiple-choice one 1 when easy, 3 when hard and 2 otherwise |
| Trivia.PointCostMonotone | src/games/Trivia/Trivia.ts:29-41 | a harder question is never worth fewer points |
| Trivia.PossibleAnswers | src/games/Trivia/Trivia.ts:179-181 | A and B for two answers, A to D otherwise, each letter on its own position |
| Trivia.IndexOf | src/games/Trivia/Trivia.ts:183 | the first position of the value, or -1 exactly when it is absent |
| Trivia.CorrectLetter | src/games/Trivia/Trivia.ts:183 | the letter over the first position that holds the correct answer; `undefined` when that position has no letter |
| Trivia.Prepare | src/games/Trivia/Trivia.ts:173-194 | the shuffled answers are the wrong ones plus the right one; the letter points at the right answer; the points follow the kind and difficulty |
| Trivia.Buttons | src/games/Trivia/Trivia.ts:203-212 | four buttons for a multiple-choice question, A and B otherwise |
| Trivia.CorrectHasButton | src/games/Trivia/Trivia.ts:179-206 | for a question with one or three wrong answers the buttons are the answer letters and the correct letter has a button |
| Trivia.NewPlayer | src/games/Trivia/TriviaPlayer.ts:6-20 | a new player has no answer and no points |
| Trivia.EarnPoints | src/games/Trivia/TriviaPlayer.ts:22-24 | the points are added and the answer is kept |
| Trivia.SetAnswer | src/games/Trivia/TriviaPlayer.ts:26-28 | the answer is set and the score is kept |
| Trivia.RemoveAnswer | src/games/Trivia/TriviaPlayer.ts:30-32 | the answer is cleared and the score is kept |
| Trivia.AnswerOverwrites | src/games/Trivia/TriviaPlayer.ts:26-32 | only the last answer set counts, and removing forgets any answer |
| Trivia.Record | src/games/Trivia/Trivia.ts:226-238 | a press sets the presser's answer, on the stored player or on a new one added at the end; nobody else changes |
| Trivia.Collect | src/games/Trivia/Trivia.ts:215-238 | after a round's presses every presser holds the letter of their last press and keeps their score; everyone else is unchanged and the board keeps its order |
| Trivia.LastAnswerOfPresser | src/games/Trivia/Trivia.ts:217-238 | a user with an accepted press has a last answer |
| Trivia.LastAnswerNone | src/games/Trivia/Trivia.ts:217-241 | with no accepted press nobody has a last answer |
| Trivia.Settle | src/games/Trivia/Trivia.ts:248-275 | a player whose answer equals the correct letter earns the points and loses the answer; any other player is untouched |
| Trivia.Winners | src/games/Trivia/Trivia.ts:248-254 | the names listed all belong to players who answered correctly, every such player is listed, and none is listed when nobody did |
| Trivia.WinnersAppend | src/games/Trivia/Trivia.ts:248-254 | the names follow the order of the score board: the winners of two boards joined are the two lists of winners joined |
| Trivia.Round | src/games/Trivia/Trivia.ts:240-279 | a round with no accepted press ends the game; otherwise the board is scored |
| Trivia.RoundSpec | src/games/Trivia/Trivia.ts:226-279 | after a scored round each user on the board was there before or pressed; a user whose standing answer is the correct letter gains the points and loses the answer, anyone else keeps score and answer |
| Trivia.StaleAnswerScores | src/games/Trivia/Trivia.ts:248-275 | a wrong answer is not cleared, so it scores in a later round whose correct letter it happens to be |
| Trivia.UsernameKept | src/games/Trivia/Trivia.ts:230-236 | a player keeps the name of their first press |
| Trivia.CollectKeepsNames | src/games/Trivia/Trivia.ts:230-232 | presses never rename a player already on the board |
| Trivia.Configure | src/games/Trivia/Trivia.ts:115-120 | each option or its default (1 round, 20 s, 5 s apart, category 0); the offered choices keep 1-25 rounds, 5-60 s and 3-15 s |
| Trivia.Fetch | src/games/Trivia/Trivia.ts:161-201 | a non-zero response code throws; otherwise one prepared question per result, each worth its point cost |
| Trivia.Loop | src/games/Trivia/Trivia.ts:103-112 | the turn only grows, one list of winners per scored round; a finished game has played every round |
| Trivia.LoopShape | src/games/Trivia/Trivia.ts:103-112 | a game ends after all rounds, at a missing question, or at the first round without a press, with one winners list per scored round |
| Trivia.Play | src/games/Trivia/Trivia.ts:101-124 | a refused request throws before any round; a finished game has one winners list per round; enough questions never throw; an inactive end came at the last round started |
| YahtzeeSheet.Distribute | src/games/Yahtzee/YahtzeeScoreSheet.ts:155-162 | each face's count is the number of dice showing it, and the counts add up to the number of dice |
| YahtzeeSheet.DistributeStep | src/games/Yahtzee/YahtzeeScoreSheet.ts:155-162 | counting one more die adds one to its face's count and one to the size, keeping the counts equal to the multiset of dice |
| YahtzeeSheet.KeysFrom | src/games/Yahtzee/YahtzeeScoreSheet.ts:23 | the faces present from a given face on, ascending and complete |
| YahtzeeSheet.Keys | src/games/Yahtzee/YahtzeeScoreSheet.ts:23 | the distribution's keys are exactly the faces present, in ascending order |
| YahtzeeSheet.Values | src/games/Yahtzee/YahtzeeScoreSheet.ts:44-123 | one positive count per key, in key order |
| YahtzeeSheet.Evaluate | src/games/Yahtzee/YahtzeeScoreSheet.ts:66-125 | no category ever scores below 0 |
| YahtzeeSheet.SumRollsIsDiceSum | src/games/Yahtzee/YahtzeeScoreSheet.ts:35-41 | the sum over the distribution is the sum of the dice |
| YahtzeeSheet.UpperScore | src/games/Yahtzee/YahtzeeScoreSheet.ts:16-90 | categories 1 to 6 score the face times the number of dice showing it |
| YahtzeeSheet.OfKind | src/games/Yahtzee/YahtzeeScoreSheet.ts:43-45 | some count reaches n exactly when some face shows on n dice or more |
| YahtzeeSheet.OfKindScores | src/games/Yahtzee/YahtzeeScoreSheet.ts:91-98 | three and four of a kind score the dice sum exactly when some face shows on three (four) dice, else 0 |
| YahtzeeSheet.NoSingleOrQuadFaces | src/games/Yahtzee/YahtzeeScoreSheet.ts:101-107 | having no count of 1, 4 or 5 is the same as every present face showing on 2 or 3 dice |
| YahtzeeSheet.PairPlusTriple | src/games/Yahtzee/YahtzeeScoreSheet.ts:101-107 | five dice in counts of 2 and 3 are exactly a triple of one face and a pair of another |
| YahtzeeSheet.FullHouse | src/games/Yahtzee/YahtzeeScoreSheet.ts:99-108 | full house scores 25 exactly when the dice are a triple and a pair of different faces |
| YahtzeeSheet.AllFive | src/games/Yahtzee/YahtzeeScoreSheet.ts:121-124 | Yahtzee scores 50 exactly when all five dice show one face |
| YahtzeeSheet.RunEnding | src/games/Yahtzee/YahtzeeScoreSheet.ts:24-29 | the run of consecutive keys ending at an index is at least 1 and at most the index plus one |
| YahtzeeSheet.StraightLoopIsLongest | src/games/Yahtzee/YahtzeeScoreSheet.ts:20-33 | the loop returns the longest run of consecutive keys ending at index 1 or later |
| YahtzeeSheet.LongestRunReaches | src/games/Yahtzee/YahtzeeScoreSheet.ts:24-31 | a run of k >= 2 is the longest found exactly when some index ends one |
| YahtzeeSheet.Run | src/games/Yahtzee/YahtzeeScoreSheet.ts:24-29 | a run of faces ending at f is between 1 and f long |
| YahtzeeSheet.RunEndingIsRun | src/games/Yahtzee/YahtzeeScoreSheet.ts:23-29 | the run of keys ending at a key equals the run of faces present ending at that face |
| YahtzeeSheet.RunReaches | src/games/Yahtzee/YahtzeeScoreSheet.ts:24-29 | a run of at least k ends at f exactly when the k faces up to f are present |
| YahtzeeSheet.StraightReaches | src/games/Yahtzee/YahtzeeScoreSheet.ts:20-33 | the straight length reaches k >= 2 exactly when k consecutive faces are present |
| YahtzeeSheet.Straights | src/games/Yahtzee/YahtzeeScoreSheet.ts:109-116 | a small straight scores 30 exactly when four consecutive faces show, a large one 40 exactly when five do |
| YahtzeeSheet.SingleFaceLengthZero | src/games/Yahtzee/YahtzeeScoreSheet.ts:20-33 | five dice of one face give a straight length of 0, since the loop starts at the second key |
| YahtzeeSheet.SmallStraightMislabelled | src/games/Yahtzee/YahtzeeScoreSheet.ts:95-110 | as written, the small straight category carries the four-of-a-kind name |
| YahtzeeSheet.IntendedCategoryName | src/games/Yahtzee/YahtzeeScoreSheet.ts:109-110 | the small straight's name is its own key and every other name is unchanged |
| YahtzeeSheet.IntendedNamesDistinct | src/games/Yahtzee/YahtzeeScoreSheet.ts:66-125 | with that key no two categories share a name |
| YahtzeeSheet.NewCategory | src/games/Yahtzee/YahtzeeCategory.ts:15-30 | a new category is unmarked and worth 0 |
| YahtzeeSheet.Mark | src/games/Yahtzee/YahtzeeCategory.ts:32-39 | marking sets the mark and stores what the category scores now |
| YahtzeeSheet.MarkOverwrites | src/games/Yahtzee/YahtzeeCategory.ts:32-35 | a second mark replaces the first value |
| YahtzeeSheet.NewCategories | src/games/Yahtzee/YahtzeeScoreSheet.ts:66-125 | thirteen unmarked categories, numbered 1 to 13 |
| YahtzeeSheet.RerollEach | src/games/Yahtzee/YahtzeeScoreSheet.ts:184-186 | each selected die takes a fresh draw and every other die stays |
| YahtzeeSheet.Reroll | src/games/Yahtzee/YahtzeeScoreSheet.ts:182-188 | one reroll fewer; selected dice are redrawn; scores are untouched |
| YahtzeeSheet.RerollAll | src/games/Yahtzee/YahtzeeScoreSheet.ts:178-180 | every die is redrawn, one reroll fewer, scores untouched |
| YahtzeeSheet.Reset | src/games/Yahtzee/YahtzeeScoreSheet.ts:190-193 | the dice are redrawn and two rerolls remain, scores untouched |
| YahtzeeSheet.New | src/games/Yahtzee/YahtzeeScoreSheet.ts:47-180 | a new sheet after its first roll has nothing scored, no bonus, thirteen unmarked categories and two rerolls |
| YahtzeeSheet.SelectCategory | src/games/Yahtzee/YahtzeeScoreSheet.ts:164-176 | an unknown category throws; otherwise the category is marked with its current score, which the total gains, plus the upper score for 1 to 6 and a single 35 bonus when that reaches 63 |
| YahtzeeSheet.SumValuesUpdate | src/games/Yahtzee/YahtzeeScoreSheet.ts:164-167 | replacing one category changes the sum of values by the difference |
| YahtzeeSheet.SumValuesZero | src/games/Yahtzee/YahtzeeScoreSheet.ts:66-125 | unmarked new categories sum to 0 |
| YahtzeeSheet.NewConsistent | src/games/Yahtzee/YahtzeeScoreSheet.ts:47-125 | a new sheet's total and upper score agree with its categories |
| YahtzeeSheet.SelectKeepsConsistent | src/games/Yahtzee/YahtzeeScoreSheet.ts:164-176 | selecting an unmarked category keeps the total equal to the values plus the bonus once earned, and the upper score to categories 1 to 6 |
| YahtzeeSheet.MarkKeepsConsistent | src/games/Yahtzee/YahtzeeScoreSheet.ts:164-176 | marking a fresh category with any non-negative value, adding it to the total (and, for 1 to 6, to the upper score) and the bonus on first reaching 63, keeps the sheet consistent |
| YahtzeeSheet.SelectAgainOvercounts | src/games/Yahtzee/YahtzeeScoreSheet.ts:164-176 | selecting an already marked lower-section category again keeps the old value in the total beside the new one, so a category once worth points leaves the total too high |
| Yahtzee.RefreshRerolls | src/games/Yahtzee/YahtzeePlayer.ts:16-24 | every die is marked for rerolling again, and the sheet is untouched |
| Yahtzee.KeepRoll | src/games/Yahtzee/YahtzeePlayer.ts:26-28 | the die's property becomes kept, and nothing else changes |
| Yahtzee.DiceFrom | src/games/Yahtzee/YahtzeePlayer.ts:30-37 | the dice from n to 5 that are not kept, ascending |
| Yahtzee.RerollList | src/games/Yahtzee/YahtzeePlayer.ts:30-37 | the reroll list is exactly the dice 1 to 5 not kept, ascending |
| Yahtzee.ReactionKeeps | src/games/Yahtzee/Yahtzee.ts:128-135 | with the intended reverse table, a reaction keeps exactly the die whose keycap it is; any other emoji keeps nothing |
| Yahtzee.KeepAll | src/games/Yahtzee/Yahtzee.ts:128-135 | after the reactions, a die is still to be rerolled exactly when it was and the host has not reacted with its keycap |
| Yahtzee.RerollPress | src/games/Yahtzee/Yahtzee.ts:125-138 | a REROLL press redraws exactly the dice neither kept earlier nor reacted to now, and keeps the rest |
| Yahtzee.RerollAfterRefresh | src/games/Yahtzee/Yahtzee.ts:96-138 | on the first press of a turn, the dice reacted to stay and every other die is redrawn |
| Yahtzee.WrittenKeepAll | src/games/Yahtzee/Yahtzee.ts:128-135 | with the reverse table as written, reactions with keycaps keep no die: they only set the key `undefined`, and the dice to reroll are unchanged |
| Yahtzee.UndefinedKeepsDice | src/games/Yahtzee/YahtzeePlayer.ts:26-37 | setting the key `undefined` leaves the list of dice to reroll unchanged |
| Yahtzee.WrittenRerollPress | src/games/Yahtzee/Yahtzee.ts:125-138 | a REROLL press as written keeps every key kept before and redraws the dice its reroll list names |
| Yahtzee.WrittenRerollRedrawsAll | src/games/Yahtzee/Yahtzee.ts:96-138 | as written, the first REROLL press of a turn redraws all five dice, whatever keycaps the host reacted with |
| Yahtzee.KeptStaysKept | src/games/Yahtzee/Yahtzee.ts:128-138 | a die kept earlier in the turn is neither rerolled nor released by a later press, whatever the reactions then |
| Yahtzee.MarkedCount | src/games/Yahtzee/Yahtzee.ts:84-86 | the count of marked categories equals the number considered exactly when all are marked |
| Yahtzee.MenuFrom | src/games/Yahtzee/Yahtzee.ts:282-291 | the unmarked category ids from a given id on, ascending |
| Yahtzee.Menu | src/games/Yahtzee/Yahtzee.ts:282-291 | the menu offers exactly the unmarked categories, in id order |
| Yahtzee.MenuEmptyWhenTerminal | src/games/Yahtzee/Yahtzee.ts:84-291 | the menu is empty exactly when every category is marked |
| Yahtzee.RollDice | src/games/Yahtzee/Yahtzee.ts:114-147 | the phase takes a press exactly when the host made one; it never touches the categories or totals; rolling keeps a reroll in hand and CATEGORIES is final |
| Yahtzee.AwaitDiceRolls | src/games/Yahtzee/Yahtzee.ts:95-149 | the phase ends inactive exactly when the host pressed nothing |
| Yahtzee.PlayFirst | src/games/Yahtzee/Yahtzee.ts:144-146 | PLAY as the first press moves to the categories with the sheet as it was |
| Yahtzee.Choose | src/games/Yahtzee/Yahtzee.ts:151-177 | the pick is the first unmarked category the host chooses on the game's menu, and none exactly when the host made no such pick |
| Yahtzee.PhaseKeepsSheet | src/games/Yahtzee/Yahtzee.ts:95-149 | the rolling phase keeps the sheet consistent and its categories unchanged |
| Yahtzee.ResetKeepsSheet | src/games/Yahtzee/YahtzeeScoreSheet.ts:190-193 | a reset keeps the sheet consistent |
| Yahtzee.TurnKeepsHead | src/games/Yahtzee/Yahtzee.ts:61-71 | choosing an unmarked category keeps the loop's invariant: rolling, consistent, two rerolls while the game goes on, one more category marked |
| Yahtzee.Step | src/games/Yahtzee/Yahtzee.ts:55-81 | a full turn from the head of the loop returns to a head |
| Yahtzee.LoopEnds | src/games/Yahtzee/Yahtzee.ts:53-82 | from a head the game ends won with every category marked on turn 13, or inactive, and the total always adds up |
| Yahtzee.Play | src/games/Yahtzee/Yahtzee.ts:53-93 | the game ends in one of those ways, and a win takes at least thirteen turns of input |
| Yahtzee.TurnsNeeded | src/games/Yahtzee/Yahtzee.ts:55-81 | each category not yet marked takes one turn of input before a win |

## Left out

- Rendering is not modelled: embeds, buttons, select menus and reactions shown to users, and every `editReply`, `followUp` and `deferUpdate`. Only the decisions that feed them are modelled: which buttons are disabled, what a cell shows, which options a menu offers.
- Translation text is not modelled. The i18next tables and initialisation are out; messages are kept as their keys.
- Timers are inputs. `Game.sleep`, the registry's clear interval, collector timeouts, `resetTimer` and the cooldown's `setTimeout` deletion are not modelled; a collector's expiry is the end of its event sequence.
- Concurrency between collector callbacks and awaits is not modelled. Callbacks run one at a time in arrival order, and a promise resolves with its first `resolve`.
- Network and file access are not modelled: the Wordnik request of hangman, the Open Trivia DB request, command loading, `KanjiDatabase` and the word files. Their results are inputs or abstract sets.
- Randomness is an input. `_.shuffle` is a Fisher-Yates shuffle over given draws; `_.sample` and `getRandomInt` are given values.
- Numbers are unbounded integers, not JavaScript doubles. No game value comes near 2^53.
- Cooldown.GetCooldownData: returns the remaining time in milliseconds rather than the source's float seconds, because the division by 1000 only formats the value.
- Trivia.Fetch: questions arrive with HTML entities already decoded, because `he.decode` is a library call. A reply with fewer questions than rounds is modelled as the loop throwing at the first missing question.
- Hangman.Initialize: the secret word is an input, because the Wordnik lookup that supplies it is a network call.
- Scrabble.Play: does not state which rack each round shows. The rack of each round is stated by `ScrabbleLetters.RackOfRound`, and `Scrabble.Restart` deals the next rack.
- Text.Lower: lower-cases `A-Z` and the Kelvin sign only. Other capitals outside ASCII are left unchanged, and U+0130, which `toLowerCase` turns into two characters, stays one. Every caller tests the result, or the text it came from, against `[A-Za-z]`, so none of these characters can pass. The exception is `Hangman.Initialize`, which lower-cases a fetched Wordnik word; a word with such a capital keeps it in the model.
- YahtzeeSheet.New: starts after the first `rerollAll`. The dice are `null` before it and are never read then.
- Connect4.Play: the `dispose` handler is not modelled. Its collector takes one click, so it ends before a removal could be delivered.
- Minesweeper.DfsRegion: the explored set holds positions rather than the strings `${r}${c}`. `Minesweeper.KeyInjective` shows the strings are distinct for the 9 by 9 boards the command allows.
- The duel round (`Duel.ts`) is not modelled; its evaluation is commented out in the source. `DuelPlayer` and the item tables are modelled.
- The matching game is not modelled; its `terminal` is always true. `Connect4Player` has no behaviour and is not modelled either.
- The command definition files are not modelled, except their option choices. Those choices appear as each game's `ValidOptions`, plus the help formatting and the trivia command's seat release.
- Bootstrap and plumbing are not modelled: the client, event wiring, `to` and `addReactions`.
- Blackjack.Play: models a game built from a `GameConfig` (the command and the interaction), as the minesweeper and trivia commands build theirs. As written, blackjack.ts:54 passes `(client, interaction)`, and `Game`'s constructor (Game.ts:69-74) reads `command.client` from the client, which has no `command`, so the game throws before `start`.
- Blackjack.Collect: a broken hand keeps its real cards and its old value, but not the `undefined` entries that the source's array then holds. Only `hasBlackjack` reads that array's length (BlackjackPlayerBase.ts:29-31), and only to choose a stand's message (Blackjack.ts:319-323), which is not modelled. `restart` empties both hands before the next round (BlackjackPlayerBase.ts:50-53).
- Scrabble.Configure: takes the pause between rounds that the option asks for, rather than the one second the code gives for any option as written (see "## Findings"). `Scrabble.IntermediateTime` keeps the written expression.
- Blackjack.RoundMoney: once the player's hand is broken, does not promise that money moves only when the round settles, nor that it stays non-negative. As written each stand then pays again (`Blackjack.BrokenStandPaysAgain`), so a covered bet can be lost any number of times.
- Blackjack.Play: promises non-negative money only for games in which no round broke the player's hand, for the reason given under `Blackjack.RoundMoney`.
- Blackjack.DoubleDownDrawsOne: does not promise that double-down ends the round. When the dealer runs out of cards the stand throws and the collector runs on.
- Mastermind.Play: models a game built from a `GameConfig` (the command and the interaction), as the minesweeper and trivia commands build theirs. As written, mastermind.ts:68 passes `(client, interaction)` to a constructor that expects a `GameConfig` (Mastermind.ts:55-56), so `Game`'s constructor (Game.ts:69-74) throws before `start`.
- Scrabble.Play: models a game built from a `GameConfig` (the command and the interaction), as the minesweeper and trivia commands build theirs. As written, scrabble.ts:90 passes `(client, interaction)` to a constructor that expects a `GameConfig` (Scrabble.ts:46-47), so `Game`'s constructor (Game.ts:69-74) throws before `start`.
- Connect4.Play: models a game built from a `GameConfig` (the command and the interaction), as the minesweeper and trivia commands build theirs. As written, `Connect4`'s constructor (Connect4.ts:55-56) forwards `(client, interaction)` to `Game`, whose constructor (Game.ts:69-74) takes the client for the config and throws reading `command.client`.
- Hangman.Play: models a game built from a `GameConfig` (the command and the interaction), as the minesweeper and trivia commands build theirs. As written, `Hangman`'s constructor (Hangman.ts:37-38) forwards `(client, interaction)` to `Game`, whose constructor (Game.ts:69-74) throws reading `command.client`.
- Rps.Play: models a game built from a `GameConfig` (the command and the interaction), as the minesweeper and trivia commands build theirs. As written, `RPS`'s constructor (RPS.ts:33-34) forwards `(client, interaction)` to `Game`, whose constructor (Game.ts:69-74) throws reading `command.client`.
- Yahtzee.Play: models a game built from a `GameConfig` (the command and the interaction), as the minesweeper and trivia commands build theirs. As written, `Yahtzee`'s constructor (Yahtzee.ts:49-50) forwards `(client, interaction)` to `Game`, whose constructor (Game.ts:69-74) throws reading `command.client`.
- Connect4.NextDrop: accepts the reactions of the player whose turn it is. As written, the filter (Connect4.ts:224) reads `player.user.id`, but a `Connect4Player` keeps its user in `extendedUser` (Player.ts:9-18). Every reaction would throw inside the filter and no drop would ever be collected. The model follows the `extendedUser` field.
- Connect4.Loop: is built on `Connect4.NextDrop` and so assumes the repaired reaction filter. As written, no turn would ever receive a drop.
- Scrabble.Step: adds a new author as a fresh player. As written, Scrabble.ts:251 calls `new ScrabblePlayer(extendedUser)` without a config, and `Player`'s constructor (Player.ts:17) reads `config.playerId` of `undefined`. The first word from a new author would throw in `awaitRound` (Scrabble.ts:280) and abort the game. The model adds the player, whose `playerId` is never read.
- Scrabble.Standing: is built on `Scrabble.Step` and so assumes the repaired player construction.
- Scrabble.StandingSpec: states the scoring of the repaired `Scrabble.Step`.
- Trivia.Winners: names the players who answered correctly by their user names. As written, Trivia.ts:251 reads `player.user.username`, but a `TriviaPlayer` keeps its user in `extendedUser` (Player.ts:9-18). The first correct player would throw in the async `end` listener before any point is earned. That throw only rejects the listener's own promise, so `resolve` (Trivia.ts:277) is never called. The model keeps the presser's user name on the player, as `extendedUser` holds it. The score embed (Trivia.ts:134) reads the same missing field, and it is not modelled since rendering is out.
- Trivia.Round: scores a round in which someone answered correctly. As written, such a round throws at Trivia.ts:251 inside the `end` listener and never resolves, as described for `Trivia.Winners`.
- Trivia.RoundSpec: states the repaired scoring. As written, a round with a correct answer throws at Trivia.ts:251 inside the `end` listener and never resolves.
- Trivia.Settle: earns points for correct answers. As written, the throw at Trivia.ts:251 comes before the first `earnPoints`.
- Trivia.Loop: runs rounds with the repaired scoring. As written, the first round with a correct answer never resolves the promise of `awaitAnswers`: the throw at Trivia.ts:251 is an unhandled rejection of the async `end` listener, and `resolve(null)` at Trivia.ts:277 is never reached. So `play` waits at Trivia.ts:107 forever, and no later round is played.
- Trivia.Play: plays the repaired rounds. As written, the game hangs at the first round with a correct answer, as described for `Trivia.Loop`. It neither ends nor reports a winner.
- Paginator.TotalPages: requires a positive page size, and so does every paginator member built on it. `PerPage` keeps an explicit 0, as `??` does, but no caller passes one: help.ts:101 passes 10, and kanji/all.ts:51 passes `per || 10`, which turns 0 into 10. A page size of 0 is not modelled; `Math.ceil(count / 0)` would be `Infinity` or `NaN`.
- Connect4.ColumnOf: reads a reaction with the intended reverse emoji table. As written, the table's keys are mis-encoded (see "## Findings"), so every column is `undefined - 1`, which is NaN. `Connect4.WrittenFirstTurnEnds` shows the result: the host's first accepted reaction wins.
- Connect4.ReactionOf: its contract ties each reaction to the intended reverse emoji table, and also states that the table as written does not know that reaction.
- Connect4.Drop: uses the column that `Connect4.ColumnOf` reads with the intended reverse emoji table.
- Connect4.DropKeepsInv: uses the column that `Connect4.ColumnOf` reads with the intended reverse emoji table.
- Connect4.Turn: uses the column that `Connect4.ColumnOf` reads with the intended reverse emoji table.
- Connect4.Loop: uses the column that `Connect4.ColumnOf` reads with the intended reverse emoji table.
- Connect4.Play: uses the column that `Connect4.ColumnOf` reads with the intended reverse emoji table.
- Connect4.WrittenTurn: models the mis-encoded table but keeps the repaired reaction filter of `Connect4.NextDrop`, so that a reaction reaches the drop at all.
- Yahtzee.ReactionKeeps: reads a reaction with the intended reverse emoji table. As written, no keycap is a key of the table, so no reaction keeps a die. `Yahtzee.WrittenRerollRedrawsAll` shows that the first REROLL of a turn then redraws all five dice.
- Yahtzee.KeepAll: keeps the dice reacted to, as `Yahtzee.ReactionKeeps` does with the intended reverse emoji table.
- Yahtzee.RerollPress: keeps the dice reacted to, as `Yahtzee.ReactionKeeps` does with the intended reverse emoji table.
- Yahtzee.RerollAfterRefresh: keeps the dice reacted to, as `Yahtzee.ReactionKeeps` does with the intended reverse emoji table.
- Yahtzee.Step: keeps the dice reacted to, as `Yahtzee.ReactionKeeps` does with the intended reverse emoji table.
- Yahtzee.LoopEnds: keeps the dice reacted to, as `Yahtzee.ReactionKeeps` does with the intended reverse emoji table.
- Yahtzee.Play: keeps the dice reacted to, as `Yahtzee.ReactionKeeps` does with the intended reverse emoji table.

## Findings

The corrected definitions are the ones the rest of the model uses. `Minesweeper.PlayGame` runs the settling `end` handler, new yahtzee categories take the intended names, the scrabble pause between rounds is the one asked for, and the connect-four and yahtzee games read reactions through the intended reverse emoji table.

| source | as written | input that shows it | evidently intended | confidence | as-written member | corrected member |
|---|---|---|---|---|---|---|
| src/games/Minesweeper.ts:269-274 | the collector's `end` handler resolves the game's promise only when nothing was collected | one GIVE_UP press by the host: the collector stops with one item, so `play()` never returns and the game never ends | the promise resolves on every end, with or without collected presses | not executed | Minesweeper.Await, Minesweeper.GiveUpNeverSettles | Minesweeper.AwaitSettling, Minesweeper.PlayGame |
| src/constants/emojiToAlphanumeric.ts:5-45 | the reverse table's keys are the UTF-8 bytes of the emoji read as Windows-1254 text (`ğŸ‡¦` for the regional indicator A, `1âƒ£` for the keycap 1), so no real emoji is a key | the host reacts with the keycap 3 on a connect-four board: `EMOJI_TO_ALPHANUMERIC['3\u20E3']` is `undefined` and the column is NaN; in yahtzee, a reaction with any keycap keeps no die | the keys are the emoji of the forward table, so each lookup inverts `ALPHANUMERIC_TO_EMOJI` | not executed | EmojiTables.EmojiToAlphanumeric, EmojiTables.EmojiNotWrittenKey, EmojiTables.WrittenKeyIsMisreadEmoji, Connect4.WrittenFirstTurnEnds, Yahtzee.WrittenRerollRedrawsAll | EmojiTables.IntendedEmojiToAlphanumeric, EmojiTables.DecodeEncode, EmojiTables.EncodeDecode |
| src/games/Scrabble/Scrabble.ts:82 | the pause reads `option ?? solo ? 1 s : 5 s`, and `??` binds before `?:`, so a given option only picks between the two constants | a multiplayer game with `intermediate` 15000: the option is non-zero, so the pause is one second | the given option is the pause, and only without one does the mode pick one or five seconds | not executed | Scrabble.IntermediateTime, Scrabble.IntermediateOptionIgnored | Scrabble.IntendedIntermediateTime, Scrabble.Configure |
| src/games/Yahtzee/YahtzeeScoreSheet.ts:110 | the small straight is named with the four-of-a-kind key | category 10 on the sheet: it shows the four-of-a-kind name | the small straight's own key `yahtzee.categorySmallStraight` | not executed | YahtzeeSheet.SmallStraightMislabelled | YahtzeeSheet.IntendedCategoryName, YahtzeeSheet.IntendedNamesDistinct |

=== FILE: accept_embed.dfy ===
/** The two-party accept handshake (`AcceptEmbed.awaitResponse`). The
    button collector keeps only clicks by the challenged user, handles at
    most one of them, and `end` resolves `false`; since a promise keeps its
    first resolution, that final `false` matters only when no click was
    handled. The clicks are those that arrive before the collector expires. */
module AcceptEmbed {
  import opened Wrappers

  const ACCEPT := "ACCEPT"
  const DECLINE := "DECLINE"

  datatype Click = Click(userId: string, customId: string)

  /** `options.timeLimit || 30000`. */
  function TimeLimit(option: Option<int>): (ms: int)
    ensures option.None? || option.value == 0 ==> ms == 30000
    ensures option.Some? && option.value != 0 ==> ms == option.value
  {
    if option.Some? && option.value != 0 then option.value else 30000
  }

  /** The collector's state: the promise's settled value and the number of
      clicks handled so far. */
  datatype State = State(settled: Option<bool>, collected: nat)

  /** One click delivered to the collector. */
  function Step(s: State, id: string, c: Click): (r: State)
    ensures s.collected >= 1 || c.userId != id ==> r == s
    ensures s.collected == 0 && c.userId == id ==> r.collected == 1 && r.settled.Some?
  {
    if s.collected >= 1 || c.userId != id then s
    else State(Settle(s.settled, c.customId == ACCEPT), s.collected + 1)
  }

  function Run(s: State, id: string, clicks: seq<Click>): State
    decreases |clicks|
  {
    if |clicks| == 0 then s else Run(Step(s, id, clicks[0]), id, clicks[1..])
  }

  /** `awaitResponse(id)`: the value the promise settles on once the
      clicks have been delivered and the collector has ended. */
  function AwaitResponse(id: string, clicks: seq<Click>): (accepted: bool)
    ensures accepted ==> exists i :: 0 <= i < |clicks| && clicks[i] == Click(id, ACCEPT)
  {
    var s := Run(State(None, 0), id, clicks);
    RunFrom(id, clicks);
    Settle(s.settled, false).value
  }

  /** The reference decision: the challenged user's first click decides,
      and it is an acceptance iff its button is ACCEPT; without such a
      click the answer is no. */
  function FirstDecision(id: string, clicks: seq<Click>): (accepted: bool)
    decreases |clicks|
  {
    if |clicks| == 0 then false
    else if clicks[0].userId == id then clicks[0].customId == ACCEPT
    else FirstDecision(id, clicks[1..])
  }

  /** Once a click has been handled, nothing changes any more. */
  lemma {:induction false} RunFrozen(s: State, id: string, clicks: seq<Click>)
    requires s.collected >= 1
    ensures Run(s, id, clicks) == s
    decreases |clicks|
  {
    if |clicks| > 0 {
      RunFrozen(Step(s, id, clicks[0]), id, clicks[1..]);
    }
  }

  /** From the initial state the run settles exactly as the reference decision says. */
  lemma {:induction false} RunFrom(id: string, clicks: seq<Click>)
    ensures var s := Run(State(None, 0), id, clicks);
            Settle(s.settled, false).value == FirstDecision(id, clicks)
    ensures FirstDecision(id, clicks) ==> exists i :: 0 <= i < |clicks| && clicks[i] == Click(id, ACCEPT)
    decreases |clicks|
  {
    if |clicks| > 0 {
      if clicks[0].userId == id {
        RunFrozen(Step(State(None, 0), id, clicks[0]), id, clicks[1..]);
        if FirstDecision(id, clicks) {
          assert clicks[0] == Click(id, ACCEPT);
        }
      } else {
        RunFrom(id, clicks[1..]);
        if FirstDecision(id, clicks) {
          var i :| 0 <= i < |clicks[1..]| && clicks[1..][i] == Click(id, ACCEPT);
          assert clicks[i + 1] == Click(id, ACCEPT);
        }
      }
    }
  }

  /** The handshake is accepted iff the challenged user's first click is ACCEPT. */
  lemma AwaitResponseMatchesDecision(id: string, clicks: seq<Click>)
    ensures AwaitResponse(id, clicks) == FirstDecision(id, clicks)
  {
    RunFrom(id, clicks);
  }

  /** Clicks by anybody else are filtered out and change nothing. */
  lemma OthersIgnored(id: string, other: Click, clicks: seq<Click>)
    requires other.userId != id
    ensures AwaitResponse(id, [other] + clicks) == AwaitResponse(id, clicks)
  {
    RunFrom(id, [other] + clicks);
    RunFrom(id, clicks);
    assert ([other] + clicks)[1..] == clicks;
  }

  /** Only the first qualifying click is handled: whatever follows it is ignored. */
  lemma {:induction false} LaterClicksIgnored(id: string, clicks: seq<Click>, later: seq<Click>)
    requires exists i :: 0 <= i < |clicks| && clicks[i].userId == id
    ensures AwaitResponse(id, clicks + later) == AwaitResponse(id, clicks)
    decreases |clicks|
  {
    RunFrom(id, clicks + later);
    RunFrom(id, clicks);
    assert (clicks + later)[0] == clicks[0];
    if clicks[0].userId != id {
      assert (clicks + later)[1..] == clicks[1..] + later;
      var i :| 0 <= i < |clicks| && clicks[i].userId == id;
      assert clicks[1..][i - 1].userId == id;
      LaterClicksIgnored(id, clicks[1..], later);
      RunFrom(id, clicks[1..] + later);
      RunFrom(id, clicks[1..]);
    }
  }

  /** Expiry with no click from the challenged user declines. */
  lemma TimeoutDeclines(id: string, clicks: seq<Click>)
    requires forall i :: 0 <= i < |clicks| ==> clicks[i].userId != id
    ensures !AwaitResponse(id, clicks)
  {
  }
}

=== FILE: blackjack.dfy ===
/** The blackjack game (`Blackjack`): one player against the dealer for a
    number of rounds. Each round the player bets by typing a number, two
    cards each are dealt from the end of the deck, and the player hits,
    stands, doubles down or ends the game with buttons. The deck is the
    sequence whose last element is its top card; the shuffles, the typed
    messages and the button clicks of every round are inputs. */
module Blackjack {
  import opened Wrappers
  import Text
  import Card
  import BlackjackHand
  import BlackjackPlayer

  type BjCard = BlackjackHand.BlackjackCard
  type Hand = BlackjackHand.Hand
  type Player = BlackjackPlayer.Player

  const HIT := "HIT"
  const STAND := "STAND"
  const DOUBLE_DOWN := "DOUBLE_DOWN"
  const END_GAME := "END_GAME"

  /** The command's options; `None` is an option that was not given. */
  datatype Options = Options(stay: Option<int>, rounds: Option<int>, reshuffle: Option<int>, bet: Option<int>, money: Option<int>)

  /** The settings `initialize` derives from the options. */
  datatype Config = Config(stay: int, rounds: int, reshuffle: int, minBet: int, money: int)

  /** `initialize`: each setting is its option `||` its default, so zero
      counts as not given. */
  function Initialize(o: Options): (c: Config)
    ensures c.stay == (if o.stay.Some? && o.stay.value != 0 then o.stay.value else 16)
    ensures c.rounds == (if o.rounds.Some? && o.rounds.value != 0 then o.rounds.value else 5)
    ensures c.reshuffle == (if o.reshuffle.Some? && o.reshuffle.value != 0 then o.reshuffle.value else 3)
    ensures c.minBet == (if o.bet.Some? && o.bet.value != 0 then o.bet.value else 5)
    ensures c.money == (if o.money.Some? && o.money.value != 0 then o.money.value else 100)
    ensures c.stay != 0 && c.rounds != 0 && c.reshuffle != 0 && c.minBet != 0 && c.money != 0
  {
    Config(OrNumber(o.stay, 16), OrNumber(o.rounds, 5), OrNumber(o.reshuffle, 3), OrNumber(o.bet, 5), OrNumber(o.money, 100))
  }

  datatype State = State(round: int, config: Config, deck: seq<BjCard>, player: Player, dealer: Hand)

  /** Every card in play: the deck and both hands. */
  function Cards(s: State): multiset<BjCard> {
    multiset(s.deck) + multiset(s.player.hand.cards) + multiset(s.dealer.cards)
  }

  /** A new game: round 0, a freshly generated deck, empty hands. */
  function NewGame(o: Options, rand: seq<nat>): (s: State)
    ensures s.round == 0 && s.config == Initialize(o)
    ensures |s.deck| == 52 && multiset(s.deck) == multiset(BlackjackHand.OrderedDeck())
    ensures s.player == BlackjackPlayer.New(s.config.money, s.config.minBet)
    ensures s.dealer == BlackjackHand.EMPTY
  {
    var c := Initialize(o);
    State(0, c, BlackjackHand.GenerateDeck(rand), BlackjackPlayer.New(c.money, c.minBet), BlackjackHand.EMPTY)
  }

  /** `terminal`: the last round has been played. */
  predicate Terminal(s: State) {
    s.round == s.config.rounds
  }

  /** A new game is never over before its first round. */
  lemma NewGameNotTerminal(o: Options, rand: seq<nat>)
    ensures !Terminal(NewGame(o, rand))
  {
  }

  /** `round % reshuffle === 0` with the source's numbers: a zero divisor
      gives `NaN`, which equals nothing. */
  predicate IsReshuffleRound(round: int, reshuffle: int) {
    reshuffle != 0 && round % reshuffle == 0
  }

  /** `hit`: the top card goes to the hand; with an empty deck `pop` gives
      `undefined` and adding it throws (`None`). */
  function Hit(deck: seq<BjCard>, h: Hand): (r: Option<(seq<BjCard>, Hand)>)
    ensures r.None? <==> |deck| == 0
    ensures r.Some? ==> r.value.0 == deck[..|deck| - 1] && r.value.1 == BlackjackHand.AddCard(h, deck[|deck| - 1])
    ensures r.Some? ==> multiset(r.value.0) + multiset(r.value.1.cards) == multiset(deck) + multiset(h.cards)
  {
    if |deck| == 0 then None
    else
      assert deck == deck[..|deck| - 1] + [deck[|deck| - 1]];
      Some((deck[..|deck| - 1], BlackjackHand.AddCard(h, deck[|deck| - 1])))
  }

  /** `dealCards`: four cards from the top, alternately to the player and
      the dealer. Fewer than four cards throw. */
  function Deal(s: State): (r: Option<State>)
    ensures r.None? <==> |s.deck| < 4
    ensures r.Some? ==> r.value.deck == s.deck[..|s.deck| - 4]
    ensures r.Some? ==> r.value.player.hand.cards == s.player.hand.cards + [s.deck[|s.deck| - 1], s.deck[|s.deck| - 3]]
    ensures r.Some? ==> r.value.dealer.cards == s.dealer.cards + [s.deck[|s.deck| - 2], s.deck[|s.deck| - 4]]
    ensures r.Some? ==> r.value.player == s.player.(hand := r.value.player.hand)
    ensures r.Some? ==> r.value.round == s.round && r.value.config == s.config
    ensures r.Some? ==> Cards(r.value) == Cards(s)
  {
    if |s.deck| < 4 then None
    else
      var n := |s.deck|;
      var d := s.deck;
      var p := BlackjackHand.AddCard(BlackjackHand.AddCard(s.player.hand, d[n - 1]), d[n - 3]);
      var q := BlackjackHand.AddCard(BlackjackHand.AddCard(s.dealer, d[n - 2]), d[n - 4]);
      TwoCards(s.player.hand.cards, d[n - 1], d[n - 3]);
      TwoCards(s.dealer.cards, d[n - 2], d[n - 4]);
      DealKeepsCards(d, s.player.hand.cards, s.dealer.cards);
      Some(s.(deck := d[..n - 4], player := s.player.(hand := p), dealer := q))
  }

  /** Two cards added one after the other. */
  lemma TwoCards<T>(a: seq<T>, x: T, y: T)
    ensures a + [x] + [y] == a + [x, y]
  {
    assert (a + [x]) + [y] == a + ([x] + [y]);
  }

  /** Moving the top four cards of `d` into two hands keeps every card. */
  lemma DealKeepsCards(d: seq<BjCard>, a: seq<BjCard>, b: seq<BjCard>)
    requires |d| >= 4
    ensures multiset(d[..|d| - 4]) + multiset(a + [d[|d| - 1], d[|d| - 3]]) + multiset(b + [d[|d| - 2], d[|d| - 4]])
      == multiset(d) + multiset(a) + multiset(b)
  {
    var n := |d|;
    var top := [d[n - 4], d[n - 3], d[n - 2], d[n - 1]];
    assert d == d[..n - 4] + top;
    assert multiset(d) == multiset(d[..n - 4]) + multiset(top);
    FourCards(d[n - 4], d[n - 3], d[n - 2], d[n - 1]);
    assert multiset(a + [d[n - 1], d[n - 3]]) == multiset(a) + multiset([d[n - 1], d[n - 3]]);
    assert multiset(b + [d[n - 2], d[n - 4]]) == multiset(b) + multiset([d[n - 2], d[n - 4]]);
  }

  /** The four dealt cards, split between the player and the dealer. */
  lemma FourCards<T>(w: T, x: T, y: T, z: T)
    ensures multiset([w, x, y, z]) == multiset([z, x]) + multiset([y, w])
  {
  }

  /** The drawing loop of `stand`: the dealer hits while the hand is worth
      less than `stay`. A draw from an empty deck throws; the cards drawn
      before it stay with the dealer, whose value then stays below `stay`. */
  function DealerDraw(deck: seq<BjCard>, dealer: Hand, stay: int): (r: (seq<BjCard>, Hand))
    ensures r.1.handValue < stay ==> |r.0| == 0
    ensures |r.0| <= |deck| && r.0 == deck[..|r.0|]
    ensures |r.1.cards| == |dealer.cards| + |deck| - |r.0|
    ensures multiset(r.0) + multiset(r.1.cards) == multiset(deck) + multiset(dealer.cards)
    ensures dealer.handValue >= stay ==> r == (deck, dealer)
    ensures |deck| == 0 ==> r == (deck, dealer)
    decreases |deck|
  {
    if dealer.handValue >= stay then (deck, dealer)
    else
      match Hit(deck, dealer)
      case None => (deck, dealer)
      case Some((rest, hand)) =>
        var r := DealerDraw(rest, hand, stay);
        assert rest[..|r.0|] == deck[..|r.0|];
        r
  }

  /** Who won a round that reached `stand`. */
  datatype Winner = PlayerWins | DealerWins | Push

  /** The comparison of `stand` once the dealer has drawn: a busted dealer
      or a lower dealer total loses, a higher dealer total wins, and equal
      totals pay nothing whoever has a blackjack. */
  function Compare(player: Hand, dealer: Hand): (w: Winner)
    ensures BlackjackHand.IsOver21(dealer) ==> w == PlayerWins
    ensures !BlackjackHand.IsOver21(dealer) ==> (w == DealerWins <==> dealer.handValue > player.handValue)
    ensures !BlackjackHand.IsOver21(dealer) ==> (w == PlayerWins <==> player.handValue > dealer.handValue)
    ensures w == Push <==> !BlackjackHand.IsOver21(dealer) && player.handValue == dealer.handValue
  {
    if BlackjackHand.IsOver21(dealer) then PlayerWins
    else if dealer.handValue > player.handValue then DealerWins
    else if player.handValue > dealer.handValue then PlayerWins
    else Push
  }

  /** The money side of a result: a win adds the bet, a loss takes it. */
  function Pay(p: Player, w: Winner): (r: Player)
    ensures w == PlayerWins ==> r.money == p.money + p.bet
    ensures w == DealerWins ==> r.money == p.money - p.bet
    ensures w == Push ==> r.money == p.money
    ensures r == p.(money := r.money)
  {
    match w
    case PlayerWins => BlackjackPlayer.Win(p)
    case DealerWins => BlackjackPlayer.Lose(p)
    case Push => p
  }

  /** A two-card 21 against an equal dealer total is a push: the player's
      blackjack earns nothing. */
  lemma BlackjackTieNotPaid(s: State)
    requires BlackjackHand.HasBlackjack(s.player.hand)
    requires !BlackjackHand.HasBlackjack(s.dealer) && s.dealer.handValue == 21
    ensures Compare(s.player.hand, s.dealer) == Push
    ensures Pay(s.player, Compare(s.player.hand, s.dealer)).money == s.player.money
  {
  }

  /** `stand`: the dealer draws, then the round is paid. When the deck runs
      out first the draw throws and nobody is paid. */
  function Stand(s: State): (r: State)
    ensures r.dealer.handValue < s.config.stay ==> |r.deck| == 0 && r.player == s.player
    ensures r.dealer.handValue >= s.config.stay ==> r.player == Pay(s.player, Compare(s.player.hand, r.dealer))
    ensures s.dealer.handValue >= s.config.stay ==> r.dealer == s.dealer && r.deck == s.deck
    ensures |s.deck| == 0 ==> r.dealer == s.dealer && r.deck == s.deck
    ensures r == s.(deck := r.deck, dealer := r.dealer, player := r.player)
    ensures Cards(r) == Cards(s)
  {
    var (deck, dealer) := DealerDraw(s.deck, s.dealer, s.config.stay);
    var p := if dealer.handValue < s.config.stay then s.player else Pay(s.player, Compare(s.player.hand, dealer));
    var t := s.(deck := deck, dealer := dealer, player := p);
    assert Cards(t) == multiset(deck) + multiset(dealer.cards) + multiset(s.player.hand.cards);
    t
  }

  /** `onLose`: the player's bust loses the bet. */
  function OnLose(s: State): (r: State)
    ensures r.player.money == s.player.money - s.player.bet
    ensures r == s.(player := r.player) && r.player.hand == s.player.hand
  {
    s.(player := BlackjackPlayer.Lose(s.player))
  }

  /** The player takes a card from the top of the deck. */
  function PlayerHit(s: State): (r: Option<State>)
    ensures r.None? <==> |s.deck| == 0
    ensures r.Some? ==> r.value.player.hand.cards == s.player.hand.cards + [s.deck[|s.deck| - 1]]
    ensures r.Some? ==> r.value == s.(deck := r.value.deck, player := s.player.(hand := r.value.player.hand))
    ensures r.Some? ==> Cards(r.value) == Cards(s)
  {
    match Hit(s.deck, s.player.hand)
    case None => None
    case Some((deck, hand)) => Some(s.(deck := deck, player := s.player.(hand := hand)))
  }

  datatype Phase = Betting | Playing

  /** The `disabled` flag of a button in `createBlackjackActionRow`. */
  predicate Disabled(phase: Phase, ended: bool, p: Player, button: string) {
    phase == Betting || ended || (button == DOUBLE_DOWN && !BlackjackPlayer.CanDoubleDown(p))
  }

  /** While betting every button is disabled; while playing only doubling
      down can be, and exactly when the player cannot afford it. */
  lemma DisabledButtons(p: Player, button: string)
    ensures Disabled(Betting, false, p, button)
    ensures Disabled(Playing, false, p, button) <==> button == DOUBLE_DOWN && p.bet * 2 > p.money
  {
  }

  /** A typed message, as the bet collector sees it. */
  datatype Message = Message(author: string, bot: bool, content: string)

  /** The bet collector's filter: from the host, not a bot, and nothing but
      digits (at least one) once trimmed. */
  predicate IsBetMessage(m: Message, host: string) {
    var t := Text.Trim(m.content);
    m.author == host && !m.bot && |t| > 0 && Text.AllDigits(t)
  }

  /** `Number(content)` of a filtered message. */
  function BetOf(m: Message): nat
    requires Text.AllDigits(Text.Trim(m.content))
  {
    Text.ParseDigits(Text.Trim(m.content))
  }

  /** The notice an invalid bet gets. */
  datatype BetNotice = TooLow | TooHigh

  function Notice(p: Player, bet: int): (r: BetNotice)
    requires !BlackjackPlayer.IsValidBet(p, bet)
    ensures r == TooLow <==> bet < p.minBet
    ensures r == TooHigh ==> bet > p.money
  {
    if bet < p.minBet then TooLow else TooHigh
  }

  /** A message that passes the filter and carries a valid bet. */
  predicate AcceptsBet(p: Player, host: string, m: Message) {
    IsBetMessage(m, host) && BlackjackPlayer.IsValidBet(p, BetOf(m))
  }

  /** `awaitBet` over the messages sent before the collector expires,
      from message `from` on: the index of the first filtered message whose
      bet is valid, or `None` when there is none and the game ends. */
  function AwaitBet(p: Player, host: string, msgs: seq<Message>, from: nat): (r: Option<nat>)
    requires from <= |msgs|
    ensures r.Some? ==> from <= r.value < |msgs| && AcceptsBet(p, host, msgs[r.value])
    ensures r.Some? ==> forall i :: from <= i < r.value ==> !AcceptsBet(p, host, msgs[i])
    ensures r.None? ==> forall i :: from <= i < |msgs| ==> !AcceptsBet(p, host, msgs[i])
    decreases |msgs| - from
  {
    if from == |msgs| then None
    else if AcceptsBet(p, host, msgs[from]) then Some(from)
    else AwaitBet(p, host, msgs, from + 1)
  }

  /** A button click on the game message. */
  datatype Click = Click(user: string, button: string)

  /** How the button collector of a round ends. `Idle` is an expiry after
      at least one collected click: the game goes on, the bet unpaid. */
  datatype RoundEnd = Settled | Ended | Timeout | Idle

  /** The player keeps a bet they can cover. */
  predicate Covered(p: Player) {
    0 <= p.bet <= p.money
  }

  /** Money moved by a settled round: the bet or twice it, either way, or
      nothing. */
  predicate SettledMoney(before: Player, after: Player) {
    var d := after.money - before.money;
    d == 0 || d == before.bet || d == -before.bet || d == 2 * before.bet || d == -2 * before.bet
  }

  /** A click that moves no money leaves what a later settlement may move
      unchanged. */
  lemma SettledMoneyFrom(before: Player, mid: Player, after: Player)
    requires mid.money == before.money && mid.bet == before.bet
    ensures SettledMoney(mid, after) <==> SettledMoney(before, after)
  {
  }

  /** Money moved by one payment: the bet held after it, either way, or
      nothing. */
  predicate PaidBet(money: int, after: Player) {
    var d := after.money - money;
    d == 0 || d == after.bet || d == -after.bet
  }

  /** Which hands hold the `undefined` that a draw from an empty deck pushes
      before `calculateHand` throws on it. Such a hand keeps its old value,
      and displaying it throws as well. */
  datatype Broken = Broken(player: bool, dealer: bool)

  const INTACT := Broken(false, false)

  /** What every state of a round keeps: a hand breaks only on an empty
      deck, which stays empty for the rest of the round, and the dealer
      breaks only while still below the stay value. */
  predicate Consistent(s: State, b: Broken) {
    (b.player || b.dealer ==> |s.deck| == 0) && (b.dealer ==> s.dealer.handValue < s.config.stay)
  }

  /** What one collected click leaves: the state, the broken hands, and
      `Some` end when the collector stops. */
  datatype Step = Step(state: State, broken: Broken, end: Option<RoundEnd>)

  /** The `collect` handler for one collected click of the host on an
      enabled button. A throw inside the handler leaves whatever it changed
      before the throw and the collector running (`None`). Every message it
      renders shows the player's hand, and every one but the hit's shows
      the dealer's, so rendering throws on a broken hand. */
  function Collect(s: State, b: Broken, button: string): (r: Step)
    requires Consistent(s, b)
    ensures Consistent(r.state, r.broken)
    ensures (b.player ==> r.broken.player) && (b.dealer ==> r.broken.dealer)
    ensures (button == HIT || button == DOUBLE_DOWN) && |s.deck| == 0 ==> r.broken.player && r.end.None?
    ensures r.broken.player && !b.player ==> (button == HIT || button == DOUBLE_DOWN) && |s.deck| == 0
    ensures r.broken.dealer && !b.dealer ==> (button == STAND || button == DOUBLE_DOWN) && r.end.None?
    ensures button == DOUBLE_DOWN && r.end.None? ==> r.broken.player || r.broken.dealer
    ensures r.state.player.bet == (if button == DOUBLE_DOWN then 2 * s.player.bet else s.player.bet)
    ensures PaidBet(s.player.money, r.state.player)
    ensures r.state.player.money != s.player.money ==> r.end == Some(Settled) || (b.player && button == STAND)
    ensures b.dealer ==> r.end != Some(Settled) && r.state.player.money == s.player.money
    ensures r.end == Some(Settled) ==> b == INTACT && r.broken == INTACT
    ensures Covered(s.player) && (button == DOUBLE_DOWN ==> BlackjackPlayer.CanDoubleDown(s.player)) && !r.broken.player ==>
      r.state.player.money >= 0
    ensures r.end == Some(Ended) <==> button == END_GAME && b == INTACT
    ensures r.end == Some(Ended) ==> r.broken == INTACT
    ensures r.end != Some(Timeout) && r.end != Some(Idle)
    ensures r.state.round == s.round && r.state.config == s.config && r.state.player.minBet == s.player.minBet
    ensures Cards(r.state) == Cards(s)
  {
    if button == HIT then HitStep(s, b)
    else if button == STAND then StandStep(s, b)
    else if button == DOUBLE_DOWN then DoubleStep(s, b)
    else if button == END_GAME then
      if b == INTACT then Step(s, b, Some(Ended)) else Step(s, b, None)
    else Step(s, b, None)
  }

  /** `HIT` inside the handler: a draw from the empty deck breaks the
      player's hand; a bust loses the bet and settles the round. */
  function HitStep(s: State, b: Broken): (r: Step)
    requires Consistent(s, b)
    ensures Consistent(r.state, r.broken)
    ensures |s.deck| == 0 ==> r == Step(s, b.(player := true), None)
    ensures |s.deck| > 0 ==> b == INTACT && r.broken == b
    ensures r.end.None? || r.end == Some(Settled)
    ensures r.state.player.bet == s.player.bet
    ensures r.end.None? ==> r.state.player.money == s.player.money
    ensures r.end == Some(Settled) ==> r.state.player.money == s.player.money - s.player.bet
    ensures r.state.round == s.round && r.state.config == s.config && r.state.player.minBet == s.player.minBet
    ensures Cards(r.state) == Cards(s)
  {
    match PlayerHit(s)
    case None => Step(s, b.(player := true), None)
    case Some(t) =>
      if BlackjackHand.IsOver21(t.player.hand) then Step(OnLose(t), b, Some(Settled)) else Step(t, b, None)
  }

  /** `DOUBLE_DOWN` inside the handler: the bet doubles before the draw, so
      a throw on the empty deck keeps it; a bust loses it, and otherwise the
      player stands. */
  function DoubleStep(s: State, b: Broken): (r: Step)
    requires Consistent(s, b)
    ensures Consistent(r.state, r.broken)
    ensures |s.deck| == 0 ==> r == Step(s.(player := BlackjackPlayer.DoubleDown(s.player)), b.(player := true), None)
    ensures |s.deck| > 0 ==> b == INTACT && !r.broken.player
    ensures r.end.None? || r.end == Some(Settled)
    ensures r.end.None? ==> r.broken.player || r.broken.dealer
    ensures r.state.player.bet == 2 * s.player.bet
    ensures r.end.None? ==> r.state.player.money == s.player.money
    ensures PaidBet(s.player.money, r.state.player)
    ensures Covered(s.player) && BlackjackPlayer.CanDoubleDown(s.player) ==> r.state.player.money >= 0
    ensures r.state.round == s.round && r.state.config == s.config && r.state.player.minBet == s.player.minBet
    ensures Cards(r.state) == Cards(s)
  {
    var d := s.(player := BlackjackPlayer.DoubleDown(s.player));
    match PlayerHit(d)
    case None => Step(d, b.(player := true), None)
    case Some(t) =>
      if BlackjackHand.IsOver21(t.player.hand) then Step(OnLose(t), b, Some(Settled))
      else StandStep(t, b)
  }

  /** `stand` inside the handler: a draw from the empty deck breaks the
      dealer's hand; otherwise the player is paid, and the round settles
      unless rendering the broken player's hand throws. */
  function StandStep(s: State, b: Broken): (r: Step)
    requires Consistent(s, b)
    ensures Consistent(r.state, r.broken)
    ensures r.state == Stand(s)
    ensures r.end.None? || r.end == Some(Settled)
    ensures r.broken.dealer <==> r.state.dealer.handValue < s.config.stay
    ensures r.broken.player == b.player && (b.dealer ==> r.broken.dealer)
    ensures r.end == Some(Settled) <==> !r.broken.dealer && !b.player
    ensures r.state.player.bet == s.player.bet
    ensures PaidBet(s.player.money, r.state.player)
    ensures r.broken.dealer ==> r.state.player.money == s.player.money
    ensures Covered(s.player) ==> r.state.player.money >= 0
    ensures r.state.round == s.round && r.state.config == s.config && r.state.player.minBet == s.player.minBet
    ensures Cards(r.state) == Cards(s)
  {
    var t := Stand(s);
    if t.dealer.handValue < s.config.stay then Step(t, b.(dealer := true), None)
    else if b.player then Step(t, b, None)
    else Step(t, b, Some(Settled))
  }

  /** Doubling down draws exactly one card for the player; a bust then
      loses twice the bet, and otherwise the dealer plays, which settles
      the round unless the deck runs out. */
  lemma DoubleDownDrawsOne(s: State)
    requires |s.deck| > 0
    ensures Collect(s, INTACT, DOUBLE_DOWN).state.player.hand.cards == s.player.hand.cards + [s.deck[|s.deck| - 1]]
    ensures Collect(s, INTACT, DOUBLE_DOWN).state.player.bet == 2 * s.player.bet
    ensures Collect(s, INTACT, DOUBLE_DOWN).end == Some(Settled) || Collect(s, INTACT, DOUBLE_DOWN).broken.dealer
    ensures BlackjackHand.IsOver21(BlackjackHand.AddCard(s.player.hand, s.deck[|s.deck| - 1])) ==>
      Collect(s, INTACT, DOUBLE_DOWN).end == Some(Settled) &&
      Collect(s, INTACT, DOUBLE_DOWN).state.player.money == s.player.money - 2 * s.player.bet
  {
  }

  /** Doubling down on an empty deck keeps the doubled bet, breaks the
      player's hand, and leaves the collector running. */
  lemma EmptyDeckDoubleDown(s: State, b: Broken)
    requires Consistent(s, b) && |s.deck| == 0
    ensures Collect(s, b, DOUBLE_DOWN) == Step(s.(player := BlackjackPlayer.DoubleDown(s.player)), b.(player := true), None)
  {
  }

  /** With the player's hand broken and a dealer already at the stay value
      who beats it, every stand takes the bet again, since rendering the
      result throws before the collector stops. */
  lemma BrokenStandPaysAgain(s: State)
    requires |s.deck| == 0 && s.dealer.handValue >= s.config.stay
    requires !BlackjackHand.IsOver21(s.dealer) && s.dealer.handValue > s.player.hand.handValue
    ensures Collect(s, Broken(true, false), STAND).end.None?
    ensures Collect(s, Broken(true, false), STAND).state.player.money == s.player.money - s.player.bet
    ensures Collect(Collect(s, Broken(true, false), STAND).state, Broken(true, false), STAND).state.player.money
      == s.player.money - 2 * s.player.bet
  {
  }

  /** A hit that busts ends the round and loses the bet. */
  lemma HitBustLoses(s: State)
    requires |s.deck| > 0
    requires BlackjackHand.IsOver21(BlackjackHand.AddCard(s.player.hand, s.deck[|s.deck| - 1]))
    ensures Collect(s, INTACT, HIT).end == Some(Settled)
    ensures Collect(s, INTACT, HIT).state.player.money == s.player.money - s.player.bet
  {
  }

  /** A click the collector takes: by the host, on an enabled button.
      `double` is whether double-down was enabled when the buttons were
      last rendered. */
  predicate Takes(host: string, double: bool, c: Click) {
    c.user == host && (c.button == DOUBLE_DOWN ==> double)
  }

  /** `awaitBlackjackRound` over the clicks that arrive before the collector
      expires. `collected` says whether a click was collected already.
      Clicks by others are filtered out and a disabled button cannot be
      clicked; any other button id is collected and does nothing. The
      buttons are rendered again only after a hit that does not bust, which
      changes neither bet nor money, so double-down keeps the state it had
      after the deal. */
  function Round(s: State, b: Broken, host: string, double: bool, clicks: seq<Click>, collected: bool): (r: (State, Broken, RoundEnd))
    requires Consistent(s, b)
    ensures r.2 == Timeout <==> !collected && forall i :: 0 <= i < |clicks| ==> !Takes(host, double, clicks[i])
    ensures r.2 == Timeout ==> r.0 == s && r.1 == b
    ensures Consistent(r.0, r.1) && (b.player ==> r.1.player) && (b.dealer ==> r.1.dealer)
    ensures r.0.round == s.round && r.0.config == s.config && r.0.player.minBet == s.player.minBet
    ensures Cards(r.0) == Cards(s)
    decreases |clicks|
  {
    if |clicks| == 0 then (s, b, if collected then Idle else Timeout)
    else
      assert forall i :: 1 <= i < |clicks| ==> clicks[i] == clicks[1..][i - 1];
      if !Takes(host, double, clicks[0]) then Round(s, b, host, double, clicks[1..], collected)
      else
        var c := Collect(s, b, clicks[0].button);
        if c.end.Some? then (c.state, c.broken, c.end.value)
        else Round(c.state, c.broken, host, double, clicks[1..], true)
  }

  /** How a round can end: only an intact round settles or is ended by the
      player, a settled round moves the bet or twice it, and a round whose
      dealer is already broken cannot settle. */
  lemma {:induction false} RoundSettled(s: State, b: Broken, host: string, double: bool, clicks: seq<Click>, collected: bool)
    requires Consistent(s, b)
    ensures b.dealer ==> Round(s, b, host, double, clicks, collected).2 != Settled
    ensures Round(s, b, host, double, clicks, collected).2 == Settled ==>
      Round(s, b, host, double, clicks, collected).1 == INTACT &&
      SettledMoney(s.player, Round(s, b, host, double, clicks, collected).0.player)
    ensures Round(s, b, host, double, clicks, collected).2 == Ended ==> Round(s, b, host, double, clicks, collected).1 == INTACT
    decreases |clicks|
  {
    if |clicks| > 0 {
      if !Takes(host, double, clicks[0]) {
        RoundSettled(s, b, host, double, clicks[1..], collected);
      } else {
        var c := Collect(s, b, clicks[0].button);
        if c.end.None? {
          RoundSettled(c.state, c.broken, host, double, clicks[1..], true);
          if c.state.player.bet == s.player.bet && c.state.player.money == s.player.money {
            SettledMoneyFrom(s.player, c.state.player, Round(c.state, c.broken, host, double, clicks[1..], true).0.player);
          }
        }
      }
    }
  }

  /** The money of a round while the player's hand stays intact: it moves
      only by settling, and a bet the player covers, with double-down shown
      only when affordable, leaves it non-negative. Once the player's hand
      is broken each stand pays again, as `BrokenStandPaysAgain` shows, so
      nothing is promised then. */
  lemma {:induction false} RoundMoney(s: State, b: Broken, host: string, double: bool, clicks: seq<Click>, collected: bool)
    requires Consistent(s, b)
    ensures Round(s, b, host, double, clicks, collected).2 != Settled && !Round(s, b, host, double, clicks, collected).1.player ==>
      Round(s, b, host, double, clicks, collected).0.player.money == s.player.money
    ensures Covered(s.player) && (double ==> BlackjackPlayer.CanDoubleDown(s.player)) && !Round(s, b, host, double, clicks, collected).1.player ==>
      Round(s, b, host, double, clicks, collected).0.player.money >= 0
    decreases |clicks|
  {
    if |clicks| > 0 {
      if !Takes(host, double, clicks[0]) {
        RoundMoney(s, b, host, double, clicks[1..], collected);
      } else {
        var c := Collect(s, b, clicks[0].button);
        if c.end.None? {
          RoundMoney(c.state, c.broken, host, double, clicks[1..], true);
          RoundSettled(c.state, c.broken, host, double, clicks[1..], true);
        }
      }
    }
  }

  /** What a round's players type and click, and the shuffle used when the
      round brings a new deck. */
  datatype RoundInput = RoundInput(shuffle: seq<nat>, bets: seq<Message>, clicks: seq<Click>)

  /** Why the game stopped. */
  datatype Reason = Inactive | EndedByPlayer | RoundsDone | CannotBet | Thrown

  /** Where the game stopped, why, and whether some round broke the
      player's hand. */
  datatype Outcome = Outcome(state: State, reason: Reason, broke: bool)

  /** The start of a round: the round number goes up and a new deck comes
      every `reshuffle` rounds. */
  function BeginRound(s: State, shuffle: seq<nat>): (r: State)
    ensures r.round == s.round + 1
    ensures IsReshuffleRound(r.round, s.config.reshuffle) ==> r.deck == BlackjackHand.GenerateDeck(shuffle)
    ensures !IsReshuffleRound(r.round, s.config.reshuffle) ==> r.deck == s.deck
    ensures r == s.(round := r.round, deck := r.deck)
  {
    var round := s.round + 1;
    s.(round := round, deck := if IsReshuffleRound(round, s.config.reshuffle) then BlackjackHand.GenerateDeck(shuffle) else s.deck)
  }

  /** The end of the loop body once the buttons are done: the game stops
      when the last round is played or the player cannot bet any more,
      and otherwise both hands are cleared for the next round. */
  function EndRound(s: State, end: RoundEnd): (r: (State, Option<Reason>))
    ensures r.0.config == s.config && r.0.round == s.round
    ensures r.0.player.money == s.player.money && r.0.player.minBet == s.player.minBet
    ensures r.1 == Some(RoundsDone) ==> Terminal(r.0)
    ensures r.1 == Some(CannotBet) ==> !BlackjackPlayer.CanBet(r.0.player)
    ensures r.1.None? <==> (end.Settled? || end.Idle?) && !Terminal(s) && BlackjackPlayer.CanBet(s.player)
    ensures r.1.None? ==> r.0.player.hand == BlackjackHand.EMPTY && r.0.dealer == BlackjackHand.EMPTY && r.0.player.bet == 0
  {
    if end == Timeout then (s, Some(Inactive))
    else if end == Ended then (s, Some(EndedByPlayer))
    else if Terminal(s) then (s, Some(RoundsDone))
    else if !BlackjackPlayer.CanBet(s.player) then (s, Some(CannotBet))
    else (s.(player := BlackjackPlayer.Restart(s.player), dealer := BlackjackHand.Restart(s.dealer)), None)
  }

  /** The part of a round after a valid bet: the deal and the buttons. The
      last component says whether the round broke the player's hand. */
  function DealAndPlay(s: State, host: string, clicks: seq<Click>): (r: (State, Option<Reason>, bool))
    requires Covered(s.player)
    ensures r.0.config == s.config && r.0.round == s.round
    ensures r.1 == Some(RoundsDone) ==> Terminal(r.0)
    ensures r.1 == Some(CannotBet) ==> !BlackjackPlayer.CanBet(r.0.player)
    ensures r.1.None? ==> !Terminal(r.0) && BlackjackPlayer.CanBet(r.0.player)
    ensures r.1.None? ==> r.0.player.hand == BlackjackHand.EMPTY && r.0.dealer == BlackjackHand.EMPTY && r.0.player.bet == 0
    ensures r.1 == Some(EndedByPlayer) ==> !r.2
    ensures !r.2 ==> r.0.player.money >= 0
    ensures r.0.player.minBet == s.player.minBet
  {
    match Deal(s)
    case None => (s, Some(Thrown), false)
    case Some(s3) =>
      assert Covered(s3.player);
      var rr := Round(s3, INTACT, host, BlackjackPlayer.CanDoubleDown(s3.player), clicks, false);
      RoundSettled(s3, INTACT, host, BlackjackPlayer.CanDoubleDown(s3.player), clicks, false);
      RoundMoney(s3, INTACT, host, BlackjackPlayer.CanDoubleDown(s3.player), clicks, false);
      var e := EndRound(rr.0, rr.2);
      (e.0, e.1, rr.1.player)
  }

  /** The body of the loop of `play` for one round: the round starts, the
      player bets, the cards are dealt and the buttons played. `None` means
      the loop goes on to the next round. */
  function PlayRound(s: State, host: string, input: RoundInput): (r: (State, Option<Reason>, bool))
    ensures r.0.config == s.config && r.0.round == s.round + 1
    ensures r.1 == Some(RoundsDone) ==> Terminal(r.0)
    ensures r.1 == Some(CannotBet) ==> !BlackjackPlayer.CanBet(r.0.player)
    ensures r.1.None? ==> !Terminal(r.0) && BlackjackPlayer.CanBet(r.0.player)
    ensures r.1.None? ==> r.0.player.hand == BlackjackHand.EMPTY && r.0.dealer == BlackjackHand.EMPTY && r.0.player.bet == 0
    ensures s.player.money >= 0 && !r.2 ==> r.0.player.money >= 0
    ensures r.0.player.minBet == s.player.minBet
  {
    var s1 := BeginRound(s, input.shuffle);
    match AwaitBet(s1.player, host, input.bets, 0)
    case None => (s1, Some(Inactive), false)
    case Some(k) =>
      var bet := BetOf(input.bets[k]);
      assert BlackjackPlayer.IsValidBet(s1.player, bet);
      DealAndPlay(s1.(player := BlackjackPlayer.SetBet(s1.player, bet)), host, input.clicks)
  }

  /** `play`: rounds until one ends the game. The game also stops, as
      inactive, when the inputs run out, since every further collector
      would then expire. */
  function Play(s: State, host: string, inputs: seq<RoundInput>): (o: Outcome)
    ensures o.state.config == s.config
    ensures o.reason == RoundsDone ==> Terminal(o.state)
    ensures o.reason == CannotBet ==> !BlackjackPlayer.CanBet(o.state.player)
    ensures s.player.money >= 0 && !o.broke ==> o.state.player.money >= 0
    ensures s.round <= o.state.round <= s.round + |inputs|
    ensures 0 <= s.round <= s.config.rounds ==> o.state.round <= s.config.rounds
    decreases |inputs|
  {
    if Terminal(s) then Outcome(s, RoundsDone, false)
    else if |inputs| == 0 then Outcome(s, Inactive, false)
    else
      var (t, reason, broke) := PlayRound(s, host, inputs[0]);
      if reason.Some? then Outcome(t, reason.value, broke)
      else
        var o := Play(t, host, inputs[1..]);
        o.(broke := o.broke || broke)
  }
}

=== FILE: blackjack_hand.dfy ===
/** Blackjack cards and hands (`BlackjackCard`, `BlackjackPlayerBase`):
    each card's game value, the value of a hand with aces counted as 11
    or 1, and the hand's display. */
module BlackjackHand {
  import Text
  import Card
  import Random

  datatype BlackjackCard = BlackjackCard(card: Card.Card, gameValue: int)

  /** A card's game value: 10 for a face card, 11 for an ace, the number
      itself otherwise. */
  function GameValue(v: string): (r: int)
    requires v in Card.VALUES
    ensures v == "J" || v == "Q" || v == "K" ==> r == 10
    ensures v == "A" ==> r == 11
    ensures v != "J" && v != "Q" && v != "K" && v != "A" ==> Text.AllDigits(v) && r == Text.ParseDigits(v) && 2 <= r <= 10
  {
    if v in ["J", "Q", "K"] then 10
    else if v == "A" then 11
    else Text.ParseDigits(v)
  }

  /** The blackjack deck before shuffling, in the order of `Card.OrderedDeck`. */
  function OrderedDeck(): (d: seq<BlackjackCard>)
    ensures |d| == 52
    ensures forall i :: 0 <= i < 52 ==> d[i].card == Card.OrderedDeck()[i]
    ensures forall i :: 0 <= i < 52 ==> d[i].gameValue == GameValue(Card.VALUES[i / 4])
  {
    seq(52, i requires 0 <= i < 52 => BlackjackCard(Card.Make(Card.VALUES[i / 4], Card.SUITS[i % 4]), GameValue(Card.VALUES[i / 4])))
  }

  /** `BlackjackCard.generateDeck` with the random draws `rand`. */
  function GenerateDeck(rand: seq<nat>): (d: seq<BlackjackCard>)
    ensures |d| == 52
    ensures multiset(d) == multiset(OrderedDeck())
    ensures forall i :: 0 <= i < 52 ==> d[i].card == Card.GenerateDeck(rand)[i]
    ensures forall i :: 0 <= i < 52 ==> d[i].card.value in Card.VALUES && d[i].gameValue == GameValue(d[i].card.value)
  {
    var d := Random.Shuffle(OrderedDeck(), rand);
    ShuffledCards(rand);
    DeckCardsValued(d);
    d
  }

  /** With the same draws, the blackjack deck is shuffled card for card as
      the plain deck. */
  lemma ShuffledCards(rand: seq<nat>)
    ensures forall i :: 0 <= i < 52 ==> Random.Shuffle(OrderedDeck(), rand)[i].card == Card.GenerateDeck(rand)[i]
  {
    var f := (c: BlackjackCard) => c.card;
    assert forall i :: 0 <= i < 52 ==> Card.OrderedDeck()[i] == f(OrderedDeck()[i]);
    Random.ShuffleProjects(Card.OrderedDeck(), OrderedDeck(), f, rand);
  }

  /** Any arrangement of the ordered deck gives each card its game value. */
  lemma DeckCardsValued(d: seq<BlackjackCard>)
    requires multiset(d) == multiset(OrderedDeck())
    ensures forall i :: 0 <= i < |d| ==> d[i].card.value in Card.VALUES && d[i].gameValue == GameValue(d[i].card.value)
  {
    var o := OrderedDeck();
    forall i | 0 <= i < |d| ensures d[i].card.value in Card.VALUES && d[i].gameValue == GameValue(d[i].card.value) {
      assert d[i] in multiset(o);
      var j :| 0 <= j < 52 && o[j] == d[i];
    }
  }

  predicate IsAce(c: BlackjackCard) {
    c.card.value == "A"
  }

  predicate IsTen(c: BlackjackCard) {
    c.gameValue == 10
  }

  /** The number of cards of `s` satisfying `p`. */
  function Count(s: seq<BlackjackCard>, p: BlackjackCard -> bool): (n: nat)
    ensures n <= |s|
    decreases |s|
  {
    if |s| == 0 then 0 else Count(s[..|s| - 1], p) + (if p(s[|s| - 1]) then 1 else 0)
  }

  /** A predicate that holds exactly on positions `lo` to `hi` counts
      `hi - lo` cards. */
  lemma {:induction false} CountRange(s: seq<BlackjackCard>, p: BlackjackCard -> bool, lo: nat, hi: nat)
    requires lo <= hi <= |s|
    requires forall i :: 0 <= i < |s| ==> (p(s[i]) <==> lo <= i < hi)
    ensures Count(s, p) == hi - lo
    decreases |s|
  {
    if |s| > 0 {
      var t := s[..|s| - 1];
      if hi == |s| {
        if lo < hi {
          CountRange(t, p, lo, hi - 1);
        } else {
          CountRange(t, p, lo - 1, hi - 1);
        }
      } else {
        CountRange(t, p, lo, hi);
      }
    }
  }

  /** The deck has four aces, at the end of the ordered deck, and sixteen
      ten-valued cards: the tens, jacks, queens and kings. */
  lemma DeckComposition()
    ensures Count(OrderedDeck(), IsAce) == 4
    ensures Count(OrderedDeck(), IsTen) == 16
  {
    var d := OrderedDeck();
    forall i | 0 <= i < 52 ensures IsAce(d[i]) <==> 48 <= i < 52 {
      assert d[i].card.value == Card.VALUES[i / 4];
    }
    CountRange(d, IsAce, 48, 52);
    forall i | 0 <= i < 52 ensures IsTen(d[i]) <==> 32 <= i < 48 {
      assert d[i].gameValue == GameValue(Card.VALUES[i / 4]);
    }
    CountRange(d, IsTen, 32, 48);
  }

  /** The sum of the game values. */
  function Sum(cards: seq<BlackjackCard>): int
    decreases |cards|
  {
    if |cards| == 0 then 0 else Sum(cards[..|cards| - 1]) + cards[|cards| - 1].gameValue
  }

  /** The number of aces. */
  function Aces(cards: seq<BlackjackCard>): nat {
    Count(cards, IsAce)
  }

  /** The loop of `calculateHand`: while the sum exceeds 21 and an ace is
      still counted as 11, count it as 1. */
  function Reduce(sum: int, aces: nat): (r: int)
    ensures sum - 10 * aces <= r <= sum
    ensures (sum - r) % 10 == 0
    ensures r > 21 ==> r == sum - 10 * aces
    ensures r < sum ==> r > 11
    decreases aces
  {
    if sum > 21 && aces > 0 then Reduce(sum - 10, aces - 1) else sum
  }

  /** `calculateHand`: the best value not above 21 that counting aces as 1
      allows, or the all-aces-low value when even that exceeds 21. */
  function CalculateHand(cards: seq<BlackjackCard>): (v: int)
    ensures Sum(cards) - 10 * Aces(cards) <= v <= Sum(cards)
    ensures v > 21 ==> v == Sum(cards) - 10 * Aces(cards)
    ensures v < Sum(cards) ==> v > 11
    ensures (Sum(cards) - v) % 10 == 0
  {
    Reduce(Sum(cards), Aces(cards))
  }

  /** The contract of `CalculateHand` admits one value only: any value
      with the same four properties is the hand's value. */
  lemma HandValueDetermined(cards: seq<BlackjackCard>, w: int)
    requires Sum(cards) - 10 * Aces(cards) <= w <= Sum(cards)
    requires w > 21 ==> w == Sum(cards) - 10 * Aces(cards)
    requires w < Sum(cards) ==> w > 11
    requires (Sum(cards) - w) % 10 == 0
    ensures w == CalculateHand(cards)
  {
    var v := CalculateHand(cards);
    var s := Sum(cards);
    assert (v - w) % 10 == 0 by {
      assert v - w == (s - w) - (s - v);
    }
  }

  datatype Hand = Hand(cards: seq<BlackjackCard>, handValue: int)

  const EMPTY := Hand([], 0)

  predicate IsOver21(h: Hand) {
    h.handValue > 21
  }

  predicate HasBlackjack(h: Hand) {
    h.handValue == 21 && |h.cards| == 2
  }

  /** `addCard`: appends the card and recomputes the value of the whole hand. */
  function AddCard(h: Hand, c: BlackjackCard): (r: Hand)
    ensures r.cards == h.cards + [c]
    ensures r.handValue == CalculateHand(r.cards)
  {
    Hand(h.cards + [c], CalculateHand(h.cards + [c]))
  }

  /** `restart`: no card and value 0. */
  function Restart(h: Hand): (r: Hand)
    ensures r.cards == [] && r.handValue == 0
  {
    EMPTY
  }

  /** A two-card 21 is an ace and a ten-valued card. */
  lemma BlackjackIsAceAndTen(a: BlackjackCard, b: BlackjackCard)
    requires 2 <= a.gameValue <= 11 && 2 <= b.gameValue <= 11
    requires IsAce(a) <==> a.gameValue == 11
    requires IsAce(b) <==> b.gameValue == 11
    requires HasBlackjack(AddCard(AddCard(EMPTY, a), b))
    ensures (IsAce(a) && IsTen(b)) || (IsTen(a) && IsAce(b))
  {
    var cards := [a, b];
    assert AddCard(AddCard(EMPTY, a), b).cards == cards;
    assert cards[..1] == [a];
    assert [a][..0] == [];
    assert Sum([a]) == a.gameValue;
    assert Sum(cards) == a.gameValue + b.gameValue;
  }

  const HIDDEN := "**??**"

  /** The shown text of each card: the last one hidden when asked. */
  function Shown(cards: seq<BlackjackCard>, hideLast: bool): (r: seq<string>)
    ensures |r| == |cards|
    ensures forall i :: 0 <= i < |cards| ==> r[i] == if hideLast && i == |cards| - 1 then HIDDEN else cards[i].card.display
  {
    seq(|cards|, i requires 0 <= i < |cards| => if hideLast && i == |cards| - 1 then HIDDEN else cards[i].card.display)
  }

  /** `getDisplay(hideLast)`: the cards' texts separated by commas. */
  function GetDisplay(h: Hand, hideLast: bool): (r: string)
    ensures |h.cards| == 0 ==> r == ""
    ensures |h.cards| > 0 ==> |Shown(h.cards, hideLast)[0]| <= |r| && r[..|Shown(h.cards, hideLast)[0]|] == Shown(h.cards, hideLast)[0]
    ensures |h.cards| == 1 ==> r == Shown(h.cards, hideLast)[0]
  {
    Text.Join(Shown(h.cards, hideLast), ", ")
  }

  /** Adding a card to the shown hand adds exactly that card's text at the
      end when nothing is hidden. */
  lemma DisplaySnoc(h: Hand, c: BlackjackCard)
    requires |h.cards| > 0
    ensures GetDisplay(AddCard(h, c), false) == GetDisplay(h, false) + ", " + c.card.display
  {
    assert Shown(h.cards + [c], false) == Shown(h.cards, false) + [c.card.display];
    Text.JoinSnoc(Shown(h.cards, false), c.card.display, ", ");
  }
}

=== FILE: blackjack_player.dfy ===
/** `BlackjackPlayer`: a hand plus money, a minimum bet and the current
    bet. */
module BlackjackPlayer {
  import BlackjackHand

  /** The bet is `undefined` in the source until the first `setBet`; every
      read of it follows a `setBet`, so it starts at 0 here. */
  datatype Player = Player(hand: BlackjackHand.Hand, bet: int, minBet: int, money: int)

  function New(startingMoney: int, minBet: int): (p: Player)
    ensures p.money == startingMoney && p.minBet == minBet
    ensures p.hand == BlackjackHand.EMPTY
  {
    Player(BlackjackHand.EMPTY, 0, minBet, startingMoney)
  }

  /** `canBet`: the player can still afford the minimum bet. */
  predicate CanBet(p: Player) {
    p.money >= p.minBet
  }

  /** `canDoubleDown`: the player can afford twice the bet. */
  predicate CanDoubleDown(p: Player) {
    p.bet * 2 <= p.money
  }

  /** `isValidBet`: between the minimum bet and the money, both included. */
  predicate IsValidBet(p: Player, bet: int) {
    bet <= p.money && bet >= p.minBet
  }

  /** `win`: the bet is added to the money. */
  function Win(p: Player): (r: Player)
    ensures r.money == p.money + p.bet
    ensures r == p.(money := r.money)
  {
    p.(money := p.money + p.bet)
  }

  /** `lose`: the bet is taken from the money. */
  function Lose(p: Player): (r: Player)
    ensures r.money == p.money - p.bet
    ensures r == p.(money := r.money)
    ensures p.bet <= p.money ==> r.money >= 0
  {
    p.(money := p.money - p.bet)
  }

  function SetBet(p: Player, bet: int): (r: Player)
    ensures r.bet == bet
    ensures r.money == p.money && r.minBet == p.minBet && r.hand == p.hand
  {
    p.(bet := bet)
  }

  /** `doubleDown`: the bet is doubled. */
  function DoubleDown(p: Player): (r: Player)
    ensures r.bet == 2 * p.bet && r == p.(bet := r.bet)
    ensures CanDoubleDown(p) ==> r.bet <= r.money
  {
    p.(bet := p.bet * 2)
  }

  /** `restart`: an empty hand and no bet; the money is kept. */
  function Restart(p: Player): (r: Player)
    ensures r.hand == BlackjackHand.EMPTY && r.bet == 0
    ensures r.money == p.money && r.minBet == p.minBet
  {
    Player(BlackjackHand.Restart(p.hand), 0, p.minBet, p.money)
  }

  /** Winning and then losing the same bet restores the money. */
  lemma WinLoseInverse(p: Player)
    ensures Lose(Win(p)) == p
    ensures Win(Lose(p)) == p
  {
  }

  /** A valid bet, even doubled when doubling is allowed, can be lost
      without the money going negative. */
  lemma LosingValidBetKeepsMoney(p: Player, bet: int)
    requires IsValidBet(p, bet)
    ensures Lose(SetBet(p, bet)).money >= 0
    ensures CanDoubleDown(SetBet(p, bet)) ==> Lose(DoubleDown(SetBet(p, bet))).money >= 0
  {
  }
}

=== FILE: board.dfy ===
/** Rectangular boards (`Board<T>` and `Game.generateBoard`): `height`
    rows of `width` cells. */
module Board {

  type Board<T> = seq<seq<T>>

  /** `height` rows, each of `width` cells. */
  predicate IsGrid<T>(b: Board<T>, width: nat, height: nat) {
    |b| == height && forall r :: 0 <= r < |b| ==> |b[r]| == width
  }

  /** `(r, c)` names a cell of the board. */
  predicate InBoard<T>(b: Board<T>, r: int, c: int) {
    0 <= r < |b| && 0 <= c < |b[r]|
  }

  /** `generateBoard({ width, height, map })` for a constant `map`, the
      only kind the games pass: every cell holds `value`. */
  function Generate<T>(width: nat, height: nat, value: T): (b: Board<T>)
    ensures IsGrid(b, width, height)
    ensures forall r, c :: 0 <= r < height && 0 <= c < width ==> b[r][c] == value
  {
    seq(height, _ => seq(width, _ => value))
  }

  /** The board with cell `(r, c)` replaced by `v`. */
  function Set<T>(b: Board<T>, r: nat, c: nat, v: T): (b': Board<T>)
    requires InBoard(b, r, c)
    ensures |b'| == |b| && forall k :: 0 <= k < |b| ==> |b'[k]| == |b[k]|
    ensures b'[r][c] == v
    ensures forall k, j :: InBoard(b, k, j) && (k != r || j != c) ==> b'[k][j] == b[k][j]
  {
    b[r := b[r][c := v]]
  }
}

=== FILE: card.dfy ===
/** Playing cards (`Card`): suits, values, display and colour, and the
    shuffled deck of `generateDeck`. */
module Card {
  import Random

  datatype Suit = Spades | Clubs | Diamonds | Hearts

  /** The suit as the emoji text it is displayed with. */
  function SuitText(s: Suit): string {
    match s
    case Spades => "\U{2660}\U{FE0F}"
    case Clubs => "\U{2663}\U{FE0F}"
    case Diamonds => "\U{2666}\U{FE0F}"
    case Hearts => "\U{2764}\U{FE0F}"
  }

  const SUITS: seq<Suit> := [Spades, Clubs, Diamonds, Hearts]
  const VALUES: seq<string> := ["2", "3", "4", "5", "6", "7", "8", "9", "10", "J", "Q", "K", "A"]

  datatype Color = B | R

  datatype Card = Card(value: string, suit: Suit, display: string, color: Color)

  /** The constructor: black for spades and clubs, red otherwise. */
  function New(value: string, suit: Suit, display: string): (c: Card)
    ensures c.value == value && c.suit == suit && c.display == display
    ensures c.color == B <==> suit == Spades || suit == Clubs
  {
    Card(value, suit, display, if suit in [Spades, Clubs] then B else R)
  }

  /** The card of a value and a suit as `generateDeck` builds it: displayed
      as the suit and the value in bold. */
  function Make(value: string, suit: Suit): (c: Card)
    ensures c.value == value && c.suit == suit
    ensures c.display == "**" + SuitText(suit) + value + "**"
  {
    New(value, suit, "**" + SuitText(suit) + value + "**")
  }

  /** The deck before shuffling: values in order, each in the four suits. */
  function OrderedDeck(): (d: seq<Card>)
    ensures |d| == 52
    ensures forall i :: 0 <= i < 52 ==> d[i] == Make(VALUES[i / 4], SUITS[i % 4])
  {
    seq(52, i requires 0 <= i < 52 => Make(VALUES[i / 4], SUITS[i % 4]))
  }

  /** Every value-suit pair occurs in the ordered deck exactly once. */
  lemma OrderedDeckComplete(v: nat, s: nat)
    requires v < 13 && s < 4
    ensures OrderedDeck()[4 * v + s] == Make(VALUES[v], SUITS[s])
    ensures forall i :: 0 <= i < 52 && OrderedDeck()[i].value == VALUES[v] && OrderedDeck()[i].suit == SUITS[s] ==> i == 4 * v + s
  {
    var d := OrderedDeck();
    assert (4 * v + s) / 4 == v && (4 * v + s) % 4 == s;
    forall i | 0 <= i < 52 && d[i].value == VALUES[v] && d[i].suit == SUITS[s]
      ensures i == 4 * v + s
    {
      assert VALUES[i / 4] == VALUES[v];
      RankOfValue(i / 4);
      RankOfValue(v);
      assert i / 4 == v;
      assert i % 4 == s;
    }
  }

  /** The position of a value in `VALUES`, read off its first character. */
  function Rank(value: string): int {
    if |value| == 0 then -1
    else match value[0]
      case '1' => 8
      case 'J' => 9
      case 'Q' => 10
      case 'K' => 11
      case 'A' => 12
      case c => if '2' <= c <= '9' then c as int - '2' as int else -1
  }

  /** The values are told apart by their first characters. */
  lemma RankOfValue(k: nat)
    requires k < 13
    ensures Rank(VALUES[k]) == k
  {
  }

  /** No card of the ordered deck occurs twice. */
  lemma OrderedDeckDistinct(i: nat, j: nat)
    requires i < j < 52
    ensures OrderedDeck()[i] != OrderedDeck()[j]
  {
    var d := OrderedDeck();
    if i / 4 == j / 4 {
      assert i % 4 != j % 4;
      assert d[i].suit != d[j].suit;
    } else {
      RankOfValue(i / 4);
      RankOfValue(j / 4);
      assert d[i].value != d[j].value;
    }
  }

  /** `generateDeck`: a shuffled ordered deck. */
  function GenerateDeck(rand: seq<nat>): (d: seq<Card>)
    ensures |d| == 52
    ensures multiset(d) == multiset(OrderedDeck())
  {
    Random.Shuffle(OrderedDeck(), rand)
  }

  /** A sequence is what comes before position `k`, the element there, and
      what comes after. */
  lemma SplitAt<T>(d: seq<T>, k: nat)
    requires k < |d|
    ensures d == d[..k] + [d[k]] + d[k + 1..]
  {
  }

  /** A generated deck holds every value-suit pair exactly once. */
  lemma GeneratedDeckHasEveryCardOnce(rand: seq<nat>, v: nat, s: nat)
    requires v < 13 && s < 4
    ensures multiset(GenerateDeck(rand))[Make(VALUES[v], SUITS[s])] == 1
  {
    var d := OrderedDeck();
    var c := Make(VALUES[v], SUITS[s]);
    OrderedDeckComplete(v, s);
    var k := 4 * v + s;
    SplitAt(d, k);
    assert c !in d[..k] by {
      forall i | 0 <= i < k ensures d[i] != c { OrderedDeckDistinct(i, k); }
    }
    assert c !in d[k + 1..] by {
      forall i | k + 1 <= i < 52 ensures d[i] != c { OrderedDeckDistinct(k, i); }
    }
    assert multiset(d) == multiset(d[..k]) + multiset{c} + multiset(d[k + 1..]);
  }
}

=== FILE: collection.dfy ===
/** A model of discord.js's `Collection` (a JavaScript `Map`): entries keep
    the order in which their keys were first inserted, `set` on an existing
    key replaces the value in place, `delete` removes the entry. */
module Collection {
  import opened Wrappers

  datatype Entry<V> = Entry(key: string, value: V)

  /** No key occurs twice. */
  predicate KeysDistinct<V>(c: seq<Entry<V>>) {
    forall i, j :: 0 <= i < j < |c| ==> c[i].key != c[j].key
  }

  /** The position of `k`, if present. */
  function IndexOf<V>(c: seq<Entry<V>>, k: string): (r: Option<nat>)
    ensures r.Some? ==> r.value < |c| && c[r.value].key == k
    ensures r.Some? ==> forall j :: 0 <= j < r.value ==> c[j].key != k
    ensures r.None? ==> forall j :: 0 <= j < |c| ==> c[j].key != k
    decreases |c|
  {
    if |c| == 0 then None
    else if c[0].key == k then Some(0)
    else match IndexOf(c[1..], k)
      case None => None
      case Some(i) => Some(i + 1)
  }

  /** `c.get(k)`. */
  function Get<V>(c: seq<Entry<V>>, k: string): (r: Option<V>)
    ensures r.Some? <==> exists j :: 0 <= j < |c| && c[j].key == k
  {
    match IndexOf(c, k)
    case None => None
    case Some(i) => Some(c[i].value)
  }

  /** `c.has(k)`. */
  predicate Has<V>(c: seq<Entry<V>>, k: string) {
    Get(c, k).Some?
  }

  /** `c.set(k, v)`. */
  function Set<V>(c: seq<Entry<V>>, k: string, v: V): (r: seq<Entry<V>>)
    requires KeysDistinct(c)
    ensures KeysDistinct(r)
    ensures Get(r, k) == Some(v)
    ensures forall k' :: k' != k ==> Get(r, k') == Get(c, k')
    ensures |r| == if Has(c, k) then |c| else |c| + 1
    ensures Has(c, k) ==> forall j :: 0 <= j < |c| ==> r[j] == if c[j].key == k then Entry(k, v) else c[j]
    ensures !Has(c, k) ==> r == c + [Entry(k, v)]
  {
    match IndexOf(c, k)
    case Some(i) =>
      var r := c[i := Entry(k, v)];
      assert forall k' :: IndexOf(r, k') == IndexOf(c, k') by {
        forall k' ensures IndexOf(r, k') == IndexOf(c, k') {
          IndexOfSameKeys(r, c, k');
        }
      }
      r
    case None =>
      var r := c + [Entry(k, v)];
      assert forall k' :: k' != k ==> IndexOf(r, k') == IndexOf(c, k') by {
        forall k' | k' != k ensures IndexOf(r, k') == IndexOf(c, k') {
          IndexOfAppend(c, Entry(k, v), k');
        }
      }
      IndexOfAppendFound(c, Entry(k, v));
      r
  }

  /** Lookups depend only on the keys, not on the values. */
  lemma {:induction false} IndexOfSameKeys<V>(c: seq<Entry<V>>, d: seq<Entry<V>>, k: string)
    requires |c| == |d|
    requires forall j :: 0 <= j < |c| ==> c[j].key == d[j].key
    ensures IndexOf(c, k) == IndexOf(d, k)
    decreases |c|
  {
    if |c| > 0 {
      IndexOfSameKeys(c[1..], d[1..], k);
    }
  }

  /** Appending an entry with a different key does not move a lookup. */
  lemma {:induction false} IndexOfAppend<V>(c: seq<Entry<V>>, e: Entry<V>, k: string)
    requires e.key != k
    ensures IndexOf(c + [e], k) == IndexOf(c, k)
    decreases |c|
  {
    if |c| > 0 {
      assert (c + [e])[1..] == c[1..] + [e];
      IndexOfAppend(c[1..], e, k);
    }
  }

  /** An appended entry whose key is new is found at the end. */
  lemma {:induction false} IndexOfAppendFound<V>(c: seq<Entry<V>>, e: Entry<V>)
    requires IndexOf(c, e.key).None?
    ensures IndexOf(c + [e], e.key) == Some(|c|)
    decreases |c|
  {
    if |c| > 0 {
      assert (c + [e])[1..] == c[1..] + [e];
      IndexOfAppendFound(c[1..], e);
    } else {
      assert c + [e] == [e];
    }
  }

  /** The keys in insertion order. */
  function Keys<V>(c: seq<Entry<V>>): (r: seq<string>)
    ensures |r| == |c|
    ensures forall j :: 0 <= j < |c| ==> r[j] == c[j].key
  {
    seq(|c|, j requires 0 <= j < |c| => c[j].key)
  }

  /** Every value updated in place, as a `for … of c.values()` loop that
      mutates each value does: the keys and their order stay. */
  function MapValues<V>(c: seq<Entry<V>>, f: V -> V): (r: seq<Entry<V>>)
    ensures |r| == |c|
    ensures forall j :: 0 <= j < |c| ==> r[j] == Entry(c[j].key, f(c[j].value))
  {
    seq(|c|, j requires 0 <= j < |c| => Entry(c[j].key, f(c[j].value)))
  }

  /** A lookup after `MapValues` is the updated lookup. */
  lemma GetMapValues<V>(c: seq<Entry<V>>, f: V -> V, k: string)
    ensures Get(MapValues(c, f), k) == (if Get(c, k).Some? then Some(f(Get(c, k).value)) else None)
    ensures KeysDistinct(c) ==> KeysDistinct(MapValues(c, f))
  {
    IndexOfSameKeys(MapValues(c, f), c, k);
  }
}

=== FILE: command.dfy ===
/** The `Command` base class: what a command's fields become when the
    constructor fills in defaults. Every default is applied with the
    JavaScript `||` operator, so a falsy value that was passed (`false`,
    `0`, `""`) is replaced just like a missing one, while arrays (always
    truthy) are kept even when empty. */
module Command {
  import opened Wrappers

  /** An application-command option as registered with the platform. */
  datatype AppOption = AppOption(kind: string, name: string, description: string, required: bool, options: seq<AppOption>)

  /** `CommandInfo`: supplied by the loader for every command. */
  datatype Info = Info(group: string, description: Option<string>, extendedDescription: Option<string>)

  /** `CommandOptions`: supplied by each command's own constructor. */
  datatype Options = Options(
    name: string,
    options: Option<seq<AppOption>>,
    defaultPermission: Option<bool>,
    enabled: Option<bool>,
    guildOnly: Option<bool>,
    ownerOnly: Option<bool>,
    nsfw: Option<bool>,
    cooldown: Option<int>,
    aliases: Option<seq<string>>,
    botPermissions: Option<seq<string>>,
    memberPermissions: Option<seq<string>>)

  datatype Command = Command(
    group: string,
    name: string,
    description: string,
    extendedDescription: string,
    enabled: bool,
    options: seq<AppOption>,
    defaultPermission: bool,
    guildOnly: bool,
    ownerOnly: bool,
    nsfw: bool,
    cooldown: int,
    aliases: seq<string>,
    botPermissions: seq<string>,
    memberPermissions: seq<string>)

  const UNKNOWN_GROUP := "Unknown"
  const NO_DESCRIPTION := "No description available"
  const NO_EXTENDED_DESCRIPTION := "No extended description available"
  const DEFAULT_COOLDOWN := 3000
  const DEFAULT_PERMISSIONS: seq<string> := ["VIEW_CHANNEL", "SEND_MESSAGES"]

  /** `s || d` for an optional string: the empty string is falsy. */
  function OrString(s: Option<string>, d: string): string {
    if s.Some? && s.value != "" then s.value else d
  }

  /** `b || d` for an optional boolean. */
  function OrBool(b: Option<bool>, d: bool): bool {
    (b.Some? && b.value) || d
  }

  /** The constructor (Command.ts, lines 57-73). */
  function New(info: Info, opts: Options): (c: Command)
    ensures c.name == opts.name
    ensures c.enabled
    ensures c.group == UNKNOWN_GROUP <==> info.group == "" || info.group == UNKNOWN_GROUP
    ensures info.group != "" ==> c.group == info.group
    ensures c.description != ""
    ensures info.description.Some? && info.description.value != "" ==> c.description == info.description.value
    ensures c.extendedDescription != ""
    ensures info.extendedDescription.Some? && info.extendedDescription.value != "" ==> c.extendedDescription == info.extendedDescription.value
    ensures c.cooldown != 0
    ensures c.cooldown == DEFAULT_COOLDOWN <==> opts.cooldown.None? || opts.cooldown.value == 0 || opts.cooldown.value == DEFAULT_COOLDOWN
    ensures opts.cooldown.Some? && opts.cooldown.value != 0 ==> c.cooldown == opts.cooldown.value
    ensures c.defaultPermission <==> opts.defaultPermission == Some(true)
    ensures c.guildOnly <==> opts.guildOnly == Some(true)
    ensures c.ownerOnly <==> opts.ownerOnly == Some(true)
    ensures c.nsfw <==> opts.nsfw == Some(true)
    ensures c.options == if opts.options.Some? then opts.options.value else []
    ensures c.aliases == if opts.aliases.Some? then opts.aliases.value else []
    ensures c.botPermissions == if opts.botPermissions.Some? then opts.botPermissions.value else DEFAULT_PERMISSIONS
    ensures c.memberPermissions == if opts.memberPermissions.Some? then opts.memberPermissions.value else DEFAULT_PERMISSIONS
  {
    Command(
      OrString(Some(info.group), UNKNOWN_GROUP),
      opts.name,
      OrString(info.description, NO_DESCRIPTION),
      OrString(info.extendedDescription, NO_EXTENDED_DESCRIPTION),
      OrBool(opts.enabled, true),
      opts.options.GetOr([]),
      OrBool(opts.defaultPermission, false),
      OrBool(opts.guildOnly, false),
      OrBool(opts.ownerOnly, false),
      OrBool(opts.nsfw, false),
      OrNumber(opts.cooldown, DEFAULT_COOLDOWN),
      opts.aliases.GetOr([]),
      opts.botPermissions.GetOr(DEFAULT_PERMISSIONS),
      opts.memberPermissions.GetOr(DEFAULT_PERMISSIONS))
  }

  /** Passing `enabled: false` builds exactly the command that passing
      nothing builds: the option has no effect. */
  lemma EnabledOptionIgnored(info: Info, opts: Options)
    ensures New(info, opts.(enabled := Some(false))) == New(info, opts.(enabled := None))
    ensures New(info, opts.(enabled := Some(true))) == New(info, opts.(enabled := None))
  {
  }

  /** An explicit cooldown of 0 is indistinguishable from no cooldown. */
  lemma ZeroCooldownDefaults(info: Info, opts: Options)
    ensures New(info, opts.(cooldown := Some(0))) == New(info, opts.(cooldown := None))
    ensures New(info, opts.(cooldown := None)).cooldown == DEFAULT_COOLDOWN
  {
  }
}

=== FILE: command_handler.dfy ===
/** `CommandHandler`: the loaded commands keyed by name, and the set of
    aliases registered so far. Loading command files from disk is not part
    of this model; only the alias bookkeeping and the lookup are. */
module CommandHandler {
  import opened Wrappers
  import Collection
  import Command

  type Commands = seq<Collection.Entry<Command.Command>>

  /** The elements of a list, as a set. */
  function Elems(s: seq<string>): set<string> {
    set x | x in s
  }

  /** None of `aliases` is registered yet and none repeats. */
  predicate Fresh(registered: set<string>, aliases: seq<string>) {
    (forall i :: 0 <= i < |aliases| ==> aliases[i] !in registered) &&
    (forall i, j :: 0 <= i < j < |aliases| ==> aliases[i] != aliases[j])
  }

  /** The alias set after `addExistingAliases`, and the position of the
      alias whose clash made it throw, if one did. */
  datatype Registration = Registration(aliases: set<string>, conflict: Option<nat>)

  /** `addExistingAliases`: adds the aliases one by one and throws on the
      first that is already registered; aliases added before the throw stay. */
  function AddExistingAliases(registered: set<string>, aliases: seq<string>): (r: Registration)
    ensures r.conflict.None? <==> Fresh(registered, aliases)
    ensures r.conflict.None? ==> r.aliases == registered + Elems(aliases)
    ensures r.conflict.Some? ==>
      var k := r.conflict.value;
      k < |aliases| &&
      Fresh(registered, aliases[..k]) &&
      aliases[k] in registered + Elems(aliases[..k]) &&
      r.aliases == registered + Elems(aliases[..k])
    decreases |aliases|
  {
    if |aliases| == 0 then Registration(registered, None)
    else if aliases[0] in registered then Registration(registered, Some(0))
    else
      var rest := AddExistingAliases(registered + {aliases[0]}, aliases[1..]);
      match rest.conflict
      case None =>
        assert aliases == [aliases[0]] + aliases[1..];
        rest
      case Some(k) =>
        assert aliases[..k + 1] == [aliases[0]] + aliases[1..][..k];
        Registration(rest.aliases, Some(k + 1))
  }

  /** The first command, in insertion order, that lists `name` as an alias. */
  function FindByAlias(c: Commands, name: string): (r: Option<Command.Command>)
    ensures r.Some? ==> exists j :: 0 <= j < |c| && c[j].value == r.value && name in c[j].value.aliases &&
                                   forall i :: 0 <= i < j ==> name !in c[i].value.aliases
    ensures r.None? <==> forall j :: 0 <= j < |c| ==> name !in c[j].value.aliases
    ensures |c| > 0 && name in c[0].value.aliases ==> r == Some(c[0].value)
    decreases |c|
  {
    if |c| == 0 then None
    else if name in c[0].value.aliases then Some(c[0].value)
    else
      var r := FindByAlias(c[1..], name);
      assert r.Some? ==> exists j :: 0 <= j < |c| && c[j].value == r.value && name in c[j].value.aliases &&
                                     forall i :: 0 <= i < j ==> name !in c[i].value.aliases by {
        if r.Some? {
          var j :| 0 <= j < |c[1..]| && c[1..][j].value == r.value && name in c[1..][j].value.aliases &&
                   forall i :: 0 <= i < j ==> name !in c[1..][i].value.aliases;
          AliasShift(c, name, j);
        }
      }
      r
  }

  /** A first alias match in the tail, behind a head that does not match,
      is a first match in the whole list one position further on. */
  lemma AliasShift(c: Commands, name: string, j: nat)
    requires 0 < |c| && name !in c[0].value.aliases && j < |c| - 1
    requires forall i :: 0 <= i < j ==> name !in c[1..][i].value.aliases
    ensures c[j + 1] == c[1..][j]
    ensures forall i :: 0 <= i < j + 1 ==> name !in c[i].value.aliases
  {
    assert forall i :: 1 <= i < j + 1 ==> c[i] == c[1..][i - 1];
  }

  /** `getCommmand`: the command registered under `name`, else the first
      command having it as an alias, else nothing. */
  function GetCommand(c: Commands, name: string): (r: Option<Command.Command>)
    ensures Collection.Has(c, name) ==> r == Collection.Get(c, name)
    ensures !Collection.Has(c, name) ==> r == FindByAlias(c, name)
    ensures r.None? <==> !Collection.Has(c, name) && forall j :: 0 <= j < |c| ==> name !in c[j].value.aliases
  {
    var exact := Collection.Get(c, name);
    if exact.Some? then exact else FindByAlias(c, name)
  }

  /** Registering a list of fresh aliases and then another list succeeds
      exactly when the second list is fresh with respect to the first. */
  lemma {:induction false} RegisterTwice(registered: set<string>, first: seq<string>, second: seq<string>)
    requires Fresh(registered, first)
    ensures AddExistingAliases(registered, first).conflict.None?
    ensures AddExistingAliases(AddExistingAliases(registered, first).aliases, second).conflict.None?
            <==> Fresh(registered + Elems(first), second)
  {
  }

  /** An alias listed twice by the same command makes it throw at the
      second occurrence, even on an empty registry. */
  lemma RepeatedAliasThrows(alias: string)
    ensures AddExistingAliases({}, [alias, alias]).conflict == Some(1)
    ensures AddExistingAliases({}, [alias, alias]).aliases == {alias}
  {
    assert [alias, alias][..1] == [alias];
    assert Elems([alias]) == {alias};
  }
}

=== FILE: connect4.dfy ===
/** Connect Four (`Connect4`). Seat 1 (the host) and seat 2 (the
    challenger) take turns dropping their number into a column of a board
    of zeros; a column is chosen with a keycap reaction, and a drop that
    leaves a run of four through the column's top tile wins. */
module Connect4 {
  import opened Wrappers
  import Board
  import EmojiTables
  import AcceptEmbed
  import Lobby

  type Grid = Board.Board<int>
  type Emoji = EmojiTables.Emoji

  const MAX := 1023
  const ROW_TO_WIN := 4
  const DEFAULT_WIDTH := 7
  const DEFAULT_HEIGHT := 6
  /** The number of keycap reactions, `1⃣` to `9⃣`. */
  const REACTION_COUNT := 9

  // ---------------------------------------------------------------------
  // Options and the initial board

  /** The `width` and `height` options; the command offers the choices 7
      to 9 and 6 to 9. */
  datatype Options = Options(width: Option<nat>, height: Option<nat>)

  predicate ValidOptions(o: Options) {
    (o.width.Some? ==> 7 <= o.width.value <= 9) && (o.height.Some? ==> 6 <= o.height.value <= 9)
  }

  /** The reaction of column `c`: the keycap of the digit `c + 1`. The
      intended reverse table reads it back as `c + 1`; the table as
      written does not have it. */
  function ReactionOf(c: nat): (e: Emoji)
    requires c < REACTION_COUNT
    ensures EmojiTables.IntendedEmojiToAlphanumeric(e) == Some(EmojiTables.Num(c + 1))
    ensures EmojiTables.EmojiToAlphanumeric(e).None?
  {
    [0x31 + c, EmojiTables.KEYCAP]
  }

  predicate IsReaction(e: Emoji) {
    |e| == 2 && 0x31 <= e[0] < 0x31 + REACTION_COUNT && e[1] == EmojiTables.KEYCAP
  }

  /** The column a reaction names: its number in the intended reverse
      table, minus one. */
  function ColumnOf(e: Emoji): (c: nat)
    requires IsReaction(e)
    ensures c < REACTION_COUNT && ReactionOf(c) == e
  {
    assert e == [e[0], e[1]];
    EmojiTables.IntendedEmojiToAlphanumeric(e).value.n - 1
  }

  /** `CONNECT4_REACTIONS.slice(0, width)`. */
  function Reactions(width: nat): (r: seq<Emoji>)
    requires width <= REACTION_COUNT
    ensures |r| == width && forall c :: 0 <= c < width ==> r[c] == ReactionOf(c)
  {
    seq(width, c requires 0 <= c < width => ReactionOf(c))
  }

  /** A game between the host and the challenger: the board, its width,
      the reactions still on offer and the turn counter. */
  datatype State = State(board: Grid, width: nat, reactions: seq<Emoji>, turn: nat)

  /** `initialize`: a `height` × `width` board of zeros (7 × 6 by
      default), every column on offer, turn 1. */
  function Initialize(o: Options): (s: State)
    requires ValidOptions(o)
    ensures s.width == o.width.GetOr(DEFAULT_WIDTH) && |s.board| == o.height.GetOr(DEFAULT_HEIGHT)
    ensures Board.IsGrid(s.board, s.width, |s.board|)
    ensures forall r, c :: 0 <= r < |s.board| && 0 <= c < s.width ==> s.board[r][c] == 0
    ensures s.turn == 1 && Inv(s)
  {
    var width := o.width.GetOr(DEFAULT_WIDTH);
    var height := o.height.GetOr(DEFAULT_HEIGHT);
    var s := State(Board.Generate(width, height, 0), width, Reactions(width), 1);
    assert forall c :: 0 <= c < width ==> ReactionOf(c) in s.reactions by {
      forall c | 0 <= c < width ensures ReactionOf(c) in s.reactions {
        assert s.reactions[c] == ReactionOf(c);
      }
    }
    assert Distinct(s.reactions) by {
      forall i, j | 0 <= i < j < |s.reactions| ensures s.reactions[i] != s.reactions[j] {
        assert s.reactions[i][0] != s.reactions[j][0];
      }
    }
    s
  }

  // ---------------------------------------------------------------------
  // Columns and drops

  /** Every row has a cell in column `c`. */
  predicate HasColumn(b: Grid, c: nat) {
    forall k :: 0 <= k < |b| ==> c < |b[k]|
  }

  /** `isColumnFull`: the top cell of the column is taken. */
  predicate IsColumnFull(b: Grid, c: nat)
    requires 0 < |b| && HasColumn(b, c)
  {
    b[0][c] != 0
  }

  /** The row `dropTile` writes when scanning upwards from row `i`: the
      first empty cell of column `c`. */
  function LowestEmpty(b: Grid, c: nat, i: int): (r: Option<nat>)
    requires i < |b| && HasColumn(b, c)
    ensures r.Some? ==> r.value <= i && b[r.value][c] == 0 && forall k :: r.value < k <= i ==> b[k][c] != 0
    ensures r.None? ==> forall k :: 0 <= k <= i ==> b[k][c] != 0
    decreases i + 1
  {
    if i < 0 then None
    else if b[i][c] == 0 then Some(i)
    else LowestEmpty(b, c, i - 1)
  }

  /** `dropTile(val, column)`: `val` goes into the lowest empty cell of the
      column; a full column is left as it is. */
  function DropTile(b: Grid, val: int, c: nat): (r: Grid)
    requires HasColumn(b, c)
    ensures |r| == |b| && forall k :: 0 <= k < |b| ==> |r[k]| == |b[k]|
    ensures LowestEmpty(b, c, |b| - 1).None? ==> r == b
    ensures LowestEmpty(b, c, |b| - 1).Some? ==>
      var i := LowestEmpty(b, c, |b| - 1).value;
      r[i][c] == val && forall k, j :: Board.InBoard(b, k, j) && (k != i || j != c) ==> r[k][j] == b[k][j]
  {
    match LowestEmpty(b, c, |b| - 1)
    case None => b
    case Some(i) => Board.Set(b, i, c, val)
  }

  /** Tiles rest on tiles: a taken cell has a taken cell (or the floor)
      below it. */
  predicate Stacked(b: Grid) {
    forall r, c :: 0 <= r < |b| && 0 <= c < |b[r]| ==> Rests(b, r, c)
  }

  /** Cell `(r, c)` is empty or has a taken cell or the floor below it. */
  predicate Rests(b: Grid, r: int, c: int) {
    0 <= r && r + 1 < |b| && 0 <= c < |b[r]| && c < |b[r + 1]| && b[r][c] != 0 ==> b[r + 1][c] != 0
  }

  /** In a stacked board every cell below a taken cell is taken. */
  lemma {:induction false} TakenBelow(b: Grid, c: nat, top: nat, k: nat)
    requires Stacked(b) && HasColumn(b, c)
    requires top <= k < |b| && b[top][c] != 0
    ensures b[k][c] != 0
    decreases k - top
  {
    if k > top {
      TakenBelow(b, c, top, k - 1);
      assert Rests(b, k - 1, c);
    }
  }

  /** The row `checkWin` reads: the first taken cell of column `c` from
      row `r` downwards. */
  function TopRow(b: Grid, c: nat, r: nat): (t: Option<nat>)
    requires r <= |b| && HasColumn(b, c)
    ensures t.Some? ==> r <= t.value < |b| && b[t.value][c] != 0 && forall k :: r <= k < t.value ==> b[k][c] == 0
    ensures t.None? ==> forall k :: r <= k < |b| ==> b[k][c] == 0
    decreases |b| - r
  {
    if r == |b| then None
    else if b[r][c] != 0 then Some(r)
    else TopRow(b, c, r + 1)
  }

  /** On a stacked board, a drop of a non-zero value changes the board iff
      the column is not full; the tile lands on top of the column's stack,
      becomes the column's top row, and the board stays stacked. */
  lemma DropOnStacked(b: Grid, width: nat, val: int, c: nat)
    requires Board.IsGrid(b, width, |b|) && 0 < |b| && c < width
    requires Stacked(b) && val != 0
    ensures IsColumnFull(b, c) <==> DropTile(b, val, c) == b
    ensures IsColumnFull(b, c) <==> LowestEmpty(b, c, |b| - 1).None?
    ensures !IsColumnFull(b, c) ==>
      var i := LowestEmpty(b, c, |b| - 1).value;
      Stacked(DropTile(b, val, c)) && TopRow(DropTile(b, val, c), c, 0) == Some(i) && DropTile(b, val, c)[i][c] == val
  {
    var low := LowestEmpty(b, c, |b| - 1);
    if IsColumnFull(b, c) {
      forall k | 0 <= k < |b| ensures b[k][c] != 0 {
        TakenBelow(b, c, 0, k);
      }
      assert low.None?;
    } else {
      assert low.Some?;
      var i := low.value;
      var r := DropTile(b, val, c);
      assert r[i][c] != b[i][c];
      forall k | 0 <= k < i ensures b[k][c] == 0 {
        if b[k][c] != 0 {
          TakenBelow(b, c, k, i);
        }
      }
      assert Stacked(r) by {
        forall k, j | 0 <= k < |r| && 0 <= j < |r[k]| ensures Rests(r, k, j) {
          if k + 1 < |r| {
            assert Rests(b, k, j);
            if j == c && k + 1 == i {
              assert r[k][j] == b[k][j] == 0;
            }
          }
        }
      }
      assert r[i][c] == val;
      assert forall k :: 0 <= k < i ==> r[k][c] == 0;
    }
  }

  // ---------------------------------------------------------------------
  // Winning runs

  /** Positions `j` to `j + k - 1` of `s` all hold `v`. */
  predicate RunAt(s: seq<int>, v: int, k: nat, j: nat) {
    j + k <= |s| && forall t :: j <= t < j + k ==> s[t] == v
  }

  /** A run of `k` copies of `v` ends at or before position `n`. */
  predicate HasRun(s: seq<int>, v: int, k: nat, n: nat) {
    exists j: nat :: j + k <= n && RunAt(s, v, k, j)
  }

  /** The length of the run of `v` that ends just before position `i`: the
      `counter` of `isWinningStreak`. */
  function Trailing(s: seq<int>, v: int, i: nat): (n: nat)
    requires i <= |s|
    ensures n <= i
  {
    if i == 0 || s[i - 1] != v then 0 else Trailing(s, v, i - 1) + 1
  }

  /** The trailing run is at least `k` long iff the last `k` positions
      before `i` all hold `v`. */
  lemma {:induction false} TrailingRun(s: seq<int>, v: int, i: nat, k: nat)
    requires i <= |s|
    ensures Trailing(s, v, i) >= k <==> k <= i && RunAt(s, v, k, i - k)
    decreases k
  {
    if k > 0 && i > 0 && s[i - 1] == v {
      TrailingRun(s, v, i - 1, k - 1);
      if k <= i && RunAt(s, v, k - 1, i - k) {
        assert RunAt(s, v, k, i - k);
      }
    } else if 0 < k <= i {
      assert s[i - 1] != v;
    }
  }

  /** One more position adds a run of `k` exactly when the trailing run
      reaches `k`. */
  lemma RunStep(s: seq<int>, v: int, k: nat, i: nat)
    requires i < |s|
    ensures HasRun(s, v, k, i + 1) <==> HasRun(s, v, k, i) || Trailing(s, v, i + 1) >= k
  {
    TrailingRun(s, v, i + 1, k);
    if HasRun(s, v, k, i + 1) {
      var j: nat :| j + k <= i + 1 && RunAt(s, v, k, j);
      if j + k == i + 1 {
        assert j == i + 1 - k;
      }
    }
    if Trailing(s, v, i + 1) >= k {
      assert RunAt(s, v, k, i + 1 - k);
    }
  }

  /** The loop of `isWinningStreak` from position `i`, with its `counter`
      and `max`. */
  function Streak(s: seq<int>, v: int, k: nat, i: nat, counter: nat, max: nat): (win: bool)
    requires i <= |s| && counter == Trailing(s, v, i)
    requires max >= k <==> HasRun(s, v, k, i)
    ensures win <==> HasRun(s, v, k, |s|)
    decreases |s| - i
  {
    if i == |s| then max >= k
    else
      RunStep(s, v, k, i);
      if s[i] == v then
        Streak(s, v, k, i + 1, counter + 1, if max < counter + 1 then counter + 1 else max)
      else
        Streak(s, v, k, i + 1, 0, max)
  }

  /** `isWinningStreak(numArr, rowToWin, value)`: the longest run of
      `value` is at least `rowToWin` long. */
  function IsWinningStreak(s: seq<int>, k: nat, v: int): (win: bool)
    ensures win <==> HasRun(s, v, k, |s|)
  {
    assert k == 0 ==> RunAt(s, v, k, 0);
    Streak(s, v, k, 0, 0, 0)
  }

  /** The row and column offsets of `t` steps in direction `d`: vertical,
      horizontal, and the two diagonals. */
  function RowStep(d: nat, t: int): int {
    if d == 1 then 0 else t
  }

  function ColumnStep(d: nat, t: int): int {
    if d == 0 then 0 else if d == 3 then -t else t
  }

  /** The cell `t` steps from `(r, c)` in direction `d`, read as 0 off the
      board. */
  function At(b: Grid, r: int, c: int, d: nat, t: int): int
    requires d < 4
  {
    var x := r + RowStep(d, t);
    var y := c + ColumnStep(d, t);
    if Board.InBoard(b, x, y) then b[x][y] else 0
  }

  /** The 7-cell window of `checkWin` in direction `d`, centred on the
      column's top row; all zeros when the column is empty. */
  function Window(b: Grid, row: Option<nat>, c: int, d: nat): (w: seq<int>)
    requires d < 4
    ensures |w| == 2 * ROW_TO_WIN - 1
    ensures row.Some? ==> forall i :: 0 <= i < |w| ==> w[i] == At(b, row.value, c, d, i - (ROW_TO_WIN - 1))
    ensures row.None? ==> forall i :: 0 <= i < |w| ==> w[i] == 0
  {
    seq(2 * ROW_TO_WIN - 1, i => if row.None? then 0 else At(b, row.value, c, d, i - (ROW_TO_WIN - 1)))
  }

  /** `checkWin(board, value, column)`: some window through the column's
      top tile holds a run of `rowToWin` copies of `value`. */
  function CheckWin(b: Grid, v: int, c: nat): (win: bool)
    requires HasColumn(b, c)
    ensures win <==> exists d :: 0 <= d < 4 && WinningWindow(b, v, c, d)
  {
    var row := TopRow(b, c, 0);
    SomeDirection(b, v, c);
    IsWinningStreak(Window(b, row, c, 0), ROW_TO_WIN, v)
    || IsWinningStreak(Window(b, row, c, 1), ROW_TO_WIN, v)
    || IsWinningStreak(Window(b, row, c, 2), ROW_TO_WIN, v)
    || IsWinningStreak(Window(b, row, c, 3), ROW_TO_WIN, v)
  }

  /** The window in direction `d` holds a winning run. */
  predicate WinningWindow(b: Grid, v: int, c: nat, d: nat)
    requires HasColumn(b, c) && d < 4
  {
    HasRun(Window(b, TopRow(b, c, 0), c, d), v, ROW_TO_WIN, 2 * ROW_TO_WIN - 1)
  }

  lemma SomeDirection(b: Grid, v: int, c: nat)
    requires HasColumn(b, c)
    ensures (exists d :: 0 <= d < 4 && WinningWindow(b, v, c, d)) <==>
      WinningWindow(b, v, c, 0) || WinningWindow(b, v, c, 1) || WinningWindow(b, v, c, 2) || WinningWindow(b, v, c, 3)
  {
    if exists d :: 0 <= d < 4 && WinningWindow(b, v, c, d) {
      var d :| 0 <= d < 4 && WinningWindow(b, v, c, d);
      assert d == 0 || d == 1 || d == 2 || d == 3;
    }
  }

  /** An empty column has no top tile, so every window is zeros and holds
      no run of a player's number. */
  lemma EmptyColumnNoWin(b: Grid, v: int, c: nat)
    requires HasColumn(b, c) && v != 0 && TopRow(b, c, 0).None?
    ensures !CheckWin(b, v, c)
  {
    forall d, j: nat | 0 <= d < 4 && j + ROW_TO_WIN <= 2 * ROW_TO_WIN - 1
      ensures !RunAt(Window(b, None, c, d), v, ROW_TO_WIN, j)
    {
      assert Window(b, None, c, d)[j] == 0;
    }
  }

  /** Four cells of the board in a line in direction `d`, from offset `o`
      to `o + 3` around `(r, c)`, all holding `v`. */
  predicate LineOfFour(b: Grid, v: int, r: int, c: int, d: nat, o: int)
    requires d < 4
  {
    forall t :: o <= t < o + ROW_TO_WIN ==>
      Board.InBoard(b, r + RowStep(d, t), c + ColumnStep(d, t)) && At(b, r, c, d, t) == v
  }

  /** For a player's number, `checkWin` holds iff the column has a top tile
      and four cells in a line through that tile hold the number. */
  lemma WinIffLineOfFour(b: Grid, v: int, c: nat)
    requires HasColumn(b, c) && v != 0
    ensures CheckWin(b, v, c) <==>
      TopRow(b, c, 0).Some? &&
      exists d, o :: 0 <= d < 4 && -(ROW_TO_WIN - 1) <= o <= 0 && LineOfFour(b, v, TopRow(b, c, 0).value, c, d, o)
  {
    var row := TopRow(b, c, 0);
    if row.None? {
      EmptyColumnNoWin(b, v, c);
    } else {
      if CheckWin(b, v, c) {
        WinGivesLine(b, v, c);
      }
      if exists d, o :: 0 <= d < 4 && -(ROW_TO_WIN - 1) <= o <= 0 && LineOfFour(b, v, row.value, c, d, o) {
        var d, o :| 0 <= d < 4 && -(ROW_TO_WIN - 1) <= o <= 0 && LineOfFour(b, v, row.value, c, d, o);
        LineGivesWin(b, v, c, d, o);
      }
    }
  }

  /** A win shows four in a line through the top tile. */
  lemma WinGivesLine(b: Grid, v: int, c: nat)
    requires HasColumn(b, c) && v != 0 && TopRow(b, c, 0).Some? && CheckWin(b, v, c)
    ensures exists d, o :: 0 <= d < 4 && -(ROW_TO_WIN - 1) <= o <= 0 && LineOfFour(b, v, TopRow(b, c, 0).value, c, d, o)
  {
    var row := TopRow(b, c, 0);
    var d :| 0 <= d < 4 && WinningWindow(b, v, c, d);
    var w := Window(b, row, c, d);
    var j: nat :| j + ROW_TO_WIN <= 2 * ROW_TO_WIN - 1 && RunAt(w, v, ROW_TO_WIN, j);
    var o := j - (ROW_TO_WIN - 1);
    forall t | o <= t < o + ROW_TO_WIN
      ensures Board.InBoard(b, row.value + RowStep(d, t), c + ColumnStep(d, t)) && At(b, row.value, c, d, t) == v
    {
      assert w[t + ROW_TO_WIN - 1] == At(b, row.value, c, d, t);
    }
    assert LineOfFour(b, v, row.value, c, d, o);
  }

  /** Four in a line through the top tile is a win. */
  lemma LineGivesWin(b: Grid, v: int, c: nat, d: nat, o: int)
    requires HasColumn(b, c) && TopRow(b, c, 0).Some? && 0 <= d < 4 && -(ROW_TO_WIN - 1) <= o <= 0
    requires LineOfFour(b, v, TopRow(b, c, 0).value, c, d, o)
    ensures CheckWin(b, v, c)
  {
    var row := TopRow(b, c, 0);
    var w := Window(b, row, c, d);
    var j: nat := o + ROW_TO_WIN - 1;
    forall t | j <= t < j + ROW_TO_WIN ensures w[t] == v {
      assert w[t] == At(b, row.value, c, d, t - (ROW_TO_WIN - 1));
    }
    assert RunAt(w, v, ROW_TO_WIN, j);
    assert WinningWindow(b, v, c, d);
  }

  // ---------------------------------------------------------------------
  // Turns

  /** `player(turn)`: the seat of a turn, seat 1 at turn 0 and the other
      seat at each turn after; `SeatIsParity` shows this is the source's
      `(turn % 2) + 1`. */
  function Seat(turn: nat): (seat: nat)
    ensures 1 <= seat <= 2
  {
    if turn == 0 then 1 else 3 - Seat(turn - 1)
  }

  /** The seat of a turn is its parity plus one. */
  lemma {:induction false} SeatIsParity(turn: nat)
    ensures Seat(turn) == (turn % 2) + 1
  {
    if turn > 0 {
      SeatIsParity(turn - 1);
    }
  }

  /** Consecutive turns belong to different seats, and turn `t + 2` to the
      seat of turn `t`. */
  lemma SeatsAlternate(t: nat)
    ensures Seat(t) != Seat(t + 1) && Seat(t + 2) == Seat(t)
  {
  }

  predicate Distinct(xs: seq<Emoji>) {
    forall i, j :: 0 <= i < j < |xs| ==> xs[i] != xs[j]
  }

  /** What the game keeps true between turns: a stacked rectangular board,
      and on offer exactly the reactions of the columns that are not
      full, each once. */
  predicate Inv(s: State) {
    Shape(s.board, s.width) && OnlyOpen(s.board, s.width, s.reactions)
    && AllOpenOffered(s.board, s.width, s.reactions) && Distinct(s.reactions)
  }

  /** A stacked rectangular board of `width` columns, with a reaction for
      every column. */
  predicate Shape(b: Grid, width: nat) {
    0 < |b| && 0 < width <= REACTION_COUNT && Board.IsGrid(b, width, |b|) && Stacked(b)
  }

  /** Every offered reaction names a column of the board that is not full. */
  predicate OnlyOpen(b: Grid, width: nat, reactions: seq<Emoji>) {
    0 < |b| && Board.IsGrid(b, width, |b|) &&
    forall i :: 0 <= i < |reactions| ==>
      IsReaction(reactions[i]) && ColumnOf(reactions[i]) < width && !IsColumnFull(b, ColumnOf(reactions[i]))
  }

  /** Every column that is not full is offered. */
  predicate AllOpenOffered(b: Grid, width: nat, reactions: seq<Emoji>) {
    0 < |b| && width <= REACTION_COUNT && Board.IsGrid(b, width, |b|) &&
    forall c: nat :: c < width && !IsColumnFull(b, c) ==> ReactionOf(c) in reactions
  }

  /** `indexOf`: the first position of `e`, or -1. */
  function IndexOf(xs: seq<Emoji>, e: Emoji): (i: int)
    ensures -1 <= i < |xs|
    ensures i >= 0 ==> xs[i] == e && forall k :: 0 <= k < i ==> xs[k] != e
    ensures i == -1 <==> e !in xs
  {
    if |xs| == 0 then -1
    else if xs[0] == e then 0
    else var k := IndexOf(xs[1..], e); if k == -1 then -1 else k + 1
  }

  /** `splice(i, 1)`: removes position `i`; -1 counts from the end. */
  function Splice(xs: seq<Emoji>, i: int): (r: seq<Emoji>)
    requires -1 <= i < |xs|
    ensures 0 <= i ==> r == xs[..i] + xs[i + 1..]
    ensures i == -1 ==> r == if |xs| == 0 then [] else xs[..|xs| - 1]
  {
    if i >= 0 then xs[..i] + xs[i + 1..]
    else if |xs| == 0 then []
    else xs[..|xs| - 1]
  }

  /** Removing the one occurrence of `e` from a list without repeats keeps
      every other element and no repeats. */
  lemma SpliceRemoves(xs: seq<Emoji>, e: Emoji)
    requires Distinct(xs) && e in xs
    ensures IndexOf(xs, e) >= 0
    ensures forall x :: x in Splice(xs, IndexOf(xs, e)) <==> x in xs && x != e
    ensures Distinct(Splice(xs, IndexOf(xs, e)))
  {
    var i := IndexOf(xs, e);
    var r := Splice(xs, i);
    forall x | x in xs && x != e ensures x in r {
      var k :| 0 <= k < |xs| && xs[k] == x;
      if k < i {
        assert r[k] == x;
      } else {
        assert k != i;
        assert r[k - 1] == x;
      }
    }
    forall x | x in r ensures x in xs && x != e {
      var k :| 0 <= k < |r| && r[k] == x;
      if k < i {
        assert xs[k] == x;
      } else {
        assert xs[k + 1] == x;
      }
    }
    forall a, b | 0 <= a < b < |r| ensures r[a] != r[b] {
      var a' := if a < i then a else a + 1;
      var b' := if b < i then b else b + 1;
      assert r[a] == xs[a'] && r[b] == xs[b'];
    }
  }

  /** A reaction event: who reacted with which emoji. */
  datatype Event = Reaction(user: Lobby.User, emoji: Emoji)

  /** The filter of `awaitDropTile`: an offered reaction by the current
      player, who is not a bot. */
  predicate Accepts(s: State, player: Lobby.User, e: Event) {
    e.emoji in s.reactions && !e.user.bot && e.user.id == player.id
  }

  /** The first event from position `from` the filter lets through, or
      `None` when the collector times out. */
  function NextDrop(s: State, player: Lobby.User, events: seq<Event>, from: nat): (k: Option<nat>)
    ensures k.Some? ==> from <= k.value < |events| && Accepts(s, player, events[k.value])
    ensures k.Some? ==> forall j :: from <= j < k.value ==> !Accepts(s, player, events[j])
    ensures k.None? ==> forall j :: from <= j < |events| ==> !Accepts(s, player, events[j])
    decreases |events| - from
  {
    if from >= |events| then None
    else if Accepts(s, player, events[from]) then Some(from)
    else NextDrop(s, player, events, from + 1)
  }

  /** The `onReaction` handler: `seat` drops into the column of reaction
      `e`, and the reaction is withdrawn when the column fills. */
  function Drop(s: State, seat: nat, e: Emoji): (r: State)
    requires Inv(s) && e in s.reactions && seat != 0
    ensures Inv(r) && r.width == s.width && r.turn == s.turn
    ensures |r.board| == |s.board|
    ensures r.board == DropTile(s.board, seat, ColumnOf(e)) && r.board != s.board
    ensures TopRow(r.board, ColumnOf(e), 0) == LowestEmpty(s.board, ColumnOf(e), |s.board| - 1)
    ensures e in r.reactions <==> !IsColumnFull(r.board, ColumnOf(e))
  {
    var c := ColumnOf(e);
    var b := DropTile(s.board, seat, c);
    var reactions := if IsColumnFull(b, c) then Splice(s.reactions, IndexOf(s.reactions, e)) else s.reactions;
    DropKeepsInv(s, seat, e);
    s.(board := b, reactions := reactions)
  }

  /** The proof obligations of `Drop`. */
  lemma DropKeepsInv(s: State, seat: nat, e: Emoji)
    requires Inv(s) && e in s.reactions && seat != 0
    ensures var c := ColumnOf(e);
      var b := DropTile(s.board, seat, c);
      var reactions := if IsColumnFull(b, c) then Splice(s.reactions, IndexOf(s.reactions, e)) else s.reactions;
      Inv(s.(board := b, reactions := reactions)) && b != s.board
      && TopRow(b, c, 0) == LowestEmpty(s.board, c, |s.board| - 1)
      && (e in reactions <==> !IsColumnFull(b, c))
  {
    var c := ColumnOf(e);
    var b := DropTile(s.board, seat, c);
    DropOnStacked(s.board, s.width, seat, c);
    assert Shape(b, s.width);
    FullElsewhere(s.board, b, s.width, seat, c);
    if IsColumnFull(b, c) {
      var reactions := Splice(s.reactions, IndexOf(s.reactions, e));
      SpliceRemoves(s.reactions, e);
      RemovedFull(s.board, b, s.width, s.reactions, reactions, e);
    } else {
      KeptOpen(s.board, b, s.width, s.reactions, c);
    }
  }

  /** A drop into column `c` leaves whether any other column is full. */
  lemma FullElsewhere(b: Grid, b': Grid, width: nat, seat: nat, c: nat)
    requires Shape(b, width) && c < width && b' == DropTile(b, seat, c)
    ensures Board.IsGrid(b', width, |b|)
    ensures forall j: nat :: j < width && j != c ==> (IsColumnFull(b', j) <==> IsColumnFull(b, j))
  {
    forall j: nat | j < width && j != c ensures b'[0][j] == b[0][j] {
      assert Board.InBoard(b, 0, j);
    }
  }

  /** The offer after the dropped column filled: its reaction is gone. */
  lemma RemovedFull(b: Grid, b': Grid, width: nat, reactions: seq<Emoji>, reactions': seq<Emoji>, e: Emoji)
    requires OnlyOpen(b, width, reactions) && AllOpenOffered(b, width, reactions) && Distinct(reactions)
    requires e in reactions && Board.IsGrid(b', width, |b|)
    requires IsColumnFull(b', ColumnOf(e))
    requires forall j: nat :: j < width && j != ColumnOf(e) ==> (IsColumnFull(b', j) <==> IsColumnFull(b, j))
    requires forall x :: x in reactions' <==> x in reactions && x != e
    requires Distinct(reactions')
    ensures OnlyOpen(b', width, reactions') && AllOpenOffered(b', width, reactions')
  {
    forall i | 0 <= i < |reactions'|
      ensures IsReaction(reactions'[i]) && ColumnOf(reactions'[i]) < width && !IsColumnFull(b', ColumnOf(reactions'[i]))
    {
      var x := reactions'[i];
      assert x in reactions && x != e;
      var k :| 0 <= k < |reactions| && reactions[k] == x;
      assert ColumnOf(x) != ColumnOf(e);
    }
    forall j: nat | j < width && !IsColumnFull(b', j) ensures ReactionOf(j) in reactions' {
      assert j != ColumnOf(e);
    }
  }

  /** The offer when the dropped column still has room: unchanged. */
  lemma KeptOpen(b: Grid, b': Grid, width: nat, reactions: seq<Emoji>, c: nat)
    requires OnlyOpen(b, width, reactions) && AllOpenOffered(b, width, reactions)
    requires c < width && Board.IsGrid(b', width, |b|) && !IsColumnFull(b', c) && !IsColumnFull(b, c)
    requires forall j: nat :: j < width && j != c ==> (IsColumnFull(b', j) <==> IsColumnFull(b, j))
    ensures OnlyOpen(b', width, reactions) && AllOpenOffered(b', width, reactions)
  {
  }

  // ---------------------------------------------------------------------
  // The game

  /** One drop of the game: who made it and where. */
  datatype Move = Move(seat: nat, column: nat)

  /** Why the game stopped. A bot or the host as challenger is refused
      before any board exists; a win names the winning seat and column;
      after `MAX` turns the loop simply ends. */
  datatype Reason = BotChallenger | SelfChallenge | Declined | Won(seat: nat, column: nat) | Inactive | TurnsExhausted

  datatype Outcome = Outcome(state: Option<State>, reason: Reason, moves: seq<Move>)

  /** The two players by seat. */
  function PlayerOf(seat: nat, host: Lobby.User, challenger: Lobby.User): Lobby.User {
    if seat == 1 then host else challenger
  }

  /** How one turn of `awaitDropTile` ends: the collector times out, or a
      drop wins, or a drop does not and play goes on from event `next`. */
  datatype TurnEnd = TimedOut(state: State) | Winning(state: State, move: Move) | Continue(state: State, move: Move, next: nat)

  /** One turn: the turn counter advances, then the seat of the new turn
      drops into the column of its first accepted reaction. */
  function Turn(s: State, host: Lobby.User, challenger: Lobby.User, events: seq<Event>, from: nat): (t: TurnEnd)
    requires Inv(s)
    ensures Inv(t.state) && t.state.width == s.width && t.state.turn == s.turn + 1
    ensures !t.TimedOut? ==> t.move.seat == Seat(s.turn + 1) && t.move.column < s.width
    ensures t.Winning? <==> !t.TimedOut? && CheckWin(t.state.board, t.move.seat, t.move.column)
    ensures t.TimedOut? <==> NextDrop(s, PlayerOf(Seat(s.turn + 1), host, challenger), events, from).None?
  {
    var seat := Seat(s.turn + 1);
    var s1 := s.(turn := s.turn + 1);
    match NextDrop(s1, PlayerOf(seat, host, challenger), events, from)
    case None => TimedOut(s1)
    case Some(k) =>
      var e := events[k].emoji;
      var c := ColumnOf(e);
      var s2 := Drop(s1, seat, e);
      if CheckWin(s2.board, seat, c) then Winning(s2, Move(seat, c)) else Continue(s2, Move(seat, c), k + 1)
  }

  /** What the turn loop promises about its outcome `r` from state `s`:
      it ends with a board that keeps the invariant, by a win, a timeout
      or the `MAX` bound; one move is recorded per turn that dropped, a
      win records the winning drop last, and the moves alternate seats
      from the turn after `s`. */
  predicate Ends(s: State, r: Outcome) {
    && r.state.Some? && Inv(r.state.value) && r.state.value.width == s.width
    && (r.reason.Won? || r.reason.Inactive? || r.reason.TurnsExhausted?)
    && (r.reason.TurnsExhausted? ==> r.state.value.turn == MAX)
    && s.turn <= r.state.value.turn <= MAX
    && |r.moves| == r.state.value.turn - s.turn - (if r.reason.Inactive? then 1 else 0)
    && (r.reason.Won? ==> |r.moves| > 0 && r.moves[|r.moves| - 1] == Move(r.reason.seat, r.reason.column))
    && (r.reason.Won? ==> r.reason.column < s.width && CheckWin(r.state.value.board, r.reason.seat, r.reason.column))
    && Alternates(r.moves, s.turn + 1)
  }

  /** The turn loop of `play`, from turn `s.turn` on, reading reactions
      from position `from`: a winning drop, a timeout or the `MAX` bound
      ends the game. There is no draw: a full board offers no reaction, so
      the next turn times out. */
  function Loop(s: State, host: Lobby.User, challenger: Lobby.User, events: seq<Event>, from: nat): (r: Outcome)
    requires Inv(s) && 1 <= s.turn <= MAX
    ensures Ends(s, r)
    decreases MAX - s.turn, 1
  {
    if s.turn >= MAX then Outcome(Some(s), TurnsExhausted, [])
    else Resume(s, Turn(s, host, challenger, events, from), host, challenger, events)
  }

  /** The loop after the turn following `s` ended as `t`: a timeout or a
      win stops it, otherwise it goes on from the next turn. */
  function Resume(s: State, t: TurnEnd, host: Lobby.User, challenger: Lobby.User, events: seq<Event>): (r: Outcome)
    requires Inv(s) && 1 <= s.turn < MAX
    requires Inv(t.state) && t.state.width == s.width && t.state.turn == s.turn + 1
    requires !t.TimedOut? ==> t.move.seat == Seat(s.turn + 1) && t.move.column < s.width
    requires t.Winning? ==> CheckWin(t.state.board, t.move.seat, t.move.column)
    ensures Ends(s, r)
    decreases MAX - s.turn, 0
  {
    match t
    case TimedOut(s1) => Outcome(Some(s1), Inactive, [])
    case Winning(s2, m) => Outcome(Some(s2), Won(m.seat, m.column), [m])
    case Continue(s2, m, next) =>
      var rest := Loop(s2, host, challenger, events, next);
      EndsAfter(s, s2, m, rest);
      Outcome(rest.state, rest.reason, [m] + rest.moves)
  }

  /** A drop by the seat of the turn after `s`, before the outcome of the
      loop from the next state, is an outcome of the loop from `s`. */
  lemma EndsAfter(s: State, s2: State, m: Move, rest: Outcome)
    requires s2.turn == s.turn + 1 && s2.width == s.width && m.seat == Seat(s.turn + 1)
    requires Ends(s2, rest)
    ensures Ends(s, Outcome(rest.state, rest.reason, [m] + rest.moves))
  {
    PrependAlternates(m, rest.moves, s.turn + 1);
    var all := [m] + rest.moves;
    if rest.reason.Won? {
      assert all[|all| - 1] == rest.moves[|rest.moves| - 1];
    }
  }

  /** Moves that alternate from turn `t`: the first is made by the seat
      of turn `t`, every move by one of the two seats, and no seat moves
      twice in a row. */
  predicate Alternates(moves: seq<Move>, t: nat) {
    && (|moves| > 0 ==> moves[0].seat == Seat(t))
    && (forall i :: 0 <= i < |moves| ==> 1 <= moves[i].seat <= 2)
    && (forall i :: 0 <= i < |moves| - 1 ==> moves[i].seat != moves[i + 1].seat)
  }

  /** Alternating moves: the `i`-th is made by the seat of turn `t + i`. */
  lemma {:induction false} AlternatesAt(moves: seq<Move>, t: nat, i: nat)
    requires Alternates(moves, t) && i < |moves|
    ensures moves[i].seat == Seat(t + i)
  {
    if i > 0 {
      AlternatesAt(moves, t, i - 1);
      SeatsAlternate(t + i - 1);
      assert moves[i - 1].seat != moves[i].seat;
    }
  }

  /** A move by the seat of turn `t` followed by moves alternating from
      turn `t + 1` alternates from turn `t`. */
  lemma PrependAlternates(m: Move, moves: seq<Move>, t: nat)
    requires m.seat == Seat(t) && Alternates(moves, t + 1)
    ensures Alternates([m] + moves, t)
  {
    SeatsAlternate(t);
    var all := [m] + moves;
    forall i | 0 <= i < |all| ensures 1 <= all[i].seat <= 2 {
      if i > 0 {
        assert all[i] == moves[i - 1];
      }
    }
    forall i | 0 <= i < |all| - 1 ensures all[i].seat != all[i + 1].seat {
      assert all[i + 1] == moves[i];
      if i > 0 {
        assert all[i] == moves[i - 1];
      }
    }
  }

  /** `play`: the challenger is checked, the board is built, the challenge
      is put to the challenger and, once accepted, turns are played from
      turn 1. */
  function Play(host: Lobby.User, challenger: Lobby.User, o: Options, clicks: seq<AcceptEmbed.Click>, events: seq<Event>): (r: Outcome)
    requires ValidOptions(o)
    ensures r.reason.BotChallenger? <==> challenger.bot
    ensures r.reason.SelfChallenge? <==> !challenger.bot && challenger.id == host.id
    ensures r.reason.Declined? <==> !challenger.bot && challenger.id != host.id && !AcceptEmbed.AwaitResponse(challenger.id, clicks)
    ensures r.state.None? <==> r.reason.BotChallenger? || r.reason.SelfChallenge?
    ensures r.state.Some? ==> Inv(r.state.value) && r.state.value.width == o.width.GetOr(DEFAULT_WIDTH)
    ensures Alternates(r.moves, 2)
    ensures r.reason.Won? ==> HasColumn(r.state.value.board, r.reason.column) && CheckWin(r.state.value.board, r.reason.seat, r.reason.column)
    ensures |r.moves| < MAX
  {
    if challenger.bot then Outcome(None, BotChallenger, [])
    else if challenger.id == host.id then Outcome(None, SelfChallenge, [])
    else
      var s := Initialize(o);
      if !AcceptEmbed.AwaitResponse(challenger.id, clicks) then Outcome(Some(s), Declined, [])
      else
        Loop(s, host, challenger, events, 0)
  }

  /** Moves alternating from turn 2, as `play` makes them: seat 1, the
      host, makes the first, third, ... drop and seat 2, the challenger,
      the second, fourth, ... */
  lemma HostDropsFirst(moves: seq<Move>)
    requires Alternates(moves, 2)
    ensures forall i :: 0 <= i < |moves| ==> moves[i].seat == (if i % 2 == 0 then 1 else 2)
  {
    forall i | 0 <= i < |moves| ensures moves[i].seat == (if i % 2 == 0 then 1 else 2) {
      AlternatesAt(moves, 2, i);
      SeatIsParity(2 + i);
    }
  }

  // ---------------------------------------------------------------------
  // The drop as written
  //
  // The reverse table as written lacks every reaction, so the column of a
  // drop is `undefined - 1`, NaN. Indexing a row array with NaN reads and
  // writes the row's property named "NaN", which `stringifyBoard` never
  // shows: the game plays in one hidden column.

  /** `EMOJI_TO_ALPHANUMERIC[name] - 1` as written; `None` is NaN, which
      every value but a number gives. */
  function WrittenColumn(e: Emoji): (c: Option<int>)
    ensures IsReaction(e) ==> c.None?
  {
    var v := EmojiTables.EmojiToAlphanumeric(e);
    if v.Some? && v.value.Num? then Some(v.value.n - 1) else None
  }

  /** The hidden column: the "NaN" property of each row, top row first,
      0 while the row does not have it. */
  type Hidden = seq<int>

  /** Set cells sit on set cells or on the bottom row. */
  predicate HiddenStacked(h: Hidden) {
    forall i :: 0 <= i < |h| - 1 && h[i] != 0 ==> h[i + 1] != 0
  }

  /** `dropTile(val, NaN)`: from the bottom up, the first row whose "NaN"
      property is falsy receives `val`. */
  function DropHidden(h: Hidden, val: int, i: int): (r: Hidden)
    requires -1 <= i < |h|
    ensures |r| == |h|
    ensures forall k :: 0 <= k < |h| && k > i ==> r[k] == h[k]
    decreases i + 1
  {
    if i < 0 then h
    else if h[i] == 0 then h[i := val]
    else DropHidden(h, val, i - 1)
  }

  /** The first row from `r` down whose "NaN" property is set: the row
      `checkWin` reads with column NaN. */
  function TopHidden(h: Hidden, r: nat): (t: Option<nat>)
    requires r <= |h|
    ensures t.Some? ==> r <= t.value < |h| && h[t.value] != 0 && forall k :: r <= k < t.value ==> h[k] == 0
    ensures t.None? ==> forall k :: r <= k < |h| ==> h[k] == 0
    decreases |h| - r
  {
    if r == |h| then None
    else if h[r] != 0 then Some(r)
    else TopHidden(h, r + 1)
  }

  /** The window of `checkWin` in direction `d` with column NaN: `NaN + i`
      and `NaN - i` are NaN, so the horizontal window (d = 1) repeats the
      hidden cell of the top row seven times, and the other three read the
      hidden cells of rows `row - 3` to `row + 3`. With no row found,
      every read is `undefined || 0`. */
  function HiddenWindow(h: Hidden, row: Option<nat>, d: nat): (w: seq<int>)
    requires row.Some? ==> row.value < |h|
    ensures |w| == 2 * ROW_TO_WIN - 1
  {
    seq(2 * ROW_TO_WIN - 1, i =>
      if row.None? then 0
      else if d == 1 then h[row.value]
      else if 0 <= row.value + i - (ROW_TO_WIN - 1) < |h| then h[row.value + i - (ROW_TO_WIN - 1)]
      else 0)
  }

  /** `checkWin(board, v, NaN)`. */
  function CheckWinHidden(h: Hidden, v: int): bool {
    var row := TopHidden(h, 0);
    IsWinningStreak(HiddenWindow(h, row, 0), ROW_TO_WIN, v)
    || IsWinningStreak(HiddenWindow(h, row, 1), ROW_TO_WIN, v)
    || IsWinningStreak(HiddenWindow(h, row, 2), ROW_TO_WIN, v)
    || IsWinningStreak(HiddenWindow(h, row, 3), ROW_TO_WIN, v)
  }

  /** How a turn as written ends: a timeout, a win, or play going on with
      the hidden column and the reactions on offer. The visible board never
      changes. */
  datatype WrittenEnd = WrittenTimedOut | WrittenWon(seat: nat) | WrittenGoesOn(hidden: Hidden, reactions: seq<Emoji>, next: nat)

  /** One turn of `play` as written: the seat of the new turn drops into
      the hidden column, `isColumnFull(NaN)` tests the top row's hidden
      cell, and `checkWin` runs with column NaN. */
  function WrittenTurn(s: State, h: Hidden, host: Lobby.User, challenger: Lobby.User, events: seq<Event>, from: nat): (t: WrittenEnd)
    requires Inv(s) && |h| == |s.board| > 0
    ensures t.WrittenTimedOut? <==> NextDrop(s.(turn := s.turn + 1), PlayerOf(Seat(s.turn + 1), host, challenger), events, from).None?
  {
    var seat := Seat(s.turn + 1);
    var s1 := s.(turn := s.turn + 1);
    match NextDrop(s1, PlayerOf(seat, host, challenger), events, from)
    case None => WrittenTimedOut
    case Some(k) =>
      var e := events[k].emoji;
      assert WrittenColumn(e).None?;
      var h' := DropHidden(h, seat, |h| - 1);
      var reactions := if h'[0] != 0 then Splice(s.reactions, IndexOf(s.reactions, e)) else s.reactions;
      if CheckWinHidden(h', seat) then WrittenWon(seat) else WrittenGoesOn(h', reactions, k + 1)
  }

  /** As written, every drop that lands wins: the tile lands on top of the
      hidden stack, so the top row's hidden cell is the mover's and the
      horizontal window holds it seven times. */
  lemma {:induction false} WrittenLandingWins(h: Hidden, seat: nat)
    requires HiddenStacked(h) && |h| > 0 && h[0] == 0 && seat != 0
    ensures TopHidden(DropHidden(h, seat, |h| - 1), 0).Some?
    ensures CheckWinHidden(DropHidden(h, seat, |h| - 1), seat)
  {
    var h' := DropHidden(h, seat, |h| - 1);
    var top := LandingRow(h, seat, |h| - 1);
    assert TopHidden(h', 0) == Some(top) by {
      TopHiddenAt(h', top, 0);
    }
    var w := HiddenWindow(h', Some(top), 1);
    assert forall t :: 0 <= t < ROW_TO_WIN ==> w[t] == seat;
    assert RunAt(w, seat, ROW_TO_WIN, 0);
  }

  /** Where the scan of `DropHidden` from row `i` up writes: the lowest
      unset row at or above `i`, with every row above it unset. */
  lemma {:induction false} LandingRow(h: Hidden, seat: nat, i: int) returns (top: nat)
    requires HiddenStacked(h) && -1 <= i < |h| && seat != 0
    requires 0 <= i ==> h[0] == 0
    requires forall k :: i < k < |h| ==> h[k] != 0
    ensures 0 <= i ==> top <= i && DropHidden(h, seat, i) == h[top := seat] && h[top] == 0
    ensures 0 <= i ==> forall k :: 0 <= k < top ==> h[k] == 0
    decreases i + 1
  {
    if i < 0 {
      top := 0;
    } else if h[i] == 0 {
      top := i;
      forall k | 0 <= k < i ensures h[k] == 0 {
        if h[k] != 0 {
          StackedDown(h, k, i);
        }
      }
    } else {
      if i == 0 {
        assert false;
      }
      top := LandingRow(h, seat, i - 1);
    }
  }

  /** On a stacked hidden column, a set cell has every row below it set. */
  lemma {:induction false} StackedDown(h: Hidden, k: nat, i: nat)
    requires HiddenStacked(h) && k <= i < |h| && h[k] != 0
    ensures h[i] != 0
    decreases i - k
  {
    if k < i {
      StackedDown(h, k + 1, i);
    }
  }

  /** `TopHidden` finds a set row with only unset rows above it. */
  lemma {:induction false} TopHiddenAt(h: Hidden, top: nat, r: nat)
    requires r <= top < |h| && h[top] != 0 && forall k :: r <= k < top ==> h[k] == 0
    ensures TopHidden(h, r) == Some(top)
    decreases top - r
  {
    if r < top {
      TopHiddenAt(h, top, r + 1);
    }
  }

  /** As written, a game ends on its first turn: either the host never
      reacts and the game is inactive, or the host's first accepted
      reaction wins, with the visible board still empty. */
  lemma WrittenFirstTurnEnds(o: Options, host: Lobby.User, challenger: Lobby.User, events: seq<Event>)
    requires ValidOptions(o)
    ensures var s := Initialize(o);
      var t := WrittenTurn(s, seq(|s.board|, _ => 0), host, challenger, events, 0);
      t.WrittenTimedOut? || t == WrittenWon(1)
  {
    var s := Initialize(o);
    var h: Hidden := seq(|s.board|, _ => 0);
    assert Seat(s.turn + 1) == 1;
    WrittenLandingWins(h, 1);
  }
}

=== FILE: cooldown.dfy ===
/** Per-command, per-user cooldowns (`CooldownHandler.getCooldownData`).
    The wall clock is the parameter `now`, in milliseconds, and the
    remaining time is reported in milliseconds rather than as the source's
    fractional seconds. */
module Cooldown {
  import opened Wrappers

  /** Command name to (user id to the time stamp of the last admitted use). */
  type Stamps = map<string, map<string, int>>

  /** The stamp recorded for a command and a user, if any. */
  function Lookup(stamps: Stamps, name: string, user: string): Option<int> {
    if name in stamps && user in stamps[name] then Some(stamps[name][user]) else None
  }

  /** The result of one request: the updated stamps, and the remaining
      cooldown when the request is refused (`null` when it is admitted). */
  datatype Check = Check(stamps: Stamps, timeLeft: Option<int>)

  /** A stamp that blocks a request at `now`: present, non-zero (the source
      tests it for truthiness) and not yet expired. */
  predicate Live(stamps: Stamps, name: string, user: string, cooldown: int, now: int) {
    var s := Lookup(stamps, name, user);
    s.Some? && s.value != 0 && now < s.value + cooldown
  }

  /** `getCooldownData(command, user)` at time `now`. */
  function GetCooldownData(stamps: Stamps, name: string, cooldown: int, user: string, now: int): (r: Check)
    ensures name in r.stamps
    ensures r.timeLeft.Some? <==> Live(stamps, name, user, cooldown, now)
    ensures r.timeLeft.Some? ==> 0 < r.timeLeft.value == Lookup(stamps, name, user).value + cooldown - now
    ensures r.timeLeft.Some? ==> Lookup(r.stamps, name, user) == Lookup(stamps, name, user)
    ensures r.timeLeft.None? ==> Lookup(r.stamps, name, user) == Some(now)
    ensures forall n, u :: (n != name || u != user) ==> Lookup(r.stamps, n, u) == Lookup(stamps, n, u)
  {
    var stamps' := if name in stamps then stamps else stamps[name := map[]];
    var timestamps := stamps'[name];
    if user in timestamps && timestamps[user] != 0 && now < timestamps[user] + cooldown then
      Check(stamps', Some(timestamps[user] + cooldown - now))
    else
      Check(stamps'[name := timestamps[user := now]], None)
  }

  /** The first request for a command and a user is admitted and stamped. */
  lemma FirstRequestAdmitted(stamps: Stamps, name: string, cooldown: int, user: string, now: int)
    requires Lookup(stamps, name, user).None?
    ensures GetCooldownData(stamps, name, cooldown, user, now).timeLeft.None?
    ensures Lookup(GetCooldownData(stamps, name, cooldown, user, now).stamps, name, user) == Some(now)
  {
  }

  /** Two requests at the same instant with a positive cooldown: the first
      is admitted and the second is refused with the full cooldown left. */
  lemma RepeatRefused(stamps: Stamps, name: string, cooldown: int, user: string, now: int)
    requires cooldown > 0 && now != 0
    ensures var first := GetCooldownData(stamps, name, cooldown, user, now);
            first.timeLeft.None? ==>
            GetCooldownData(first.stamps, name, cooldown, user, now).timeLeft == Some(cooldown)
  {
  }

  /** A request at or after the stamp plus the cooldown is admitted again. */
  lemma ExpiredAdmitted(stamps: Stamps, name: string, cooldown: int, user: string, now: int)
    requires Lookup(stamps, name, user).Some?
    requires now >= Lookup(stamps, name, user).value + cooldown
    ensures GetCooldownData(stamps, name, cooldown, user, now).timeLeft.None?
  {
  }

  /** A recorded stamp of 0 never blocks. */
  lemma ZeroStampIgnored(stamps: Stamps, name: string, cooldown: int, user: string, now: int)
    requires Lookup(stamps, name, user) == Some(0)
    ensures GetCooldownData(stamps, name, cooldown, user, now).timeLeft.None?
  {
  }
}

=== FILE: duel.dfy ===
/** The duel's items and players (`Duel/types.ts`, `DuelPlayer`): the
    choice table, the weapons' speeds, what each protection reflects,
    defends and is destroyed by, and a player's counters and selection. */
module Duel {
  import opened Wrappers
  import EmojiTables

  datatype Choice = Gun | Sword | Spell | Shield | Mirror

  /** An entry of `DUEL_CHOICES`; `text` is its `label`. */
  datatype Entry = Entry(emoji: EmojiTables.Emoji, text: string, id: string)

  /** `DUEL_CHOICES[c]`. */
  function Entries(c: Choice): (e: Entry)
    ensures |e.text| > 0 && |e.emoji| > 0
  {
    match c
    case Gun => Entry([0x1F52B], "Gun", "GUN")
    case Sword => Entry([0x2694, 0xFE0F], "Sword", "SWORD")
    case Spell => Entry([0x2728], "Spell", "SPELL")
    case Shield => Entry([0x1F6E1, 0xFE0F], "Shield", "SHIELD")
    case Mirror => Entry([0x1FA9E], "Mirror", "MIRROR")
  }

  /** `Item.getId`, `Item.getEmoji` and `Item.getLabel` read the entry. */
  function GetId(c: Choice): string { Entries(c).id }
  function GetEmoji(c: Choice): EmojiTables.Emoji { Entries(c).emoji }
  function GetLabel(c: Choice): string { Entries(c).text }

  /** A button id read back as a choice (`customId as DuelChoice`). */
  function Parse(s: string): (r: Option<Choice>)
    ensures r.Some? ==> GetId(r.value) == s
  {
    if s == "GUN" then Some(Gun)
    else if s == "SWORD" then Some(Sword)
    else if s == "SPELL" then Some(Spell)
    else if s == "SHIELD" then Some(Shield)
    else if s == "MIRROR" then Some(Mirror)
    else None
  }

  /** Each entry's id is its own key, so the id reads back as the choice
      and no two choices share an id. */
  lemma IdIsKey(c: Choice, d: Choice)
    ensures Parse(GetId(c)) == Some(c)
    ensures GetId(c) == GetId(d) ==> c == d
  {
  }

  predicate IsWeapon(c: Choice) {
    c == Gun || c == Sword || c == Spell
  }

  /** A weapon with its speed and reload rule, or a protection with the
      choices it reflects, defends against and is destroyed by. */
  datatype Item =
    | Weapon(id: Choice, speed: int, hasToReload: bool)
    | Protection(id: Choice, reflects: seq<Choice>, defends: seq<Choice>, destroyedBy: seq<Choice>)

  /** `itemFactory`: the item class of a choice; the `default` branch,
      reached by MIRROR and by no choice at all, makes a mirror. */
  function ItemFactory(c: Option<Choice>): (it: Item)
    ensures it.Weapon? <==> c.Some? && IsWeapon(c.value)
    ensures c.Some? ==> it.id == c.value
    ensures c.None? ==> it.id == Mirror
  {
    match c
    case Some(Gun) => Weapon(Gun, 3, true)
    case Some(Sword) => Weapon(Sword, 2, false)
    case Some(Spell) => Weapon(Spell, 1, false)
    case Some(Shield) => Protection(Shield, [], [Gun, Sword], [Spell])
    case _ => Protection(Mirror, [Gun], [Spell], [Sword])
  }

  /** The weapons strike in the order gun, sword, spell, and only the gun
      has to reload. */
  lemma SpeedOrder()
    ensures ItemFactory(Some(Gun)).speed > ItemFactory(Some(Sword)).speed > ItemFactory(Some(Spell)).speed
    ensures ItemFactory(Some(Gun)).hasToReload
    ensures !ItemFactory(Some(Sword)).hasToReload && !ItemFactory(Some(Spell)).hasToReload
  {
  }

  /** Every protection meets every weapon in exactly one way: it reflects
      it, defends against it, or is destroyed by it. In particular the
      sword breaks the mirror and the spell breaks the shield. */
  lemma ProtectionTable(p: Choice, w: Choice)
    requires !IsWeapon(p) && IsWeapon(w)
    ensures var it := ItemFactory(Some(p));
      && (w in it.reflects || w in it.defends || w in it.destroyedBy)
      && !(w in it.reflects && w in it.defends)
      && !(w in it.reflects && w in it.destroyedBy)
      && !(w in it.defends && w in it.destroyedBy)
    ensures Sword in ItemFactory(Some(Mirror)).destroyedBy && Spell in ItemFactory(Some(Shield)).destroyedBy
    ensures ItemFactory(Some(Shield)).reflects == []
  {
  }

  // ---------------------------------------------------------------------
  // The player (`DuelPlayer`)
  // ---------------------------------------------------------------------

  /** The starting number of swords and spells. */
  datatype PlayerConfig = PlayerConfig(swords: int, spells: int)

  /** A field that is `undefined` (never assigned), `null` or an item. */
  datatype Slot = Undefined | Null | Held(item: Item)

  datatype Player = Player(
    wins: nat, choice: Option<Choice>, protection: Slot, weapon: Slot,
    reloaded: bool, hasAmmo: bool,
    swords: int, spells: int, shields: int, mirrors: int,
    config: PlayerConfig)

  /** The constructor: no win, no choice, no ammo, three shields and
      mirrors, swords and spells from the configuration; the weapon and
      protection fields are left undefined. */
  function New(cfg: PlayerConfig): (p: Player)
    ensures p.wins == 0 && p.choice.None? && !p.hasAmmo && !p.reloaded
    ensures p.shields == 3 && p.mirrors == 3 && p.swords == cfg.swords && p.spells == cfg.spells
  {
    Player(0, None, Undefined, Undefined, false, false, cfg.swords, cfg.spells, 3, 3, cfg)
  }

  /** `hasWeapon` and `hasProtection` compare with `null` only. */
  predicate HasWeapon(p: Player) { !p.weapon.Null? }
  predicate HasProtection(p: Player) { !p.protection.Null? }

  /** A new player holds no item, yet reports both a weapon and a
      protection: an undefined field is not `null`. */
  lemma NewReportsItems(cfg: PlayerConfig)
    ensures HasWeapon(New(cfg)) && HasProtection(New(cfg))
    ensures !New(cfg).weapon.Held? && !New(cfg).protection.Held?
  {
  }

  /** `deselect`: choice, weapon, protection and the reload flag are
      cleared; the ammo, the counters and the wins stay. */
  function Deselect(p: Player): (r: Player)
    ensures r.choice.None? && r.weapon == Null && r.protection == Null && !r.reloaded
    ensures !HasWeapon(r) && !HasProtection(r)
    ensures r.hasAmmo == p.hasAmmo && r.wins == p.wins && r.config == p.config
    ensures r.swords == p.swords && r.spells == p.spells && r.shields == p.shields && r.mirrors == p.mirrors
  {
    p.(choice := None, weapon := Null, protection := Null, reloaded := false)
  }

  /** `select`: first `deselect`, then the new choice. */
  function Select(p: Player, c: Choice): (r: Player)
    ensures r.choice == Some(c)
    ensures r.weapon == Null && r.protection == Null && !r.reloaded
    ensures r.hasAmmo == p.hasAmmo && r.wins == p.wins && r.config == p.config
    ensures forall d: Choice :: Counter(r, d) == Counter(p, d)
  {
    Deselect(p).(choice := Some(c))
  }

  /** `select` starts with its own `deselect`, so an earlier one changes
      nothing. */
  lemma SelectAfterDeselect(p: Player, c: Choice)
    ensures Select(Deselect(p), c) == Select(p, c)
  {
  }

  /** Only the last selection counts: selecting twice is selecting the
      second choice once. */
  lemma SelectOverrides(p: Player, a: Choice, b: Choice)
    ensures Select(Select(p, a), b) == Select(p, b)
  {
  }

  /** The counter a consumable choice draws on; the gun has none. */
  function Counter(p: Player, c: Choice): int {
    match c
    case Gun => 0
    case Sword => p.swords
    case Spell => p.spells
    case Shield => p.shields
    case Mirror => p.mirrors
  }

  /** `confirmChoice`: the item of the choice is assigned (a weapon for
      GUN, SWORD and SPELL, else a protection), a gun loads when empty and
      fires when loaded, and any other choice uses up one of its kind,
      with no check that one is left. */
  function ConfirmChoice(p: Player): (r: Player)
    ensures forall c: Choice :: Counter(r, c) == Counter(p, c) - (if p.choice == Some(c) && c != Gun then 1 else 0)
    ensures p.choice == Some(Gun) ==> r.hasAmmo == !p.hasAmmo && r.reloaded == (p.reloaded || !p.hasAmmo)
    ensures p.choice != Some(Gun) ==> r.hasAmmo == p.hasAmmo && r.reloaded == p.reloaded
    ensures p.choice.Some? && IsWeapon(p.choice.value) ==> r.weapon == Held(ItemFactory(p.choice)) && r.protection == p.protection
    ensures !(p.choice.Some? && IsWeapon(p.choice.value)) ==> r.protection == Held(ItemFactory(p.choice)) && r.weapon == p.weapon
    ensures r.choice == p.choice && r.wins == p.wins && r.config == p.config
  {
    var it := ItemFactory(p.choice);
    var p1 := if it.Weapon? then p.(weapon := Held(it)) else p.(protection := Held(it));
    match p.choice
    case Some(Gun) => if !p1.hasAmmo then p1.(hasAmmo := true, reloaded := true) else p1.(hasAmmo := false)
    case Some(Sword) => p1.(swords := p1.swords - 1)
    case Some(Spell) => p1.(spells := p1.spells - 1)
    case Some(Shield) => p1.(shields := p1.shields - 1)
    case Some(Mirror) => p1.(mirrors := p1.mirrors - 1)
    case None => p1
  }

  /** The gun alternates: a second confirmed GUN takes back the ammo the
      first one loaded, and neither touches a counter. */
  lemma GunAlternates(p: Player)
    ensures var q := ConfirmChoice(Select(ConfirmChoice(Select(p, Gun)), Gun));
      q.hasAmmo == p.hasAmmo && forall c: Choice :: Counter(q, c) == Counter(p, c)
  {
  }

  /** Confirming with no choice at all falls through to a mirror and uses
      nothing up. */
  lemma ConfirmWithoutChoice(p: Player)
    requires p.choice.None?
    ensures ConfirmChoice(p).protection == Held(Protection(Mirror, [Gun], [Spell], [Sword]))
    ensures ConfirmChoice(p).mirrors == p.mirrors
  {
  }

  /** `win`: one more win. */
  function Win(p: Player): (r: Player)
    ensures r.wins == p.wins + 1
    ensures r.choice == p.choice && r.weapon == p.weapon && r.protection == p.protection
    ensures r.reloaded == p.reloaded && r.hasAmmo == p.hasAmmo && r.config == p.config
    ensures forall d: Choice :: Counter(r, d) == Counter(p, d)
  {
    p.(wins := p.wins + 1)
  }

  /** `hasWon`: the wins equal the required number exactly. */
  predicate HasWon(p: Player, requiredWins: int) {
    p.wins == requiredWins
  }

  /** `k` wins in a row. */
  function WinTimes(p: Player, k: nat): (r: Player)
    decreases k
  {
    if k == 0 then p else Win(WinTimes(p, k - 1))
  }

  /** A new player has won after exactly the required number of wins, and
      no longer after one more, since `hasWon` tests with `===`. */
  lemma {:induction false} WinsReachRequired(cfg: PlayerConfig, k: nat)
    ensures WinTimes(New(cfg), k).wins == k
    ensures HasWon(WinTimes(New(cfg), k), k)
    ensures !HasWon(Win(WinTimes(New(cfg), k)), k)
    decreases k
  {
    if k > 0 {
      WinsReachRequired(cfg, k - 1);
    }
  }

  /** `reload` and `shoot` set and clear the reload flag. */
  function Reload(p: Player): (r: Player)
    ensures r.reloaded
    ensures r.wins == p.wins && r.choice == p.choice && r.weapon == p.weapon && r.protection == p.protection
    ensures r.hasAmmo == p.hasAmmo && r.config == p.config
    ensures forall d: Choice :: Counter(r, d) == Counter(p, d)
  {
    p.(reloaded := true)
  }

  function Shoot(p: Player): (r: Player)
    ensures !r.reloaded
    ensures r.wins == p.wins && r.choice == p.choice && r.weapon == p.weapon && r.protection == p.protection
    ensures r.hasAmmo == p.hasAmmo && r.config == p.config
    ensures forall d: Choice :: Counter(r, d) == Counter(p, d)
  {
    p.(reloaded := false)
  }

  /** The reload flag is all either touches: the last of the two decides,
      and shooting undoes a reload of a player who had not reloaded. */
  lemma ReloadShootLastWins(p: Player)
    ensures Shoot(Reload(p)) == Shoot(p) && Reload(Shoot(p)) == Reload(p)
    ensures !p.reloaded ==> Shoot(Reload(p)) == p
    ensures p.reloaded ==> Reload(p) == p
  {
  }

  /** `restart`: after `deselect`, the swords go back to the
      configuration, the spells and shields to three, and the ammo is
      emptied; the mirrors and wins are kept. */
  function Restart(p: Player): (r: Player)
    ensures r.swords == p.config.swords && r.spells == 3 && r.shields == 3 && !r.hasAmmo && !r.reloaded
    ensures r.mirrors == p.mirrors && r.wins == p.wins && r.config == p.config
    ensures r.choice.None? && !HasWeapon(r) && !HasProtection(r)
  {
    var d := Deselect(p);
    var d1 := d.(reloaded := false, spells := p.config.spells, swords := p.config.swords);
    d1.(shields := 3, spells := 3, hasAmmo := false)
  }

  /** A restarted player is a new one except for the kept wins and
      mirrors, the spells set to three whatever the configuration says,
      and the emptied item fields. */
  lemma RestartVersusNew(p: Player)
    ensures Restart(p) == New(p.config).(wins := p.wins, mirrors := p.mirrors, spells := 3, weapon := Null, protection := Null)
    ensures Restart(Restart(p)) == Restart(p)
  {
  }
}

=== FILE: emoji_tables.dfy ===
/** The two lookup tables between alphanumeric keys and emoji
    (`ALPHANUMERIC_TO_EMOJI` and its inverse `EMOJI_TO_ALPHANUMERIC`).
    An emoji is its sequence of Unicode code points: a regional-indicator
    letter for `a`..`z`, a digit followed by the combining keycap for
    `0`..`9`, and three symbols for `AGAIN`, `YES` and `BLANK`. Object keys
    are strings, so the tables are functions on strings and code-point
    sequences, defined exactly on the 39 entries.

    The keys of the reverse table are not these emoji: each is the text
    that the UTF-8 bytes of an emoji read as under Windows-1254, so no
    emoji a user can react with is found in it. `EmojiToAlphanumeric`
    models the table as written, `IntendedEmojiToAlphanumeric` the table
    keyed by the emoji themselves. */
module EmojiTables {
  import opened Wrappers
  import Text

  type Emoji = seq<int>

  const REGIONAL_A := 0x1F1E6
  const KEYCAP := 0x20E3
  const AGAIN_EMOJI: Emoji := [0x1F501]
  const YES_EMOJI: Emoji := [0x2705]
  const BLANK_EMOJI: Emoji := [0x1F7E8]

  /** The 39 keys: one lower-case letter, one digit, or a special name. */
  predicate IsKey(k: string) {
    (|k| == 1 && (Text.IsLower(k[0]) || Text.IsDigit(k[0]))) || k == "AGAIN" || k == "YES" || k == "BLANK"
  }

  /** `ALPHANUMERIC_TO_EMOJI[k]`; `None` is `undefined`. */
  function AlphanumericToEmoji(k: string): (r: Option<Emoji>)
    ensures r.Some? <==> IsKey(k)
    ensures |k| == 1 && Text.IsLower(k[0]) ==> r == Some([REGIONAL_A + (k[0] as int - 'a' as int)])
    ensures |k| == 1 && Text.IsDigit(k[0]) ==> r == Some([k[0] as int, KEYCAP])
  {
    if |k| == 1 && Text.IsLower(k[0]) then Some([REGIONAL_A + (k[0] as int - 'a' as int)])
    else if |k| == 1 && Text.IsDigit(k[0]) then Some([k[0] as int, KEYCAP])
    else if k == "AGAIN" then Some(AGAIN_EMOJI)
    else if k == "YES" then Some(YES_EMOJI)
    else if k == "BLANK" then Some(BLANK_EMOJI)
    else None
  }

  /** A value of the reverse table: letters and specials are strings, the
      keycaps map to numbers. */
  datatype Alphanumeric = Str(s: string) | Num(n: int)

  /** The property key a value denotes (JavaScript's `String(v)`). */
  function KeyOf(v: Alphanumeric): string {
    match v
    case Str(s) => s
    case Num(n) => Text.IntToString(n)
  }

  /** The reverse table as its keys should read: each emoji of the forward
      table maps back to its key. */
  function IntendedEmojiToAlphanumeric(e: Emoji): (r: Option<Alphanumeric>)
    ensures r.Some? && r.value.Num? ==> 0 <= r.value.n <= 9 && e == [0x30 + r.value.n, KEYCAP]
    ensures r.Some? && r.value.Str? ==> |r.value.s| == 1 ==> Text.IsLower(r.value.s[0])
  {
    if |e| == 1 && REGIONAL_A <= e[0] < REGIONAL_A + 26 then
      Some(Str([('a' as int + (e[0] - REGIONAL_A)) as char]))
    else if |e| == 2 && 0x30 <= e[0] <= 0x39 && e[1] == KEYCAP then Some(Num(e[0] - 0x30))
    else if e == AGAIN_EMOJI then Some(Str("AGAIN"))
    else if e == YES_EMOJI then Some(Str("YES"))
    else if e == BLANK_EMOJI then Some(Str("BLANK"))
    else None
  }

  /** Decoding an encoded key gives the key back: a letter or special as
      that string, a digit as its number. */
  lemma DecodeEncode(k: string)
    requires IsKey(k)
    ensures IntendedEmojiToAlphanumeric(AlphanumericToEmoji(k).value).Some?
    ensures KeyOf(IntendedEmojiToAlphanumeric(AlphanumericToEmoji(k).value).value) == k
    ensures |k| == 1 && Text.IsDigit(k[0]) ==> IntendedEmojiToAlphanumeric(AlphanumericToEmoji(k).value) == Some(Num(k[0] as int - 0x30))
    ensures !(|k| == 1 && Text.IsDigit(k[0])) ==> IntendedEmojiToAlphanumeric(AlphanumericToEmoji(k).value) == Some(Str(k))
  {
    if |k| == 1 && Text.IsDigit(k[0]) {
      var d := k[0] as int - 0x30;
      assert Text.NatToString(d) == [Text.DigitChar(d)];
      assert [Text.DigitChar(d)] == k;
    } else if |k| == 1 {
      assert [('a' as int + (k[0] as int - 'a' as int)) as char] == k;
    }
  }

  /** Encoding a decoded emoji gives the emoji back. */
  lemma EncodeDecode(e: Emoji)
    requires IntendedEmojiToAlphanumeric(e).Some?
    ensures IsKey(KeyOf(IntendedEmojiToAlphanumeric(e).value))
    ensures AlphanumericToEmoji(KeyOf(IntendedEmojiToAlphanumeric(e).value)) == Some(e)
  {
    var v := IntendedEmojiToAlphanumeric(e).value;
    if v.Num? {
      assert Text.NatToString(v.n) == [Text.DigitChar(v.n)];
      assert Text.DigitChar(v.n) as int == 0x30 + v.n;
      assert e == [e[0], e[1]];
    } else if |e| == 1 && REGIONAL_A <= e[0] < REGIONAL_A + 26 {
      var c := ('a' as int + (e[0] - REGIONAL_A)) as char;
      assert v == Str([c]);
      assert c as int - 'a' as int == e[0] - REGIONAL_A;
      assert e == [e[0]];
    }
  }

  /** The forward table is injective: its 39 values are distinct. */
  lemma AlphanumericToEmojiInjective(j: string, k: string)
    requires IsKey(j) && IsKey(k)
    requires AlphanumericToEmoji(j) == AlphanumericToEmoji(k)
    ensures j == k
  {
    DecodeEncode(j);
    DecodeEncode(k);
  }

  /** The intended reverse table has exactly one entry per value of the
      forward table. */
  lemma ReverseDomain(e: Emoji)
    ensures IntendedEmojiToAlphanumeric(e).Some? <==> exists k :: IsKey(k) && AlphanumericToEmoji(k) == Some(e)
  {
    if IntendedEmojiToAlphanumeric(e).Some? {
      EncodeDecode(e);
    }
    if exists k :: IsKey(k) && AlphanumericToEmoji(k) == Some(e) {
      var k :| IsKey(k) && AlphanumericToEmoji(k) == Some(e);
      DecodeEncode(k);
    }
  }

  // ---------------------------------------------------------------------
  // The reverse table as written

  /** The key under which the reverse table stores entry `k`: four
      characters for a letter, the digit and three characters for a
      keycap, and one fixed string for each special. */
  function WrittenKey(k: string): (e: Emoji)
    requires IsKey(k)
  {
    if |k| == 1 && Text.IsLower(k[0]) then [0x11F, 0x178, 0x2021, 0xA6 + (k[0] as int - 'a' as int)]
    else if |k| == 1 then [k[0] as int, 0xE2, 0x192, 0xA3]
    else if k == "AGAIN" then [0x11F, 0x178, 0x201D]
    else if k == "YES" then [0xE2, 0x153, 0x2026]
    else [0x11F, 0x178, 0x178, 0xA8]
  }

  /** `EMOJI_TO_ALPHANUMERIC[e]` as written; `None` is `undefined`. */
  function EmojiToAlphanumeric(e: Emoji): (r: Option<Alphanumeric>)
    ensures r.Some? && r.value.Num? ==> 0 <= r.value.n <= 9 && e == [0x30 + r.value.n, 0xE2, 0x192, 0xA3]
    ensures r.Some? && r.value.Str? ==> |r.value.s| == 1 ==> Text.IsLower(r.value.s[0])
  {
    if |e| == 4 && e[0] == 0x11F && e[1] == 0x178 && e[2] == 0x2021 && 0xA6 <= e[3] < 0xA6 + 26 then
      Some(Str([('a' as int + (e[3] - 0xA6)) as char]))
    else if |e| == 4 && 0x30 <= e[0] <= 0x39 && e[1] == 0xE2 && e[2] == 0x192 && e[3] == 0xA3 then Some(Num(e[0] - 0x30))
    else if e == [0x11F, 0x178, 0x201D] then Some(Str("AGAIN"))
    else if e == [0xE2, 0x153, 0x2026] then Some(Str("YES"))
    else if e == [0x11F, 0x178, 0x178, 0xA8] then Some(Str("BLANK"))
    else None
  }

  /** The table as written holds exactly the 39 written keys, and each
      maps back to its entry: a letter or special as that string, a digit
      as its number. */
  lemma WrittenTable(e: Emoji)
    ensures EmojiToAlphanumeric(e).Some? <==> exists k :: IsKey(k) && WrittenKey(k) == e
    ensures EmojiToAlphanumeric(e).Some? ==> WrittenKey(KeyOf(EmojiToAlphanumeric(e).value)) == e
  {
    var r := EmojiToAlphanumeric(e);
    if r.Some? {
      var k := KeyOf(r.value);
      if r.value.Num? {
        assert Text.NatToString(r.value.n) == [Text.DigitChar(r.value.n)];
        assert e == [e[0], e[1], e[2], e[3]];
      } else if |e| == 4 && e[0] == 0x11F && e[1] == 0x178 && e[2] == 0x2021 && 0xA6 <= e[3] < 0xA6 + 26 {
        assert e == [e[0], e[1], e[2], e[3]];
      }
      assert IsKey(k) && WrittenKey(k) == e;
    }
    if exists k :: IsKey(k) && WrittenKey(k) == e {
      var k :| IsKey(k) && WrittenKey(k) == e;
      if |k| == 1 && Text.IsDigit(k[0]) {
        assert EmojiToAlphanumeric(e) == Some(Num(k[0] as int - 0x30));
      }
    }
  }

  /** No emoji of the forward table is a key of the table as written, so
      looking any of them up gives `undefined`. */
  lemma EmojiNotWrittenKey(e: Emoji)
    requires IntendedEmojiToAlphanumeric(e).Some?
    ensures EmojiToAlphanumeric(e).None?
  {
  }

  // ---------------------------------------------------------------------
  // Where the written keys come from

  /** The UTF-8 encoding of one code point. */
  function Utf8(cp: int): (b: seq<int>)
    requires 0 <= cp < 0x11_0000
    ensures 1 <= |b| <= 4 && forall i :: 0 <= i < |b| ==> 0 <= b[i] < 0x100
  {
    if cp < 0x80 then [cp]
    else if cp < 0x800 then [0xC0 + cp / 0x40, 0x80 + cp % 0x40]
    else if cp < 0x1_0000 then [0xE0 + cp / 0x1000, 0x80 + (cp / 0x40) % 0x40, 0x80 + cp % 0x40]
    else [0xF0 + cp / 0x4_0000, 0x80 + (cp / 0x1000) % 0x40, 0x80 + (cp / 0x40) % 0x40, 0x80 + cp % 0x40]
  }

  /** The UTF-8 encoding of a sequence of code points. */
  function Utf8Seq(e: Emoji): (b: seq<int>)
    requires forall i :: 0 <= i < |e| ==> 0 <= e[i] < 0x11_0000
    ensures forall i :: 0 <= i < |b| ==> 0 <= b[i] < 0x100
    decreases |e|
  {
    if |e| == 0 then [] else Utf8(e[0]) + Utf8Seq(e[1..])
  }

  /** One byte read as Windows-1254 (Turkish): the character it stands for,
      or `None` for the bytes 0x81, 0x8D, 0x8E, 0x8F, 0x90, 0x9D and 0x9E,
      which the code page leaves undefined. */
  function Windows1254(b: int): (c: Option<int>)
    requires 0 <= b < 0x100
  {
    if b < 0x80 then Some(b)
    else if b == 0x80 then Some(0x20AC)
    else if b == 0x82 then Some(0x201A)
    else if b == 0x83 then Some(0x0192)
    else if b == 0x84 then Some(0x201E)
    else if b == 0x85 then Some(0x2026)
    else if b == 0x86 then Some(0x2020)
    else if b == 0x87 then Some(0x2021)
    else if b == 0x88 then Some(0x02C6)
    else if b == 0x89 then Some(0x2030)
    else if b == 0x8A then Some(0x0160)
    else if b == 0x8B then Some(0x2039)
    else if b == 0x8C then Some(0x0152)
    else if b == 0x91 then Some(0x2018)
    else if b == 0x92 then Some(0x2019)
    else if b == 0x93 then Some(0x201C)
    else if b == 0x94 then Some(0x201D)
    else if b == 0x95 then Some(0x2022)
    else if b == 0x96 then Some(0x2013)
    else if b == 0x97 then Some(0x2014)
    else if b == 0x98 then Some(0x02DC)
    else if b == 0x99 then Some(0x2122)
    else if b == 0x9A then Some(0x0161)
    else if b == 0x9B then Some(0x203A)
    else if b == 0x9C then Some(0x0153)
    else if b == 0x9F then Some(0x0178)
    else if b < 0xA0 then None
    else if b == 0xD0 then Some(0x011E)
    else if b == 0xDD then Some(0x0130)
    else if b == 0xDE then Some(0x015E)
    else if b == 0xF0 then Some(0x011F)
    else if b == 0xFD then Some(0x0131)
    else if b == 0xFE then Some(0x015F)
    else Some(b)
  }

  /** Bytes read as Windows-1254 text, an undefined byte dropped. */
  function Misread(bytes: seq<int>): Emoji
    requires forall i :: 0 <= i < |bytes| ==> 0 <= bytes[i] < 0x100
    decreases |bytes|
  {
    if |bytes| == 0 then []
    else
      var c := Windows1254(bytes[0]);
      (if c.Some? then [c.value] else []) + Misread(bytes[1..])
  }

  /** Reading two byte strings one after the other. */
  lemma {:induction false} MisreadAppend(p: seq<int>, q: seq<int>)
    requires forall i :: 0 <= i < |p| ==> 0 <= p[i] < 0x100
    requires forall i :: 0 <= i < |q| ==> 0 <= q[i] < 0x100
    ensures Misread(p + q) == Misread(p) + Misread(q)
    decreases |p|
  {
    if |p| > 0 {
      assert (p + q)[1..] == p[1..] + q;
      MisreadAppend(p[1..], q);
    } else {
      assert p + q == q;
    }
  }

  /** A lone byte from 0xA0 to 0xCF reads as the same code point. */
  lemma MisreadLatin(x: int)
    requires 0xA0 <= x < 0xD0
    ensures Misread([x]) == [x]
  {
    assert [x][1..] == [];
    assert Windows1254(x) == Some(x);
  }

  /** The UTF-8 bytes of the regional-indicator letter `i`. */
  lemma Utf8Regional(i: int)
    requires 0 <= i < 26
    ensures Utf8Seq([REGIONAL_A + i]) == [0xF0, 0x9F, 0x87, 0xA6 + i]
  {
    var cp := REGIONAL_A + i;
    assert [cp][1..] == [];
    assert cp == 0x1F1C0 + (0x26 + i);
    assert cp / 0x4_0000 == 0;
    assert cp / 0x1000 == 0x1F;
    assert cp / 0x40 == 0x7C7;
    assert cp % 0x40 == 0x26 + i;
  }

  /** The written key of a letter is its emoji misread. */
  lemma LetterKeyMisread(i: int)
    requires 0 <= i < 26
    ensures Misread(Utf8Seq([REGIONAL_A + i])) == [0x11F, 0x178, 0x2021, 0xA6 + i]
  {
    var x := 0xA6 + i;
    Utf8Regional(i);
    assert [0xF0, 0x9F, 0x87, x] == [0xF0, 0x9F, 0x87] + [x];
    MisreadAppend([0xF0, 0x9F, 0x87], [x]);
    assert Misread([0xF0, 0x9F, 0x87]) == [0x11F, 0x178, 0x2021];
    MisreadLatin(x);
  }

  /** The UTF-8 bytes of a keycap digit. */
  lemma Utf8Keycap(d: int)
    requires 0x30 <= d <= 0x39
    ensures Utf8Seq([d, KEYCAP]) == [d, 0xE2, 0x83, 0xA3]
  {
    assert [d, KEYCAP][1..] == [KEYCAP];
    assert Utf8Seq([KEYCAP]) == [0xE2, 0x83, 0xA3];
  }

  /** The written key of a digit is its keycap misread. */
  lemma DigitKeyMisread(d: int)
    requires 0x30 <= d <= 0x39
    ensures Misread(Utf8Seq([d, KEYCAP])) == [d, 0xE2, 0x192, 0xA3]
  {
    Utf8Keycap(d);
    assert [d, 0xE2, 0x83, 0xA3] == [d] + [0xE2, 0x83, 0xA3];
    MisreadAppend([d], [0xE2, 0x83, 0xA3]);
    assert [d][1..] == [];
    KeycapTail();
  }

  /** The bytes the keycap adds to a digit, misread. */
  lemma KeycapTail()
    ensures Misread([0xE2, 0x83, 0xA3]) == [0xE2, 0x192, 0xA3]
  {
  }

  /** The UTF-8 bytes of the three specials. */
  lemma Utf8Specials()
    ensures Utf8Seq(AGAIN_EMOJI) == [0xF0, 0x9F, 0x94, 0x81]
    ensures Utf8Seq(YES_EMOJI) == [0xE2, 0x9C, 0x85]
    ensures Utf8Seq(BLANK_EMOJI) == [0xF0, 0x9F, 0x9F, 0xA8]
  {
  }

  /** The written keys of the three specials are their emoji misread; the
      byte 0x81 of AGAIN, which Windows-1254 leaves undefined, is dropped. */
  lemma SpecialKeysMisread()
    ensures Misread(Utf8Seq(AGAIN_EMOJI)) == [0x11F, 0x178, 0x201D]
    ensures Misread(Utf8Seq(YES_EMOJI)) == [0xE2, 0x153, 0x2026]
    ensures Misread(Utf8Seq(BLANK_EMOJI)) == [0x11F, 0x178, 0x178, 0xA8]
  {
    Utf8Specials();
    AgainBytesMisread();
    YesBytesMisread();
    BlankBytesMisread();
  }

  /** The bytes of AGAIN, misread. */
  lemma AgainBytesMisread()
    ensures Misread([0xF0, 0x9F, 0x94, 0x81]) == [0x11F, 0x178, 0x201D]
  {
  }

  /** The bytes of YES, misread. */
  lemma YesBytesMisread()
    ensures Misread([0xE2, 0x9C, 0x85]) == [0xE2, 0x153, 0x2026]
  {
  }

  /** The bytes of BLANK, misread. */
  lemma BlankBytesMisread()
    ensures Misread([0xF0, 0x9F, 0x9F, 0xA8]) == [0x11F, 0x178, 0x178, 0xA8]
  {
  }

  /** Each written key is the forward emoji of its entry, encoded as UTF-8
      and read back as Windows-1254: the table was meant to be keyed by
      the forward table's emoji. */
  lemma WrittenKeyIsMisreadEmoji(k: string)
    requires IsKey(k)
    ensures var e := AlphanumericToEmoji(k).value;
      (forall i :: 0 <= i < |e| ==> 0 <= e[i] < 0x11_0000) && WrittenKey(k) == Misread(Utf8Seq(e))
  {
    if |k| == 1 && Text.IsLower(k[0]) {
      LetterKeyMisread(k[0] as int - 'a' as int);
    } else if |k| == 1 {
      DigitKeyMisread(k[0] as int);
    } else {
      SpecialKeysMisread();
    }
  }
}

=== FILE: extended_user.dfy ===
/** `ExtendedUser` (a platform user with the nickname shown in games) and
    the `Player` base record every game player extends. */
module ExtendedUser {
  import opened Wrappers

  /** The fields of a platform user that the bot reads. */
  datatype User = User(id: string, username: string, discriminator: string, bot: bool)

  datatype ExtendedUser = ExtendedUser(user: User, nickname: string)

  /** The constructor: the nickname given, or the username when it is
      `null` or `undefined` (an empty nickname is kept, as with `??`). */
  function New(user: User, nickname: Option<string>): (e: ExtendedUser)
    ensures e.user == user
    ensures nickname.Some? ==> e.nickname == nickname.value
    ensures nickname.None? ==> e.nickname == user.username
  {
    ExtendedUser(user, nickname.GetOr(user.username))
  }

  /** `fromMember`: the nickname is the guild member's, if any. */
  function FromMember(user: User, memberNickname: Option<string>): (e: ExtendedUser)
    ensures e.user == user
    ensures memberNickname.Some? ==> e.nickname == memberNickname.value
    ensures memberNickname.None? ==> e.nickname == user.username
  {
    New(user, memberNickname)
  }

  /** A member without a server nickname is shown as the plain user; one
      with a nickname is shown under it. */
  lemma FromMemberFormat(user: User, memberNickname: Option<string>)
    ensures memberNickname.None? ==> FormatUser(FromMember(user, memberNickname)) == FormatUserStatic(user)
    ensures memberNickname.Some? ==> FormatUser(FromMember(user, memberNickname))[..|memberNickname.value|] == memberNickname.value
  {
  }

  /** `username#discriminator`. */
  function FormatUserStatic(user: User): (r: string)
    ensures |r| == |user.username| + 1 + |user.discriminator|
    ensures r[..|user.username|] == user.username && r[|user.username|] == '#'
    ensures r[|user.username| + 1..] == user.discriminator
  {
    user.username + "#" + user.discriminator
  }

  /** `nickname#discriminator`. */
  function FormatUser(e: ExtendedUser): (r: string)
    ensures |r| == |e.nickname| + 1 + |e.user.discriminator|
    ensures r[..|e.nickname|] == e.nickname && r[|e.nickname|] == '#'
    ensures r[|e.nickname| + 1..] == e.user.discriminator
  {
    e.nickname + "#" + e.user.discriminator
  }

  /** Without a nickname both renderings agree. */
  lemma FormatWithoutNickname(user: User)
    ensures FormatUser(New(user, None)) == FormatUserStatic(user)
  {
  }

  /** The instance rendering shows the nickname given. */
  lemma FormatShowsNickname(user: User, nickname: string)
    ensures FormatUser(New(user, Some(nickname)))[..|nickname|] == nickname
  {
  }

  /** `PlayerConfig`. */
  datatype PlayerConfig = PlayerConfig(nickname: Option<string>, playerId: Option<int>)

  /** `Player`: its `nickname` field is declared but never assigned. */
  datatype Player = Player(extendedUser: ExtendedUser, playerId: Option<int>, nickname: Option<string>)

  /** The constructor: keeps the user, keeps a truthy `playerId` and turns a
      missing or zero one into `null`. */
  function NewPlayer(user: ExtendedUser, config: PlayerConfig): (p: Player)
    ensures p.extendedUser == user
    ensures p.playerId.Some? <==> config.playerId.Some? && config.playerId.value != 0
    ensures p.playerId.Some? ==> p.playerId == config.playerId
    ensures p.nickname.None?
  {
    Player(user, if config.playerId.Some? && config.playerId.value != 0 then config.playerId else None, None)
  }

  /** The configured nickname never reaches the player. */
  lemma PlayerIgnoresNickname(user: ExtendedUser, config: PlayerConfig, n: string)
    ensures NewPlayer(user, config.(nickname := Some(n))) == NewPlayer(user, config.(nickname := None))
  {
  }
}

=== FILE: game_session.dfy ===
/** The seat registry shared by every game (`Game.players`) and the
    session start flow (`Game.start`): refuse a host who already has a seat
    in the channel, seat the host, run the challenge handshake or the open
    lobby, play, and release the session's seats. The handshake and the
    lobby are the models of `AcceptEmbed` and `MultiplayerEmbed`; the game's
    own `play` is reduced to whether it returned or threw. */
module GameSession {
  import opened Wrappers
  import AcceptEmbed
  import Lobby

  /** Channel id to the ids of users holding a seat in that channel. */
  type Registry = map<string, set<string>>

  /** `Game.clear()`: the registry is replaced by an empty one. */
  function Clear(): (r: Registry)
    ensures forall ch :: ch !in r
  {
    map[]
  }

  /** `setChannel()`: creates an empty seat set for the channel if it has none. */
  function SetChannel(reg: Registry, ch: string): (r: Registry)
    ensures ch in r
    ensures r.Keys == reg.Keys + {ch}
    ensures forall c :: c in reg ==> r[c] == reg[c]
    ensures ch !in reg ==> r[ch] == {}
  {
    if ch in reg then reg else reg[ch := {}]
  }

  /** Creating the channel entry twice is the same as once. */
  lemma SetChannelIdempotent(reg: Registry, ch: string)
    ensures SetChannel(SetChannel(reg, ch), ch) == SetChannel(reg, ch)
  {
  }

  /** `canPlayGame(userId)`, asked after `setChannel`. The name is the
      source's; it is true when the user already holds a seat. */
  predicate HasSeat(reg: Registry, ch: string, user: string) {
    ch in reg && user in reg[ch]
  }

  /** `addPlayer(user, id)` on the registry: the id joins the channel's set. */
  function AddPlayer(reg: Registry, ch: string, user: string): (r: Registry)
    requires ch in reg
    ensures r.Keys == reg.Keys
    ensures r[ch] == reg[ch] + {user}
    ensures forall c :: c in reg && c != ch ==> r[c] == reg[c]
  {
    reg[ch := reg[ch] + {user}]
  }

  /** Adding a seat that is already held changes nothing (set semantics). */
  lemma AddPlayerIdempotent(reg: Registry, ch: string, user: string)
    requires ch in reg
    ensures AddPlayer(AddPlayer(reg, ch, user), ch, user) == AddPlayer(reg, ch, user)
  {
  }

  /** `removeAllPlayers()`: after `setChannel`, each of the session's ids
      leaves the channel's set; nothing else changes. */
  function RemoveAllPlayers(reg: Registry, ch: string, ids: set<string>): (r: Registry)
    ensures r.Keys == reg.Keys + {ch}
    ensures forall u :: u in ids ==> u !in r[ch]
    ensures forall u :: u !in ids ==> (u in r[ch] <==> HasSeat(reg, ch, u))
    ensures forall c :: c in reg && c != ch ==> r[c] == reg[c]
  {
    var reg' := SetChannel(reg, ch);
    reg'[ch := reg'[ch] - ids]
  }

  /** A JavaScript number option is truthy when present and non-zero. */
  predicate Truthy(option: Option<int>) {
    option.Some? && option.value != 0
  }

  /** `pmax ?? hasChallengerOption ? 2 : 4`, which parses as
      `(pmax ?? hasChallengerOption) ? 2 : 4`: a given non-zero `pmax` and
      a missing `pmax` with a challenger option both give 2, everything
      else gives 4, and the value of `pmax` is never used as the bound. */
  function MaxPlayers(pmax: Option<int>, hasChallengerOption: bool): (max: int)
    ensures max == 2 || max == 4
    ensures max == 2 <==> (if pmax.Some? then pmax.value != 0 else hasChallengerOption)
  {
    if (if pmax.Some? then pmax.value != 0 else hasChallengerOption) then 2 else 4
  }

  /** A requested maximum of, say, 10 players still yields a lobby of at most 2. */
  lemma MaxPlayersIgnoresValue(hasChallengerOption: bool)
    ensures MaxPlayers(Some(10), hasChallengerOption) == 2
    ensures MaxPlayers(Some(0), hasChallengerOption) == 4
  {
  }

  /** The command's invocation: the channel, the host, the challenger
      option's user if one was given, the `pmin`/`pmax` options, whether
      the command declares a challenger option, and the bot's prefix. */
  datatype Request = Request(
    channel: string, host: string, challenger: Option<Lobby.User>,
    pmin: Option<int>, pmax: Option<int>, hasChallengerOption: bool, prefix: string)

  /** What the outside world supplies: the clicks on the challenge prompt,
      the lobby's events, and whether the game's `play` throws. */
  datatype Inputs = Inputs(clicks: seq<AcceptEmbed.Click>, lobbyEvents: seq<Lobby.Event>, playThrows: bool)

  /** How `start()` finished. `Threw` is a rejected promise. */
  datatype Outcome = CannotHost | ChallengeRefused | LobbyFailed | Played | Threw

  /** The registry and the session's numbered players when `start` finishes. */
  datatype Session = Session(registry: Registry, players: map<int, string>, outcome: Outcome)

  /** The outcome of `checkChallenger`. A declined challenge throws: the
      decline notice reads the nickname of seat 2, which is still empty. */
  datatype Challenge = BotOrSelf | Declined | Accepted(registry: Registry, players: map<int, string>)

  /** `checkChallenger(challenger)`: bots and the host are refused before
      any prompt; otherwise the challenger is seated as player 2 only after
      accepting. */
  function CheckChallenger(reg: Registry, ch: string, host: string, players: map<int, string>,
                           challenger: Lobby.User, clicks: seq<AcceptEmbed.Click>): (r: Challenge)
    requires ch in reg
    ensures (challenger.bot || challenger.id == host) <==> r.BotOrSelf?
    ensures r.Accepted? <==> !challenger.bot && challenger.id != host && AcceptEmbed.AwaitResponse(challenger.id, clicks)
    ensures r.Accepted? ==> r.registry == AddPlayer(reg, ch, challenger.id) && r.players == players[2 := challenger.id]
  {
    if challenger.bot || challenger.id == host then BotOrSelf
    else if !AcceptEmbed.AwaitResponse(challenger.id, clicks) then Declined
    else Accepted(AddPlayer(reg, ch, challenger.id), players[2 := challenger.id])
  }

  /** The lobby's players numbered from 1 in lobby order. */
  function Numbered(lobby: seq<string>): (m: map<int, string>)
    ensures forall i :: i in m <==> 1 <= i <= |lobby|
    ensures forall i :: 1 <= i <= |lobby| ==> m[i] == lobby[i - 1]
    decreases |lobby|
  {
    if |lobby| == 0 then map[]
    else Numbered(lobby[..|lobby| - 1])[|lobby| := lobby[|lobby| - 1]]
  }

  /** `checkMultiplayer(min, max)`: on success the session players become
      the lobby players renumbered 1..n, each added to the channel's set. */
  function CheckMultiplayer(reg: Registry, ch: string, host: string, prefix: string, players: map<int, string>,
                            min: int, max: int, events: seq<Lobby.Event>): (r: (bool, Registry, map<int, string>))
    ensures var cfg := Lobby.NewConfig(host, prefix, Some(Lobby.Options(min, max, None)));
            r.0 == Lobby.AwaitResponse(cfg, events).0
    ensures !r.0 ==> r.1 == reg && r.2 == players
    ensures r.0 ==> var lobby := Lobby.AwaitResponse(Lobby.NewConfig(host, prefix, Some(Lobby.Options(min, max, None))), events).1.players;
                    min <= |lobby| <= max && |lobby| > 0 && lobby[0] == host &&
                    r.2 == players + Numbered(lobby) &&
                    r.1 == SetChannel(reg, ch)[ch := SetChannel(reg, ch)[ch] + set u | u in lobby]
  {
    var cfg := Lobby.NewConfig(host, prefix, Some(Lobby.Options(min, max, None)));
    var (canPlay, final) := Lobby.AwaitResponse(cfg, events);
    if !canPlay then (false, reg, players)
    else
      var reg' := SetChannel(reg, ch);
      (true, reg'[ch := reg'[ch] + set u | u in final.players], players + Numbered(final.players))
  }

  /** Whether `start` opens a lobby: `pmin || pmax || (hasChallengerOption && !challenger)`. */
  predicate NeedsLobby(req: Request) {
    Truthy(req.pmin) || Truthy(req.pmax) || (req.hasChallengerOption && req.challenger.None?)
  }

  /** The tail of `start` once the challenge step is over: the optional
      lobby, then `play`, then the release of every seat the session holds.
      A throwing `play` skips the release. */
  function AfterChallenge(reg: Registry, req: Request, players: map<int, string>, inputs: Inputs): (r: Session)
    requires req.channel in reg
    ensures r.outcome in {LobbyFailed, Played, Threw}
    ensures r.outcome == Played ==> forall u :: u in r.players.Values ==> !HasSeat(r.registry, req.channel, u)
    ensures r.outcome == LobbyFailed ==> r.players == players
    ensures 1 in players && players[1] == req.host ==> 1 in r.players && r.players[1] == req.host
  {
    var ch := req.channel;
    var (ok, reg', players') :=
      if NeedsLobby(req) then
        CheckMultiplayer(reg, ch, req.host, req.prefix, players, req.pmin.GetOr(2),
                         MaxPlayers(req.pmax, req.hasChallengerOption), inputs.lobbyEvents)
      else (true, reg, players);
    if !ok then Session(RemoveAllPlayers(reg, ch, players.Values), players, LobbyFailed)
    else if inputs.playThrows then Session(reg', players', Threw)
    else Session(RemoveAllPlayers(reg', ch, players'.Values), players', Played)
  }

  /** `start()`. */
  function Start(reg: Registry, req: Request, inputs: Inputs): (r: Session)
    ensures HasSeat(reg, req.channel, req.host) <==> r.outcome == CannotHost
    ensures r.outcome == CannotHost ==> r.registry == SetChannel(reg, req.channel) && r.players == map[]
    ensures r.outcome != CannotHost ==> 1 in r.players && r.players[1] == req.host
    ensures r.outcome == ChallengeRefused ==> !HasSeat(r.registry, req.channel, req.host)
  {
    var ch := req.channel;
    var reg1 := SetChannel(reg, ch);
    if req.host in reg1[ch] then Session(reg1, map[], CannotHost)
    else Seated(AddPlayer(reg1, ch, req.host), req, inputs)
  }

  /** The rest of `start` once the host holds seat 1: the challenge, then
      the lobby and `play`. A refused challenge releases the host's seat. */
  function Seated(reg: Registry, req: Request, inputs: Inputs): (r: Session)
    requires req.channel in reg
    ensures r.outcome != CannotHost
    ensures 1 in r.players && r.players[1] == req.host
    ensures r.outcome == ChallengeRefused ==> !HasSeat(r.registry, req.channel, req.host)
  {
    var ch := req.channel;
    var players := map[1 := req.host];
    if req.challenger.Some? then
      match CheckChallenger(reg, ch, req.host, players, req.challenger.value, inputs.clicks)
      case BotOrSelf => Session(RemoveAllPlayers(reg, ch, players.Values), players, ChallengeRefused)
      case Declined => Session(reg, players, Threw)
      case Accepted(reg3, players3) => AfterChallenge(reg3, req, players3, inputs)
    else AfterChallenge(reg, req, players, inputs)
  }

  /** A command's `runInteraction` that, like the trivia command, releases
      the session's seats when `start` throws; other commands do not. */
  function RunCommand(reg: Registry, req: Request, inputs: Inputs, releasesOnError: bool): (r: Session)
    ensures r.players == Start(reg, req, inputs).players
    ensures r.outcome == Start(reg, req, inputs).outcome
  {
    var s := Start(reg, req, inputs);
    if s.outcome == Threw && releasesOnError then s.(registry := RemoveAllPlayers(s.registry, req.channel, s.players.Values))
    else s
  }

  /** With the release on error, no session ends with one of its players
      still holding a seat in the channel, whatever happens. */
  lemma ReleasedOnEveryPath(reg: Registry, req: Request, inputs: Inputs)
    requires !HasSeat(reg, req.channel, req.host)
    ensures var r := RunCommand(reg, req, inputs, true);
            forall u :: u in r.players.Values ==> !HasSeat(r.registry, req.channel, u)
  {
    var s := Start(reg, req, inputs);
    var ch := req.channel;
    var reg1 := SetChannel(reg, ch);
    var reg2 := AddPlayer(reg1, ch, req.host);
    if req.challenger.Some? {
      match CheckChallenger(reg2, ch, req.host, map[1 := req.host], req.challenger.value, inputs.clicks)
      case BotOrSelf =>
      case Declined =>
      case Accepted(reg3, players3) =>
        AfterChallengeReleases(reg3, req, players3, inputs);
    } else {
      AfterChallengeReleases(reg2, req, map[1 := req.host], inputs);
    }
  }

  lemma AfterChallengeReleases(reg: Registry, req: Request, players: map<int, string>, inputs: Inputs)
    requires req.channel in reg
    ensures var s := AfterChallenge(reg, req, players, inputs);
            s.outcome != Threw ==> forall u :: u in s.players.Values ==> !HasSeat(s.registry, req.channel, u)
  {
  }

  /** Without that release, a declined challenge leaves the host seated:
      the session cannot be hosted again in that channel. */
  lemma DeclineLeavesHostSeated(reg: Registry, req: Request, inputs: Inputs)
    requires !HasSeat(reg, req.channel, req.host)
    requires req.challenger.Some? && !req.challenger.value.bot && req.challenger.value.id != req.host
    requires !AcceptEmbed.AwaitResponse(req.challenger.value.id, inputs.clicks)
    ensures Start(reg, req, inputs).outcome == Threw
    ensures HasSeat(Start(reg, req, inputs).registry, req.channel, req.host)
    ensures Start(Start(reg, req, inputs).registry, req, inputs).outcome == CannotHost
  {
  }

  /** A bot or self challenge never reaches the prompt: the clicks do not matter and nobody plays. */
  lemma BotOrSelfRefused(reg: Registry, req: Request, inputs: Inputs, other: seq<AcceptEmbed.Click>)
    requires !HasSeat(reg, req.channel, req.host)
    requires req.challenger.Some? && (req.challenger.value.bot || req.challenger.value.id == req.host)
    ensures Start(reg, req, inputs).outcome == ChallengeRefused
    ensures Start(reg, req, inputs) == Start(reg, req, inputs.(clicks := other))
  {
  }

  /** An accepted challenger holds seat 2 when the game is played. */
  lemma AcceptedChallengerPlays(reg: Registry, req: Request, inputs: Inputs)
    requires !HasSeat(reg, req.channel, req.host)
    requires req.challenger.Some? && !req.challenger.value.bot && req.challenger.value.id != req.host
    requires AcceptEmbed.AwaitResponse(req.challenger.value.id, inputs.clicks)
    requires !NeedsLobby(req) && !inputs.playThrows
    ensures Start(reg, req, inputs).outcome == Played
    ensures Start(reg, req, inputs).players == map[1 := req.host, 2 := req.challenger.value.id]
  {
  }
}

=== FILE: group_command.dfy ===
/** `GroupCommand`: a command that holds sub-commands by name and exposes
    each of them to the platform as a `SUB_COMMAND` option. */
module GroupCommand {
  import opened Wrappers
  import Collection
  import Command

  type SubCommands = seq<Collection.Entry<Command.Command>>

  /** The group's own command record (whose `options` list grows) and its
      sub-commands. */
  datatype Group = Group(command: Command.Command, commands: SubCommands)

  const SUB_COMMAND := "SUB_COMMAND"

  /** The option pushed for a sub-command. It sets no `required` field, so
      the field reads as false. */
  function SubCommandOption(cmd: Command.Command): (o: Command.AppOption)
    ensures o.kind == SUB_COMMAND && o.name == cmd.name
    ensures o.description == cmd.description && o.options == cmd.options
    ensures !o.required
  {
    Command.AppOption(SUB_COMMAND, cmd.name, cmd.description, false, cmd.options)
  }

  /** `setCommand`: stores the command under its name (replacing any
      earlier one) and appends exactly one option describing it. */
  function SetCommand(g: Group, cmd: Command.Command): (r: Group)
    requires Collection.KeysDistinct(g.commands)
    ensures Collection.KeysDistinct(r.commands)
    ensures Collection.Get(r.commands, cmd.name) == Some(cmd)
    ensures forall n :: n != cmd.name ==> Collection.Get(r.commands, n) == Collection.Get(g.commands, n)
    ensures r.command.options == g.command.options + [SubCommandOption(cmd)]
    ensures r.command == g.command.(options := r.command.options)
  {
    Group(g.command.(options := g.command.options + [SubCommandOption(cmd)]),
          Collection.Set(g.commands, cmd.name, cmd))
  }

  /** `runInteraction`: the sub-command the interaction names, to which the
      call is delegated; `None` where the source dereferences `undefined`
      and throws. */
  function RunInteraction(g: Group, subcommand: string): (r: Option<Command.Command>)
    ensures r.Some? <==> Collection.Has(g.commands, subcommand)
    ensures r == Collection.Get(g.commands, subcommand)
  {
    Collection.Get(g.commands, subcommand)
  }

  /** After `setCommand(cmd)`, an interaction naming `cmd` runs `cmd`. */
  lemma SetThenRun(g: Group, cmd: Command.Command)
    requires Collection.KeysDistinct(g.commands)
    ensures RunInteraction(SetCommand(g, cmd), cmd.name) == Some(cmd)
  {
  }

  /** Setting two commands with the same name keeps only the second in the
      map but leaves two options with that name. */
  lemma SameNameTwice(g: Group, a: Command.Command, b: Command.Command)
    requires Collection.KeysDistinct(g.commands)
    requires a.name == b.name
    ensures RunInteraction(SetCommand(SetCommand(g, a), b), a.name) == Some(b)
    ensures |SetCommand(SetCommand(g, a), b).commands| == |SetCommand(g, a).commands|
    ensures var o := SetCommand(SetCommand(g, a), b).command.options;
            |o| == |g.command.options| + 2 && o[|o| - 2].name == o[|o| - 1].name == a.name
  {
    var g1 := SetCommand(g, a);
    assert Collection.Has(g1.commands, a.name);
  }
}

=== FILE: hangman.dfy ===
/** Hangman (`Hangman`): the host guesses the letters of a secret word one
    message at a time; every letter not in the word costs a life. The word
    lists, the word fetched from the online dictionary and the random pick
    are inputs. */
module Hangman {
  import opened Wrappers
  import Text
  import EmojiTables
  import Random

  /** Characters of the word that never need guessing. */
  const SYMBOLS: seq<char> := [' ', ',', '\'', '-', '+']

  const DEFAULT_LIVES := 8
  const DEFAULT_MAX := 63
  const DEFAULT_MIN := 0

  /** The command's options; `None` is an option that was not given. */
  datatype Options = Options(lives: Option<int>, difficulty: Option<string>, max: Option<int>, min: Option<int>)

  /** Where the secret word comes from: the two word lists, the word the
      online dictionary answers with, and the random draw of `_.sample`. */
  datatype Words = Words(common: seq<string>, all: seq<string>, fetched: string, pick: nat)

  datatype State = State(secret: string, guessed: seq<char>, lives: int)

  /** How `initialize` ends. `NoWord` is a sample from an empty list, which
      leaves the secret word `undefined`. */
  datatype Setup = BoundsWarning | UnknownDifficulty | NoWord(lives: int) | Ready(state: State)

  /** The words of a list whose length lies within the bounds. */
  function WithinBounds(words: seq<string>, min: int, max: int): (r: seq<string>)
    ensures |r| <= |words|
    ensures forall w :: w in r <==> w in words && min <= |w| <= max
    decreases |words|
  {
    if |words| == 0 then []
    else
      var rest := WithinBounds(words[1..], min, max);
      assert forall w :: w in words <==> w == words[0] || w in words[1..];
      if min <= |words[0]| <= max then [words[0]] + rest else rest
  }

  /** `initialize`: lives and bounds default with `??` (so an explicit 0 is
      kept), the difficulty with `||`. Two non-zero bounds the wrong way
      round end the game with a warning; otherwise the word is drawn from
      the list the difficulty names. */
  function Initialize(o: Options, w: Words): (r: Setup)
    ensures r == BoundsWarning <==>
      o.min.GetOr(DEFAULT_MIN) != 0 && o.max.GetOr(DEFAULT_MAX) != 0 && o.min.GetOr(DEFAULT_MIN) > o.max.GetOr(DEFAULT_MAX)
    ensures r.Ready? ==> r.state.guessed == [] && r.state.lives == o.lives.GetOr(DEFAULT_LIVES)
    ensures r.NoWord? ==> r.lives == o.lives.GetOr(DEFAULT_LIVES)
    ensures r.Ready? && r.state.secret != Text.Lower(w.fetched) ==>
      o.min.GetOr(DEFAULT_MIN) <= |r.state.secret| <= o.max.GetOr(DEFAULT_MAX) && (r.state.secret in w.common || r.state.secret in w.all)
    ensures r == UnknownDifficulty ==> o.difficulty.Some? && o.difficulty.value !in ["", "COMMON", "WORDNIK", "ALL"]
  {
    var lives := o.lives.GetOr(DEFAULT_LIVES);
    var difficulty := if o.difficulty.Some? && o.difficulty.value != "" then o.difficulty.value else "COMMON";
    var max := o.max.GetOr(DEFAULT_MAX);
    var min := o.min.GetOr(DEFAULT_MIN);
    if min != 0 && max != 0 && min > max then BoundsWarning
    else
      var word :=
        if difficulty == "COMMON" then Random.Sample(WithinBounds(w.common, min, max), w.pick)
        else if difficulty == "WORDNIK" then Some(Text.Lower(w.fetched))
        else if difficulty == "ALL" then Random.Sample(WithinBounds(w.all, min, max), w.pick)
        else None;
      if difficulty !in ["COMMON", "WORDNIK", "ALL"] then UnknownDifficulty
      else if word.None? then NoWord(lives)
      else Ready(State(word.value, [], lives))
  }

  /** A character of the secret word counts as found: guessed, or a
      symbol. */
  predicate Found(c: char, guessed: seq<char>) {
    c in guessed || c in SYMBOLS
  }

  /** The number of characters of `s` that count as found. */
  function FoundCount(s: string, guessed: seq<char>): (n: nat)
    ensures n <= |s|
    decreases |s|
  {
    if |s| == 0 then 0 else FoundCount(s[..|s| - 1], guessed) + (if Found(s[|s| - 1], guessed) then 1 else 0)
  }

  /** `isSecretWordGuessed`: the found characters are as many as the word's
      characters. */
  predicate IsSecretWordGuessed(s: State) {
    FoundCount(s.secret, s.guessed) == |s.secret|
  }

  /** Counting found characters gives the word's length exactly when every
      character is found. */
  lemma {:induction false} FoundCountFull(s: string, guessed: seq<char>)
    ensures FoundCount(s, guessed) == |s| <==> forall i :: 0 <= i < |s| ==> Found(s[i], guessed)
    decreases |s|
  {
    if |s| > 0 {
      var t := s[..|s| - 1];
      FoundCountFull(t, guessed);
      assert forall i :: 0 <= i < |t| ==> t[i] == s[i];
    }
  }

  /** The word is guessed iff each of its characters was guessed or is a
      symbol. */
  lemma GuessedIffAllFound(s: State)
    ensures IsSecretWordGuessed(s) <==> forall i :: 0 <= i < |s.secret| ==> Found(s.secret[i], s.guessed)
  {
    FoundCountFull(s.secret, s.guessed);
  }

  /** `isGameOver`. */
  predicate IsGameOver(s: State) {
    s.lives <= 0
  }

  /** `terminal`: no life left, or the word guessed. */
  predicate Terminal(s: State) {
    IsGameOver(s) || IsSecretWordGuessed(s)
  }

  /** One guessed letter: a letter guessed before is refused (`None`) and
      changes nothing; a new one is appended, and costs a life exactly when
      the word does not contain it. */
  function Guess(s: State, c: char): (r: Option<State>)
    ensures r.None? <==> c in s.guessed
    ensures r.Some? ==> r.value.guessed == s.guessed + [c] && r.value.secret == s.secret
    ensures r.Some? ==> (r.value.lives == s.lives - 1 <==> c !in s.secret)
    ensures r.Some? ==> (r.value.lives == s.lives <==> c in s.secret)
  {
    if c in s.guessed then None
    else Some(State(s.secret, s.guessed + [c], if c in s.secret then s.lives else s.lives - 1))
  }

  /** No letter is guessed twice. */
  predicate Distinct(g: seq<char>) {
    forall i, j :: 0 <= i < j < |g| ==> g[i] != g[j]
  }

  /** The number of guessed letters not in the word. */
  function Misses(secret: string, g: seq<char>): (n: nat)
    ensures n <= |g|
    decreases |g|
  {
    if |g| == 0 then 0 else Misses(secret, g[..|g| - 1]) + (if g[|g| - 1] in secret then 0 else 1)
  }

  /** A guess keeps the letters distinct and keeps lives plus misses
      constant: every life lost is a distinct wrong letter. */
  lemma GuessKeepsInvariant(s: State, c: char)
    requires Guess(s, c).Some?
    ensures Distinct(s.guessed) ==> Distinct(Guess(s, c).value.guessed)
    ensures Guess(s, c).value.lives + Misses(s.secret, Guess(s, c).value.guessed) == s.lives + Misses(s.secret, s.guessed)
  {
    var g := s.guessed + [c];
    assert g[..|g| - 1] == s.guessed;
  }

  /** A message from the host that the collector takes: not from a bot,
      exactly one character long, and that character a letter. */
  predicate IsLetterMessage(m: Message, host: string) {
    m.author == host && !m.bot && Text.AllLetters(Text.Trim(m.content)) && |m.content| == 1
  }

  datatype Message = Message(author: string, bot: bool, content: string)

  /** The guessed letter of a taken message, lower-cased. */
  function LetterOf(m: Message): char
    requires |m.content| == 1
  {
    Text.LowerChar(m.content[0])
  }

  /** A taken message whose letter was not guessed before. */
  predicate Accepts(s: State, host: string, m: Message) {
    IsLetterMessage(m, host) && LetterOf(m) !in s.guessed
  }

  /** `awaitUserLetter` over the messages before the collector expires,
      from message `from` on: the first taken message with a new letter;
      letters guessed before only bring a notice. `None` is the collector
      expiring, which ends the game. */
  function AwaitLetter(s: State, host: string, msgs: seq<Message>, from: nat): (r: Option<nat>)
    requires from <= |msgs|
    ensures r.Some? ==> from <= r.value < |msgs| && Accepts(s, host, msgs[r.value])
    ensures r.Some? ==> forall i :: from <= i < r.value ==> !Accepts(s, host, msgs[i])
    ensures r.None? ==> forall i :: from <= i < |msgs| ==> !Accepts(s, host, msgs[i])
    decreases |msgs| - from
  {
    if from == |msgs| then None
    else if Accepts(s, host, msgs[from]) then Some(from)
    else AwaitLetter(s, host, msgs, from + 1)
  }

  /** A taken message is a single letter: upper- or lower-case. */
  lemma TakenMessageIsLetter(m: Message, host: string)
    requires IsLetterMessage(m, host)
    ensures Text.IsLetter(m.content[0]) && Text.IsLower(LetterOf(m))
  {
    Text.TrimSingle(m.content);
  }

  datatype Reason = Finished | Inactive

  datatype Outcome = Outcome(state: State, reason: Reason)

  /** The loop of `play`: one turn of messages per guess until the game is
      terminal or a turn passes without a new letter. */
  function Play(s: State, host: string, turns: seq<seq<Message>>): (o: Outcome)
    ensures o.reason == Finished <==> Terminal(o.state)
    ensures o.state.secret == s.secret
    ensures |s.guessed| <= |o.state.guessed| <= |s.guessed| + |turns| && o.state.guessed[..|s.guessed|] == s.guessed
    ensures o.state.lives <= s.lives
    ensures s.lives >= 0 ==> o.state.lives >= 0
    ensures Distinct(s.guessed) ==> Distinct(o.state.guessed)
    ensures Distinct(s.guessed) ==> o.state.lives + Misses(s.secret, o.state.guessed) == s.lives + Misses(s.secret, s.guessed)
    decreases |turns|
  {
    if Terminal(s) then Outcome(s, Finished)
    else if |turns| == 0 then Outcome(s, Inactive)
    else
      match AwaitLetter(s, host, turns[0], 0)
      case None => Outcome(s, Inactive)
      case Some(k) =>
        var t := Guess(s, LetterOf(turns[0][k])).value;
        GuessKeepsInvariant(s, LetterOf(turns[0][k]));
        var o := Play(t, host, turns[1..]);
        assert o.state.guessed[..|t.guessed|] == t.guessed;
        assert t.guessed[..|s.guessed|] == s.guessed;
        assert o.state.guessed[..|s.guessed|] == s.guessed;
        o
  }

  /** The display of one character of the word. */
  datatype Token = Dash | Symbol(c: char) | Revealed(emoji: Option<EmojiTables.Emoji>) | Hidden

  /** `getDisplay`, one token per character: a dash for a space, the other
      symbols themselves, a guessed letter as its emoji, and a blue circle
      for the rest. */
  function Display(s: State): (r: seq<Token>)
    ensures |r| == |s.secret|
    ensures forall i :: 0 <= i < |r| ==> (r[i] == Dash <==> s.secret[i] == ' ')
    ensures forall i :: 0 <= i < |r| ==> (r[i] == Hidden <==> !Found(s.secret[i], s.guessed))
    ensures forall i :: 0 <= i < |r| && r[i].Revealed? ==> s.secret[i] in s.guessed
  {
    seq(|s.secret|, i requires 0 <= i < |s.secret| =>
      var c := s.secret[i];
      if c == ' ' then Dash
      else if c in SYMBOLS then Symbol(c)
      else if c in s.guessed then Revealed(EmojiTables.AlphanumericToEmoji([Text.LowerChar(c)]))
      else Hidden)
  }

  /** The word is guessed exactly when its display hides nothing. */
  lemma GuessedIffNothingHidden(s: State)
    ensures IsSecretWordGuessed(s) <==> Hidden !in Display(s)
  {
    GuessedIffAllFound(s);
    var d := Display(s);
    if Hidden in d {
      var i :| 0 <= i < |d| && d[i] == Hidden;
      assert !Found(s.secret[i], s.guessed);
    }
  }
}

=== FILE: help.dfy ===
/** The `help` command: the command listing with its category menu, the
    per-command detail view, and the option-signature formatting. Embeds,
    the select-menu collector and translations are not modelled; the
    listing is the list of commands the paginator is given. */
module Help {
  import opened Wrappers
  import Text
  import Collection
  import Command
  import CommandHandler

  /** One option's signature: `<name>` when required, `[name]` otherwise,
      in single backticks. */
  function FormatOption(o: Command.AppOption): (f: string)
    ensures |f| == |o.name| + 4
    ensures f[0] == '`' && f[|f| - 1] == '`'
    ensures f[1] == (if o.required then '<' else '[')
    ensures f[|f| - 2] == (if o.required then '>' else ']')
    ensures f[2..|f| - 2] == o.name
  {
    if o.required then "`<" + o.name + ">`" else "`[" + o.name + "]`"
  }

  /** `formatOptions`: one signature per option, in order. */
  function FormatOptions(opts: seq<Command.AppOption>): (r: seq<string>)
    ensures |r| == |opts|
    ensures forall i :: 0 <= i < |opts| ==> r[i] == FormatOption(opts[i])
    decreases |opts|
  {
    if |opts| == 0 then [] else [FormatOption(opts[0])] + FormatOptions(opts[1..])
  }

  /** A signature determines the option's name and whether it is required. */
  lemma FormatOptionInjective(a: Command.AppOption, b: Command.AppOption)
    requires FormatOption(a) == FormatOption(b)
    ensures a.name == b.name && a.required == b.required
  {
    var f := FormatOption(a);
    assert f[1] == (if a.required then '<' else '[') == (if b.required then '<' else '[');
  }

  /** The commands of a collection, in insertion order. */
  function Values(c: CommandHandler.Commands): (r: seq<Command.Command>)
    ensures |r| == |c|
    ensures forall i :: 0 <= i < |c| ==> r[i] == c[i].value
    decreases |c|
  {
    if |c| == 0 then [] else [c[0].value] + Values(c[1..])
  }

  /** The commands whose group is `group`, in order. */
  function InGroup(c: CommandHandler.Commands, group: string): (r: seq<Command.Command>)
    ensures |r| <= |c|
    ensures forall x :: x in r <==> x in Values(c) && x.group == group
    decreases |c|
  {
    if |c| == 0 then []
    else
      var rest := InGroup(c[1..], group);
      assert Values(c) == [c[0].value] + Values(c[1..]);
      if c[0].value.group == group then [c[0].value] + rest else rest
  }

  /** `filter` keeps the collection's order: filtering two collections laid
      end to end gives the first one's commands, then the second's. */
  lemma {:induction false} InGroupAppend(a: CommandHandler.Commands, b: CommandHandler.Commands, group: string)
    ensures InGroup(a + b, group) == InGroup(a, group) + InGroup(b, group)
    decreases |a|
  {
    if |a| > 0 {
      assert (a + b)[1..] == a[1..] + b;
      InGroupAppend(a[1..], b, group);
    } else {
      assert a + b == b;
    }
  }

  /** The menu choice `group`: `all` lists every command, any other value
      only the commands of that group. */
  function SelectCategory(c: CommandHandler.Commands, group: string): (r: seq<Command.Command>)
    ensures group == "all" ==> r == Values(c)
    ensures group != "all" ==> forall x :: x in r <==> x in Values(c) && x.group == group
  {
    if group != "all" then InGroup(c, group) else Values(c)
  }

  /** Whatever the choice, the listing keeps the collection's order: the
      selection from two collections laid end to end is the first one's
      selection followed by the second's. */
  lemma SelectCategoryAppend(a: CommandHandler.Commands, b: CommandHandler.Commands, group: string)
    ensures SelectCategory(a + b, group) == SelectCategory(a, group) + SelectCategory(b, group)
  {
    if group != "all" {
      InGroupAppend(a, b, group);
    } else {
      assert Values(a + b) == Values(a) + Values(b);
    }
  }

  /** No element occurs twice. */
  predicate Distinct(xs: seq<string>) {
    forall i, j :: 0 <= i < j < |xs| ==> xs[i] != xs[j]
  }

  /** The position of the first occurrence of `x` in `xs`. */
  function FirstIndex(xs: seq<string>, x: string): (i: nat)
    requires x in xs
    ensures i < |xs| && xs[i] == x
    ensures forall k :: 0 <= k < i ==> xs[k] != x
    decreases |xs|
  {
    var p := xs[..|xs| - 1];
    assert xs == p + [xs[|xs| - 1]];
    if x in p then FirstIndex(p, x) else |xs| - 1
  }

  /** Appending an element moves no first occurrence, and gives a new
      element its first occurrence at the end. */
  lemma FirstIndexSnoc(p: seq<string>, x: string)
    ensures forall y :: y in p ==> FirstIndex(p + [x], y) == FirstIndex(p, y)
    ensures x !in p ==> FirstIndex(p + [x], x) == |p|
  {
    assert (p + [x])[..|p|] == p;
  }

  /** `_.uniq`: the first occurrence of every element, in order. */
  function Uniq(xs: seq<string>): (r: seq<string>)
    ensures Distinct(r)
    ensures forall x :: x in r <==> x in xs
    ensures |r| <= |xs|
    ensures |xs| > 0 ==> |r| > 0 && r[0] == xs[0]
    ensures forall i, j :: 0 <= i < j < |r| ==> FirstIndex(xs, r[i]) < FirstIndex(xs, r[j])
    decreases |xs|
  {
    if |xs| == 0 then []
    else
      var p := xs[..|xs| - 1];
      var x := xs[|xs| - 1];
      var rest := Uniq(p);
      assert xs == p + [x];
      FirstIndexSnoc(p, x);
      if x in rest then rest else rest + [x]
  }

  /** The groups of the commands, in order, with repeats. */
  function Groups(c: CommandHandler.Commands): (r: seq<string>)
    ensures |r| == |c|
    ensures forall i :: 0 <= i < |c| ==> r[i] == c[i].value.group
    decreases |c|
  {
    if |c| == 0 then [] else [c[0].value.group] + Groups(c[1..])
  }

  /** The category menu's values: `all`, then each distinct group once. */
  function CategoryValues(c: CommandHandler.Commands): (r: seq<string>)
    ensures |r| >= 1 && r[0] == "all"
    ensures Distinct(r[1..])
    ensures forall g :: g in r[1..] <==> exists i :: 0 <= i < |c| && c[i].value.group == g
    ensures forall i, j :: 1 <= i < j < |r| ==>
              r[i] in Groups(c) && r[j] in Groups(c) && FirstIndex(Groups(c), r[i]) < FirstIndex(Groups(c), r[j])
  {
    var u := Uniq(Groups(c));
    assert (["all"] + u)[1..] == u;
    ["all"] + u
  }

  /** Every category offered selects at least one command. */
  lemma CategoriesAreInhabited(c: CommandHandler.Commands, g: string)
    requires g in CategoryValues(c)[1..]
    ensures |SelectCategory(c, g)| > 0
  {
    var i :| 0 <= i < |c| && c[i].value.group == g;
    assert Values(c)[i] == c[i].value;
    if g != "all" {
      assert c[i].value in SelectCategory(c, g);
    }
  }

  /** The aliases field: each alias in double backticks, separated by a
      space, or `NA` when the command has no alias. */
  function AliasesField(aliases: seq<string>): (r: string)
    ensures r == "NA" <==> |aliases| == 0
    ensures |aliases| > 0 ==> |r| >= |aliases[0]| + 4 && r[..|aliases[0]| + 4] == "``" + aliases[0] + "``"
    ensures |aliases| == 1 ==> r == "``" + aliases[0] + "``"
  {
    var quoted := Quote(aliases);
    var joined := Text.Join(quoted, " ");
    if joined == "" then "NA" else joined
  }

  /** One more alias adds a space and that alias in double backticks at the
      end of the field: with the one-alias case, this fixes the whole text. */
  lemma AliasesFieldSnoc(aliases: seq<string>, a: string)
    requires |aliases| > 0
    ensures AliasesField(aliases + [a]) == AliasesField(aliases) + " ``" + a + "``"
  {
    assert Quote(aliases + [a]) == Quote(aliases) + ["``" + a + "``"];
    Text.JoinSnoc(Quote(aliases), "``" + a + "``", " ");
  }

  /** Each alias wrapped in double backticks. */
  function Quote(items: seq<string>): (r: seq<string>)
    ensures |r| == |items|
    ensures forall i :: 0 <= i < |items| ==> r[i] == "``" + items[i] + "``"
    decreases |items|
  {
    if |items| == 0 then [] else ["``" + items[0] + "``"] + Quote(items[1..])
  }

  datatype Reply =
    | Listing(commands: seq<Command.Command>, categories: seq<string>)
    | Details(command: Command.Command, signature: seq<string>, aliases: string)
    | NotFound

  /** `runInteraction`: with no argument every command is listed; otherwise
      the first argument is looked up by name or alias. */
  function RunInteraction(c: CommandHandler.Commands, args: seq<string>): (r: Reply)
    ensures |args| == 0 ==> r.Listing? && r.commands == Values(c) && r.categories == CategoryValues(c)
    ensures |args| > 0 ==> (r.NotFound? <==> CommandHandler.GetCommand(c, args[0]).None?)
    ensures r.Details? ==>
      |args| > 0 && Some(r.command) == CommandHandler.GetCommand(c, args[0]) &&
      r.signature == FormatOptions(r.command.options) &&
      (r.aliases == "NA" <==> |r.command.aliases| == 0)
  {
    if |args| == 0 then Listing(Values(c), CategoryValues(c))
    else match CommandHandler.GetCommand(c, args[0])
      case None => NotFound
      case Some(cmd) => Details(cmd, FormatOptions(cmd.options), AliasesField(cmd.aliases))
  }
}

=== FILE: helpers.dfy ===
/** Small formatting helpers: English ordinals, back-quoted lists, and the
    integer choice lists offered by slash-command options. Numbers are
    integers here; the source's `number` may also be fractional, which no
    caller passes. */
module Helpers {
  import Text

  /** `ordinal`: the decimal rendering followed by `st`, `nd`, `rd` or `th`,
      chosen by the last digit alone. */
  function Ordinal(n: int): (r: string)
    ensures |r| == |Text.IntToString(n)| + 2
    ensures r[..|r| - 2] == Text.IntToString(n)
    ensures var d := (if n < 0 then -n else n) % 10;
            r[|r| - 2..] == (if d == 1 then "st" else if d == 2 then "nd" else if d == 3 then "rd" else "th")
  {
    var parsed := Text.IntToString(n);
    var last := parsed[|parsed| - 1];
    var suffix := if last == '1' then "st" else if last == '2' then "nd" else if last == '3' then "rd" else "th";
    assert Text.DigitValue(last) == (if n < 0 then -n else n) % 10;
    parsed + suffix
  }

  /** There is no exception for the teens. */
  lemma OrdinalExamples()
    ensures Ordinal(1) == "1st" && Ordinal(2) == "2nd" && Ordinal(3) == "3rd" && Ordinal(4) == "4th"
    ensures Ordinal(11) == "11st" && Ordinal(12) == "12nd" && Ordinal(13) == "13rd"
    ensures Ordinal(20) == "20th"
  {
    assert Text.NatToString(1) == "1";
    assert Text.NatToString(2) == "2";
    assert Text.NatToString(3) == "3";
    assert Text.NatToString(4) == "4";
    assert Text.NatToString(11) == "11";
    assert Text.NatToString(12) == "12";
    assert Text.NatToString(13) == "13";
    assert Text.NatToString(20) == "20";
  }

  /** Each item in single backticks. */
  function BackQuote(items: seq<string>): (r: seq<string>)
    ensures |r| == |items|
    ensures forall i :: 0 <= i < |items| ==> r[i] == "`" + items[i] + "`"
    decreases |items|
  {
    if |items| == 0 then [] else ["`" + items[0] + "`"] + BackQuote(items[1..])
  }

  const DEFAULT_SEPARATOR := ", "

  /** `codeBlockList(items, separator)`: the back-quoted items joined by
      the separator (`", "` when the caller gives none). */
  function CodeBlockList(items: seq<string>, separator: string): (r: string)
    ensures |items| == 0 <==> r == ""
    ensures |items| > 0 ==> |r| >= |items[0]| + 2 && r[..|items[0]| + 2] == "`" + items[0] + "`"
    ensures |items| > 0 ==> |r| == Text.TotalLength(items) + 2 * |items| + (|items| - 1) * |separator|
  {
    var quoted := BackQuote(items);
    if |items| > 0 then
      Text.JoinLength(quoted, separator);
      QuotedLength(items);
      Text.Join(quoted, separator)
    else Text.Join(quoted, separator)
  }

  /** Quoting adds two characters per item. */
  lemma {:induction false} QuotedLength(items: seq<string>)
    ensures Text.TotalLength(BackQuote(items)) == Text.TotalLength(items) + 2 * |items|
    decreases |items|
  {
    if |items| > 0 {
      QuotedLength(items[1..]);
      assert BackQuote(items)[1..] == BackQuote(items[1..]);
    }
  }

  /** Adding an item at the end adds the separator and that quoted item at
      the end: the order of the items is kept. */
  lemma CodeBlockListSnoc(items: seq<string>, x: string, separator: string)
    requires |items| > 0
    ensures CodeBlockList(items + [x], separator) == CodeBlockList(items, separator) + separator + "`" + x + "`"
  {
    assert BackQuote(items + [x]) == BackQuote(items) + ["`" + x + "`"];
    Text.JoinSnoc(BackQuote(items), "`" + x + "`", separator);
  }

  /** An application-command choice: a label and an integer value. */
  datatype Choice = Choice(name: string, value: int)

  /** `defaultMapFunc`: the i-th choice is i + 1, labelled in decimal. */
  function DefaultMap(i: nat): (c: Choice)
    ensures c.value == i + 1
    ensures Text.AllDigits(c.name) && Text.ParseDigits(c.name) == c.value
  {
    Text.ParseNatToString(i + 1);
    Choice(Text.NatToString(i + 1), i + 1)
  }

  /** `generateIntegerChoices(n, fn)`: `fn(0)`, ..., `fn(n - 1)`. */
  function GenerateIntegerChoices(n: nat, fn: nat -> Choice): (r: seq<Choice>)
    ensures |r| == n
    ensures forall i :: 0 <= i < n ==> r[i] == fn(i)
    decreases n
  {
    if n == 0 then [] else GenerateIntegerChoices(n - 1, fn) + [fn(n - 1)]
  }

  /** With the default map the values are 1..n, strictly increasing, and
      each label reads back as its value. */
  lemma DefaultChoices(n: nat)
    ensures var r := GenerateIntegerChoices(n, DefaultMap);
            (forall i :: 0 <= i < n ==> r[i].value == i + 1) &&
            (forall i, j :: 0 <= i < j < n ==> r[i].value < r[j].value) &&
            (forall i :: 0 <= i < n ==> Text.ParseDigits(r[i].name) == r[i].value)
  {
  }
}

=== FILE: interaction_gate.dfy ===
/** The `interactionCreate` handler: the order in which a slash-command
    interaction is checked before the command runs. Replies are reduced to
    a verdict tag; the owner list, the guild, the channel kind and the
    permission sets are inputs. */
module InteractionGate {
  import opened Wrappers
  import Cooldown
  import Command
  import CommandHandler

  /** What the handler reads from an interaction. `botPermissions` is
      `None` when the guild's record of the bot itself is absent. */
  datatype Interaction = Interaction(
    isCommand: bool,
    userId: string,
    userBot: bool,
    commandName: string,
    inGuild: bool,
    textChannel: bool,
    memberPermissions: set<string>,
    botPermissions: Option<set<string>>,
    now: int)

  datatype Verdict =
    | Ignored
      /** No command has this name: the source reads a field of `undefined` and throws. */
    | UnknownCommand
    | OwnerOnly
    | GuildOnly
    | MemberMissing(permissions: seq<string>)
    | BotMissing(permissions: seq<string>)
    | OnCooldown(timeLeft: int)
    | Run(command: Command.Command)

  /** The required permissions that `have` lacks, in the order required.
      With no permission record every permission is missing. */
  function Missing(required: seq<string>, have: Option<set<string>>): (r: seq<string>)
    ensures forall p :: p in r <==> p in required && (have.None? || p !in have.value)
    ensures |r| <= |required|
    ensures have.None? ==> r == required
    decreases |required|
  {
    if |required| == 0 then []
    else
      var rest := Missing(required[1..], have);
      assert required == [required[0]] + required[1..];
      if have.Some? && required[0] in have.value then rest else [required[0]] + rest
  }

  /** The interaction is a command from a human user. */
  predicate Handled(i: Interaction) {
    i.isCommand && !i.userBot
  }

  /** The owner, guild and permission checks all let `cmd` through. */
  predicate PassesChecks(cmd: Command.Command, owners: set<string>, i: Interaction) {
    !(cmd.ownerOnly && i.userId !in owners) &&
    !(cmd.guildOnly && !i.inGuild) &&
    (i.textChannel ==>
       |Missing(cmd.memberPermissions, Some(i.memberPermissions))| == 0 &&
       |Missing(cmd.botPermissions, i.botPermissions)| == 0)
  }

  /** One interaction: the updated cooldown stamps and the verdict. */
  function Gate(commands: CommandHandler.Commands, owners: set<string>, stamps: Cooldown.Stamps, i: Interaction): (r: (Cooldown.Stamps, Verdict))
    ensures !Handled(i) ==> r == (stamps, Ignored)
    ensures r.1 == UnknownCommand <==> Handled(i) && CommandHandler.GetCommand(commands, i.commandName).None?
    ensures r.1 == OwnerOnly <==>
      Handled(i) && CommandHandler.GetCommand(commands, i.commandName).Some? &&
      CommandHandler.GetCommand(commands, i.commandName).value.ownerOnly && i.userId !in owners
    ensures r.1 == GuildOnly ==> !i.inGuild
    ensures r.1.MemberMissing? ==>
      (i.textChannel && |r.1.permissions| > 0 &&
       r.1.permissions == Missing(CommandHandler.GetCommand(commands, i.commandName).value.memberPermissions, Some(i.memberPermissions)))
    ensures r.1.BotMissing? ==>
      (i.textChannel && |r.1.permissions| > 0 &&
       |Missing(CommandHandler.GetCommand(commands, i.commandName).value.memberPermissions, Some(i.memberPermissions))| == 0 &&
       r.1.permissions == Missing(CommandHandler.GetCommand(commands, i.commandName).value.botPermissions, i.botPermissions))
    ensures r.1.Run? <==>
      Handled(i) && CommandHandler.GetCommand(commands, i.commandName).Some? &&
      var cmd := CommandHandler.GetCommand(commands, i.commandName).value;
      PassesChecks(cmd, owners, i) &&
      (i.userId in owners || !Cooldown.Live(stamps, cmd.name, i.userId, cmd.cooldown, i.now))
    ensures r.1.Run? ==> Some(r.1.command) == CommandHandler.GetCommand(commands, i.commandName)
    ensures r.1.OnCooldown? <==>
      Handled(i) && CommandHandler.GetCommand(commands, i.commandName).Some? &&
      var cmd := CommandHandler.GetCommand(commands, i.commandName).value;
      PassesChecks(cmd, owners, i) && i.userId !in owners &&
      Cooldown.Live(stamps, cmd.name, i.userId, cmd.cooldown, i.now)
    ensures r.0 != stamps ==> r.1.Run? && i.userId !in owners
  {
    if !Handled(i) then (stamps, Ignored)
    else match CommandHandler.GetCommand(commands, i.commandName)
    case None => (stamps, UnknownCommand)
    case Some(cmd) =>
      if cmd.ownerOnly && i.userId !in owners then (stamps, OwnerOnly)
      else if cmd.guildOnly && !i.inGuild then (stamps, GuildOnly)
      else if i.textChannel && |Missing(cmd.memberPermissions, Some(i.memberPermissions))| > 0 then
        (stamps, MemberMissing(Missing(cmd.memberPermissions, Some(i.memberPermissions))))
      else if i.textChannel && |Missing(cmd.botPermissions, i.botPermissions)| > 0 then
        (stamps, BotMissing(Missing(cmd.botPermissions, i.botPermissions)))
      else if i.userId in owners then (stamps, Run(cmd))
      else
        var check := Cooldown.GetCooldownData(stamps, cmd.name, cmd.cooldown, i.userId, i.now);
        match check.timeLeft
        case Some(t) => (check.stamps, OnCooldown(t))
        case None => (check.stamps, Run(cmd))
  }

  /** An owner is never put on cooldown, and their uses leave no stamp. */
  lemma OwnerBypassesCooldown(commands: CommandHandler.Commands, owners: set<string>, stamps: Cooldown.Stamps, i: Interaction)
    requires i.userId in owners
    ensures !Gate(commands, owners, stamps, i).1.OnCooldown?
    ensures Gate(commands, owners, stamps, i).0 == stamps
  {
  }

  /** Outside text channels no permission is ever examined. */
  lemma PermissionsOnlyInTextChannels(commands: CommandHandler.Commands, owners: set<string>, stamps: Cooldown.Stamps, i: Interaction)
    requires !i.textChannel
    ensures !Gate(commands, owners, stamps, i).1.MemberMissing?
    ensures !Gate(commands, owners, stamps, i).1.BotMissing?
    ensures Gate(commands, owners, stamps, i) == Gate(commands, owners, stamps, i.(memberPermissions := {}, botPermissions := None))
  {
  }

  /** An owner-only command from a non-owner is refused whatever else
      would also refuse it. */
  lemma OwnerCheckFirst(commands: CommandHandler.Commands, owners: set<string>, stamps: Cooldown.Stamps, i: Interaction)
    requires Handled(i)
    requires CommandHandler.GetCommand(commands, i.commandName).Some?
    requires CommandHandler.GetCommand(commands, i.commandName).value.ownerOnly
    requires i.userId !in owners
    ensures Gate(commands, owners, stamps, i) == (stamps, OwnerOnly)
    ensures Gate(commands, owners, stamps, i) == Gate(commands, owners, stamps, i.(inGuild := false, textChannel := true, memberPermissions := {}, botPermissions := None))
  {
  }

  /** A second use by the same non-owner within the cooldown is refused. */
  lemma RepeatWithinCooldownRefused(commands: CommandHandler.Commands, owners: set<string>, stamps: Cooldown.Stamps, i: Interaction, later: int)
    requires Gate(commands, owners, stamps, i).1.Run?
    requires i.userId !in owners
    requires var cmd := Gate(commands, owners, stamps, i).1.command; i.now != 0 && i.now <= later < i.now + cmd.cooldown
    ensures Gate(commands, owners, Gate(commands, owners, stamps, i).0, i.(now := later)).1.OnCooldown?
  {
    var cmd := Gate(commands, owners, stamps, i).1.command;
    var s1 := Gate(commands, owners, stamps, i).0;
    assert Cooldown.Lookup(s1, cmd.name, i.userId) == Some(i.now);
  }
}

=== FILE: internalization.dfy ===
/** The interpolation hook of the translation setup
    (`InternalizationHandler`): interpolated values are HTML-unescaped and
    then optionally wrapped for the `codeBlock` or `bold` format. */
module Internalization {

  /** `pat` occurs in `s` starting at `i`. */
  predicate MatchAt(s: string, i: nat, pat: string) {
    i + |pat| <= |s| && s[i..i + |pat|] == pat
  }

  /** `s.replace(/pat/g, rep)` for a literal pattern: matches are found left
      to right and never overlap. */
  function ReplaceAll(s: string, pat: string, rep: string): (r: string)
    requires |pat| > 0
    ensures pat[0] !in s ==> r == s
    ensures |rep| <= |pat| ==> |r| <= |s|
    decreases |s|
  {
    if |s| == 0 then ""
    else if MatchAt(s, 0, pat) then rep + ReplaceAll(s[|pat|..], pat, rep)
    else [s[0]] + ReplaceAll(s[1..], pat, rep)
  }

  /** A string in which `pat` never occurs is left unchanged. */
  lemma {:induction false} NoMatchUnchanged(s: string, pat: string, rep: string)
    requires |pat| > 0
    requires forall i: nat :: !MatchAt(s, i, pat)
    ensures ReplaceAll(s, pat, rep) == s
    decreases |s|
  {
    if |s| > 0 {
      forall i: nat ensures MatchAt(s[1..], i, pat) == MatchAt(s, i + 1, pat) {
        if i + |pat| <= |s[1..]| {
          assert s[1..][i..i + |pat|] == s[i + 1..i + 1 + |pat|];
        }
      }
      NoMatchUnchanged(s[1..], pat, rep);
      assert !MatchAt(s, 0, pat);
    }
  }

  const LT := "&lt;"
  const GT := "&gt;"
  const AMP := "&amp;"

  /** `unescapeHTML`: `&lt;`, then `&gt;`, then `&amp;`, each replaced
      everywhere before the next is looked for. */
  function UnescapeHTML(s: string): (r: string)
    ensures |r| <= |s|
    ensures '&' !in s ==> r == s
  {
    ReplaceAll(ReplaceAll(ReplaceAll(s, LT, "<"), GT, ">"), AMP, "&")
  }

  /** A value with none of the three entities is returned unchanged. */
  lemma NoEntityUnchanged(s: string)
    requires forall i: nat :: !MatchAt(s, i, LT)
    requires forall i: nat :: !MatchAt(s, i, GT)
    requires forall i: nat :: !MatchAt(s, i, AMP)
    ensures UnescapeHTML(s) == s
  {
    NoMatchUnchanged(s, LT, "<");
    NoMatchUnchanged(s, GT, ">");
    NoMatchUnchanged(s, AMP, "&");
  }

  /** Because `&amp;` is replaced last, an escaped entity is decoded only
      once: `&amp;lt;` becomes `&lt;`, not `<`. */
  lemma AmpIsDecodedLast()
    ensures UnescapeHTML("&amp;lt;") == "&lt;"
  {
    var t := "lt;";
    assert AMP + t == "&amp;lt;";
    assert '&' !in t;
    UnescapeAmp(t);
    assert "&" + t == "&lt;";
  }

  /** The `format` callback: `codeBlock` wraps the unescaped value in
      double backticks, `bold` in double asterisks, anything else leaves
      it bare. */
  function Format(value: string, format: string): (r: string)
    ensures format == "codeBlock" ==> |r| == |UnescapeHTML(value)| + 4 && r[2..|r| - 2] == UnescapeHTML(value) && r[..2] == r[|r| - 2..] == "``"
    ensures format == "bold" ==> |r| == |UnescapeHTML(value)| + 4 && r[2..|r| - 2] == UnescapeHTML(value) && r[..2] == r[|r| - 2..] == "**"
    ensures format != "codeBlock" && format != "bold" ==> r == UnescapeHTML(value)
  {
    var u := UnescapeHTML(value);
    if format == "codeBlock" then "``" + u + "``"
    else if format == "bold" then "**" + u + "**"
    else u
  }

  // ----- An independent escaper, of which UnescapeHTML is the inverse -----

  /** The entity for one character, or the character itself. */
  function EscapeChar(c: char): string {
    if c == '<' then LT else if c == '>' then GT else if c == '&' then AMP else [c]
  }

  /** HTML-escaping of `<`, `>` and `&`, one character at a time. */
  function Escape(s: string): (r: string)
    ensures |r| >= |s|
    ensures '&' !in s && '<' !in s && '>' !in s ==> r == s
    decreases |s|
  {
    if |s| == 0 then "" else EscapeChar(s[0]) + Escape(s[1..])
  }

  /** Replacing in `a + t` splits at the boundary when `a` is the pattern. */
  lemma SplitPattern(t: string, pat: string, rep: string)
    requires |pat| > 0
    ensures ReplaceAll(pat + t, pat, rep) == ReplaceAll(pat, pat, rep) + ReplaceAll(t, pat, rep)
  {
    assert (pat + t)[..|pat|] == pat;
    assert (pat + t)[|pat|..] == t;
    assert MatchAt(pat, 0, pat);
    assert pat[|pat|..] == "";
  }

  /** ... and when `a` does not contain the pattern's first character. */
  lemma {:induction false} SplitFree(a: string, t: string, pat: string, rep: string)
    requires |pat| > 0 && pat[0] !in a
    ensures ReplaceAll(a + t, pat, rep) == a + ReplaceAll(t, pat, rep)
    decreases |a|
  {
    if |a| > 0 {
      assert (a + t)[0] == a[0] != pat[0];
      assert !MatchAt(a + t, 0, pat);
      assert (a + t)[1..] == a[1..] + t;
      assert ReplaceAll(a + t, pat, rep) == [a[0]] + ReplaceAll(a[1..] + t, pat, rep);
      SplitFree(a[1..], t, pat, rep);
      assert a == [a[0]] + a[1..];
    } else {
      assert a + t == t;
    }
  }

  /** ... and when `a` is the pattern's first character followed by text
      that rules the pattern out at position 0. */
  lemma SplitMismatch(x: string, t: string, pat: string, rep: string, j: nat)
    requires |pat| > 0 && pat[0] !in x
    requires j < |x| && j + 1 < |pat| && x[j] != pat[j + 1]
    ensures ReplaceAll([pat[0]] + x + t, pat, rep) == [pat[0]] + x + ReplaceAll(t, pat, rep)
  {
    var s := [pat[0]] + x + t;
    assert s[j + 1] == x[j];
    assert !MatchAt(s, 0, pat) by {
      if |pat| <= |s| { assert s[..|pat|][j + 1] != pat[j + 1]; }
    }
    assert s[1..] == x + t;
    SplitFree(x, t, pat, rep);
  }

  /** One escaped character is decoded back, whatever follows it. */
  lemma UnescapeCons(c: char, t: string)
    ensures UnescapeHTML(EscapeChar(c) + t) == [c] + UnescapeHTML(t)
  {
    if c == '<' { UnescapeLt(t); }
    else if c == '>' { UnescapeGt(t); }
    else if c == '&' { UnescapeAmp(t); }
    else { UnescapePlain(c, t); }
  }

  lemma UnescapeLt(t: string)
    ensures UnescapeHTML(LT + t) == "<" + UnescapeHTML(t)
  {
    var t1 := ReplaceAll(t, LT, "<");
    var t2 := ReplaceAll(t1, GT, ">");
    SplitPattern(t, LT, "<");
    SplitPattern("", LT, "<");
    assert LT + "" == LT;
    assert ReplaceAll(LT + t, LT, "<") == "<" + t1;
    SplitFree("<", t1, GT, ">");
    SplitFree("<", t2, AMP, "&");
  }

  lemma UnescapeGt(t: string)
    ensures UnescapeHTML(GT + t) == ">" + UnescapeHTML(t)
  {
    var t1 := ReplaceAll(t, LT, "<");
    var t2 := ReplaceAll(t1, GT, ">");
    SplitMismatch("gt;", t, LT, "<", 0);
    assert [LT[0]] + "gt;" == GT;
    assert ReplaceAll(GT + t, LT, "<") == GT + t1;
    SplitPattern(t1, GT, ">");
    SplitPattern("", GT, ">");
    assert GT + "" == GT;
    assert ReplaceAll(GT + t1, GT, ">") == ">" + t2;
    SplitFree(">", t2, AMP, "&");
  }

  lemma UnescapeAmp(t: string)
    ensures UnescapeHTML(AMP + t) == "&" + UnescapeHTML(t)
  {
    var t1 := ReplaceAll(t, LT, "<");
    var t2 := ReplaceAll(t1, GT, ">");
    SplitMismatch("amp;", t, LT, "<", 0);
    assert [LT[0]] + "amp;" == AMP;
    assert ReplaceAll(AMP + t, LT, "<") == AMP + t1;
    SplitMismatch("amp;", t1, GT, ">", 0);
    assert [GT[0]] + "amp;" == AMP;
    assert ReplaceAll(AMP + t1, GT, ">") == AMP + t2;
    SplitPattern(t2, AMP, "&");
    SplitPattern("", AMP, "&");
    assert AMP + "" == AMP;
  }

  lemma UnescapePlain(c: char, t: string)
    requires c != '<' && c != '>' && c != '&'
    ensures UnescapeHTML([c] + t) == [c] + UnescapeHTML(t)
  {
    var t1 := ReplaceAll(t, LT, "<");
    var t2 := ReplaceAll(t1, GT, ">");
    SplitFree([c], t, LT, "<");
    SplitFree([c], t1, GT, ">");
    SplitFree([c], t2, AMP, "&");
  }

  /** `unescapeHTML` undoes HTML-escaping. */
  lemma {:induction false} UnescapeEscape(s: string)
    ensures UnescapeHTML(Escape(s)) == s
    decreases |s|
  {
    if |s| > 0 {
      UnescapeCons(s[0], Escape(s[1..]));
      UnescapeEscape(s[1..]);
      assert [s[0]] + s[1..] == s;
    }
  }

  /** So a value escaped upstream is shown as written, wrapped as asked. */
  lemma FormatShowsOriginal(v: string)
    ensures Format(Escape(v), "bold") == "**" + v + "**"
    ensures Format(Escape(v), "codeBlock") == "``" + v + "``"
    ensures Format(Escape(v), "") == v
  {
    UnescapeEscape(v);
  }
}

=== FILE: lobby.dfy ===
/** The open multiplayer lobby (`MultiplayerEmbed`): users join and leave
    with buttons, the host starts or ends it, and the host's text commands
    invite, kick and unkick users. Each delivered button click or host
    message is one step; the lobby settles on its first `stop`, after which
    both collectors are stopped and nothing changes. */
module Lobby {
  import opened Wrappers
  import Cooldown
  import SubCommandHandler

  const JOIN := "JOIN"
  const LEAVE := "LEAVE"
  const START := "START"
  const END := "END"

  datatype User = User(id: string, bot: bool)

  /** The constructor's options; omitted altogether they are `{min: 2, max: 4}`. */
  datatype Options = Options(min: int, max: int, timeLimit: Option<int>)

  datatype Config = Config(host: string, prefix: string, min: int, max: int, timeLimit: int)

  /** The seated players in insertion order, the kicked list (which may
      hold an id more than once), the host-command cooldowns, and the
      promise's settled value. */
  datatype State = State(players: seq<string>, kicked: seq<string>, cooldowns: Cooldown.Stamps, settled: Option<bool>)

  /** A button click, or a message carrying its first mentioned user and the arrival time. */
  datatype Event =
    | Button(user: User, customId: string)
    | Message(author: string, content: string, mention: Option<User>, now: int)

  /** The constructor: default bounds 2..4, time limit `|| 120000`. */
  function NewConfig(host: string, prefix: string, options: Option<Options>): (cfg: Config)
    ensures options.None? ==> cfg.min == 2 && cfg.max == 4 && cfg.timeLimit == 120000
    ensures options.Some? ==> cfg.min == options.value.min && cfg.max == options.value.max
    ensures options.Some? && options.value.timeLimit.Some? && options.value.timeLimit.value != 0 ==>
              cfg.timeLimit == options.value.timeLimit.value
    ensures options.Some? && (options.value.timeLimit.None? || options.value.timeLimit.value == 0) ==>
              cfg.timeLimit == 120000
    ensures cfg.host == host && cfg.prefix == prefix
  {
    var o := options.GetOr(Options(2, 4, None));
    var t := if o.timeLimit.Some? && o.timeLimit.value != 0 then o.timeLimit.value else 120000;
    Config(host, prefix, o.min, o.max, t)
  }

  predicate Distinct(xs: seq<string>) {
    forall i, j :: 0 <= i < j < |xs| ==> xs[i] != xs[j]
  }

  /** `awaitResponse` seats the host before anything else happens. */
  function Init(cfg: Config): (s: State)
    ensures s.players == [cfg.host] && s.kicked == [] && s.settled.None?
  {
    State([cfg.host], [], map[], None)
  }

  /** `canStart`. */
  predicate CanStart(cfg: Config, s: State) {
    cfg.min <= |s.players| <= cfg.max
  }

  /** `willOverMaxPlayers`. */
  predicate WillOverMax(cfg: Config, s: State) {
    |s.players| + 1 > cfg.max
  }

  /** The sequence without any occurrence of `id`, order kept (`filter`, or `delete` on a key). */
  function Remove(xs: seq<string>, id: string): (r: seq<string>)
    ensures forall x :: x in r <==> x in xs && x != id
    ensures |r| <= |xs|
    ensures id !in xs ==> r == xs
    ensures id in xs ==> |r| < |xs|
    ensures |xs| > 0 && xs[0] != id ==> |r| > 0 && r[0] == xs[0]
    decreases |xs|
  {
    if |xs| == 0 then []
    else if xs[0] == id then Remove(xs[1..], id)
    else [xs[0]] + Remove(xs[1..], id)
  }

  /** Removing from a list without repetitions keeps it so and drops exactly one element. */
  lemma {:induction false} RemoveDistinct(xs: seq<string>, id: string)
    ensures Distinct(xs) ==> Distinct(Remove(xs, id))
    ensures Distinct(xs) && id in xs ==> |Remove(xs, id)| == |xs| - 1
    decreases |xs|
  {
    if |xs| > 0 && Distinct(xs) {
      RemoveDistinct(xs[1..], id);
      if xs[0] != id {
        var rest := Remove(xs[1..], id);
        assert xs[0] !in rest;
        assert Distinct([xs[0]] + rest);
      }
    }
  }

  /** The host is seated first and nobody is seated twice. */
  predicate Seated(cfg: Config, s: State) {
    |s.players| > 0 && s.players[0] == cfg.host && Distinct(s.players)
  }

  /** `kick(userId, kicked)`: a seated non-host is removed, and recorded as
      kicked when `kicked` is set; the result is true only in that case. */
  function Kick(cfg: Config, s: State, id: string, kicked: bool): (r: (State, bool))
    ensures r.1 <==> kicked && id in s.players && id != cfg.host
    ensures id in s.players && id != cfg.host ==> r.0.players == Remove(s.players, id)
    ensures id !in s.players || id == cfg.host ==> r.0 == s
    ensures r.0.kicked == if r.1 then s.kicked + [id] else s.kicked
    ensures r.0.cooldowns == s.cooldowns && r.0.settled == s.settled
    ensures Seated(cfg, s) ==> Seated(cfg, r.0)
  {
    RemoveDistinct(s.players, id);
    if id in s.players && id != cfg.host then
      var s' := s.(players := Remove(s.players, id));
      if kicked then (s'.(kicked := s.kicked + [id]), true) else (s', false)
    else (s, false)
  }

  /** `invite(user)`: a bot yields `undefined` (None); anyone else is
      seated if not already, and the result says whether the count grew. */
  function Invite(cfg: Config, s: State, u: User): (r: (State, Option<bool>))
    ensures u.bot ==> r.0 == s && r.1.None?
    ensures !u.bot ==> r.1 == Some(|r.0.players| != |s.players|)
    ensures !u.bot ==> r.1 == Some(u.id !in s.players)
    ensures !u.bot ==> u.id in r.0.players
    ensures |s.players| <= |r.0.players| <= |s.players| + 1
    ensures forall x :: x in r.0.players <==> x in s.players || (x == u.id && !u.bot)
    ensures r.0.kicked == s.kicked && r.0.cooldowns == s.cooldowns && r.0.settled == s.settled
    ensures Seated(cfg, s) ==> Seated(cfg, r.0)
  {
    if u.bot then (s, None)
    else
      var players := if u.id in s.players then s.players else s.players + [u.id];
      (s.(players := players), Some(|players| != |s.players|))
  }

  /** `unkick(user)`: a bot yields `undefined`; otherwise every occurrence
      of the id leaves the kicked list, and the result says whether any did. */
  function Unkick(s: State, u: User): (r: (State, Option<bool>))
    ensures u.bot ==> r.0 == s && r.1.None?
    ensures !u.bot ==> u.id !in r.0.kicked && r.1 == Some(u.id in s.kicked)
    ensures !u.bot ==> forall x :: x != u.id ==> (x in r.0.kicked <==> x in s.kicked)
    ensures r.0.players == s.players && r.0.cooldowns == s.cooldowns && r.0.settled == s.settled
  {
    if u.bot then (s, None)
    else
      var kicked := Remove(s.kicked, u.id);
      (s.(kicked := kicked), Some(|kicked| != |s.kicked|))
  }

  /** The host's text commands, each with a 10-second cooldown. */
  function HostCommands(): SubCommandHandler.Commands {
    SubCommandHandler.Register([
      SubCommandHandler.SubCommand("invite", 10000, ["inv", "add"]),
      SubCommandHandler.SubCommand("kick", 10000, ["k", "remove", "blacklist"]),
      SubCommandHandler.SubCommand("unkick", 10000, ["uk", "whitelist"])
    ])
  }

  /** Runs a host command once it has passed its cooldown. A message with
      no mentioned user makes the command throw, which changes nothing. */
  function Execute(cfg: Config, s: State, command: string, mention: Option<User>): (r: State)
    ensures r.settled == s.settled && r.cooldowns == s.cooldowns
    ensures |r.players| > |s.players| ==> command == "invite" && |r.players| <= cfg.max
    ensures Seated(cfg, s) ==> Seated(cfg, r)
  {
    if mention.None? then s
    else if command == "invite" then (if WillOverMax(cfg, s) then s else Invite(cfg, s, mention.value).0)
    else if command == "kick" then Kick(cfg, s, mention.value.id, true).0
    else if command == "unkick" then Unkick(s, mention.value).0
    else s
  }

  /** `onMessage` for a message from the host. */
  function OnMessage(cfg: Config, s: State, author: string, content: string, mention: Option<User>, now: int): (r: State)
    ensures r.settled == s.settled
    ensures SubCommandHandler.CommandName(content, cfg.prefix).None? ==> r == s
    ensures |r.players| > |s.players| ==> |r.players| <= cfg.max
    ensures Seated(cfg, s) ==> Seated(cfg, r)
  {
    match SubCommandHandler.CommandName(content, cfg.prefix)
    case None => s
    case Some(name) =>
      match SubCommandHandler.Lookup(HostCommands(), name)
      case None => s
      case Some(cmd) =>
        var check := Cooldown.GetCooldownData(s.cooldowns, cmd.name, cmd.cooldown, author, now);
        var s' := s.(cooldowns := check.stamps);
        if check.timeLeft.Some? then s' else Execute(cfg, s', cmd.name, mention)
  }

  /** A button click that passed the collector's filter. */
  function OnButton(cfg: Config, s: State, u: User, customId: string): (r: State)
    ensures r.kicked == s.kicked && r.cooldowns == s.cooldowns
    ensures customId == JOIN ==> (r.settled == s.settled &&
              r.players == if u.id !in s.players && !WillOverMax(cfg, s) then s.players + [u.id] else s.players)
    ensures customId == LEAVE ==> (r.settled == s.settled &&
              r.players == if u.id in s.players && u.id != cfg.host then Remove(s.players, u.id) else s.players)
    ensures customId == START ==> (r.players == s.players &&
              r.settled == if u.id == cfg.host && CanStart(cfg, s) then Settle(s.settled, true) else s.settled)
    ensures customId == END ==> (r.players == s.players &&
              r.settled == if u.id == cfg.host then Settle(s.settled, false) else s.settled)
    ensures Seated(cfg, s) ==> Seated(cfg, r)
    ensures |r.players| > |s.players| ==> !WillOverMax(cfg, s)
    ensures customId !in {JOIN, LEAVE, START, END} ==> r.players == s.players && r.settled == Settle(s.settled, false)
  {
    if customId == JOIN then
      if u.id !in s.players && !WillOverMax(cfg, s) then
        assert Seated(cfg, s) ==> Distinct(s.players + [u.id]);
        s.(players := s.players + [u.id])
      else s
    else if customId == LEAVE then
      if u.id in s.players && u.id != cfg.host then Kick(cfg, s, u.id, false).0 else s
    else if customId == START then
      if u.id == cfg.host && CanStart(cfg, s) then s.(settled := Settle(s.settled, true)) else s
    else if customId == END then
      if u.id == cfg.host then s.(settled := Settle(s.settled, false)) else s
    else s.(settled := Settle(s.settled, false))
  }

  /** One delivered event. Once settled, both collectors are stopped;
      clicks by kicked users or bots and messages by anyone but the host
      are filtered out. */
  function Step(cfg: Config, s: State, e: Event): (r: State)
    ensures s.settled.Some? ==> r == s
    ensures e.Button? && (e.user.id in s.kicked || e.user.bot) ==> r == s
    ensures e.Message? && e.author != cfg.host ==> r == s
  {
    if s.settled.Some? then s
    else match e
      case Button(u, customId) =>
        if u.id in s.kicked || u.bot then s else OnButton(cfg, s, u, customId)
      case Message(author, content, mention, now) =>
        if author != cfg.host then s else OnMessage(cfg, s, author, content, mention, now)
  }

  function Run(cfg: Config, s: State, events: seq<Event>): State
    decreases |events|
  {
    if |events| == 0 then s else Run(cfg, Step(cfg, s, events[0]), events[1..])
  }

  /** `awaitResponse()`: whether the lobby started, and its final state.
      Collector expiry calls `stop(false)`, which matters only if nothing
      settled the lobby before. */
  function AwaitResponse(cfg: Config, events: seq<Event>): (r: (bool, State))
    ensures r.0 ==> CanStart(cfg, r.1)
    ensures |r.1.players| > 0 && r.1.players[0] == cfg.host && Distinct(r.1.players)
    ensures cfg.max >= 1 ==> |r.1.players| <= cfg.max
  {
    var s := Run(cfg, Init(cfg), events);
    RunKeepsInvariant(cfg, Init(cfg), events);
    (Settle(s.settled, false).value, s)
  }

  /** The lobby invariant: the host is seated, no one is seated twice, and
      a lobby settled as started satisfied `canStart` when it stopped. */
  predicate Invariant(cfg: Config, s: State) {
    Seated(cfg, s) && (s.settled == Some(true) ==> CanStart(cfg, s))
  }

  /** Every step keeps the invariant and never takes the lobby past `max`. */
  lemma StepKeepsInvariant(cfg: Config, s: State, e: Event)
    requires Invariant(cfg, s)
    ensures Invariant(cfg, Step(cfg, s, e))
    ensures |s.players| <= cfg.max ==> |Step(cfg, s, e).players| <= cfg.max
  {
    if s.settled.None? {
      match e
      case Button(u, customId) =>
        if u.id !in s.kicked && !u.bot {
          ButtonKeepsInvariant(cfg, s, u, customId);
        }
      case Message(author, content, mention, now) =>
        if author == cfg.host {
          MessageKeepsInvariant(cfg, s, author, content, mention, now);
        }
    }
  }

  lemma ButtonKeepsInvariant(cfg: Config, s: State, u: User, customId: string)
    requires Invariant(cfg, s) && s.settled.None?
    ensures Invariant(cfg, OnButton(cfg, s, u, customId))
    ensures |s.players| <= cfg.max ==> |OnButton(cfg, s, u, customId).players| <= cfg.max
  {
  }

  lemma MessageKeepsInvariant(cfg: Config, s: State, author: string, content: string, mention: Option<User>, now: int)
    requires Invariant(cfg, s) && s.settled.None?
    ensures Invariant(cfg, OnMessage(cfg, s, author, content, mention, now))
    ensures |s.players| <= cfg.max ==> |OnMessage(cfg, s, author, content, mention, now).players| <= cfg.max
  {
  }

  lemma {:induction false} RunKeepsInvariant(cfg: Config, s: State, events: seq<Event>)
    requires Invariant(cfg, s)
    ensures Invariant(cfg, Run(cfg, s, events))
    ensures |s.players| <= cfg.max ==> |Run(cfg, s, events).players| <= cfg.max
    decreases |events|
  {
    if |events| > 0 {
      StepKeepsInvariant(cfg, s, events[0]);
      RunKeepsInvariant(cfg, Step(cfg, s, events[0]), events[1..]);
    }
  }

  /** A kicked user's JOIN does nothing until an unkick removes them from the list. */
  lemma KickedJoinIgnored(cfg: Config, s: State, u: User)
    requires u.id in s.kicked
    ensures Step(cfg, s, Button(u, JOIN)) == s
  {
  }

  /** After the host kicks a seated player, that player's JOIN is ignored. */
  lemma KickThenJoin(cfg: Config, s: State, id: string)
    requires id in s.players && id != cfg.host
    ensures var s' := Kick(cfg, s, id, true).0;
            id !in s'.players && Step(cfg, s', Button(User(id, false), JOIN)) == s'
  {
  }

  /** A user who left with the LEAVE button can join again. */
  lemma LeaveThenJoin(cfg: Config, s: State, u: User)
    requires Invariant(cfg, s) && s.settled.None?
    requires u.id in s.players && u.id != cfg.host && !u.bot && u.id !in s.kicked
    ensures var s' := Step(cfg, s, Button(u, LEAVE));
            u.id !in s'.players && u.id !in s'.kicked &&
            (|s'.players| + 1 <= cfg.max ==> u.id in Step(cfg, s', Button(u, JOIN)).players)
  {
  }
}

=== FILE: mastermind.dfy ===
/** Mastermind with words (`Mastermind`): the host guesses a secret word of
    a given length and is told after each guess how many letters sit in
    the right place (bulls) and how many more occur elsewhere (cows). The
    word lists, the dictionary and the random pick are inputs. */
module Mastermind {
  import opened Wrappers
  import Text
  import Random

  /** `calculateMaxTurns`: 8, 11, 15 or 20 turns for words of 3, 4, 5 or
      more letters; shorter words throw (`None`). */
  function CalculateMaxTurns(length: int): (r: Option<int>)
    ensures r.None? <==> length < 3
    ensures length == 3 ==> r == Some(8)
    ensures length == 4 ==> r == Some(11)
    ensures length == 5 ==> r == Some(15)
    ensures length > 5 ==> r == Some(20)
  {
    if length > 5 then Some(20)
    else if length == 5 then Some(15)
    else if length == 4 then Some(11)
    else if length == 3 then Some(8)
    else None
  }

  /** The letters of `secret` at the first `k` positions where `guess` has
      the same letter. */
  function Matched(guess: string, secret: string, k: nat): (r: seq<char>)
    requires k <= |secret|
    ensures |r| <= k
    decreases k
  {
    if k == 0 then []
    else Matched(guess, secret, k - 1) + (if k - 1 < |guess| && guess[k - 1] == secret[k - 1] then [secret[k - 1]] else [])
  }

  /** The letters of `secret` at the first `k` positions where `guess`
      differs or ends. */
  function Unmatched(guess: string, secret: string, k: nat): (r: seq<char>)
    requires k <= |secret|
    ensures |r| + |Matched(guess, secret, k)| == k
    decreases k
  {
    if k == 0 then []
    else Unmatched(guess, secret, k - 1) + (if k - 1 < |guess| && guess[k - 1] == secret[k - 1] then [] else [secret[k - 1]])
  }

  /** The reference count of bulls: positions holding the same letter. */
  function Bulls(guess: string, secret: string): nat {
    |Matched(guess, secret, |secret|)|
  }

  /** The reference count of cows: the letters the unmatched positions of
      the secret and of the guess have in common, with repetitions. */
  function Cows(guess: string, secret: string): nat {
    |multiset(Unmatched(guess, secret, |secret|)) * (multiset(guess) - multiset(Matched(guess, secret, |secret|)))|
  }

  /** `s.replace(c, '')`: the first occurrence of `c` removed. */
  function RemoveFirst(s: string, c: char): (r: string)
    ensures c in s ==> multiset(r) == multiset(s) - multiset{c}
    ensures c !in s ==> r == s
    decreases |s|
  {
    if |s| == 0 then s
    else if s[0] == c then
      assert s == [s[0]] + s[1..];
      s[1..]
    else
      assert s == [s[0]] + s[1..];
      [s[0]] + RemoveFirst(s[1..], c)
  }

  /** One step of the cow count: the next unmatched secret letter either
      meets a remaining guess letter or does not. */
  lemma IntersectStep(a: multiset<char>, c: char, r: multiset<char>)
    ensures c in r ==> |(a + multiset{c}) * r| == |a * (r - multiset{c})| + 1
    ensures c !in r ==> |(a + multiset{c}) * r| == |a * r|
  {
    if c in r {
      assert (a + multiset{c}) * r == a * (r - multiset{c}) + multiset{c};
    } else {
      assert (a + multiset{c}) * r == a * r;
    }
  }

  /** The first `i` letters of the guess, or all of it when shorter. */
  function Prefix(guess: string, i: nat): string {
    if i < |guess| then guess[..i] else guess
  }

  /** The bookkeeping of the first loop of `calculateBullsAndCows` after
      `i` positions: the bulls' letters come from the guess's first
      letters, and the remaining letters are the guess without them. */
  predicate Book(guess: string, secret: string, i: nat, remaining: string)
    requires i <= |secret|
  {
    multiset(Matched(guess, secret, i)) <= multiset(Prefix(guess, i))
    && multiset(remaining) == multiset(guess) - multiset(Matched(guess, secret, i))
  }

  /** A bull at position `i`: its letter is still among the remaining
      letters, and removing it keeps the bookkeeping. */
  lemma BullStep(guess: string, secret: string, i: nat, remaining: string)
    requires i < |secret| && i < |guess| && guess[i] == secret[i]
    requires Book(guess, secret, i, remaining)
    ensures guess[i] in remaining
    ensures Matched(guess, secret, i + 1) == Matched(guess, secret, i) + [guess[i]]
    ensures Unmatched(guess, secret, i + 1) == Unmatched(guess, secret, i)
    ensures Book(guess, secret, i + 1, RemoveFirst(remaining, guess[i]))
  {
    BullLetters(guess, secret, i, remaining);
  }

  /** The multiset half of `BullStep`. */
  lemma BullLetters(guess: string, secret: string, i: nat, remaining: string)
    requires i < |secret| && i < |guess| && guess[i] == secret[i]
    requires multiset(Matched(guess, secret, i)) <= multiset(Prefix(guess, i))
    requires multiset(remaining) == multiset(guess) - multiset(Matched(guess, secret, i))
    ensures guess[i] in remaining
    ensures multiset(Matched(guess, secret, i + 1)) <= multiset(Prefix(guess, i + 1))
    ensures multiset(RemoveFirst(remaining, guess[i])) == multiset(guess) - multiset(Matched(guess, secret, i + 1))
  {
    var c := guess[i];
    assert Matched(guess, secret, i + 1) == Matched(guess, secret, i) + [c];
    PrefixStep(guess, i);
    BullMultisets(multiset(guess), multiset(Matched(guess, secret, i)), multiset(Prefix(guess, i)),
      multiset(Prefix(guess, i + 1)), c, remaining);
  }

  /** One more letter of the guess's prefix, still among its letters. */
  lemma PrefixStep(guess: string, i: nat)
    requires i < |guess|
    ensures multiset(Prefix(guess, i + 1)) == multiset(Prefix(guess, i)) + multiset{guess[i]}
    ensures multiset(Prefix(guess, i + 1)) <= multiset(guess)
  {
    assert guess[..i + 1] == guess[..i] + [guess[i]];
    if i + 1 == |guess| {
      assert guess[..i + 1] == guess;
    }
    PrefixSub(guess, i + 1);
  }

  /** The multiset arithmetic of a bull: its letter is among the
      remaining ones, and removing it matches the grown bull letters. */
  lemma BullMultisets(g: multiset<char>, m: multiset<char>, p: multiset<char>, p1: multiset<char>, c: char, remaining: string)
    requires m <= p && p1 == p + multiset{c} && p1 <= g && multiset(remaining) == g - m
    ensures c in remaining
    ensures m + multiset{c} <= p1
    ensures multiset(RemoveFirst(remaining, c)) == g - (m + multiset{c})
  {
    DiffStep(g, m, c);
    assert c in multiset(remaining);
  }

  /** A position that is not a bull keeps the bookkeeping. */
  lemma MissStep(guess: string, secret: string, i: nat, remaining: string)
    requires i < |secret| && !(i < |guess| && guess[i] == secret[i])
    requires Book(guess, secret, i, remaining)
    ensures Matched(guess, secret, i + 1) == Matched(guess, secret, i)
    ensures Unmatched(guess, secret, i + 1) == Unmatched(guess, secret, i) + [secret[i]]
    ensures Book(guess, secret, i + 1, remaining)
  {
    if i < |guess| {
      assert Prefix(guess, i + 1) == guess[..i] + [guess[i]];
    }
  }

  /** The letters of a prefix are among the letters of the whole. */
  lemma PrefixSub(s: string, k: nat)
    requires k <= |s|
    ensures multiset(s[..k]) <= multiset(s)
  {
    assert s == s[..k] + s[k..];
  }

  /** Taking one more letter out of a difference of multisets. */
  lemma DiffStep(g: multiset<char>, m: multiset<char>, c: char)
    requires m + multiset{c} <= g
    ensures c in g - m
    ensures (g - m) - multiset{c} == g - (m + multiset{c})
  {
    assert (g - m)[c] >= 1;
  }

  /** What the first loop of `calculateBullsAndCows` knows after `i`
      positions: the bulls so far, the secret letters kept, and the
      bookkeeping of the remaining guess letters. */
  predicate Counted(guess: string, secret: string, i: nat, bulls: nat, remaining: string, rest: string)
    requires i <= |secret|
  {
    bulls == |Matched(guess, secret, i)| && rest == Unmatched(guess, secret, i) && Book(guess, secret, i, remaining)
  }

  /** One position of the first loop: a bull is counted and its letter
      removed, any other position keeps its secret letter. */
  lemma Advance(guess: string, secret: string, i: nat, bulls: nat, remaining: string, rest: string,
                bulls': nat, remaining': string, rest': string)
    requires i < |secret| && Counted(guess, secret, i, bulls, remaining, rest)
    requires i < |guess| && guess[i] == secret[i] ==>
      bulls' == bulls + 1 && remaining' == RemoveFirst(remaining, guess[i]) && rest' == rest
    requires !(i < |guess| && guess[i] == secret[i]) ==>
      bulls' == bulls && remaining' == remaining && rest' == rest + [secret[i]]
    ensures Counted(guess, secret, i + 1, bulls', remaining', rest')
  {
    if i < |guess| && guess[i] == secret[i] {
      BullStep(guess, secret, i, remaining);
    } else {
      MissStep(guess, secret, i, remaining);
    }
  }

  /** The first loop of `calculateBullsAndCows`: counts the bulls,
      removing each bull's letter from the guess's remaining letters, and
      keeps the other secret letters in order. */
  method CountBulls(guess: string, secret: string) returns (bulls: nat, remaining: string, rest: string)
    ensures bulls == Bulls(guess, secret)
    ensures rest == Unmatched(guess, secret, |secret|)
    ensures multiset(remaining) == multiset(guess) - multiset(Matched(guess, secret, |secret|))
  {
    bulls := 0;
    remaining := guess;
    rest := "";
    var i: nat := 0;
    assert Prefix(guess, 0) == [];
    while i < |secret|
      invariant i <= |secret|
      invariant Counted(guess, secret, i, bulls, remaining, rest)
    {
      var bulls', remaining', rest' := bulls, remaining, rest;
      if i < |guess| && guess[i] == secret[i] {
        remaining' := RemoveFirst(remaining, guess[i]);
        bulls' := bulls + 1;
      } else {
        rest' := rest + [secret[i]];
      }
      Advance(guess, secret, i, bulls, remaining, rest, bulls', remaining', rest');
      bulls, remaining, rest, i := bulls', remaining', rest', i + 1;
    }
  }

  /** The second loop of `calculateBullsAndCows`: a cow for each kept
      secret letter still among the remaining letters, which loses it. */
  method CountCows(rest: string, remaining: string) returns (cows: nat)
    ensures cows == |multiset(rest) * multiset(remaining)|
  {
    cows := 0;
    var left := remaining;
    var j := 0;
    assert rest[0..] == rest;
    while j < |rest|
      invariant j <= |rest|
      invariant cows + |multiset(rest[j..]) * multiset(left)| == |multiset(rest) * multiset(remaining)|
    {
      var c := rest[j];
      assert rest[j..] == [c] + rest[j + 1..];
      assert multiset(rest[j..]) == multiset(rest[j + 1..]) + multiset{c};
      IntersectStep(multiset(rest[j + 1..]), c, multiset(left));
      if c in left {
        cows := cows + 1;
        left := RemoveFirst(left, c);
      }
      j := j + 1;
    }
  }

  /** `calculateBullsAndCows`: the bulls, then the cows among the letters
      the bulls left over. */
  method CalculateBullsAndCows(guess: string, secret: string) returns (bulls: nat, cows: nat)
    ensures bulls == Bulls(guess, secret)
    ensures cows == Cows(guess, secret)
  {
    var remaining, rest;
    bulls, remaining, rest := CountBulls(guess, secret);
    cows := CountCows(rest, remaining);
  }

  /** Matching letters are never more than the secret's letters. */
  lemma BullsAndCowsBounded(guess: string, secret: string)
    ensures Bulls(guess, secret) + Cows(guess, secret) <= |secret|
  {
    var u := multiset(Unmatched(guess, secret, |secret|));
    var x := u * (multiset(guess) - multiset(Matched(guess, secret, |secret|)));
    assert x <= u;
    SubMultisetSize(x, u);
  }

  /** A sub-multiset is no larger. */
  lemma SubMultisetSize(x: multiset<char>, u: multiset<char>)
    requires x <= u
    ensures |x| <= |u|
  {
    assert u == x + (u - x);
  }

  /** The first `k` positions all match exactly when the prefixes agree. */
  lemma {:induction false} MatchedAll(guess: string, secret: string, k: nat)
    requires k <= |secret| == |guess|
    ensures |Matched(guess, secret, k)| == k <==> guess[..k] == secret[..k]
    decreases k
  {
    if k > 0 {
      MatchedAll(guess, secret, k - 1);
      assert guess[..k] == guess[..k - 1] + [guess[k - 1]];
      assert secret[..k] == secret[..k - 1] + [secret[k - 1]];
      if guess[..k] == secret[..k] {
        assert guess[..k - 1] == guess[..k][..k - 1];
        assert secret[..k - 1] == secret[..k][..k - 1];
        assert guess[k - 1] == guess[..k][k - 1];
      }
    }
  }

  /** For a guess of the secret's length, every letter is a bull exactly
      when the guess is the secret. */
  lemma AllBullsIffSecret(guess: string, secret: string)
    requires |guess| == |secret|
    ensures Bulls(guess, secret) == |secret| <==> guess == secret
  {
    MatchedAll(guess, secret, |secret|);
    assert guess[..|guess|] == guess && secret[..|secret|] == secret;
  }

  /** Why a guess is refused. */
  datatype Warning = NoWarning | TooShort | TooLong | NotInDictionary

  /** `getWarningMessage`: too short first, then too long, then unknown to
      the dictionary. */
  function GetWarning(word: string, length: int, dictionary: set<string>): (w: Warning)
    ensures w == NoWarning <==> |word| == length && word in dictionary
    ensures w == TooShort <==> |word| < length
    ensures w == TooLong <==> |word| > length
    ensures w == NotInDictionary <==> |word| == length && word !in dictionary
  {
    if |word| < length then TooShort
    else if |word| > length then TooLong
    else if word !in dictionary then NotInDictionary
    else NoWarning
  }

  /** The command's options; `None` is an option that was not given. */
  datatype Options = Options(difficulty: Option<string>, length: Option<int>, turns: Option<int>)

  /** The three word lists the difficulty chooses from, and the random
      draw of `_.sample`. */
  datatype Words = Words(common: seq<string>, wordnik: seq<string>, all: seq<string>, pick: nat)

  /** A recorded guess. */
  datatype Guess = Guess(word: string, bulls: nat, cows: nat)

  datatype State = State(secret: string, length: int, maxTurns: int, turn: int, guesses: seq<Guess>)

  /** How `initialize` ends: `OutOfLength` and `UnknownDifficulty` throw,
      and `NoWord` leaves the secret word `undefined`. */
  datatype Setup = OutOfLength | UnknownDifficulty | NoWord | Ready(state: State)

  /** The words of a list with exactly the given length. */
  function OfLength(words: seq<string>, length: int): (r: seq<string>)
    ensures forall w :: w in r <==> w in words && |w| == length
    decreases |words|
  {
    if |words| == 0 then []
    else
      assert forall w :: w in words <==> w == words[0] || w in words[1..];
      (if |words[0]| == length then [words[0]] else []) + OfLength(words[1..], length)
  }

  /** The word list the `switch` of `initialize` picks for a known
      difficulty: `ALL` is the full list. */
  function ChosenList(difficulty: string, w: Words): seq<string> {
    if difficulty == "COMMON" then w.common else if difficulty == "WORDNIK" then w.wordnik else w.all
  }

  /** `initialize`: every option defaults with `??`; the turns default,
      computed only when no turns were given, throws for short words. */
  function Initialize(o: Options, w: Words): (r: Setup)
    ensures r == OutOfLength <==> o.turns.None? && o.length.GetOr(5) < 3
    ensures r.Ready? ==> r.state.turn == 0 && r.state.guesses == []
    ensures r.Ready? ==> r.state.length == o.length.GetOr(5) && |r.state.secret| == r.state.length
    ensures r.Ready? ==> r.state.maxTurns == if o.turns.Some? then o.turns.value else CalculateMaxTurns(r.state.length).value
    ensures r.Ready? ==> r.state.secret in w.common || r.state.secret in w.wordnik || r.state.secret in w.all
    ensures r == UnknownDifficulty ==> o.difficulty.Some? && o.difficulty.value !in ["COMMON", "WORDNIK", "ALL"]
    ensures r == UnknownDifficulty <==> r != OutOfLength && o.difficulty.GetOr("COMMON") !in ["COMMON", "WORDNIK", "ALL"]
    ensures r.Ready? ==> r.state.secret in ChosenList(o.difficulty.GetOr("COMMON"), w)
    ensures r == NoWord <==>
      (r != OutOfLength && o.difficulty.GetOr("COMMON") in ["COMMON", "WORDNIK", "ALL"] &&
       forall x :: x in ChosenList(o.difficulty.GetOr("COMMON"), w) ==> |x| != o.length.GetOr(5))
  {
    var difficulty := o.difficulty.GetOr("COMMON");
    var length := o.length.GetOr(5);
    var maxTurns := if o.turns.Some? then Some(o.turns.value) else CalculateMaxTurns(length);
    if maxTurns.None? then OutOfLength
    else
      var list := ChosenList(difficulty, w);
      if difficulty !in ["COMMON", "WORDNIK", "ALL"] then UnknownDifficulty
      else
        match Random.Sample(OfLength(list, length), w.pick)
        case None => NoWord
        case Some(secret) => Ready(State(secret, length, maxTurns.value, 0, []))
  }

  /** `terminal`: the last turn has been played. */
  predicate Terminal(s: State) {
    s.turn == s.maxTurns
  }

  datatype Message = Message(author: string, content: string)

  /** What happens during one turn: a typed message or a click on the
      give-up button. */
  datatype Event = Typed(message: Message) | Clicked(user: string)

  datatype Reason = Won | OutOfTurns | GaveUp | Inactive

  /** An accepted guess: a win when it is the secret, otherwise recorded
      with its bulls and cows, which ends the game on the last turn. */
  function Record(s: State, word: string): (r: (State, Option<Reason>))
    ensures word == s.secret ==> r == (s, Some(Won))
    ensures word != s.secret ==> r.0 == s.(guesses := s.guesses + [Guess(word, Bulls(word, s.secret), Cows(word, s.secret))])
    ensures word != s.secret ==> (r.1 == Some(OutOfTurns) <==> Terminal(s)) && (r.1.None? <==> !Terminal(s))
  {
    if word == s.secret then (s, Some(Won))
    else
      var t := s.(guesses := s.guesses + [Guess(word, Bulls(word, s.secret), Cows(word, s.secret))]);
      (t, if Terminal(t) then Some(OutOfTurns) else None)
  }

  /** `awaitWord` over the events of one turn: the host's give-up click
      ends the game; the host's letters-only messages are lower-cased and
      refused with a warning until one is a known word of the right
      length. Running out of events is the collectors expiring. */
  function AwaitWord(s: State, host: string, dictionary: set<string>, events: seq<Event>): (r: (State, Option<Reason>))
    ensures r.0.secret == s.secret && r.0.turn == s.turn && r.0.maxTurns == s.maxTurns && r.0.length == s.length
    ensures |s.guesses| <= |r.0.guesses| <= |s.guesses| + 1 && r.0.guesses[..|s.guesses|] == s.guesses
    ensures |r.0.guesses| == |s.guesses| + 1 ==> r.0.guesses[|s.guesses|].word in dictionary && |r.0.guesses[|s.guesses|].word| == s.length
    ensures |r.0.guesses| == |s.guesses| + 1 ==> r.0.guesses[|s.guesses|].word != s.secret
    ensures r.1 == Some(Won) ==> r.0 == s
    ensures r.1 == Some(OutOfTurns) ==> Terminal(r.0)
    ensures r.1.None? ==> |r.0.guesses| == |s.guesses| + 1 && !Terminal(r.0)
    decreases |events|
  {
    if |events| == 0 then (s, Some(Inactive))
    else
      match events[0]
      case Clicked(u) =>
        if u == host then (s, Some(GaveUp)) else AwaitWord(s, host, dictionary, events[1..])
      case Typed(m) =>
        if m.author == host && Text.AllLetters(m.content) then
          var word := Text.Lower(m.content);
          if GetWarning(word, s.length, dictionary) == NoWarning then Record(s, word)
          else AwaitWord(s, host, dictionary, events[1..])
        else AwaitWord(s, host, dictionary, events[1..])
  }

  datatype Outcome = Outcome(state: State, reason: Reason)

  /** The loop of `play`: a turn begins by counting it, and lasts until a
      guess is accepted. */
  function Play(s: State, host: string, dictionary: set<string>, turns: seq<seq<Event>>): (o: Outcome)
    ensures o.state.secret == s.secret && o.state.maxTurns == s.maxTurns
    ensures o.reason == OutOfTurns ==> Terminal(o.state)
    ensures s.turn <= o.state.turn <= s.turn + |turns|
    ensures |s.guesses| <= |o.state.guesses| && o.state.guesses[..|s.guesses|] == s.guesses
    ensures 0 <= s.turn <= s.maxTurns ==> o.state.turn <= s.maxTurns
    ensures |o.state.guesses| - |s.guesses| <= o.state.turn - s.turn
    ensures forall i :: |s.guesses| <= i < |o.state.guesses| ==> o.state.guesses[i].word != s.secret
    decreases |turns|
  {
    if Terminal(s) then Outcome(s, OutOfTurns)
    else if |turns| == 0 then Outcome(s, Inactive)
    else
      var t := s.(turn := s.turn + 1);
      var (u, reason) := AwaitWord(t, host, dictionary, turns[0]);
      if reason.Some? then Outcome(u, reason.value)
      else
        var o := Play(u, host, dictionary, turns[1..]);
        assert o.state.guesses[..|u.guesses|] == u.guesses;
        o
  }
}

=== FILE: minesweeper.dfy ===
/** Minesweeper (`Minesweeper`): the options, the mine layout, the
    neighbour counts, the largest open region shown at the start, the
    four buttons of the game and the spoiler rule of the rendered board. */
module Minesweeper {
  import opened Wrappers
  import Board
  import Random
  import Text
  import EmojiTables

  type Grid = Board.Board<int>

  /** A `[row, column]` pair of `Positions`. */
  datatype Pos = Pos(row: int, column: int)

  const MINE := -1

  predicate In(b: Grid, p: Pos) {
    Board.InBoard(b, p.row, p.column)
  }

  /** A cell of the board holding 0: no mine around it. */
  predicate Zero(b: Grid, p: Pos) {
    In(b, p) && b[p.row][p.column] == 0
  }

  /** The eight cells around `p`. */
  predicate Adjacent(p: Pos, q: Pos) {
    p != q && -1 <= q.row - p.row <= 1 && -1 <= q.column - p.column <= 1
  }

  lemma AdjacentSymmetric(p: Pos, q: Pos)
    requires Adjacent(p, q)
    ensures Adjacent(q, p)
  {
  }

  // ---------------------------------------------------------------------
  // The largest safe region (`findLargestSafeRegion`)
  // ---------------------------------------------------------------------

  /** The `k`-th recursive call of `dfs`: up, down, left, right, then the
      four diagonals up-left, up-right, down-left, down-right. */
  function Neighbour(p: Pos, k: nat): (q: Pos)
    requires k < 8
    ensures Adjacent(p, q)
  {
    if k == 0 then Pos(p.row - 1, p.column)
    else if k == 1 then Pos(p.row + 1, p.column)
    else if k == 2 then Pos(p.row, p.column - 1)
    else if k == 3 then Pos(p.row, p.column + 1)
    else if k == 4 then Pos(p.row - 1, p.column - 1)
    else if k == 5 then Pos(p.row - 1, p.column + 1)
    else if k == 6 then Pos(p.row + 1, p.column - 1)
    else Pos(p.row + 1, p.column + 1)
  }

  /** The eight calls reach every adjacent cell. */
  lemma DirectionOf(p: Pos, q: Pos) returns (k: nat)
    requires Adjacent(p, q)
    ensures k < 8 && Neighbour(p, k) == q
  {
    var dr, dc := q.row - p.row, q.column - p.column;
    if dr == -1 && dc == 0 { k := 0; }
    else if dr == 1 && dc == 0 { k := 1; }
    else if dr == 0 && dc == -1 { k := 2; }
    else if dr == 0 && dc == 1 { k := 3; }
    else if dr == -1 && dc == -1 { k := 4; }
    else if dr == -1 && dc == 1 { k := 5; }
    else if dr == 1 && dc == -1 { k := 6; }
    else { k := 7; }
  }

  /** Every cell of the board. */
  function Cells(b: Grid): set<Pos> {
    set r, c | 0 <= r < |b| && 0 <= c < |b[r]| :: Pos(r, c)
  }

  lemma CellsShrink(b: Grid, e: set<Pos>, p: Pos)
    requires In(b, p) && p !in e
    ensures |Cells(b) - (e + {p})| < |Cells(b) - e|
  {
    assert p in Cells(b);
    assert Cells(b) - (e + {p}) == (Cells(b) - e) - {p};
  }

  lemma CellsMonotone(b: Grid, e: set<Pos>, e': set<Pos>)
    requires e <= e'
    ensures |Cells(b) - e'| <= |Cells(b) - e|
  {
    var small, large := Cells(b) - e', Cells(b) - e;
    assert large == small + (large - small);
  }

  /** The closure's state: the `explored` object, keyed by cell, and the
      `localPositions` list of the search in progress. */
  datatype Search = Search(explored: set<Pos>, local: seq<Pos>)

  /** What a search from `st` to `r` does: the explored set only grows, and
      only by zero cells, each of which is appended exactly once; entries
      are only appended, all on the board, and every appended zero cell is
      one of the newly explored. */
  ghost predicate Extends(b: Grid, st: Search, r: Search) {
    && st.explored <= r.explored
    && |st.local| <= |r.local| && r.local[..|st.local|] == st.local
    && (forall q :: q in r.explored && q !in st.explored ==>
          Zero(b, q) && exists i :: |st.local| <= i < |r.local| && r.local[i] == q)
    && (forall i :: |st.local| <= i < |r.local| ==> In(b, r.local[i]))
    && (forall i :: |st.local| <= i < |r.local| && Zero(b, r.local[i]) ==>
          r.local[i] in r.explored && r.local[i] !in st.explored)
    && (forall i, j :: |st.local| <= i < j < |r.local| && Zero(b, r.local[i]) ==> r.local[i] != r.local[j])
  }

  lemma ExtendsTrans(b: Grid, s0: Search, s1: Search, s2: Search)
    requires Extends(b, s0, s1) && Extends(b, s1, s2)
    ensures Extends(b, s0, s2)
  {
    var n0, n1, n2 := |s0.local|, |s1.local|, |s2.local|;
    assert s2.local[..n0] == s1.local[..n0];
    forall i | n0 <= i < n1 ensures s2.local[i] == s1.local[i] {
      assert s2.local[..n1][i] == s1.local[i];
    }
    forall q | q in s2.explored && q !in s0.explored
      ensures Zero(b, q) && exists i :: n0 <= i < n2 && s2.local[i] == q
    {
      if q in s1.explored {
        var i :| n0 <= i < n1 && s1.local[i] == q;
        assert s2.local[i] == q;
      }
    }
    forall i | n0 <= i < n2 && Zero(b, s2.local[i]) ensures s2.local[i] in s2.explored && s2.local[i] !in s0.explored {
      if i < n1 {
        assert s2.local[i] == s1.local[i];
      }
    }
    forall i, j | n0 <= i < j < n2 && Zero(b, s2.local[i]) ensures s2.local[i] != s2.local[j] {
      if i < n1 && j < n1 {
        assert s2.local[i] == s1.local[i] && s2.local[j] == s1.local[j];
      } else if i < n1 {
        assert s2.local[i] == s1.local[i];
      }
    }
  }

  /** Every cell explored between `before` and `after` has its zero
      neighbours explored too. */
  ghost predicate Closes(b: Grid, before: set<Pos>, after: set<Pos>) {
    forall q, s :: q in after && q !in before && Adjacent(q, s) && Zero(b, s) ==> s in after
  }

  lemma ClosesTrans(b: Grid, e0: set<Pos>, e1: set<Pos>, e2: set<Pos>)
    requires e1 <= e2 && Closes(b, e0, e1) && Closes(b, e1, e2)
    ensures Closes(b, e0, e2)
  {
  }

  /** Every entry after position `from` is adjacent to an earlier zero
      entry, from `from` on: the zero entries are connected, and the others
      touch them. */
  ghost predicate Chained(b: Grid, l: seq<Pos>, from: nat) {
    forall i :: from < i < |l| ==> exists j :: from <= j < i && Zero(b, l[j]) && Adjacent(l[j], l[i])
  }

  /** A sub-search appended after the entry `at`, whose first entry is
      adjacent to that zero entry, keeps the list chained from `at`. */
  lemma ChainStep(b: Grid, l0: seq<Pos>, l1: seq<Pos>, at: nat)
    requires at < |l0| <= |l1| && l1[..|l0|] == l0
    requires Zero(b, l0[at]) && Chained(b, l0, at) && Chained(b, l1, |l0|)
    requires |l0| < |l1| ==> Adjacent(l0[at], l1[|l0|])
    ensures Chained(b, l1, at)
  {
    forall i | at < i < |l1|
      ensures exists j :: at <= j < i && Zero(b, l1[j]) && Adjacent(l1[j], l1[i])
    {
      if i < |l0| {
        var j :| at <= j < i && Zero(b, l0[j]) && Adjacent(l0[j], l0[i]);
        assert l1[j] == l0[j] && l1[i] == l0[i];
      } else if i == |l0| {
        assert l1[at] == l0[at];
      }
    }
  }

  /** What a call of `dfs` on cell `p` from state `st` leaves in `r`: an
      explored cell is skipped and changes nothing; a new cell is appended
      to the list; a zero cell ends up explored; the new entries are
      chained and the newly explored cells are closed under zero
      neighbours. */
  ghost predicate Searched(b: Grid, p: Pos, st: Search, r: Search) {
    && Extends(b, st, r) && Closes(b, st.explored, r.explored) && Chained(b, r.local, |st.local|)
    && (Zero(b, p) ==> p in r.explored)
    && (p !in st.explored ==> |st.local| < |r.local| && r.local[|st.local|] == p)
    && (p in st.explored ==> r == st)
  }

  /** What the calls around the zero cell `p`, entry `at` of the list,
      from the `k`-th on, leave in `r`: every zero neighbour they reach
      is explored. */
  ghost predicate Visited(b: Grid, p: Pos, at: nat, st: Search, k: nat, r: Search) {
    && Extends(b, st, r) && Closes(b, st.explored, r.explored) && Chained(b, r.local, at)
    && forall j :: k <= j < 8 && Zero(b, Neighbour(p, j)) ==> Neighbour(p, j) in r.explored
  }

  /** `dfs(board, r, c)` on the state `st`: an explored cell is left alone;
      a zero cell is explored, appended, and searched around in the order
      of `Neighbour`; any other cell is appended, unexplored. */
  function Dfs(b: Grid, p: Pos, st: Search): (r: Search)
    requires In(b, p)
    ensures Searched(b, p, st, r)
    decreases |Cells(b) - st.explored|, 0, 0
  {
    if p in st.explored then st
    else if b[p.row][p.column] == 0 then
      var st1 := Search(st.explored + {p}, st.local + [p]);
      CellsShrink(b, st.explored, p);
      var r := Visit(b, p, |st.local|, st1, 0);
      DfsZero(b, p, st, r);
      r
    else
      DfsOther(b, p, st);
      Search(st.explored, st.local + [p])
  }

  /** A zero cell: marking it, appending it and visiting around it is a
      search from it. */
  lemma DfsZero(b: Grid, p: Pos, st: Search, r: Search)
    requires Zero(b, p) && p !in st.explored
    requires Visited(b, p, |st.local|, Search(st.explored + {p}, st.local + [p]), 0, r)
    ensures Searched(b, p, st, r)
  {
    var st1 := Search(st.explored + {p}, st.local + [p]);
    assert st1.local[..|st.local|] == st.local && st1.local[|st.local|] == p;
    assert Extends(b, st, st1);
    ExtendsTrans(b, st, st1, r);
    ClosedAround(b, p, r.explored);
    assert r.local[..|st1.local|] == st1.local;
  }

  /** A cell that is not zero is only appended. */
  lemma DfsOther(b: Grid, p: Pos, st: Search)
    requires In(b, p) && !Zero(b, p) && p !in st.explored
    ensures Searched(b, p, st, Search(st.explored, st.local + [p]))
  {
    var r := Search(st.explored, st.local + [p]);
    assert r.local[..|st.local|] == st.local;
  }

  /** The recursive calls of `dfs` around the zero cell `p`, entry `at` of
      the list, from the `k`-th on. */
  function Visit(b: Grid, p: Pos, at: nat, st: Search, k: nat): (r: Search)
    requires Zero(b, p) && p in st.explored && k <= 8
    requires at < |st.local| && st.local[at] == p && Chained(b, st.local, at)
    ensures Visited(b, p, at, st, k, r)
    decreases |Cells(b) - st.explored|, 1, 8 - k
  {
    if k == 8 then
      assert st.local[..|st.local|] == st.local;
      st
    else
      var q := Neighbour(p, k);
      var s := if In(b, q) then Dfs(b, q, st) else st;
      VisitNext(b, p, at, st, k, s);
      var r := Visit(b, p, at, s, k + 1);
      VisitStep(b, p, at, st, k, s, r);
      r
  }

  /** After the `k`-th call the state still meets what the next calls
      need, and has explored no fewer cells. */
  lemma VisitNext(b: Grid, p: Pos, at: nat, st: Search, k: nat, s: Search)
    requires Zero(b, p) && p in st.explored && k < 8
    requires at < |st.local| && st.local[at] == p && Chained(b, st.local, at)
    requires In(b, Neighbour(p, k)) ==> Searched(b, Neighbour(p, k), st, s)
    requires !In(b, Neighbour(p, k)) ==> s == st
    ensures p in s.explored && at < |s.local| && s.local[at] == p && Chained(b, s.local, at)
    ensures |Cells(b) - s.explored| <= |Cells(b) - st.explored|
  {
    if In(b, Neighbour(p, k)) {
      CellsMonotone(b, st.explored, s.explored);
      ChainStep(b, st.local, s.local, at);
      assert s.local[at] == s.local[..|st.local|][at];
    }
  }

  /** The `k`-th call followed by the rest is the calls from the `k`-th. */
  lemma VisitStep(b: Grid, p: Pos, at: nat, st: Search, k: nat, s: Search, r: Search)
    requires k < 8
    requires In(b, Neighbour(p, k)) ==> Searched(b, Neighbour(p, k), st, s)
    requires !In(b, Neighbour(p, k)) ==> s == st
    requires Visited(b, p, at, s, k + 1, r)
    ensures Visited(b, p, at, st, k, r)
  {
    ExtendsTrans(b, st, s, r);
    ClosesTrans(b, st.explored, s.explored, r.explored);
  }

  /** A cell whose eight calls all left their zero cells explored has
      every zero neighbour explored. */
  lemma ClosedAround(b: Grid, p: Pos, e: set<Pos>)
    requires forall j :: 0 <= j < 8 && Zero(b, Neighbour(p, j)) ==> Neighbour(p, j) in e
    ensures forall s :: Adjacent(p, s) && Zero(b, s) ==> s in e
  {
    forall s | Adjacent(p, s) && Zero(b, s) ensures s in e {
      var k := DirectionOf(p, s);
    }
  }

  /** A board whose rows all have the width of the first (`board[0].length`
      is read as the number of columns). */
  predicate Rectangular(b: Grid) {
    |b| > 0 && forall r :: 0 <= r < |b| ==> |b[r]| == |b[0]|
  }

  /** An explored set of zero cells that holds every zero neighbour of its
      cells: a union of whole zero regions. */
  ghost predicate ClosedSet(b: Grid, e: set<Pos>) {
    forall z :: z in e ==> Zero(b, z) && forall s :: Adjacent(z, s) && Zero(b, s) ==> s in e
  }

  /** One region's visit list: it starts at a zero cell, lists each zero
      cell once, every later entry touches an earlier zero entry, and every
      zero neighbour of a listed zero cell is listed: the listed zero cells
      are one whole 8-connected zero region, and the other entries are
      cells around it (which may repeat). */
  ghost predicate IsRegion(b: Grid, l: seq<Pos>) {
    && |l| > 0 && Zero(b, l[0])
    && (forall i :: 0 <= i < |l| ==> In(b, l[i]))
    && (forall i, j :: 0 <= i < j < |l| && Zero(b, l[i]) ==> l[i] != l[j])
    && Chained(b, l, 0)
    && (forall i, s :: 0 <= i < |l| && Zero(b, l[i]) && Adjacent(l[i], s) && Zero(b, s) ==> s in l)
  }

  /** A search started by the row-major scan, at a zero cell outside a
      closed explored set, lists one whole region and leaves the explored
      set closed. */
  lemma DfsRegion(b: Grid, p: Pos, e: set<Pos>)
    requires ClosedSet(b, e) && Zero(b, p) && p !in e
    ensures IsRegion(b, Dfs(b, p, Search(e, [])).local)
    ensures ClosedSet(b, Dfs(b, p, Search(e, [])).explored)
    ensures forall q :: q in Dfs(b, p, Search(e, [])).explored && q !in e ==> q in Dfs(b, p, Search(e, [])).local
  {
    var r := Dfs(b, p, Search(e, []));
    var l := r.local;
    forall i, s | 0 <= i < |l| && Zero(b, l[i]) && Adjacent(l[i], s) && Zero(b, s) ensures s in l {
      assert l[i] in r.explored && l[i] !in e;
      assert s in r.explored;
      if s in e {
        AdjacentSymmetric(l[i], s);
        assert false;
      }
      var k :| 0 <= k < |l| && l[k] == s;
    }
    forall q | q in r.explored && q !in e ensures q in l {
      var k :| 0 <= k < |l| && l[k] == q;
    }
  }

  /** The row-major loop of `findLargestSafeRegion` from cell `(i, j)`:
      each zero cell not yet explored starts a search with an empty list,
      and the list replaces the best one when strictly longer. */
  function Scan(b: Grid, i: nat, j: nat, explored: set<Pos>, best: seq<Pos>): seq<Pos>
    requires Rectangular(b) && i <= |b| && j <= |b[0]|
    decreases |b| - i, |b[0]| - j
  {
    if i == |b| then best
    else if j == |b[0]| then Scan(b, i + 1, 0, explored, best)
    else if Pos(i, j) in explored || b[i][j] != 0 then Scan(b, i, j + 1, explored, best)
    else
      var s := Dfs(b, Pos(i, j), Search(explored, []));
      Scan(b, i, j + 1, s.explored, if |best| < |s.local| then s.local else best)
  }

  /** The visit lists the same loop produces, in scan order. */
  function Locals(b: Grid, i: nat, j: nat, explored: set<Pos>): seq<seq<Pos>>
    requires Rectangular(b) && i <= |b| && j <= |b[0]|
    decreases |b| - i, |b[0]| - j
  {
    if i == |b| then []
    else if j == |b[0]| then Locals(b, i + 1, 0, explored)
    else if Pos(i, j) in explored || b[i][j] != 0 then Locals(b, i, j + 1, explored)
    else
      var s := Dfs(b, Pos(i, j), Search(explored, []));
      [s.local] + Locals(b, i, j + 1, s.explored)
  }

  /** The comparison of the loop, applied to the lists in order. */
  function Pick(best: seq<Pos>, cs: seq<seq<Pos>>): seq<Pos>
    decreases |cs|
  {
    if |cs| == 0 then best else Pick(if |best| < |cs[0]| then cs[0] else best, cs[1..])
  }

  /** The interleaved loop is the comparison applied to its visit lists. */
  lemma {:induction false} ScanPick(b: Grid, i: nat, j: nat, explored: set<Pos>, best: seq<Pos>)
    requires Rectangular(b) && i <= |b| && j <= |b[0]|
    ensures Scan(b, i, j, explored, best) == Pick(best, Locals(b, i, j, explored))
    decreases |b| - i, |b[0]| - j
  {
    if i == |b| {
    } else if j == |b[0]| {
      ScanPick(b, i + 1, 0, explored, best);
    } else if Pos(i, j) in explored || b[i][j] != 0 {
      ScanPick(b, i, j + 1, explored, best);
    } else {
      var s := Dfs(b, Pos(i, j), Search(explored, []));
      ScanPick(b, i, j + 1, s.explored, if |best| < |s.local| then s.local else best);
      assert ([s.local] + Locals(b, i, j + 1, s.explored))[1..] == Locals(b, i, j + 1, s.explored);
    }
  }

  /** The comparison keeps the first of the longest lists: the result is
      no shorter than any list, and is either the starting list or the
      first list strictly longer than it and than every list before. */
  lemma {:induction false} PickFirstLongest(best: seq<Pos>, cs: seq<seq<Pos>>)
    ensures |best| <= |Pick(best, cs)|
    ensures forall c :: c in cs ==> |c| <= |Pick(best, cs)|
    ensures Pick(best, cs) == best ||
            (exists k :: 0 <= k < |cs| && Pick(best, cs) == cs[k] && |best| < |cs[k]| &&
               forall m :: 0 <= m < k ==> |cs[m]| < |cs[k]|)
    decreases |cs|
  {
    if |cs| > 0 {
      var next := if |best| < |cs[0]| then cs[0] else best;
      PickFirstLongest(next, cs[1..]);
      var r := Pick(next, cs[1..]);
      assert r == Pick(best, cs);
      forall c | c in cs ensures |c| <= |r| {
        if c != cs[0] {
          assert c in cs[1..];
        }
      }
      if r == next {
        if next == cs[0] && r != best {
          assert Pick(best, cs) == cs[0];
        }
      } else {
        var k :| 0 <= k < |cs[1..]| && r == cs[1..][k] && |next| < |cs[1..][k]| &&
                 forall m :: 0 <= m < k ==> |cs[1..][m]| < |cs[1..][k]|;
        assert r == cs[k + 1];
        forall m | 0 <= m < k + 1 ensures |cs[m]| < |cs[k + 1]| {
          if m > 0 {
            assert cs[m] == cs[1..][m - 1];
          }
        }
      }
    }
  }

  /** Cell `p` comes before cell `(i, j)` in row-major order. */
  predicate Before(p: Pos, i: int, j: int) {
    p.row < i || (p.row == i && p.column < j)
  }

  /** Every visit list of the scan from `(i, j)` lists a whole region
      started at an unexplored zero cell not before `(i, j)`, and every
      unexplored zero cell from `(i, j)` on lies in one of them. */
  lemma {:induction false} LocalsRegions(b: Grid, i: nat, j: nat, explored: set<Pos>)
    requires Rectangular(b) && i <= |b| && j <= |b[0]| && ClosedSet(b, explored)
    ensures forall c :: c in Locals(b, i, j, explored) ==>
              IsRegion(b, c) && !Before(c[0], i, j) && c[0] !in explored
    ensures forall p :: Zero(b, p) && !Before(p, i, j) && p !in explored ==>
              exists c :: c in Locals(b, i, j, explored) && p in c
    decreases |b| - i, |b[0]| - j
  {
    var l := Locals(b, i, j, explored);
    if i == |b| {
    } else if j == |b[0]| {
      LocalsRegions(b, i + 1, 0, explored);
    } else if Pos(i, j) in explored || b[i][j] != 0 {
      LocalsRegions(b, i, j + 1, explored);
    } else {
      var s := Dfs(b, Pos(i, j), Search(explored, []));
      DfsRegion(b, Pos(i, j), explored);
      LocalsRegions(b, i, j + 1, s.explored);
      var rest := Locals(b, i, j + 1, s.explored);
      assert l == [s.local] + rest;
      LocalsCons(b, i, j, explored, s, rest);
    }
  }

  /** The search from the zero cell `(i, j)` followed by the lists of the
      rest of the scan covers every unexplored zero cell from `(i, j)` on. */
  lemma LocalsCons(b: Grid, i: nat, j: nat, explored: set<Pos>, s: Search, rest: seq<seq<Pos>>)
    requires Zero(b, Pos(i, j)) && Pos(i, j) !in explored
    requires IsRegion(b, s.local) && s.local[0] == Pos(i, j) && Pos(i, j) in s.explored
    requires explored <= s.explored && forall q :: q in s.explored && q !in explored ==> q in s.local
    requires forall c :: c in rest ==> IsRegion(b, c) && !Before(c[0], i, j + 1) && c[0] !in s.explored
    requires forall p :: Zero(b, p) && !Before(p, i, j + 1) && p !in s.explored ==> exists c :: c in rest && p in c
    ensures forall c :: c in [s.local] + rest ==> IsRegion(b, c) && !Before(c[0], i, j) && c[0] !in explored
    ensures forall p :: Zero(b, p) && !Before(p, i, j) && p !in explored ==> exists c :: c in [s.local] + rest && p in c
  {
    LocalsConsRegions(b, i, j, explored, s, rest);
    LocalsConsCover(b, i, j, explored, s, rest);
  }

  lemma LocalsConsCover(b: Grid, i: nat, j: nat, explored: set<Pos>, s: Search, rest: seq<seq<Pos>>)
    requires Pos(i, j) in s.explored && forall q :: q in s.explored && q !in explored ==> q in s.local
    requires forall p :: Zero(b, p) && !Before(p, i, j + 1) && p !in s.explored ==> exists c :: c in rest && p in c
    ensures forall p :: Zero(b, p) && !Before(p, i, j) && p !in explored ==> exists c :: c in [s.local] + rest && p in c
  {
    var l := [s.local] + rest;
    forall p | Zero(b, p) && !Before(p, i, j) && p !in explored
      ensures exists c :: c in l && p in c
    {
      if p in s.explored {
        assert s.local in l;
      } else {
        assert !Before(p, i, j + 1);
        var c :| c in rest && p in c;
        assert c in l;
      }
    }
  }

  lemma LocalsConsRegions(b: Grid, i: nat, j: nat, explored: set<Pos>, s: Search, rest: seq<seq<Pos>>)
    requires IsRegion(b, s.local) && s.local[0] == Pos(i, j) && Pos(i, j) !in explored && explored <= s.explored
    requires forall c :: c in rest ==> IsRegion(b, c) && !Before(c[0], i, j + 1) && c[0] !in s.explored
    ensures forall c :: c in [s.local] + rest ==> IsRegion(b, c) && !Before(c[0], i, j) && c[0] !in explored
  {
    forall c | c in [s.local] + rest ensures IsRegion(b, c) && !Before(c[0], i, j) && c[0] !in explored {
      if c != s.local {
        assert c in rest;
      }
    }
  }

  /** `findLargestSafeRegion()`: no region when the board has no zero
      cell; otherwise a whole zero region's visit list. */
  function FindLargestSafeRegion(b: Grid): (r: seq<Pos>)
    requires Rectangular(b)
    ensures r == [] <==> forall p :: In(b, p) ==> !Zero(b, p)
    ensures r != [] ==> IsRegion(b, r)
  {
    LargestRegion(b);
    RegionEmptyIff(b);
    Scan(b, 0, 0, {}, [])
  }

  /** The region shown is the first of the longest visit lists in scan
      order; every list is a whole region, and every zero cell lies in one
      of them. */
  lemma LargestRegion(b: Grid)
    requires Rectangular(b)
    ensures var r, cs := Scan(b, 0, 0, {}, []), Locals(b, 0, 0, {});
      && (forall c :: c in cs ==> IsRegion(b, c) && |c| <= |r|)
      && (forall p :: Zero(b, p) ==> exists c :: c in cs && p in c)
      && (r == [] || exists k :: 0 <= k < |cs| && r == cs[k] && forall m :: 0 <= m < k ==> |cs[m]| < |r|)
  {
    ScanPick(b, 0, 0, {}, []);
    PickFirstLongest([], Locals(b, 0, 0, {}));
    LocalsRegions(b, 0, 0, {});
  }

  /** No region is shown exactly when the board has no zero cell. */
  lemma RegionEmptyIff(b: Grid)
    requires Rectangular(b)
    ensures Scan(b, 0, 0, {}, []) == [] <==> forall p :: In(b, p) ==> !Zero(b, p)
  {
    var cs := Locals(b, 0, 0, {});
    var r := Scan(b, 0, 0, {}, []);
    LargestRegion(b);
    if r != [] {
      var k :| 0 <= k < |cs| && r == cs[k];
      assert cs[k] in cs;
      assert In(b, r[0]) && Zero(b, r[0]);
    }
  }

  // ---------------------------------------------------------------------
  // Neighbour counts
  // ---------------------------------------------------------------------

  /** The `k`-th cell read around `(x, y)`, in the order `tl, tm, tr, ml,
      mr, bl, bm, br` of the counting loop. */
  function AroundPos(x: int, y: int, k: nat): (q: Pos)
    requires k < 8
    ensures Adjacent(Pos(x, y), q)
  {
    if k == 0 then Pos(x - 1, y + 1)
    else if k == 1 then Pos(x, y + 1)
    else if k == 2 then Pos(x + 1, y + 1)
    else if k == 3 then Pos(x - 1, y)
    else if k == 4 then Pos(x + 1, y)
    else if k == 5 then Pos(x - 1, y - 1)
    else if k == 6 then Pos(x, y - 1)
    else Pos(x + 1, y - 1)
  }

  /** The eight reads cover every adjacent cell. */
  lemma AroundOf(x: int, y: int, q: Pos) returns (k: nat)
    requires Adjacent(Pos(x, y), q)
    ensures k < 8 && AroundPos(x, y, k) == q
  {
    var dr, dc := q.row - x, q.column - y;
    if dr == -1 && dc == 1 { k := 0; }
    else if dr == 0 && dc == 1 { k := 1; }
    else if dr == 1 && dc == 1 { k := 2; }
    else if dr == -1 && dc == 0 { k := 3; }
    else if dr == 1 && dc == 0 { k := 4; }
    else if dr == -1 && dc == -1 { k := 5; }
    else if dr == 0 && dc == -1 { k := 6; }
    else { k := 7; }
  }

  /** `(board[r] || [])[c]`: the cell's value, or `undefined` off the board. */
  function Read(b: Grid, q: Pos): (v: Option<int>)
    ensures v.Some? <==> In(b, q)
    ensures v.Some? ==> v.value == b[q.row][q.column]
  {
    if In(b, q) then Some(b[q.row][q.column]) else None
  }

  predicate IsMine(b: Grid, q: Pos) {
    Read(b, q) == Some(MINE)
  }

  /** The reduce over the reads from the `k`-th on: one for each read
      equal to -1. */
  function MinesFrom(b: Grid, x: int, y: int, k: nat): (n: nat)
    requires k <= 8
    ensures n <= 8 - k
    decreases 8 - k
  {
    if k == 8 then 0 else (if IsMine(b, AroundPos(x, y, k)) then 1 else 0) + MinesFrom(b, x, y, k + 1)
  }

  /** The count of mines around `(x, y)`. */
  function MineCount(b: Grid, x: int, y: int): nat {
    MinesFrom(b, x, y, 0)
  }

  /** A count of zero means exactly that no adjacent cell is a mine. */
  lemma {:induction false} MineCountZero(b: Grid, x: int, y: int)
    ensures MineCount(b, x, y) == 0 <==> forall q :: Adjacent(Pos(x, y), q) ==> !IsMine(b, q)
  {
    ZeroFrom(b, x, y, 0);
    if MineCount(b, x, y) == 0 {
      forall q | Adjacent(Pos(x, y), q) ensures !IsMine(b, q) {
        var k := AroundOf(x, y, q);
      }
    }
  }

  lemma {:induction false} ZeroFrom(b: Grid, x: int, y: int, k: nat)
    requires k <= 8
    ensures MinesFrom(b, x, y, k) == 0 <==> forall j :: k <= j < 8 ==> !IsMine(b, AroundPos(x, y, j))
    decreases 8 - k
  {
    if k < 8 {
      ZeroFrom(b, x, y, k + 1);
    }
  }

  /** Two boards of the same shape with mines on the same cells. */
  predicate SameMines(b: Grid, m: Grid) {
    && |b| == |m| && (forall r :: 0 <= r < |m| ==> |b[r]| == |m[r]|)
    && forall r, c :: 0 <= r < |m| && 0 <= c < |m[r]| ==> (b[r][c] == MINE <==> m[r][c] == MINE)
  }

  /** Counts depend only on where the mines are. */
  lemma {:induction false} SameMinesSameCount(b: Grid, m: Grid, x: int, y: int, k: nat)
    requires SameMines(b, m) && k <= 8
    ensures MinesFrom(b, x, y, k) == MinesFrom(m, x, y, k)
    decreases 8 - k
  {
    if k < 8 {
      SameMinesAt(b, m, AroundPos(x, y, k));
      SameMinesSameCount(b, m, x, y, k + 1);
    }
  }

  lemma SameMinesAt(b: Grid, m: Grid, q: Pos)
    requires SameMines(b, m)
    ensures IsMine(b, q) <==> IsMine(m, q)
  {
    assert In(b, q) <==> In(m, q);
  }

  /** Every cell that is not a mine holds its count of adjacent mines. */
  predicate Counted(b: Grid) {
    forall x, y :: 0 <= x < |b| && 0 <= y < |b[x]| && b[x][y] != MINE ==> b[x][y] == MineCount(b, x, y)
  }

  /** The board of counts for the mine layout `m`: the reference for the
      counting loop. */
  function CountBoard(m: Grid): (b: Grid)
    ensures SameMines(b, m)
    ensures forall x, y :: 0 <= x < |m| && 0 <= y < |m[x]| && m[x][y] != MINE ==> b[x][y] == MineCount(m, x, y)
    ensures Counted(b)
  {
    var b := seq(|m|, x requires 0 <= x < |m| =>
               seq(|m[x]|, y requires 0 <= y < |m[x]| => if m[x][y] == MINE then MINE else MineCount(m, x, y)));
    forall x, y | 0 <= x < |b| && 0 <= y < |b[x]| && b[x][y] != MINE ensures b[x][y] == MineCount(b, x, y) {
      SameMinesSameCount(b, m, x, y, 0);
    }
    b
  }

  /** The counting loop of `initialize`, in place: each cell that is not a
      mine is overwritten with its count. Counts are never -1, so the
      cells counted later see the same mines. */
  method FillCounts(m: Grid) returns (b: Grid)
    ensures b == CountBoard(m)
  {
    b := m;
    var x := 0;
    while x < |b|
      invariant 0 <= x <= |b| && SameMines(b, m)
      invariant forall r :: 0 <= r < x ==> b[r] == CountBoard(m)[r]
      invariant forall r :: x <= r < |b| ==> b[r] == m[r]
    {
      b := FillRow(b, m, x);
      x := x + 1;
    }
  }

  /** The inner loop over row `x`. */
  method FillRow(b: Grid, m: Grid, x: nat) returns (b': Grid)
    requires SameMines(b, m) && x < |b| && b[x] == m[x]
    ensures SameMines(b', m) && b'[x] == CountBoard(m)[x]
    ensures forall r :: 0 <= r < |b| && r != x ==> b'[r] == b[r]
  {
    ghost var counts := CountBoard(m)[x];
    var row := b[x];
    var y := 0;
    while y < |row|
      invariant 0 <= y <= |row| == |m[x]| && SameMines(b[x := row], m)
      invariant forall c :: 0 <= c < y ==> row[c] == counts[c]
      invariant forall c :: y <= c < |row| ==> row[c] == m[x][c]
    {
      if row[y] != MINE {
        var n := MineCount(b[x := row], x, y);
        CountCell(b, m, x, row, y);
        row := row[y := n];
      } else {
        MineCell(m, x, y);
      }
      y := y + 1;
    }
    assert row == counts;
    b' := b[x := row];
  }

  /** One step of the inner loop on a cell that is not a mine: the count
      written is the one of the counted board, and the mines stay. */
  lemma CountCell(b: Grid, m: Grid, x: nat, row: seq<int>, y: nat)
    requires x < |b| && SameMines(b[x := row], m) && y < |row| && row[y] == m[x][y] && row[y] != MINE
    ensures SameMines(b[x := row[y := MineCount(b[x := row], x, y)]], m)
    ensures MineCount(b[x := row], x, y) == CountBoard(m)[x][y]
  {
    var g := b[x := row];
    var n := MineCount(g, x, y);
    SameMinesSameCount(g, m, x, y, 0);
    SetCountKeepsMines(g, m, x, y, n);
    assert g[x := g[x][y := n]] == b[x := row[y := n]];
  }

  /** A mine stays a mine on the counted board. */
  lemma MineCell(m: Grid, x: nat, y: nat)
    requires x < |m| && y < |m[x]| && m[x][y] == MINE
    ensures CountBoard(m)[x][y] == MINE
  {
  }

  /** Writing a count over a cell that is not a mine leaves the mines where
      they were. */
  lemma SetCountKeepsMines(b: Grid, m: Grid, x: nat, y: nat, n: nat)
    requires SameMines(b, m) && x < |b| && y < |b[x]| && b[x][y] != MINE
    ensures SameMines(b[x := b[x][y := n]], m)
  {
    var b' := b[x := b[x][y := n]];
    forall r, c | 0 <= r < |m| && 0 <= c < |m[r]| ensures b'[r][c] == MINE <==> m[r][c] == MINE {
      if r != x || c != y {
        assert b'[r][c] == b[r][c];
      }
    }
  }

  // ---------------------------------------------------------------------
  // The mine layout
  // ---------------------------------------------------------------------

  predicate Distinct(s: seq<Pos>) {
    forall i, j :: 0 <= i < j < |s| ==> s[i] != s[j]
  }

  lemma {:induction false} DistinctAtMostOnce(s: seq<Pos>)
    requires Distinct(s)
    ensures forall x :: multiset(s)[x] <= 1
    decreases |s|
  {
    if |s| > 0 {
      var init, last := s[..|s| - 1], s[|s| - 1];
      assert s == init + [last];
      DistinctAtMostOnce(init);
      assert last !in init;
    }
  }

  lemma Repeated(s: seq<Pos>, i: nat, j: nat)
    requires i < j < |s| && s[i] == s[j]
    ensures multiset(s)[s[i]] >= 2
  {
    assert s == s[..i + 1] + s[i + 1..];
    assert s[i] in s[..i + 1];
    assert s[j] == s[i + 1..][j - i - 1];
  }

  /** A rearrangement of distinct cells is distinct. */
  lemma DistinctPermutation(a: seq<Pos>, b: seq<Pos>)
    requires multiset(a) == multiset(b) && Distinct(a)
    ensures Distinct(b)
  {
    DistinctAtMostOnce(a);
    forall i, j | 0 <= i < j < |b| ensures b[i] != b[j] {
      if b[i] == b[j] {
        Repeated(b, i, j);
      }
    }
  }

  /** The list of every cell built by the two nested loops, row by row. */
  function RowMajor(height: nat, width: nat): (r: seq<Pos>)
    ensures |r| == height * width
    ensures forall p :: p in r <==> 0 <= p.row < height && 0 <= p.column < width
    ensures Distinct(r)
    decreases height
  {
    if height == 0 then []
    else
      var rows, last := RowMajor(height - 1, width), seq(width, c => Pos(height - 1, c));
      assert forall p: Pos :: 0 <= p.row < height - 1 && 0 <= p.column < width ==> p in rows;
      assert forall p: Pos :: p.row == height - 1 && 0 <= p.column < width ==> last[p.column] == p;
      assert forall p: Pos :: p in last ==> p.row == height - 1 && 0 <= p.column < width;
      rows + last
  }

  /** The elements of `s` from last to first: the order in which repeated
      `pop`s take them. */
  function Reverse(s: seq<Pos>): (r: seq<Pos>)
    ensures |r| == |s| && forall i :: 0 <= i < |s| ==> r[i] == s[|s| - 1 - i]
  {
    seq(|s|, i requires 0 <= i < |s| => s[|s| - 1 - i])
  }

  /** The board with its mine list and the list of cells still safe. */
  datatype Layout = Layout(board: Grid, safe: seq<Pos>, mines: seq<Pos>)

  /** A layout on a `height` by `width` board: the safe and mine lists are
      distinct cells of the board between them, and the board holds -1 on
      exactly the cells of the mine list and 0 elsewhere. */
  predicate Laid(l: Layout, height: nat, width: nat) {
    && Board.IsGrid(l.board, width, height)
    && Distinct(l.safe + l.mines)
    && (forall p :: p in l.safe + l.mines ==> 0 <= p.row < height && 0 <= p.column < width)
    && forall r, c :: 0 <= r < height && 0 <= c < width ==>
         (l.board[r][c] == MINE <==> Pos(r, c) in l.mines) && (l.board[r][c] == MINE || l.board[r][c] == 0)
  }

  /** One pass of the mine-placing loop: pop the last safe cell, put a
      mine on it and push it on the mine list. */
  function Pop(l: Layout): (r: Layout)
    requires |l.safe| > 0 && In(l.board, l.safe[|l.safe| - 1])
    ensures r.safe == l.safe[..|l.safe| - 1] && r.mines == l.mines + [l.safe[|l.safe| - 1]]
  {
    var p := l.safe[|l.safe| - 1];
    Layout(Board.Set(l.board, p.row, p.column, MINE), l.safe[..|l.safe| - 1], l.mines + [p])
  }

  /** The mine-placing loop run `n` more times. */
  function PlaceMines(l: Layout, height: nat, width: nat, n: nat): (r: Layout)
    requires Laid(l, height, width) && n <= |l.safe|
    ensures Laid(r, height, width)
    ensures multiset(r.safe + r.mines) == multiset(l.safe + l.mines)
    ensures r.safe == l.safe[..|l.safe| - n]
    ensures r.mines == Pushed(l.safe, l.mines, n)
    decreases n
  {
    if n == 0 then
      assert l.safe[|l.safe|..] == [];
      l
    else
      PopKeepsLaid(l, height, width);
      var r := PlaceMines(Pop(l), height, width, n - 1);
      PlaceStep(l, r, height, width, n);
      r
  }

  /** What `n - 1` further passes after one pop give is what `n` passes give. */
  lemma PlaceStep(l: Layout, r: Layout, height: nat, width: nat, n: nat)
    requires Laid(l, height, width) && 0 < n <= |l.safe|
    requires In(l.board, l.safe[|l.safe| - 1])
    requires multiset(r.safe + r.mines) == multiset(Pop(l).safe + Pop(l).mines)
    requires r.safe == Pop(l).safe[..|Pop(l).safe| - (n - 1)]
    requires r.mines == Pushed(Pop(l).safe, Pop(l).mines, n - 1)
    ensures multiset(r.safe + r.mines) == multiset(l.safe + l.mines)
    ensures r.safe == l.safe[..|l.safe| - n]
    ensures r.mines == Pushed(l.safe, l.mines, n)
  {
    PopKeepsCells(l, height, width);
    assert Pop(l).safe == l.safe[..|l.safe| - 1];
  }

  /** The mine list after `n` pops of `safe` pushed onto `mines`. */
  function Pushed(safe: seq<Pos>, mines: seq<Pos>, n: nat): seq<Pos>
    requires n <= |safe|
    decreases n
  {
    if n == 0 then mines else Pushed(safe[..|safe| - 1], mines + [safe[|safe| - 1]], n - 1)
  }

  /** The mines are pushed in the order the safe cells are popped: the
      last `n` safe cells, last first. */
  lemma {:induction false} PushedOrder(safe: seq<Pos>, mines: seq<Pos>, n: nat)
    requires n <= |safe|
    ensures Pushed(safe, mines, n) == mines + Reverse(safe[|safe| - n..])
    decreases n
  {
    if n == 0 {
      assert Reverse(safe[|safe|..]) == [];
      assert mines + [] == mines;
    } else {
      PushedOrder(safe[..|safe| - 1], mines + [safe[|safe| - 1]], n - 1);
      PopOrder(safe, mines, n, safe[..|safe| - 1], mines + [safe[|safe| - 1]]);
    }
  }

  /** Popping the last of `n` cells, then the `n - 1` before it, takes the
      last `n` cells in reverse. */
  lemma PopOrder(safe: seq<Pos>, mines: seq<Pos>, n: nat, init: seq<Pos>, mines': seq<Pos>)
    requires 0 < n <= |safe| && init == safe[..|safe| - 1] && mines' == mines + [safe[|safe| - 1]]
    ensures mines' + Reverse(init[|init| - (n - 1)..]) == mines + Reverse(safe[|safe| - n..])
  {
    var tail := safe[|safe| - n..];
    assert tail[..|tail| - 1] == init[|init| - (n - 1)..];
    assert tail[|tail| - 1] == safe[|safe| - 1];
  }

  /** A pop neither adds nor loses a cell. */
  lemma PopKeepsCells(l: Layout, height: nat, width: nat)
    requires Laid(l, height, width) && |l.safe| > 0
    ensures In(l.board, l.safe[|l.safe| - 1])
    ensures multiset(Pop(l).safe + Pop(l).mines) == multiset(l.safe + l.mines)
  {
    var p := l.safe[|l.safe| - 1];
    var init := l.safe[..|l.safe| - 1];
    assert l.safe == init + [p];
    assert p in l.safe + l.mines;
    assert Pop(l).safe + Pop(l).mines == init + (l.mines + [p]);
    assert l.safe + l.mines == init + [p] + l.mines;
  }

  /** One pop keeps the layout. */
  lemma PopKeepsLaid(l: Layout, height: nat, width: nat)
    requires Laid(l, height, width) && |l.safe| > 0
    ensures In(l.board, l.safe[|l.safe| - 1])
    ensures Laid(Pop(l), height, width)
  {
    PopKeepsCells(l, height, width);
    PopInside(l, height, width);
    PopMarks(l, height, width);
  }

  /** After a pop the two lists still hold distinct cells of the board. */
  lemma PopInside(l: Layout, height: nat, width: nat)
    requires Laid(l, height, width) && |l.safe| > 0 && In(l.board, l.safe[|l.safe| - 1])
    ensures Distinct(Pop(l).safe + Pop(l).mines)
    ensures forall q :: q in Pop(l).safe + Pop(l).mines ==> 0 <= q.row < height && 0 <= q.column < width
  {
    PopKeepsCells(l, height, width);
    var next := Pop(l);
    DistinctPermutation(l.safe + l.mines, next.safe + next.mines);
    forall q | q in next.safe + next.mines ensures 0 <= q.row < height && 0 <= q.column < width {
      assert q in multiset(l.safe + l.mines);
    }
  }

  /** After a pop the board marks exactly the cells of the mine list. */
  lemma PopMarks(l: Layout, height: nat, width: nat)
    requires Laid(l, height, width) && |l.safe| > 0 && In(l.board, l.safe[|l.safe| - 1])
    ensures Board.IsGrid(Pop(l).board, width, height)
    ensures forall r, c :: 0 <= r < height && 0 <= c < width ==>
              (Pop(l).board[r][c] == MINE <==> Pos(r, c) in Pop(l).mines) && (Pop(l).board[r][c] == MINE || Pop(l).board[r][c] == 0)
  {
    var p := l.safe[|l.safe| - 1];
    var next := Pop(l);
    assert p !in l.mines by {
      var d := l.safe + l.mines;
      assert d[|l.safe| - 1] == p;
      forall k | 0 <= k < |l.mines| ensures l.mines[k] != p {
        assert d[|l.safe| + k] == l.mines[k];
      }
    }
    forall r, c | 0 <= r < height && 0 <= c < width
      ensures (next.board[r][c] == MINE <==> Pos(r, c) in next.mines) && (next.board[r][c] == MINE || next.board[r][c] == 0)
    {
      if Pos(r, c) != p {
        assert next.board[r][c] == l.board[r][c];
      }
    }
  }

  lemma DistinctParts(a: seq<Pos>, b: seq<Pos>)
    requires Distinct(a + b)
    ensures Distinct(a) && Distinct(b)
    ensures forall p :: p in a ==> p !in b
  {
    forall i, j | 0 <= i < j < |a| ensures a[i] != a[j] {
      assert (a + b)[i] == a[i] && (a + b)[j] == a[j];
    }
    forall i, j | 0 <= i < j < |b| ensures b[i] != b[j] {
      assert (a + b)[|a| + i] == b[i] && (a + b)[|a| + j] == b[j];
    }
    forall p | p in a ensures p !in b {
      var i :| 0 <= i < |a| && a[i] == p;
      assert (a + b)[i] == p;
      forall j | 0 <= j < |b| ensures b[j] != p {
        assert (a + b)[|a| + j] == b[j];
      }
    }
  }

  // ---------------------------------------------------------------------
  // Options and set-up (`initialize`)
  // ---------------------------------------------------------------------

  const DEFAULT_SIZE := 8
  const DEFAULT_MINES := 13

  /** The command's options; `None` when not given. */
  datatype Options = Options(width: Option<nat>, height: Option<nat>, mines: Option<int>, shouldReveal: Option<bool>)

  /** The command offers the sizes 2 to 9 as choices; the mine count is any
      integer. */
  predicate ValidOptions(o: Options) {
    && (o.width.Some? ==> 2 <= o.width.value <= 9)
    && (o.height.Some? ==> 2 <= o.height.value <= 9)
  }

  /** The `explored` key of a cell, `r.toString() + c`. */
  function Key(r: nat, c: nat): string {
    Text.NatToString(r) + Text.NatToString(c)
  }

  /** On boards of at most 10 rows and 10 columns, which the options
      guarantee, distinct cells have distinct keys, so keying the explored
      set by cell is faithful. */
  lemma KeyInjective(r1: nat, c1: nat, r2: nat, c2: nat)
    requires r1 < 10 && c1 < 10 && r2 < 10 && c2 < 10
    requires Key(r1, c1) == Key(r2, c2)
    ensures r1 == r2 && c1 == c2
  {
    assert Key(r1, c1)[0] == Text.DigitChar(r1) && Key(r1, c1)[1] == Text.DigitChar(c1);
    assert Key(r2, c2)[0] == Text.DigitChar(r2) && Key(r2, c2)[1] == Text.DigitChar(c2);
  }

  /** The list of safe cells without those of the region (the loop that
      blanks them, then the filter). */
  function RemoveRevealed(safe: seq<Pos>, revealed: seq<Pos>): (r: seq<Pos>)
    ensures forall p :: p in r <==> p in safe && p !in revealed
    ensures Distinct(safe) ==> Distinct(r)
    decreases |safe|
  {
    if |safe| == 0 then []
    else
      var rest := RemoveRevealed(safe[1..], revealed);
      assert Distinct(safe) ==> Distinct(safe[1..]) && safe[0] !in safe[1..];
      assert forall p :: p in safe <==> p == safe[0] || p in safe[1..];
      (if safe[0] in revealed then [] else [safe[0]]) + rest
  }

  /** The state the game is played on. */
  datatype Game = Game(board: Grid, safe: seq<Pos>, mines: seq<Pos>, shouldReveal: bool, revealed: seq<Pos>)

  datatype Setup = TooManyMines | TooFewMines | Ready(game: Game)

  /** The counts that the buttons rely on: every listed safe cell is on the
      board and not a mine, every listed mine is one. */
  predicate Sound(g: Game) {
    && (forall p :: p in g.safe ==> In(g.board, p) && !IsMine(g.board, p))
    && (forall p :: p in g.mines ==> IsMine(g.board, p))
  }

  /** A freshly dealt game of `width` by `height` with `mines` mines: the
      mines are `mines` distinct cells, every other cell holds its count,
      the revealed region is empty or a whole zero region and holds no
      mine, and the safe list is every other cell, once each. */
  ghost predicate Dealt(g: Game, width: nat, height: nat, mines: nat) {
    && MinesPlaced(g, width, height, mines)
    && Counted(g.board)
    && RegionShown(g)
    && SafeListed(g)
    && Sound(g)
  }

  /** `mines` distinct mines, exactly on the cells of the mine list. */
  ghost predicate MinesPlaced(g: Game, width: nat, height: nat, mines: nat) {
    && Board.IsGrid(g.board, width, height)
    && |g.mines| == mines && Distinct(g.mines)
    && (forall r, c :: 0 <= r < height && 0 <= c < width ==> (g.board[r][c] == MINE <==> Pos(r, c) in g.mines))
  }

  /** The revealed region is empty or a whole zero region, and holds no mine. */
  ghost predicate RegionShown(g: Game) {
    && (g.revealed == [] || IsRegion(g.board, g.revealed))
    && (forall i :: 0 <= i < |g.revealed| ==> !IsMine(g.board, g.revealed[i]))
  }

  /** The safe list is every cell that is neither a mine nor revealed, once each. */
  ghost predicate SafeListed(g: Game) {
    && (forall p :: p in g.safe <==> In(g.board, p) && !IsMine(g.board, p) && p !in g.revealed)
    && Distinct(g.safe)
  }

  /** The starting layout: no mine, and every cell in the shuffled list. */
  function Start(height: nat, width: nat, rand: seq<nat>): (l: Layout)
    ensures Laid(l, height, width) && l.mines == []
    ensures multiset(l.safe) == multiset(RowMajor(height, width))
  {
    var cells := RowMajor(height, width);
    var shuffled := Random.Shuffle(cells, rand);
    DistinctPermutation(cells, shuffled);
    assert shuffled + [] == shuffled;
    forall p | p in shuffled ensures 0 <= p.row < height && 0 <= p.column < width {
      assert p in multiset(cells);
    }
    Layout(Board.Generate(width, height, 0), shuffled, [])
  }

  /** A mine-free region on a counted board: its first cell is zero and
      every other cell touches a zero cell, which has no mine around. */
  lemma RegionMineFree(b: Grid, l: seq<Pos>)
    requires Counted(b) && IsRegion(b, l)
    ensures forall i :: 0 <= i < |l| ==> !IsMine(b, l[i])
  {
    forall i | 0 < i < |l| ensures !IsMine(b, l[i]) {
      var j :| 0 <= j < i && Zero(b, l[j]) && Adjacent(l[j], l[i]);
      MineCountZero(b, l[j].row, l[j].column);
    }
  }

  /** The rest of `initialize` once the options passed: place the mines,
      count, find the region and take it out of the safe list. */
  function Deal(width: nat, height: nat, mines: nat, shouldReveal: bool, rand: seq<nat>): (g: Game)
    requires 2 <= width && 2 <= height && mines < width * height
    ensures Dealt(g, width, height, mines) && g.shouldReveal == shouldReveal
  {
    var start := Start(height, width, rand);
    var l := PlaceMines(start, height, width, mines);
    PlacedCells(start, l, width, height, mines);
    DealFrom(l, width, height, mines, shouldReveal)
  }

  /** Counting, finding the region and taking it out of the safe list,
      once the mines are placed. */
  function DealFrom(l: Layout, width: nat, height: nat, mines: nat, shouldReveal: bool): (g: Game)
    requires 2 <= width && 2 <= height
    requires Laid(l, height, width) && |l.mines| == mines && Distinct(l.mines) && Distinct(l.safe)
    requires forall p :: p in l.safe <==> 0 <= p.row < height && 0 <= p.column < width && p !in l.mines
    ensures Dealt(g, width, height, mines) && g.shouldReveal == shouldReveal
  {
    var board := CountBoard(l.board);
    var revealed := FindLargestSafeRegion(board);
    var g := Game(board, RemoveRevealed(l.safe, revealed), l.mines, shouldReveal, revealed);
    DealtLemma(l, g, width, height, mines);
    g
  }

  /** After the mine-placing loop: `mines` distinct mines, and the safe
      list is every other cell of the board, once each. */
  lemma PlacedCells(start: Layout, l: Layout, width: nat, height: nat, mines: nat)
    requires Laid(start, height, width) && start.mines == [] && multiset(start.safe) == multiset(RowMajor(height, width))
    requires mines <= |start.safe| && l == PlaceMines(start, height, width, mines)
    ensures Laid(l, height, width) && |l.mines| == mines && Distinct(l.mines) && Distinct(l.safe)
    ensures forall p :: p in l.safe <==> 0 <= p.row < height && 0 <= p.column < width && p !in l.mines
  {
    assert start.safe + start.mines == start.safe;
    assert |l.safe| == |start.safe| - mines;
    assert multiset(l.safe + l.mines) == multiset(RowMajor(height, width));
    DistinctParts(l.safe, l.mines);
    assert |l.mines| == mines by {
      assert |l.safe + l.mines| == |start.safe + start.mines|;
    }
    CellsOfPermutation(l.safe, l.mines, height, width);
  }

  /** Safe cells and mines that rearrange every cell of the board leave
      every mine-free cell of the board safe, and nothing outside it. */
  lemma CellsOfPermutation(safe: seq<Pos>, mines: seq<Pos>, height: nat, width: nat)
    requires multiset(safe + mines) == multiset(RowMajor(height, width))
    requires forall p :: p in safe ==> p !in mines
    ensures forall p :: p in safe <==> 0 <= p.row < height && 0 <= p.column < width && p !in mines
  {
    forall p: Pos | 0 <= p.row < height && 0 <= p.column < width && p !in mines ensures p in safe {
      assert p in RowMajor(height, width);
      assert p in multiset(safe + mines);
      assert p in safe + mines;
    }
    forall p | p in safe ensures 0 <= p.row < height && 0 <= p.column < width {
      assert p in safe + mines;
      assert p in multiset(RowMajor(height, width));
    }
  }

  lemma DealtLemma(l: Layout, g: Game, width: nat, height: nat, mines: nat)
    requires Laid(l, height, width) && |l.mines| == mines && Distinct(l.mines) && Distinct(l.safe)
    requires forall p :: p in l.safe <==> 0 <= p.row < height && 0 <= p.column < width && p !in l.mines
    requires SameMines(g.board, l.board) && Counted(g.board) && g.mines == l.mines
    requires g.revealed == [] || IsRegion(g.board, g.revealed)
    requires forall p :: p in g.safe <==> p in l.safe && p !in g.revealed
    requires Distinct(g.safe)
    ensures Dealt(g, width, height, mines)
  {
    var b := g.board;
    assert forall p :: IsMine(b, p) <==> In(b, p) && p in l.mines;
    if g.revealed != [] {
      RegionMineFree(b, g.revealed);
    }
  }

  /** `initialize`: the defaults, then the two rejections in the source's
      order, then the deal. */
  function Initialize(o: Options, rand: seq<nat>): (r: Setup)
    requires ValidOptions(o)
    ensures var width, height, mines := o.width.GetOr(DEFAULT_SIZE), o.height.GetOr(DEFAULT_SIZE), o.mines.GetOr(DEFAULT_MINES);
      && (r.TooManyMines? <==> width * height <= mines)
      && (r.TooFewMines? <==> mines < width * height && mines <= 0)
      && (r.Ready? ==> 0 < mines && Dealt(r.game, width, height, mines) && r.game.shouldReveal == o.shouldReveal.GetOr(true))
  {
    var width, height := o.width.GetOr(DEFAULT_SIZE), o.height.GetOr(DEFAULT_SIZE);
    var mines := o.mines.GetOr(DEFAULT_MINES);
    if width * height <= mines then TooManyMines
    else if mines <= 0 then TooFewMines
    else Ready(Deal(width, height, mines, o.shouldReveal.GetOr(true), rand))
  }

  // ---------------------------------------------------------------------
  // The buttons (`awaitMinesweeperGame`)
  // ---------------------------------------------------------------------

  datatype Button = Safe | Mine | GiveUp | RefreshTimer

  /** A button press: who pressed, whether on the logs message, which button. */
  datatype Click = Click(user: string, onLogs: bool, button: Button)

  /** The logs message after a press; positions are shown 1-based. */
  datatype Log = SafeAt(row: int, column: int) | MineAt(row: int, column: int) | GaveUp | TimerRefreshed

  datatype Pressed = Pressed(game: Game, log: Option<Log>)

  /** One collected press: SAFE and MINE pop the last cell of their list,
      if any, and report it; GIVE_UP and REFRESH_TIMER only report. The
      board and the region never change. */
  function Press(g: Game, button: Button): (r: Pressed)
    ensures r.game.board == g.board && r.game.revealed == g.revealed && r.game.shouldReveal == g.shouldReveal
    ensures r.game.mines == g.mines || (|g.mines| > 0 && r.game.mines == g.mines[..|g.mines| - 1])
    ensures r.game.safe == g.safe || (|g.safe| > 0 && r.game.safe == g.safe[..|g.safe| - 1])
    ensures button != Safe ==> r.game.safe == g.safe
    ensures button != Mine ==> r.game.mines == g.mines
    ensures r.log.None? <==> (button == Safe && |g.safe| == 0) || (button == Mine && |g.mines| == 0)
    ensures r.log.Some? && r.log.value.SafeAt? ==>
              (button == Safe && |g.safe| > 0 && Pos(r.log.value.row - 1, r.log.value.column - 1) == g.safe[|g.safe| - 1])
    ensures r.log.Some? && r.log.value.MineAt? ==>
              (button == Mine && |g.mines| > 0 && Pos(r.log.value.row - 1, r.log.value.column - 1) == g.mines[|g.mines| - 1])
  {
    match button
    case Safe =>
      if |g.safe| > 0 then
        var p := g.safe[|g.safe| - 1];
        Pressed(g.(safe := g.safe[..|g.safe| - 1]), Some(SafeAt(p.row + 1, p.column + 1)))
      else Pressed(g, None)
    case Mine =>
      if |g.mines| > 0 then
        var p := g.mines[|g.mines| - 1];
        Pressed(g.(mines := g.mines[..|g.mines| - 1]), Some(MineAt(p.row + 1, p.column + 1)))
      else Pressed(g, None)
    case GiveUp => Pressed(g, Some(GaveUp))
    case RefreshTimer => Pressed(g, Some(TimerRefreshed))
  }

  /** A report that tells the truth about the board: a SAFE report never
      names a mine and a MINE report always does. */
  ghost predicate Truthful(b: Grid, l: Log) {
    && (l.SafeAt? ==> !IsMine(b, Pos(l.row - 1, l.column - 1)))
    && (l.MineAt? ==> IsMine(b, Pos(l.row - 1, l.column - 1)))
  }

  /** A press keeps the lists sound, and its report tells the truth. */
  lemma PressSound(g: Game, button: Button)
    requires Sound(g)
    ensures Sound(Press(g, button).game)
    ensures Press(g, button).log.Some? ==> Truthful(g.board, Press(g, button).log.value)
  {
    var r := Press(g, button);
    if |g.safe| > 0 {
      assert g.safe[|g.safe| - 1] in g.safe;
      assert forall p :: p in g.safe[..|g.safe| - 1] ==> p in g.safe;
    }
    if |g.mines| > 0 {
      assert g.mines[|g.mines| - 1] in g.mines;
      assert forall p :: p in g.mines[..|g.mines| - 1] ==> p in g.mines;
    }
  }

  /** How the collector finished: the game, whether `hasEnded` was set,
      the reports, whether the board was shown without spoilers, and
      whether the returned promise settled. */
  datatype Finish = Finish(game: Game, ended: bool, logs: seq<Log>, uncovered: bool, settled: bool)

  /** The host's presses on the logs message pass the filter. */
  predicate Counts(host: string, c: Click) {
    c.user == host && c.onLogs
  }

  /** The collector from press `i` on, with `collected` presses so far.
      Every press resets the timer, so the collector ends by time only when
      the presses run out; GIVE_UP stops it. Its `end` handler settles the
      promise, and sets `hasEnded`, only when nothing was collected. */
  function Collect(g: Game, host: string, clicks: seq<Click>, i: nat, logs: seq<Log>, collected: nat): (r: Finish)
    requires i <= |clicks|
    ensures r.game.board == g.board && r.game.revealed == g.revealed
    ensures r.settled <==> collected == 0 && forall k :: i <= k < |clicks| ==> !Counts(host, clicks[k])
    ensures r.settled ==> r.ended
    decreases |clicks| - i
  {
    if i == |clicks| then Finish(g, collected == 0, logs, false, collected == 0)
    else if !Counts(host, clicks[i]) then Collect(g, host, clicks, i + 1, logs, collected)
    else if clicks[i].button == GiveUp then Finish(g, true, logs + [GaveUp], true, false)
    else
      var p := Press(g, clicks[i].button);
      Collect(p.game, host, clicks, i + 1, logs + (if p.log.Some? then [p.log.value] else []), collected + 1)
  }

  /** `awaitMinesweeperGame`. */
  function Await(g: Game, host: string, clicks: seq<Click>): (r: Finish)
    ensures r.settled <==> forall k :: 0 <= k < |clicks| ==> !Counts(host, clicks[k])
  {
    Collect(g, host, clicks, 0, [], 0)
  }

  /** The promise of `play` never settles once the host has pressed a
      button, GIVE_UP included: the `end` handler only resolves an empty
      collection. */
  lemma GiveUpNeverSettles(g: Game, host: string)
    ensures !Await(g, host, [Click(host, true, GiveUp)]).settled
    ensures Await(g, host, [Click(host, true, GiveUp)]).ended
  {
    assert Counts(host, [Click(host, true, GiveUp)][0]);
  }

  /** The `end` handler as evidently intended: it settles the promise
      whatever was collected, as the other button collectors of the bot
      do, and sets `hasEnded` only for an empty collection. */
  function CollectSettling(g: Game, host: string, clicks: seq<Click>, i: nat, logs: seq<Log>, collected: nat): (r: Finish)
    requires i <= |clicks|
    ensures r.settled
    ensures r.game.board == g.board && r.game.revealed == g.revealed
    ensures r == Collect(g, host, clicks, i, logs, collected).(settled := true)
    decreases |clicks| - i
  {
    if i == |clicks| then Finish(g, collected == 0, logs, false, true)
    else if !Counts(host, clicks[i]) then CollectSettling(g, host, clicks, i + 1, logs, collected)
    else if clicks[i].button == GiveUp then Finish(g, true, logs + [GaveUp], true, true)
    else
      var p := Press(g, clicks[i].button);
      CollectSettling(p.game, host, clicks, i + 1, logs + (if p.log.Some? then [p.log.value] else []), collected + 1)
  }

  /** With the intended handler the game always settles, so the session
      goes on to release its seats; everything else is as written. */
  function AwaitSettling(g: Game, host: string, clicks: seq<Click>): (r: Finish)
    ensures r.settled
    ensures r == Await(g, host, clicks).(settled := true)
  {
    CollectSettling(g, host, clicks, 0, [], 0)
  }

  /** A sound game stays sound through any run of presses, and every
      report names a cell of the right kind. */
  lemma {:induction false} CollectSound(g: Game, host: string, clicks: seq<Click>, i: nat, logs: seq<Log>, collected: nat)
    requires i <= |clicks| && Sound(g)
    requires forall k :: 0 <= k < |logs| ==> Truthful(g.board, logs[k])
    ensures Sound(Collect(g, host, clicks, i, logs, collected).game)
    ensures forall k :: 0 <= k < |Collect(g, host, clicks, i, logs, collected).logs| ==>
              Truthful(g.board, Collect(g, host, clicks, i, logs, collected).logs[k])
    decreases |clicks| - i
  {
    if i < |clicks| && Counts(host, clicks[i]) && clicks[i].button != GiveUp {
      var p := Press(g, clicks[i].button);
      PressSound(g, clicks[i].button);
      var logs' := logs + (if p.log.Some? then [p.log.value] else []);
      assert forall k :: 0 <= k < |logs'| ==> Truthful(p.game.board, logs'[k]);
      CollectSound(p.game, host, clicks, i + 1, logs', collected + 1);
    } else if i < |clicks| && !Counts(host, clicks[i]) {
      CollectSound(g, host, clicks, i + 1, logs, collected);
    } else if i < |clicks| {
      assert forall k :: 0 <= k < |logs + [GaveUp]| ==> Truthful(g.board, (logs + [GaveUp])[k]);
    }
  }

  /** `play`: the set-up, then the collector unless the options were
      rejected; the collector's `end` handler is the corrected one, so the
      game always comes to an end. */
  function PlayGame(o: Options, rand: seq<nat>, host: string, clicks: seq<Click>): (r: Option<Finish>)
    requires ValidOptions(o)
    ensures r.None? <==> !Initialize(o, rand).Ready?
    ensures r.Some? ==> r.value.game.board == Initialize(o, rand).game.board && r.value.settled
  {
    var setup := Initialize(o, rand);
    if setup.Ready? then Some(AwaitSettling(setup.game, host, clicks)) else None
  }

  // ---------------------------------------------------------------------
  // The rendered board (`renderBoard`)
  // ---------------------------------------------------------------------

  const BOMB: EmojiTables.Emoji := [0x1F4A3]

  /** The character of a cell: a bomb for a mine, otherwise the keycap of
      its count looked up in `ALPHANUMERIC_TO_EMOJI`. */
  function CellEmoji(v: int): (e: Option<EmojiTables.Emoji>)
    ensures v == MINE ==> e == Some(BOMB)
    ensures 0 <= v <= 9 ==> e == Some([0x30 + v, EmojiTables.KEYCAP])
  {
    if v == MINE then Some(BOMB)
    else
      assert 0 <= v <= 9 ==> Text.IntToString(v) == [Text.DigitChar(v)];
      EmojiTables.AlphanumericToEmoji(Text.IntToString(v))
  }

  /** A rendered cell: its character and whether it sits in a spoiler. */
  datatype Shown = Shown(emoji: Option<EmojiTables.Emoji>, spoiler: bool)

  /** The spoiler condition of one cell. */
  predicate Hidden(g: Game, withSpoiler: bool, p: Pos) {
    withSpoiler && (!g.shouldReveal || p !in g.revealed)
  }

  /** `renderBoard(withSpoiler)` as a grid of rendered cells, rows as on
      the board and `board[0].length` columns. */
  function Render(g: Game, withSpoiler: bool): (rows: seq<seq<Shown>>)
    requires Rectangular(g.board)
    ensures |rows| == |g.board| && forall r :: 0 <= r < |rows| ==> |rows[r]| == |g.board[0]|
    ensures forall r, c :: 0 <= r < |rows| && 0 <= c < |g.board[0]| ==>
              rows[r][c].emoji == CellEmoji(g.board[r][c]) && (rows[r][c].spoiler <==> Hidden(g, withSpoiler, Pos(r, c)))
  {
    seq(|g.board|, r requires 0 <= r < |g.board| =>
      seq(|g.board[0]|, c requires 0 <= c < |g.board[0]| =>
        Shown(CellEmoji(g.board[r][c]), Hidden(g, withSpoiler, Pos(r, c)))))
  }

  /** Without spoilers nothing is hidden; with them a cell is visible
      exactly when revealing is on and the cell is in the region. */
  lemma SpoilerRule(g: Game, r: nat, c: nat)
    requires Rectangular(g.board) && r < |g.board| && c < |g.board[0]|
    ensures !Render(g, false)[r][c].spoiler
    ensures !Render(g, true)[r][c].spoiler <==> g.shouldReveal && Pos(r, c) in g.revealed
  {
  }

  /** The opening board never shows a mine: every cell visible under
      spoilers is in the region, which holds none, and shows the keycap of
      its count. */
  lemma OpeningShowsNoMine(g: Game, width: nat, height: nat, mines: nat, r: nat, c: nat)
    requires Dealt(g, width, height, mines) && 0 < height && r < height && c < width
    requires !Render(g, true)[r][c].spoiler
    ensures Render(g, true)[r][c].emoji != Some(BOMB)
    ensures Render(g, true)[r][c].emoji == Some([0x30 + g.board[r][c], EmojiTables.KEYCAP])
  {
    var k :| 0 <= k < |g.revealed| && g.revealed[k] == Pos(r, c);
    assert !IsMine(g.board, g.revealed[k]);
    assert g.board[r][c] == MineCount(g.board, r, c);
  }
}

=== FILE: paginator.dfy ===
/** The paginated list (`PaginatedEmbed`): a page cursor driven by the
    FIRST/BACK/NEXT/LAST/TRASH buttons, the window of items shown on the
    current page, and the rule that disables the navigation buttons. */
module Paginator {
  import opened Wrappers
  import Text

  const FIRST := "FIRST"
  const BACK := "BACK"
  const NEXT := "NEXT"
  const LAST := "LAST"
  const TRASH := "TRASH"

  /** The items, the page size, the current page, the page count, and
      whether TRASH has stopped the collector. */
  datatype Pager<T> = Pager(items: seq<T>, perPage: nat, page: int, totalPages: nat, stopped: bool)

  /** `options.perPage ?? 10`. */
  function PerPage(option: Option<nat>): (n: nat)
    ensures option.None? ==> n == 10
    ensures option.Some? ==> n == option.value
  {
    option.GetOr(10)
  }

  /** `Math.ceil(count / perPage)`: the fewest pages of `perPage` items that hold `count` items. */
  function TotalPages(count: nat, perPage: nat): (t: nat)
    requires perPage > 0
    ensures count <= t * perPage
    ensures t > 0 ==> (t - 1) * perPage < count
    ensures t == 0 <==> count == 0
  {
    (count + perPage - 1) / perPage
  }

  /** `create()`: the page starts at 1 and the page count is computed from the items. */
  function Create<T>(items: seq<T>, perPage: nat): (p: Pager<T>)
    requires perPage > 0
    ensures p.page == 1 && !p.stopped && p.items == items && p.perPage == perPage
    ensures p.totalPages == TotalPages(|items|, perPage)
  {
    Pager(items, perPage, 1, TotalPages(|items|, perPage), false)
  }

  /** `update(newItems)`: new items, a recomputed page count, and page 1. */
  function Update<T>(p: Pager<T>, newItems: seq<T>): (r: Pager<T>)
    requires p.perPage > 0
    ensures r.items == newItems && r.page == 1 && r.perPage == p.perPage && r.stopped == p.stopped
    ensures r.totalPages == TotalPages(|newItems|, p.perPage)
  {
    p.(items := newItems, totalPages := TotalPages(|newItems|, p.perPage), page := 1)
  }

  /** `updatePage(customId)`. */
  function UpdatePage<T>(p: Pager<T>, customId: string): (r: Pager<T>)
    ensures r.items == p.items && r.perPage == p.perPage && r.totalPages == p.totalPages
    ensures customId == FIRST ==> r.page == 1
    ensures customId == BACK ==> r.page == if p.page - 1 > 1 then p.page - 1 else 1
    ensures customId == NEXT ==> r.page == if p.page + 1 < p.totalPages then p.page + 1 else p.totalPages
    ensures customId == LAST ==> r.page == p.totalPages
    ensures customId !in {FIRST, BACK, NEXT, LAST} ==> r.page == p.page
    ensures r.stopped <==> p.stopped || customId == TRASH
  {
    if customId == FIRST then p.(page := 1)
    else if customId == BACK then p.(page := if p.page - 1 > 1 then p.page - 1 else 1)
    else if customId == NEXT then p.(page := if p.page + 1 < p.totalPages then p.page + 1 else p.totalPages)
    else if customId == LAST then p.(page := p.totalPages)
    else if customId == TRASH then p.(stopped := true)
    else p
  }

  /** A click delivered to the collector; once stopped, nothing more arrives. */
  function OnClick<T>(p: Pager<T>, customId: string): (r: Pager<T>)
    ensures p.stopped ==> r == p
  {
    if p.stopped then p else UpdatePage(p, customId)
  }

  function Run<T>(p: Pager<T>, clicks: seq<string>): Pager<T>
    decreases |clicks|
  {
    if |clicks| == 0 then p else Run(OnClick(p, clicks[0]), clicks[1..])
  }

  /** The cursor is on a real page. */
  predicate InRange<T>(p: Pager<T>) {
    1 <= p.page <= p.totalPages
  }

  /** With at least one page, every button keeps the cursor on a real page. */
  lemma {:induction false} RunStaysInRange<T>(p: Pager<T>, clicks: seq<string>)
    requires InRange(p)
    ensures InRange(Run(p, clicks))
    ensures Run(p, clicks).totalPages == p.totalPages
    decreases |clicks|
  {
    if |clicks| > 0 {
      RunStaysInRange(OnClick(p, clicks[0]), clicks[1..]);
    }
  }

  /** With no items there are no pages, and NEXT or LAST move the cursor to page 0. */
  lemma EmptyListGoesToPageZero<T>(perPage: nat, customId: string)
    requires perPage > 0 && customId in {NEXT, LAST}
    ensures UpdatePage(Create<T>([], perPage), customId).page == 0
  {
  }

  /** The page count printed in the title: `totalPages || 1`. */
  function DisplayedTotal<T>(p: Pager<T>): (n: nat)
    ensures n >= 1
    ensures p.totalPages > 0 ==> n == p.totalPages
  {
    if p.totalPages == 0 then 1 else p.totalPages
  }

  /** The first index of the current page, `perPage·(page−1)`. */
  function PageStart<T>(p: Pager<T>): int {
    p.perPage * (p.page - 1)
  }

  /** The first index of a page is never negative. */
  lemma PageStartNatural<T>(p: Pager<T>)
    requires p.page >= 1
    ensures PageStart(p) >= 0
  {
    MulMono(0, p.page - 1, p.perPage);
  }

  /** On page 0 the page ends at index 0. */
  lemma PageZeroStart<T>(p: Pager<T>)
    ensures p.page == 0 ==> PageStart(p) + p.perPage == 0
  {
  }

  /** `w` is what `items.slice(start, start + size)` gives: the items from
      `start` on, `size` of them or as many as remain. */
  ghost predicate IsSegment<T>(items: seq<T>, start: int, size: nat, w: seq<T>) {
    && |w| <= size
    && (forall k :: 0 <= k < |w| ==> 0 <= start + k < |items| && w[k] == items[start + k])
    && (start + size <= |items| ==> |w| == size)
    && (start <= |items| <= start + size ==> |w| == |items| - start)
  }

  /** `items.slice(start, start + size)` for a start that is not negative. */
  function Segment<T>(items: seq<T>, start: int, size: nat): (w: seq<T>)
    requires start >= 0
    ensures IsSegment(items, start, size, w)
  {
    Text.Slice(items, start, start + size)
  }

  /** The items of the current page, `items.slice(perPage·(page−1), perPage·page)`;
      the end `perPage·page` is the start plus `perPage`. */
  function Window<T>(p: Pager<T>): (w: seq<T>)
    ensures |w| <= p.perPage
    ensures p.page >= 1 ==> IsSegment(p.items, PageStart(p), p.perPage, w)
    ensures p.page == 0 ==> w == []
  {
    if p.page >= 1 then
      PageStartNatural(p);
      Segment(p.items, PageStart(p), p.perPage)
    else
      PageZeroStart(p);
      Text.Slice(p.items, PageStart(p), PageStart(p) + p.perPage)
  }

  /** The fields shown: the fixed embed fields followed by the page's items. */
  function Fields<T>(fixed: seq<T>, p: Pager<T>): (f: seq<T>)
    ensures |f| == |fixed| + |Window(p)|
    ensures f[..|fixed|] == fixed && f[|fixed|..] == Window(p)
  {
    fixed + Window(p)
  }

  /** The page an index falls on exists. */
  lemma PageOfIndex(count: nat, perPage: nat, i: nat)
    requires perPage > 0 && i < count
    ensures i / perPage + 1 <= TotalPages(count, perPage)
  {
    var t := TotalPages(count, perPage);
    var q := i / perPage;
    assert q * perPage <= i;
    if t <= q {
      MulMono(t, q, perPage);
    }
  }

  /** The page an index falls on starts `index % perPage` items before it. */
  lemma StartOfPage<T>(items: seq<T>, perPage: nat, i: nat)
    requires perPage > 0
    ensures PageStart(Create(items, perPage).(page := i / perPage + 1)) + i % perPage == i
  {
    var q := i / perPage;
    assert PageStart(Create(items, perPage).(page := q + 1)) == perPage * q;
    assert perPage * q + i % perPage == i;
  }

  /** Every item is shown on exactly the page its index falls on, and that page exists. */
  lemma ItemOnItsPage<T>(items: seq<T>, perPage: nat, i: nat)
    requires perPage > 0 && i < |items|
    ensures var p := Create(items, perPage).(page := i / perPage + 1);
            InRange(p) && i % perPage < |Window(p)| && Window(p)[i % perPage] == items[i]
  {
    PageOfIndex(|items|, perPage, i);
    StartOfPage(items, perPage, i);
    var p := Create(items, perPage).(page := i / perPage + 1);
    var m := i % perPage;
    assert m < perPage;
    var w := Window(p);
    assert m < |w|;
  }

  lemma MulMono(a: nat, b: nat, c: nat)
    requires a <= b
    ensures a * c <= b * c && c * a <= c * b
  {
  }

  /** `backPageDisabled`: First and Back are disabled on page 1. */
  predicate BackDisabled<T>(p: Pager<T>) {
    p.page == 1
  }

  /** `nextPageDisabled`: Next and Last are disabled on the last page. */
  predicate NextDisabled<T>(p: Pager<T>) {
    p.page == p.totalPages
  }

  /** Enabled buttons move the cursor, and disabled ones would not. */
  lemma DisabledButtonsWouldNotMove<T>(p: Pager<T>)
    requires InRange(p)
    ensures BackDisabled(p) <==> UpdatePage(p, BACK).page == p.page
    ensures NextDisabled(p) <==> UpdatePage(p, NEXT).page == p.page
  {
  }

  /** Twenty-three items at ten per page make three pages, and the buttons
      NEXT, NEXT, NEXT, BACK, LAST, FIRST visit pages 2, 3, 3, 2, 3, 1. */
  lemma ThreePageExample(items: seq<int>)
    requires |items| == 23
    ensures var p0 := Create(items, 10);
            p0.totalPages == 3 &&
            var p1 := UpdatePage(p0, NEXT);
            var p2 := UpdatePage(p1, NEXT);
            var p3 := UpdatePage(p2, NEXT);
            var p4 := UpdatePage(p3, BACK);
            var p5 := UpdatePage(p4, LAST);
            var p6 := UpdatePage(p5, FIRST);
            [p1.page, p2.page, p3.page, p4.page, p5.page, p6.page] == [2, 3, 3, 2, 3, 1] &&
            |Window(p3)| == 3 && Window(p3) == items[20..]
  {
  }
}

=== FILE: point.dfy ===
/** Board coordinates: `Point` (row, column and a payload) and
    `ExplorePoint` (a point with an `explored` flag, used by the flood
    search of the minesweeper board). */
module Point {

  datatype Point<T> = Point(row: int, column: int, value: T)

  /** `isEqual`: the same position, whatever the payloads. */
  predicate IsEqual<T>(p: Point<T>, q: Point<T>) {
    q.column == p.column && q.row == p.row
  }

  /** The constructor keeps what it is given. */
  function New<T>(row: int, column: int, value: T): (p: Point<T>)
    ensures p.row == row && p.column == column && p.value == value
  {
    Point(row, column, value)
  }

  /** `isEqual` is an equivalence relation on positions that ignores the
      payload. */
  lemma IsEqualEquivalence<T>(p: Point<T>, q: Point<T>, s: Point<T>)
    ensures IsEqual(p, p)
    ensures IsEqual(p, q) ==> IsEqual(q, p)
    ensures IsEqual(p, q) && IsEqual(q, s) ==> IsEqual(p, s)
    ensures IsEqual(p, q) <==> IsEqual(p, q.(value := p.value))
    ensures IsEqual(p, q) <==> p.(value := q.value) == q
  {
  }

  datatype ExplorePoint<T> = ExplorePoint(point: Point<T>, explored: bool)

  /** A new explore point is not explored. */
  function NewExplorePoint<T>(row: int, column: int, value: T): (e: ExplorePoint<T>)
    ensures !e.explored
    ensures e.point == New(row, column, value)
  {
    ExplorePoint(Point(row, column, value), false)
  }

  /** `setExplored`: marks the point, leaving its position and payload. */
  function SetExplored<T>(e: ExplorePoint<T>): (r: ExplorePoint<T>)
    ensures r.explored
    ensures r.point == e.point
  {
    e.(explored := true)
  }

  /** Marking twice is marking once. */
  lemma SetExploredIdempotent<T>(e: ExplorePoint<T>)
    ensures SetExplored(SetExplored(e)) == SetExplored(e)
  {
  }
}

=== FILE: random.dfy ===
/** The random helpers of lodash with their randomness as an input:
    `rand` and `pick` stand for the draws the library would make. */
module Random {
  import opened Wrappers

  /** Positions `k` and `p` exchanged. */
  function Swap<T>(s: seq<T>, k: nat, p: nat): (r: seq<T>)
    requires k < |s| && p < |s|
    ensures |r| == |s| && r[k] == s[p] && r[p] == s[k]
    ensures forall i :: 0 <= i < |s| && i != k && i != p ==> r[i] == s[i]
  {
    s[k := s[p]][p := s[k]]
  }

  /** Exchanging two positions keeps the same elements. */
  lemma SwapKeepsMultiset<T>(s: seq<T>, i: nat, j: nat)
    requires i < |s| && j < |s|
    ensures multiset(Swap(s, i, j)) == multiset(s)
  {
    if i != j {
      var t := s[i := s[j]];
      assert multiset(t) == multiset(s) - multiset{s[i]} + multiset{s[j]};
      assert multiset(t[j := s[i]]) == multiset(t) - multiset{t[j]} + multiset{s[i]};
    }
  }

  /** The position that step `k` of the shuffle exchanges with `k`: one
      among positions `k` to the end, chosen by the draw `rand[k]`. */
  function Pick(n: nat, rand: seq<nat>, k: nat): (p: nat)
    requires k < n
    ensures k <= p < n
  {
    k + (if k < |rand| then rand[k] else 0) % (n - k)
  }

  /** The Fisher-Yates steps from position `k` on: step `k` exchanges
      position `k` with the one `Pick` chooses. */
  function ShuffleFrom<T>(s: seq<T>, rand: seq<nat>, k: nat): (r: seq<T>)
    requires k <= |s|
    ensures |r| == |s|
    ensures multiset(r) == multiset(s)
    decreases |s| - k
  {
    if k >= |s| then s
    else
      var pick := Pick(|s|, rand, k);
      SwapKeepsMultiset(s, k, pick);
      ShuffleFrom(Swap(s, k, pick), rand, k + 1)
  }

  /** `_.shuffle(s)` with the random draws `rand`: the same elements, as
      many times each. */
  function Shuffle<T>(s: seq<T>, rand: seq<nat>): (r: seq<T>)
    ensures |r| == |s|
    ensures multiset(r) == multiset(s)
  {
    ShuffleFrom(s, rand, 0)
  }

  /** Exchanging the same two positions of both lists keeps the projection. */
  lemma SwapProjects<S, T>(a: seq<S>, b: seq<T>, f: T -> S, k: nat, p: nat)
    requires k < |b| == |a| && p < |b|
    requires forall i :: 0 <= i < |b| ==> a[i] == f(b[i])
    ensures forall i :: 0 <= i < |b| ==> Swap(a, k, p)[i] == f(Swap(b, k, p)[i])
  {
  }

  /** The shuffle moves positions, not values: with the same draws, a
      list whose elements project onto another's is shuffled onto that
      list's shuffle. */
  lemma {:induction false} ShuffleFromProjects<S, T>(a: seq<S>, b: seq<T>, f: T -> S, rand: seq<nat>, k: nat)
    requires k <= |b| == |a|
    requires forall i :: 0 <= i < |b| ==> a[i] == f(b[i])
    ensures forall i :: 0 <= i < |b| ==> ShuffleFrom(a, rand, k)[i] == f(ShuffleFrom(b, rand, k)[i])
    decreases |b| - k
  {
    if k < |b| {
      var p := Pick(|b|, rand, k);
      SwapProjects(a, b, f, k, p);
      ShuffleFromProjects(Swap(a, k, p), Swap(b, k, p), f, rand, k + 1);
    }
  }

  /** `Shuffle` moves positions, not values. */
  lemma ShuffleProjects<S, T>(a: seq<S>, b: seq<T>, f: T -> S, rand: seq<nat>)
    requires |b| == |a|
    requires forall i :: 0 <= i < |b| ==> a[i] == f(b[i])
    ensures forall i :: 0 <= i < |b| ==> Shuffle(a, rand)[i] == f(Shuffle(b, rand)[i])
  {
    ShuffleFromProjects(a, b, f, rand, 0);
  }

  /** `_.sample(list)`: the element at the random draw, or `None`
      (`undefined`) for an empty list. */
  function Sample<T>(list: seq<T>, pick: nat): (r: Option<T>)
    ensures r.None? <==> |list| == 0
    ensures r.Some? ==> r.value in list
  {
    if |list| == 0 then None else Some(list[pick % |list|])
  }
}

=== FILE: rps.dfy ===
/** Rock, paper, scissors, lizard, Spock (`RPS_MATCHUPS`, `RPSPlayer`,
    `RPS`): the matchup table, the players' choice and win counters, the
    resolution of one round and the game loop of a challenge. */
module Rps {
  import opened Wrappers
  import AcceptEmbed
  import Lobby

  datatype Choice = Rock | Paper | Scissors | Lizard | Spock

  /** The keys of `RPS_MATCHUPS`, in declaration order. */
  const CHOICES: seq<Choice> := [Rock, Paper, Scissors, Lizard, Spock]

  /** The keys of the `wins` collection of each entry of `RPS_MATCHUPS`:
      the choices it beats. */
  function Wins(c: Choice): (r: seq<Choice>)
    ensures |r| == 2 && r[0] != r[1] && c !in r
  {
    match c
    case Rock => [Scissors, Lizard]
    case Paper => [Rock, Spock]
    case Scissors => [Paper, Lizard]
    case Lizard => [Spock, Paper]
    case Spock => [Rock, Scissors]
  }

  /** `RPS_MATCHUPS[a].wins.get(b)` is defined. */
  predicate Beats(a: Choice, b: Choice) {
    b in Wins(a)
  }

  /** The button id of a choice: the key of `RPS_CHOICES`, which is also
      its value. */
  function Id(c: Choice): (s: string)
    ensures |s| >= 4
  {
    match c
    case Rock => "ROCK"
    case Paper => "PAPER"
    case Scissors => "SCISSORS"
    case Lizard => "LIZARD"
    case Spock => "SPOCK"
  }

  /** Reading a button id back as a choice (`customId as RPSChoice`). */
  function Parse(s: string): (r: Option<Choice>)
    ensures r.Some? ==> Id(r.value) == s
  {
    if s == "ROCK" then Some(Rock)
    else if s == "PAPER" then Some(Paper)
    else if s == "SCISSORS" then Some(Scissors)
    else if s == "LIZARD" then Some(Lizard)
    else if s == "SPOCK" then Some(Spock)
    else None
  }

  /** Every button id reads back as its choice, so the ids of
      `RPS_CHOICES` and the keys of `RPS_MATCHUPS` name the same five
      choices. */
  lemma IdRoundTrip(c: Choice)
    ensures Parse(Id(c)) == Some(c)
    ensures c in CHOICES
  {
  }

  /** The position of a choice on the cycle Rock, Spock, Paper, Lizard,
      Scissors of the guide in the command's help text. */
  function Cycle(c: Choice): (k: nat)
    ensures k < 5
  {
    match c
    case Rock => 0
    case Spock => 1
    case Paper => 2
    case Lizard => 3
    case Scissors => 4
  }

  /** The reference rule: each choice beats the two choices just before
      it on the cycle. */
  predicate CyclicBeats(a: Choice, b: Choice) {
    var d := (Cycle(a) - Cycle(b)) % 5;
    d == 1 || d == 2
  }

  /** The table is the cyclic rule. */
  lemma BeatsIsCyclic(a: Choice, b: Choice)
    ensures Beats(a, b) <==> CyclicBeats(a, b)
  {
  }

  /** No choice beats itself, each beats exactly two others, and of two
      different choices exactly one beats the other. */
  lemma MatchupTable(a: Choice, b: Choice)
    ensures !Beats(a, a)
    ensures |set x: Choice | Beats(a, x)| == 2
    ensures a != b ==> (Beats(a, b) <==> !Beats(b, a))
  {
    BeatsIsCyclic(a, b);
    BeatsIsCyclic(b, a);
    var w := Wins(a);
    assert (set x: Choice | Beats(a, x)) == {w[0], w[1]} by {
      forall x: Choice ensures Beats(a, x) <==> x == w[0] || x == w[1] {
        assert x in w <==> x == w[0] || x == w[1];
      }
    }
  }

  // ---------------------------------------------------------------------
  // The players (`RPSPlayer`)
  // ---------------------------------------------------------------------

  datatype Player = Player(wins: nat, choice: Option<Choice>)

  /** A new player: no win and no choice. */
  const NEW_PLAYER := Player(0, None)

  /** `select`: the choice is replaced and the wins kept. */
  function Select(p: Player, c: Choice): (r: Player)
    ensures r.choice == Some(c) && r.wins == p.wins
  {
    p.(choice := Some(c))
  }

  /** `deselect`: the choice is cleared and the wins kept. */
  function Deselect(p: Player): (r: Player)
    ensures r.choice.None? && r.wins == p.wins
  {
    p.(choice := None)
  }

  /** `win`: one more win, the choice kept. */
  function Win(p: Player): (r: Player)
    ensures r.wins == p.wins + 1 && r.choice == p.choice
  {
    p.(wins := p.wins + 1)
  }

  /** `hasWon`: the wins equal the required number exactly. */
  predicate HasWon(p: Player, requiredWins: int) {
    p.wins == requiredWins
  }

  // ---------------------------------------------------------------------
  // The game (`RPS`)
  // ---------------------------------------------------------------------

  /** The command's options: `wins` 1..7, `time` 5..60 seconds and
      `intermediate` 3..15 seconds, in milliseconds. */
  datatype Options = Options(wins: Option<int>, time: Option<int>, intermediate: Option<int>)

  predicate ValidOptions(o: Options) {
    && (o.wins.None? || 1 <= o.wins.value <= 7)
    && (o.time.None? || (o.time.value % 5000 == 0 && 5000 <= o.time.value <= 60000))
    && (o.intermediate.None? || (o.intermediate.value % 1000 == 0 && 3000 <= o.intermediate.value <= 15000))
  }

  datatype Config = Config(requiredWins: int, timeLimit: int, intermediateTime: int)

  /** `initialize`: each option `|| default`, with 1 win, 20 s and 5 s. */
  function Configure(o: Options): (cfg: Config)
    ensures o.wins.None? ==> cfg.requiredWins == 1
    ensures o.time.None? ==> cfg.timeLimit == 20000
    ensures o.intermediate.None? ==> cfg.intermediateTime == 5000
    ensures ValidOptions(o) ==> 1 <= cfg.requiredWins <= 7
    ensures o.wins.Some? && o.wins.value != 0 ==> cfg.requiredWins == o.wins.value
  {
    Config(OrNumber(o.wins, 1), OrNumber(o.time, 20000), OrNumber(o.intermediate, 5000))
  }

  /** The two players' records, host first. */
  datatype Table = Table(host: Player, challenger: Player)

  /** A button press: who pressed, whether on the game's message, which choice. */
  datatype Click = Click(user: string, onGame: bool, choice: Choice)

  predicate AllSelected(t: Table) {
    t.host.choice.Some? && t.challenger.choice.Some?
  }

  /** The collector of `awaitChoices` from press `i` on: a press of either
      player on the game message replaces that player's choice, and the
      collector stops as soon as both have chosen. */
  function Collect(t: Table, host: string, challenger: string, clicks: seq<Click>, i: nat): (r: Table)
    requires i <= |clicks| && host != challenger
    ensures r.host.wins == t.host.wins && r.challenger.wins == t.challenger.wins
    ensures AllSelected(t) || i == |clicks| ==> r == t
    ensures t.host.choice.Some? ==> r.host.choice.Some?
    ensures t.challenger.choice.Some? ==> r.challenger.choice.Some?
    decreases |clicks| - i
  {
    if AllSelected(t) || i == |clicks| then t
    else
      var c := clicks[i];
      if !c.onGame then Collect(t, host, challenger, clicks, i + 1)
      else if c.user == host then Collect(t.(host := Select(t.host, c.choice)), host, challenger, clicks, i + 1)
      else if c.user == challenger then Collect(t.(challenger := Select(t.challenger, c.choice)), host, challenger, clicks, i + 1)
      else Collect(t, host, challenger, clicks, i + 1)
  }

  /** The choice a player holds after presses `i..j`: the last press of
      that player on the game message, or the earlier one. */
  function LastChoice(user: string, clicks: seq<Click>, i: nat, j: nat, prior: Option<Choice>): (r: Option<Choice>)
    requires i <= j <= |clicks|
    decreases j - i
  {
    if i == j then prior
    else if clicks[j - 1].onGame && clicks[j - 1].user == user then Some(clicks[j - 1].choice)
    else LastChoice(user, clicks, i, j - 1, prior)
  }

  /** While the other player has not chosen, a player's choice keeps
      changing with each of their presses: with no choice from the
      challenger, the host ends up with their last press. */
  lemma {:induction false} HostKeepsLastPress(t: Table, host: string, challenger: string, clicks: seq<Click>, i: nat)
    requires i <= |clicks| && host != challenger
    requires forall k :: i <= k < |clicks| ==> !(clicks[k].onGame && clicks[k].user == challenger)
    requires t.challenger.choice.None?
    ensures Collect(t, host, challenger, clicks, i).host.choice == LastChoice(host, clicks, i, |clicks|, t.host.choice)
    decreases |clicks| - i
  {
    if i < |clicks| {
      var c := clicks[i];
      var t' := if c.onGame && c.user == host then t.(host := Select(t.host, c.choice)) else t;
      HostKeepsLastPress(t', host, challenger, clicks, i + 1);
      LastChoiceFirst(host, clicks, i, |clicks|, t.host.choice, t'.host.choice);
    }
  }

  /** Splitting off the first press of a `LastChoice` range. */
  lemma {:induction false} LastChoiceFirst(user: string, clicks: seq<Click>, i: nat, j: nat, prior: Option<Choice>, next: Option<Choice>)
    requires i < j <= |clicks|
    requires next == if clicks[i].onGame && clicks[i].user == user then Some(clicks[i].choice) else prior
    ensures LastChoice(user, clicks, i, j, prior) == LastChoice(user, clicks, i + 1, j, next)
    decreases j - i
  {
    if j - 1 > i {
      LastChoiceFirst(user, clicks, i, j - 1, prior, next);
    }
  }

  /** How a round ended. */
  datatype Round = Unfinished | Draw(choice: Choice) | HostWon(host: Choice, challenger: Choice) | ChallengerWon(host: Choice, challenger: Choice)

  /** The `end` handler: without both choices the game ends; a tie
      changes nothing; otherwise the host wins iff the host's choice beats
      the challenger's. Both choices are cleared after a resolved round. */
  function Resolve(t: Table): (r: (Table, Round))
    ensures r.1.Unfinished? <==> !AllSelected(t)
    ensures r.1.Unfinished? ==> r.0 == t
    ensures r.1.Draw? <==> AllSelected(t) && t.host.choice == t.challenger.choice
    ensures r.1.HostWon? <==> AllSelected(t) && Beats(t.host.choice.value, t.challenger.choice.value)
    ensures r.1.ChallengerWon? <==> AllSelected(t) && Beats(t.challenger.choice.value, t.host.choice.value)
    ensures !r.1.Unfinished? ==> r.0.host.choice.None? && r.0.challenger.choice.None?
    ensures r.0.host.wins == t.host.wins + (if r.1.HostWon? then 1 else 0)
    ensures r.0.challenger.wins == t.challenger.wins + (if r.1.ChallengerWon? then 1 else 0)
  {
    if !AllSelected(t) then (t, Unfinished)
    else
      var h := t.host.choice.value;
      var c := t.challenger.choice.value;
      MatchupTable(h, c);
      if h == c then (Table(Deselect(t.host), Deselect(t.challenger)), Draw(h))
      else if Beats(h, c) then (Table(Deselect(Win(t.host)), Deselect(t.challenger)), HostWon(h, c))
      else (Table(Deselect(t.host), Deselect(Win(t.challenger))), ChallengerWon(h, c))
  }

  /** `terminal`: some player's wins equal the required number. */
  predicate Terminal(cfg: Config, t: Table) {
    HasWon(t.host, cfg.requiredWins) || HasWon(t.challenger, cfg.requiredWins)
  }

  /** Why the game stopped. The bot and self checks run only after the
      challenge has been put and answered. */
  datatype Reason = BotChallenger | SelfChallenge | Declined | Inactive | Finished

  datatype Outcome = Outcome(accepted: bool, reason: Reason, table: Table, rounds: seq<Round>)

  /** Neither player has passed the required number of wins. */
  predicate Below(cfg: Config, t: Table) {
    t.host.wins <= cfg.requiredWins && t.challenger.wins <= cfg.requiredWins
  }

  /** No choice is pending: the state between rounds. */
  predicate Idle(t: Table) {
    t.host.choice.None? && t.challenger.choice.None?
  }

  /** The loop of `play` from round `k` on; round `k` sees the presses
      `rounds[k]`, and a round without input times out. */
  function Loop(cfg: Config, t: Table, host: string, challenger: string, rounds: seq<seq<Click>>, k: nat): (r: Outcome)
    requires host != challenger && k <= |rounds| && Below(cfg, t) && Idle(t)
    ensures Below(cfg, r.table)
    ensures r.reason == Finished ==> Idle(r.table)
    ensures r.reason == Inactive || r.reason == Finished
    ensures r.reason == Finished <==> Terminal(cfg, r.table)
    ensures r.reason == Finished ==> r.table == t || (|r.rounds| > 0 && !r.rounds[|r.rounds| - 1].Unfinished? && !r.rounds[|r.rounds| - 1].Draw?)
    ensures forall j :: 0 <= j < |r.rounds| - 1 ==> !r.rounds[j].Unfinished?
    ensures r.reason == Inactive ==> |r.rounds| > 0 && r.rounds[|r.rounds| - 1].Unfinished?
    ensures r.table.host.wins >= t.host.wins && r.table.challenger.wins >= t.challenger.wins
    decreases |rounds| - k
  {
    if Terminal(cfg, t) then Outcome(true, Finished, t, [])
    else
      var clicks := if k < |rounds| then rounds[k] else [];
      var (t', round) := Resolve(Collect(t, host, challenger, clicks, 0));
      if round.Unfinished? then Outcome(true, Inactive, t', [round])
      else
        var rest := Loop(cfg, t', host, challenger, rounds, k + 1);
        Outcome(true, rest.reason, rest.table, [round] + rest.rounds)
  }

  /** `play`: the challenge is put to the challenger first; then a bot or
      the host as challenger is refused, a declined challenge ends it, and
      an accepted one is played from no wins. */
  function Play(host: Lobby.User, challenger: Lobby.User, o: Options, answers: seq<AcceptEmbed.Click>, rounds: seq<seq<Click>>): (r: Outcome)
    requires ValidOptions(o)
    ensures r.accepted == AcceptEmbed.AwaitResponse(challenger.id, answers)
    ensures r.reason.BotChallenger? <==> challenger.bot
    ensures r.reason.SelfChallenge? <==> !challenger.bot && challenger.id == host.id
    ensures r.reason.Declined? <==> !challenger.bot && challenger.id != host.id && !r.accepted
    ensures r.reason.Finished? ==> HasWon(r.table.host, Configure(o).requiredWins) != HasWon(r.table.challenger, Configure(o).requiredWins)
  {
    var accepted := AcceptEmbed.AwaitResponse(challenger.id, answers);
    var start := Table(NEW_PLAYER, NEW_PLAYER);
    if challenger.bot then Outcome(accepted, BotChallenger, start, [])
    else if challenger.id == host.id then Outcome(accepted, SelfChallenge, start, [])
    else if !accepted then Outcome(accepted, Declined, start, [])
    else
      var cfg := Configure(o);
      var r := Loop(cfg, start, host.id, challenger.id, rounds, 0);
      FinishedOnce(cfg, start, host.id, challenger.id, rounds, 0);
      r.(accepted := accepted)
  }

  /** From a table where nobody has won, a finished game has exactly one
      winner: the loop stops in the first round that brings someone to the
      required number, and a round gives at most one win. */
  lemma {:induction false} FinishedOnce(cfg: Config, t: Table, host: string, challenger: string, rounds: seq<seq<Click>>, k: nat)
    requires host != challenger && k <= |rounds| && Below(cfg, t) && Idle(t) && !Terminal(cfg, t)
    ensures var r := Loop(cfg, t, host, challenger, rounds, k);
      r.reason == Finished ==> HasWon(r.table.host, cfg.requiredWins) != HasWon(r.table.challenger, cfg.requiredWins)
    decreases |rounds| - k
  {
    var clicks := if k < |rounds| then rounds[k] else [];
    var (t', round) := Resolve(Collect(t, host, challenger, clicks, 0));
    var r := Loop(cfg, t, host, challenger, rounds, k);
    if !round.Unfinished? {
      var rest := Loop(cfg, t', host, challenger, rounds, k + 1);
      assert r.reason == rest.reason && r.table == rest.table;
      if !Terminal(cfg, t') {
        FinishedOnce(cfg, t', host, challenger, rounds, k + 1);
      }
    }
  }
}

=== FILE: scrabble.dfy ===
/** The scrabble game (`Scrabble`, `ScrabblePlayer`): the round filter,
    the last word of each author, the standings, the round history, the
    winners and the round loop. The letter rules are in `ScrabbleLetters`. */
module Scrabble {
  import opened Wrappers
  import Text
  import ScrabbleLetters

  // ---------------------------------------------------------------------
  // The player (`ScrabblePlayer`)
  // ---------------------------------------------------------------------

  /** A player's record: the running score, and the word and gain of the
      current round (`null` between rounds). */
  datatype Player = Player(id: string, nickname: string, score: int, word: Option<string>, gain: Option<int>)

  /** A new player: no score, no word, no gain. */
  function NewPlayer(id: string, nickname: string): (p: Player)
    ensures p.id == id && p.nickname == nickname
    ensures p.score == 0 && p.word.None? && p.gain.None?
  {
    Player(id, nickname, 0, None, None)
  }

  /** `addScore`: the value becomes the gain and is added to the score, and
      the word is recorded. */
  function AddScore(p: Player, word: string, value: int): (r: Player)
    ensures r.id == p.id && r.nickname == p.nickname
    ensures r.score == p.score + value && r.gain == Some(value) && r.word == Some(word)
  {
    p.(gain := Some(value), score := p.score + value, word := Some(word))
  }

  /** `deselect`: word and gain are cleared, the score is kept. */
  function Deselect(p: Player): (r: Player)
    ensures r.id == p.id && r.nickname == p.nickname && r.score == p.score
    ensures r.word.None? && r.gain.None?
  {
    p.(word := None, gain := None)
  }

  /** A call on a player: `addScore(word, value)` or `deselect()`. */
  datatype Call = Add(word: string, value: int) | Clear

  function Apply(p: Player, calls: seq<Call>): (r: Player)
    ensures r.id == p.id && r.nickname == p.nickname
    decreases |calls|
  {
    if |calls| == 0 then p
    else
      var q := Apply(p, calls[..|calls| - 1]);
      match calls[|calls| - 1]
      case Add(w, v) => AddScore(q, w, v)
      case Clear => Deselect(q)
  }

  /** The values passed to `addScore`, summed. */
  function Added(calls: seq<Call>): int
    decreases |calls|
  {
    if |calls| == 0 then 0
    else Added(calls[..|calls| - 1]) + (match calls[|calls| - 1] case Add(_, v) => v case Clear => 0)
  }

  /** Whatever the calls, the score is the starting score plus every value
      ever added; the gain and word are those of the last call. */
  lemma {:induction false} ScoreIsSumOfGains(p: Player, calls: seq<Call>)
    ensures Apply(p, calls).score == p.score + Added(calls)
    ensures |calls| > 0 && calls[|calls| - 1].Clear? ==> Apply(p, calls).word.None? && Apply(p, calls).gain.None?
    ensures |calls| > 0 && calls[|calls| - 1].Add? ==> Apply(p, calls).gain == Some(calls[|calls| - 1].value)
    decreases |calls|
  {
    if |calls| > 0 {
      ScoreIsSumOfGains(p, calls[..|calls| - 1]);
    }
  }

  // ---------------------------------------------------------------------
  // Options
  // ---------------------------------------------------------------------

  /** The command options, each possibly absent. */
  datatype Options = Options(
    mode: Option<string>, rounds: Option<int>, letters: Option<int>,
    sort: Option<bool>, time: Option<int>, intermediate: Option<int>)

  /** The choices the command offers: solo or multiplayer, 1 to 10 rounds,
      7 to 10 letters, 10 to 60 seconds in steps of 5, and 3 to 15 seconds
      between rounds. */
  predicate ValidOptions(o: Options) {
    && (o.mode.None? || o.mode.value == "SOLO" || o.mode.value == "MULTIPLAYER")
    && (o.rounds.None? || 1 <= o.rounds.value <= 10)
    && (o.letters.None? || 7 <= o.letters.value <= 10)
    && (o.time.None? || (o.time.value % 5000 == 0 && 10000 <= o.time.value <= 60000))
    && (o.intermediate.None? || (o.intermediate.value % 1000 == 0 && 3000 <= o.intermediate.value <= 15000))
  }

  datatype Config = Config(
    lettersPerRound: int, shouldSort: bool, solo: bool,
    timeLimit: int, totalRounds: int, intermediateTime: int)

  /** The time between rounds as written, `option ?? solo ? 1 s : 5 s`:
      the `??` binds first, so a given option is only tested for being
      non-zero and then picks one second. */
  function IntermediateTime(option: Option<int>, solo: bool): (ms: int)
    ensures option.Some? && option.value != 0 ==> ms == 1000
    ensures option.None? ==> ms == (if solo then 1000 else 5000)
  {
    var pick := if option.Some? then option.value != 0 else solo;
    if pick then 1000 else 5000
  }

  /** The time between rounds the option describes: the given value, else
      one second alone and five with others. */
  function IntendedIntermediateTime(option: Option<int>, solo: bool): (ms: int)
    ensures option.Some? ==> ms == option.value
    ensures option.None? ==> ms == IntermediateTime(option, solo)
  {
    if option.Some? then option.value else if solo then 1000 else 5000
  }

  /** Asking for fifteen seconds between the rounds of a multiplayer game
      gives one second, where fifteen were meant. */
  lemma IntermediateOptionIgnored()
    ensures IntermediateTime(Some(15000), false) == 1000
    ensures IntendedIntermediateTime(Some(15000), false) == 15000
  {
  }

  /** `initialize`: every option `?? default`, with 10 letters, no sorting,
      solo mode, 30 seconds and 10 rounds. The pause between rounds is the
      one the option describes (`IntendedIntermediateTime`). */
  function Configure(o: Options): (cfg: Config)
    ensures cfg.lettersPerRound == o.letters.GetOr(10) && cfg.shouldSort == o.sort.GetOr(false)
    ensures cfg.solo <==> o.mode.None? || o.mode.value == "SOLO"
    ensures cfg.timeLimit == o.time.GetOr(30000) && cfg.totalRounds == o.rounds.GetOr(10)
    ensures ValidOptions(o) ==> 1 <= cfg.totalRounds <= 10 && 7 <= cfg.lettersPerRound <= 10
    ensures o.intermediate.Some? ==> cfg.intermediateTime == o.intermediate.value
    ensures o.intermediate.None? ==> cfg.intermediateTime == (if cfg.solo then 1000 else 5000)
    ensures ValidOptions(o) ==> 1000 <= cfg.intermediateTime <= 15000
  {
    var solo := o.mode.GetOr("SOLO") == "SOLO";
    Config(o.letters.GetOr(10), o.sort.GetOr(false), solo, o.time.GetOr(30000), o.rounds.GetOr(10), IntendedIntermediateTime(o.intermediate, solo))
  }

  // ---------------------------------------------------------------------
  // Collecting the words of a round
  // ---------------------------------------------------------------------

  /** A chat message: its author's id and user name, the author's server
      nickname if any, and the text. */
  datatype Message = Message(authorId: string, username: string, memberNickname: Option<string>, content: string)

  /** `member.nickname || author.username`. */
  function Nickname(m: Message): (r: string)
    ensures m.memberNickname.Some? && m.memberNickname.value != "" ==> r == m.memberNickname.value
    ensures m.memberNickname.None? || m.memberNickname.value == "" ==> r == m.username
  {
    if m.memberNickname.Some? && m.memberNickname.value != "" then m.memberNickname.value else m.username
  }

  /** The collector's filter: the lower-cased, trimmed text is at least
      three letters and nothing else, and in solo mode it comes from the
      host. */
  predicate Qualifies(m: Message, host: string, solo: bool) {
    var content := Text.Trim(Text.Lower(m.content));
    (m.authorId == host || !solo) && Text.AllLetters(content) && |content| >= 3
  }

  /** The elements that pass a test, in order. */
  function Filter<T>(s: seq<T>, ok: T -> bool): (r: seq<T>)
    ensures |r| <= |s|
    ensures forall i :: 0 <= i < |r| ==> ok(r[i])
    ensures |r| == 0 <==> forall i :: 0 <= i < |s| ==> !ok(s[i])
    decreases |s|
  {
    if |s| == 0 then []
    else
      var rest := Filter(s[1..], ok);
      if ok(s[0]) then [s[0]] + rest
      else
        assert forall i :: 1 <= i < |s| ==> s[i] == s[1..][i - 1];
        rest
  }

  /** The collector's `max`: one message alone, a thousand with others. */
  function MaxMessages(solo: bool): nat {
    if solo then 1 else 1000
  }

  /** `awaitMessages`: the messages sent before the time limit that pass
      the filter, stopping at the maximum. */
  function Collected(msgs: seq<Message>, host: string, solo: bool): (r: seq<Message>)
    ensures |r| <= MaxMessages(solo)
    ensures forall i :: 0 <= i < |r| ==> Qualifies(r[i], host, solo)
    ensures |r| == 0 <==> forall i :: 0 <= i < |msgs| ==> !Qualifies(msgs[i], host, solo)
    ensures solo ==> forall i :: 0 <= i < |r| ==> r[i].authorId == host
  {
    var ok := m => Qualifies(m, host, solo);
    FilterCapped(msgs, ok, MaxMessages(solo));
    Capped(Filter(msgs, ok), MaxMessages(solo))
  }

  /** The first `n` elements, or all of them when there are fewer. */
  function Capped<T>(s: seq<T>, n: nat): (r: seq<T>)
    ensures |r| <= n && |r| <= |s|
    ensures |r| == 0 <==> n == 0 || |s| == 0
    ensures forall i :: 0 <= i < |r| ==> r[i] == s[i]
  {
    if |s| <= n then s else s[..n]
  }

  /** A capped filter keeps only elements that pass, and is empty exactly
      when nothing passes. */
  lemma FilterCapped<T>(s: seq<T>, ok: T -> bool, n: nat)
    requires n > 0
    ensures |Capped(Filter(s, ok), n)| <= n
    ensures forall i :: 0 <= i < |Capped(Filter(s, ok), n)| ==> ok(Capped(Filter(s, ok), n)[i])
    ensures |Capped(Filter(s, ok), n)| == 0 <==> forall i :: 0 <= i < |s| ==> !ok(s[i])
  {
  }

  // ---------------------------------------------------------------------
  // One word per author (`filterUniqueMessages`)
  // ---------------------------------------------------------------------

  /** The authors of some messages. */
  function Authors(msgs: seq<Message>): set<string> {
    set m | m in msgs :: m.authorId
  }

  /** No author appears twice. */
  predicate DistinctAuthors(msgs: seq<Message>) {
    forall i, j :: 0 <= i < j < |msgs| ==> msgs[i].authorId != msgs[j].authorId
  }

  /** The last message of an author. */
  function Last(msgs: seq<Message>, id: string): (r: Option<Message>)
    ensures r.Some? <==> id in Authors(msgs)
    ensures r.Some? ==> r.value in msgs && r.value.authorId == id
    decreases |msgs|
  {
    if |msgs| == 0 then None
    else
      var front := msgs[..|msgs| - 1];
      assert msgs == front + [msgs[|msgs| - 1]];
      if msgs[|msgs| - 1].authorId == id then Some(msgs[|msgs| - 1]) else Last(front, id)
  }

  /** The position of an author's entry, or the length when there is none. */
  function IndexOfAuthor(u: seq<Message>, id: string): (i: nat)
    ensures i <= |u|
    ensures i < |u| ==> u[i].authorId == id
    ensures forall j :: 0 <= j < i ==> u[j].authorId != id
    decreases |u|
  {
    if |u| == 0 then 0
    else if u[0].authorId == id then 0
    else 1 + IndexOfAuthor(u[1..], id)
  }

  /** One pass of the loop: the author's entry is overwritten in place, or
      added at the end when the author is new. */
  function Put(u: seq<Message>, m: Message): (r: seq<Message>)
    requires DistinctAuthors(u)
    ensures DistinctAuthors(r)
    ensures Authors(r) == Authors(u) + {m.authorId}
    ensures forall i :: 0 <= i < |r| && r[i].authorId != m.authorId ==> i < |u| && r[i] == u[i]
    ensures forall i :: 0 <= i < |r| && r[i].authorId == m.authorId ==> r[i] == m
    ensures |u| <= |r| && forall i :: 0 <= i < |u| ==> r[i].authorId == u[i].authorId
  {
    var i := IndexOfAuthor(u, m.authorId);
    if i < |u| then
      var r := u[i := m];
      assert Authors(r) == Authors(u) + {m.authorId} by {
        forall x | x in u
          ensures x.authorId in Authors(r)
        {
          var k :| 0 <= k < |u| && u[k] == x;
          assert r[k].authorId == x.authorId;
        }
        forall x | x in r
          ensures x.authorId in Authors(u) + {m.authorId}
        {
          var k :| 0 <= k < |r| && r[k] == x;
          if k != i {
            assert u[k] == x;
          }
        }
      }
      r
    else u + [m]
  }

  /** `filterUniqueMessages`: each author's last message, the authors in
      the order they first wrote. */
  function Unique(msgs: seq<Message>): (r: seq<Message>)
    ensures DistinctAuthors(r)
    ensures Authors(r) == Authors(msgs)
    ensures forall i :: 0 <= i < |r| ==> Last(msgs, r[i].authorId) == Some(r[i])
    decreases |msgs|
  {
    if |msgs| == 0 then []
    else
      var front := msgs[..|msgs| - 1];
      var m := msgs[|msgs| - 1];
      assert msgs == front + [m];
      var u := Unique(front);
      UniqueStep(front, m, u);
      Put(u, m)
  }

  /** The last message of an author once one more message arrives. */
  lemma LastSnoc(front: seq<Message>, m: Message, id: string)
    ensures Last(front + [m], id) == if m.authorId == id then Some(m) else Last(front, id)
  {
    assert (front + [m])[..|front|] == front;
  }

  /** The authors once one more message arrives. */
  lemma AuthorsSnoc(front: seq<Message>, m: Message)
    ensures Authors(front + [m]) == Authors(front) + {m.authorId}
  {
    forall x | x in front
      ensures x in front + [m]
    {
    }
  }

  /** One more message keeps `Unique`'s promises. */
  lemma UniqueStep(front: seq<Message>, m: Message, u: seq<Message>)
    requires DistinctAuthors(u) && Authors(u) == Authors(front)
    requires forall i :: 0 <= i < |u| ==> Last(front, u[i].authorId) == Some(u[i])
    ensures Authors(Put(u, m)) == Authors(front + [m])
    ensures forall i :: 0 <= i < |Put(u, m)| ==> Last(front + [m], Put(u, m)[i].authorId) == Some(Put(u, m)[i])
  {
    AuthorsSnoc(front, m);
    var r := Put(u, m);
    forall i | 0 <= i < |r|
      ensures Last(front + [m], r[i].authorId) == Some(r[i])
    {
      LastSnoc(front, m, r[i].authorId);
    }
  }

  /** Some message gives some entry, and no message none. */
  lemma UniqueEmpty(msgs: seq<Message>)
    ensures |Unique(msgs)| == 0 <==> |msgs| == 0
  {
    if |msgs| > 0 {
      assert msgs[0].authorId in Authors(msgs);
    }
  }

  // ---------------------------------------------------------------------
  // The standings (`updateStanding`)
  // ---------------------------------------------------------------------

  /** The dictionary holds words of lower-case letters only. */
  predicate Lexicon(dictionary: set<string>) {
    forall w :: w in dictionary ==> forall i :: 0 <= i < |w| ==> Text.IsLower(w[i])
  }

  /** A word's points: its score when it is valid on the rack, else zero. */
  function Points(letters: ScrabbleLetters.Letters, word: string, dictionary: set<string>): (r: int)
    requires Lexicon(dictionary)
    ensures r >= 0
    ensures ScrabbleLetters.IsValidWord(letters, word, dictionary) ==> Some(r) == ScrabbleLetters.WordScore(word, letters.lettersPerRound)
    ensures !ScrabbleLetters.IsValidWord(letters, word, dictionary) ==> r == 0
  {
    if ScrabbleLetters.IsValidWord(letters, word, dictionary) then
      ScrabbleLetters.LetterSumBounds(word);
      var sum := ScrabbleLetters.LetterSum(word).value;
      assert sum * |word| >= 0 by {
        NonNegativeProduct(sum, |word|);
      }
      ScrabbleLetters.WordScore(word, letters.lettersPerRound).value
    else 0
  }

  lemma NonNegativeProduct(a: int, b: int)
    requires a >= 0 && b >= 0
    ensures a * b >= 0
  {
  }

  /** The first player with an id. */
  function Lookup(ps: seq<Player>, id: string): (r: Option<Player>)
    ensures r.Some? ==> r.value.id == id && r.value in ps
    ensures r.None? ==> forall i :: 0 <= i < |ps| ==> ps[i].id != id
    decreases |ps|
  {
    if |ps| == 0 then None
    else if ps[0].id == id then Some(ps[0])
    else Lookup(ps[1..], id)
  }

  /** The position of a player, or the length when there is none. */
  function IndexOf(ps: seq<Player>, id: string): (i: nat)
    ensures i <= |ps|
    ensures i < |ps| ==> ps[i].id == id && Lookup(ps, id) == Some(ps[i])
    ensures i == |ps| <==> Lookup(ps, id).None?
    decreases |ps|
  {
    if |ps| == 0 then 0
    else if ps[0].id == id then 0
    else 1 + IndexOf(ps[1..], id)
  }

  /** A record with no negative score or gain. */
  predicate Sane(p: Player) {
    p.score >= 0 && (p.gain.Some? ==> p.gain.value >= 0)
  }

  predicate AllSane(ps: seq<Player>) {
    forall p :: p in ps ==> Sane(p)
  }

  /** No id appears twice. */
  predicate DistinctIds(ps: seq<Player>) {
    forall i, j :: 0 <= i < j < |ps| ==> ps[i].id != ps[j].id
  }

  /** The record an author's entry turns into: the author's player, or a
      new one, with the lower-cased text added at its points. */
  function Scored(ps: seq<Player>, e: Message, letters: ScrabbleLetters.Letters, dictionary: set<string>): (p: Player)
    requires Lexicon(dictionary)
  {
    var word := Text.Lower(e.content);
    AddScore(Lookup(ps, e.authorId).GetOr(NewPlayer(e.authorId, Nickname(e))), word, Points(letters, word, dictionary))
  }

  /** One entry of the loop: the author's record is updated in place, or a
      new record is added at the end. */
  function Step(ps: seq<Player>, e: Message, letters: ScrabbleLetters.Letters, dictionary: set<string>): (r: seq<Player>)
    requires Lexicon(dictionary)
    ensures DistinctIds(ps) ==> DistinctIds(r)
    ensures AllSane(ps) ==> AllSane(r)
    ensures |ps| <= |r| <= |ps| + 1 && forall i :: 0 <= i < |ps| ==> r[i].id == ps[i].id
    ensures Lookup(r, e.authorId) == Some(Scored(ps, e, letters, dictionary))
    ensures forall id :: id != e.authorId ==> Lookup(r, id) == Lookup(ps, id)
  {
    var i := IndexOf(ps, e.authorId);
    var p := Scored(ps, e, letters, dictionary);
    if i < |ps| then
      var r := ps[i := p];
      LookupUpdate(ps, i, p);
      r
    else
      var r := ps + [p];
      LookupAppend(ps, p);
      r
  }

  /** Replacing a record by one with the same id changes only that id's
      lookup. */
  lemma {:induction false} LookupUpdate(ps: seq<Player>, i: nat, p: Player)
    requires i < |ps| && p.id == ps[i].id && IndexOf(ps, p.id) == i
    ensures Lookup(ps[i := p], p.id) == Some(p)
    ensures forall id :: id != p.id ==> Lookup(ps[i := p], id) == Lookup(ps, id)
    decreases i
  {
    if i > 0 {
      assert ps[i := p][1..] == ps[1..][i - 1 := p];
      LookupUpdate(ps[1..], i - 1, p);
    }
  }

  /** Adding a record with a new id changes only that id's lookup. */
  lemma {:induction false} LookupAppend(ps: seq<Player>, p: Player)
    requires Lookup(ps, p.id).None?
    ensures Lookup(ps + [p], p.id) == Some(p)
    ensures forall id :: id != p.id ==> Lookup(ps + [p], id) == Lookup(ps, id)
    decreases |ps|
  {
    if |ps| > 0 {
      assert (ps + [p])[1..] == ps[1..] + [p];
      LookupAppend(ps[1..], p);
    }
  }

  /** The entry of an author among the round's entries. */
  function EntryOf(entries: seq<Message>, id: string): (r: Option<Message>)
    ensures r.Some? ==> r.value in entries && r.value.authorId == id
    ensures r.None? <==> id !in Authors(entries)
    decreases |entries|
  {
    if |entries| == 0 then None
    else
      var front := entries[..|entries| - 1];
      assert entries == front + [entries[|entries| - 1]];
      if entries[|entries| - 1].authorId == id then Some(entries[|entries| - 1]) else EntryOf(front, id)
  }

  /** `updateStanding`: the entries in order, each through `Step`. */
  function Standing(ps: seq<Player>, entries: seq<Message>, letters: ScrabbleLetters.Letters, dictionary: set<string>): (r: seq<Player>)
    requires Lexicon(dictionary)
    ensures DistinctIds(ps) ==> DistinctIds(r)
    ensures AllSane(ps) ==> AllSane(r)
    ensures |ps| <= |r| && forall i :: 0 <= i < |ps| ==> r[i].id == ps[i].id
    decreases |entries|
  {
    if |entries| == 0 then ps
    else Step(Standing(ps, entries[..|entries| - 1], letters, dictionary), entries[|entries| - 1], letters, dictionary)
  }

  /** After the standings, an author of the round has the score and gain
      of exactly one word, the last one sent, on top of the previous score
      (or of zero when new); every other player is as before. */
  lemma {:induction false} StandingSpec(ps: seq<Player>, entries: seq<Message>, letters: ScrabbleLetters.Letters, dictionary: set<string>, id: string)
    requires Lexicon(dictionary) && DistinctAuthors(entries)
    ensures EntryOf(entries, id).None? ==> Lookup(Standing(ps, entries, letters, dictionary), id) == Lookup(ps, id)
    ensures EntryOf(entries, id).Some? ==> Lookup(Standing(ps, entries, letters, dictionary), id) == Some(Scored(ps, EntryOf(entries, id).value, letters, dictionary))
    decreases |entries|
  {
    if |entries| > 0 {
      var front := entries[..|entries| - 1];
      var e := entries[|entries| - 1];
      var mid := Standing(ps, front, letters, dictionary);
      assert DistinctAuthors(front);
      StandingSpec(ps, front, letters, dictionary, id);
      if id == e.authorId {
        StandingSpec(ps, front, letters, dictionary, e.authorId);
        assert EntryOf(front, e.authorId).None?;
        assert Lookup(mid, e.authorId) == Lookup(ps, e.authorId);
        assert Scored(mid, e, letters, dictionary) == Scored(ps, e, letters, dictionary);
      }
    }
  }

  // ---------------------------------------------------------------------
  // The round history (`updateRoundHistory`)
  // ---------------------------------------------------------------------

  /** The loop of `updateRoundHistory` from position `i` on, `best` being
      the position of the first highest score so far: a later player
      replaces it only with a strictly higher score. */
  function HighestFrom(ps: seq<Player>, i: nat, best: nat): (r: nat)
    requires best < i <= |ps|
    requires forall j :: 0 <= j < i ==> ps[j].score <= ps[best].score
    requires forall j :: 0 <= j < best ==> ps[j].score < ps[best].score
    ensures r < |ps|
    ensures forall j :: 0 <= j < |ps| ==> ps[j].score <= ps[r].score
    ensures forall j :: 0 <= j < r ==> ps[j].score < ps[r].score
    decreases |ps| - i
  {
    if i == |ps| then best
    else HighestFrom(ps, i + 1, if ps[i].score > ps[best].score then i else best)
  }

  /** The position of the first player with the highest score. */
  function Highest(ps: seq<Player>): (r: nat)
    requires |ps| > 0
    ensures r < |ps|
    ensures forall j :: 0 <= j < |ps| ==> ps[j].score <= ps[r].score
    ensures forall j :: 0 <= j < r ==> ps[j].score < ps[r].score
  {
    HighestFrom(ps, 1, 0)
  }

  /** A line of the history: the leader's word (`None` for the "not
      available" text), the leader's gain, and the rack shown. */
  datatype Record = Record(word: Option<string>, score: int, display: seq<Option<seq<int>>>)

  /** The record of a round: the word and gain of the player with the
      highest total so far, who need not have played this round. */
  function RoundRecord(ps: seq<Player>, letters: ScrabbleLetters.Letters): (r: Record)
    requires |ps| > 0
    ensures var p := ps[Highest(ps)];
      && (p.word.Some? && p.word.value != "" ==> r.word == p.word)
      && (p.word.None? || p.word.value == "" ==> r.word.None?)
      && r.score == p.gain.GetOr(0)
    ensures AllSane(ps) ==> r.score >= 0
    ensures r.display == ScrabbleLetters.LettersDisplay(letters.rack)
  {
    var p := ps[Highest(ps)];
    assert p in ps;
    Record(if p.word.Some? && p.word.value != "" then p.word else None,
           if p.gain.Some? && p.gain.value != 0 then p.gain.value else 0,
           ScrabbleLetters.LettersDisplay(letters.rack))
  }

  /** A leader who sent nothing this round is recorded with no word and no
      gain, even when another player scored. */
  lemma LeaderWithoutWord(ps: seq<Player>, letters: ScrabbleLetters.Letters)
    requires |ps| > 0 && ps[Highest(ps)].word.None? && ps[Highest(ps)].gain.None?
    ensures RoundRecord(ps, letters).word.None? && RoundRecord(ps, letters).score == 0
  {
  }

  // ---------------------------------------------------------------------
  // Sorting the standings
  // ---------------------------------------------------------------------

  /** Scores in ascending order. */
  predicate Ascending(ps: seq<Player>) {
    forall i :: 0 < i < |ps| ==> ps[i - 1].score <= ps[i].score
  }

  /** Inserting after every record with a score no greater. */
  function InsertByScore(p: Player, ps: seq<Player>): (r: seq<Player>)
    requires Ascending(ps)
    ensures Ascending(r) && multiset(r) == multiset(ps) + multiset{p} && |r| == |ps| + 1
    ensures r[0] == p || (|ps| > 0 && r[0] == ps[0])
    decreases |ps|
  {
    if |ps| == 0 || p.score < ps[0].score then [p] + ps
    else
      assert ps == [ps[0]] + ps[1..];
      [ps[0]] + InsertByScore(p, ps[1..])
  }

  /** The in-place `sort` of the players by ascending score that
      `renderStandingsEmbed` does; `Array.prototype.sort` is stable. */
  function SortByScore(ps: seq<Player>): (r: seq<Player>)
    ensures Ascending(r) && multiset(r) == multiset(ps) && |r| == |ps|
    decreases |ps|
  {
    if |ps| == 0 then []
    else
      assert ps == ps[..|ps| - 1] + [ps[|ps| - 1]];
      InsertByScore(ps[|ps| - 1], SortByScore(ps[..|ps| - 1]))
  }

  /** The records with a given score, in order. */
  function WithScore(ps: seq<Player>, v: int): (r: seq<Player>)
    decreases |ps|
  {
    if |ps| == 0 then []
    else (if ps[0].score == v then [ps[0]] else []) + WithScore(ps[1..], v)
  }

  lemma {:induction false} WithScoreAppend(a: seq<Player>, b: seq<Player>, v: int)
    ensures WithScore(a + b, v) == WithScore(a, v) + WithScore(b, v)
    decreases |a|
  {
    if |a| == 0 {
      assert a + b == b;
    } else {
      var h := if a[0].score == v then [a[0]] else [];
      assert (a + b)[0] == a[0];
      assert (a + b)[1..] == a[1..] + b;
      assert WithScore(a + b, v) == h + WithScore(a[1..] + b, v);
      WithScoreAppend(a[1..], b, v);
      assert WithScore(a, v) == h + WithScore(a[1..], v);
      AppendAssoc(h, WithScore(a[1..], v), WithScore(b, v));
    }
  }

  lemma {:induction false} WithScoreAbove(ps: seq<Player>, v: int)
    requires Ascending(ps) && |ps| > 0 && ps[0].score > v
    ensures WithScore(ps, v) == []
    decreases |ps|
  {
    if |ps| > 1 {
      WithScoreAbove(ps[1..], v);
    }
  }

  lemma WithScoreSingle(p: Player, v: int)
    ensures WithScore([p], v) == if p.score == v then [p] else []
  {
    assert [p][1..] == [];
  }

  lemma {:induction false} InsertStable(p: Player, ps: seq<Player>, v: int)
    requires Ascending(ps)
    ensures WithScore(InsertByScore(p, ps), v) == WithScore(ps, v) + WithScore([p], v)
    decreases |ps|
  {
    if |ps| == 0 || p.score < ps[0].score {
      InsertFront(p, ps, v);
    } else {
      InsertStable(p, ps[1..], v);
      assert InsertByScore(p, ps) == [ps[0]] + InsertByScore(p, ps[1..]);
      assert ps == [ps[0]] + ps[1..];
      ConsStable(ps[0], InsertByScore(p, ps[1..]), ps[1..], WithScore([p], v), v);
    }
  }

  /** A record put in front of two sequences whose records of score `v`
      differ by `c` at the end leaves them differing by `c`. */
  lemma ConsStable(x: Player, rest: seq<Player>, tail: seq<Player>, c: seq<Player>, v: int)
    requires WithScore(rest, v) == WithScore(tail, v) + c
    ensures WithScore([x] + rest, v) == WithScore([x] + tail, v) + c
  {
    WithScoreAppend([x], rest, v);
    WithScoreAppend([x], tail, v);
    AppendAssoc(WithScore([x], v), WithScore(tail, v), c);
  }

  lemma AppendAssoc<T>(a: seq<T>, b: seq<T>, c: seq<T>)
    ensures a + (b + c) == (a + b) + c
  {
  }

  /** Inserting before every record: those have higher scores. */
  lemma InsertFront(p: Player, ps: seq<Player>, v: int)
    requires Ascending(ps) && (|ps| == 0 || p.score < ps[0].score)
    ensures WithScore(InsertByScore(p, ps), v) == WithScore(ps, v) + WithScore([p], v)
  {
    WithScoreSingle(p, v);
    assert InsertByScore(p, ps) == [p] + ps;
    WithScoreAppend([p], ps, v);
    if |ps| == 0 {
      assert WithScore(ps, v) == [];
    } else if p.score == v {
      WithScoreAbove(ps, v);
    }
  }

  /** The sort is stable: the records of any one score keep their order. */
  lemma {:induction false} SortStable(ps: seq<Player>, v: int)
    ensures WithScore(SortByScore(ps), v) == WithScore(ps, v)
    decreases |ps|
  {
    if |ps| > 0 {
      var front, last := ps[..|ps| - 1], ps[|ps| - 1];
      assert ps == front + [last];
      SortStable(front, v);
      InsertStable(last, SortByScore(front), v);
      WithScoreAppend(front, [last], v);
    }
  }

  // ---------------------------------------------------------------------
  // The winners (`renderEndMessage`)
  // ---------------------------------------------------------------------

  /** The loop over the players from position `i` on: the best score so
      far and the nicknames that reached it. */
  function WinnersFrom(ps: seq<Player>, i: nat, best: Option<int>, winners: seq<string>): (r: (Option<int>, seq<string>))
    requires i <= |ps|
    ensures best.Some? || i < |ps| ==> r.0.Some?
    decreases |ps| - i
  {
    if i == |ps| then (best, winners)
    else
      var p := ps[i];
      if best.None? then WinnersFrom(ps, i + 1, Some(p.score), [p.nickname])
      else if p.score == best.value then WinnersFrom(ps, i + 1, best, winners + [p.nickname])
      else if p.score > best.value then WinnersFrom(ps, i + 1, Some(p.score), [p.nickname])
      else WinnersFrom(ps, i + 1, best, winners)
  }

  /** The highest score. */
  function MaxScore(ps: seq<Player>): (m: int)
    requires |ps| > 0
    ensures forall i :: 0 <= i < |ps| ==> ps[i].score <= m
    ensures exists i :: 0 <= i < |ps| && ps[i].score == m
    decreases |ps|
  {
    if |ps| == 1 then ps[0].score
    else
      var m := MaxScore(ps[..|ps| - 1]);
      assert forall i :: 0 <= i < |ps| - 1 ==> ps[..|ps| - 1][i] == ps[i];
      if ps[|ps| - 1].score > m then ps[|ps| - 1].score else m
  }

  /** The nicknames of the players with a score, in order. */
  function AtScore(ps: seq<Player>, v: int): (r: seq<string>)
    decreases |ps|
  {
    if |ps| == 0 then []
    else AtScore(ps[..|ps| - 1], v) + (if ps[|ps| - 1].score == v then [ps[|ps| - 1].nickname] else [])
  }

  lemma {:induction false} AtScoreNone(ps: seq<Player>, v: int)
    requires forall i :: 0 <= i < |ps| ==> ps[i].score < v
    ensures AtScore(ps, v) == []
    decreases |ps|
  {
    if |ps| > 0 {
      AtScoreNone(ps[..|ps| - 1], v);
    }
  }

  lemma {:induction false} WinnersInvariant(ps: seq<Player>, i: nat, best: Option<int>, winners: seq<string>)
    requires 1 <= i <= |ps|
    requires best == Some(MaxScore(ps[..i])) && winners == AtScore(ps[..i], best.value)
    ensures WinnersFrom(ps, i, best, winners) == (Some(MaxScore(ps)), AtScore(ps, MaxScore(ps)))
    decreases |ps| - i
  {
    if i == |ps| {
      assert ps[..i] == ps;
    } else {
      var p := ps[i];
      var next := ps[..i + 1];
      assert next[..i] == ps[..i];
      if p.score > best.value {
        AtScoreNone(ps[..i], p.score);
        WinnersInvariant(ps, i + 1, Some(p.score), [p.nickname]);
      } else if p.score == best.value {
        WinnersInvariant(ps, i + 1, best, winners + [p.nickname]);
      } else {
        WinnersInvariant(ps, i + 1, best, winners);
      }
    }
  }

  /** The winners are all the players at the highest score, in order, and
      the score reported is that highest score. */
  lemma WinnersAtMax(ps: seq<Player>)
    requires |ps| > 0
    ensures WinnersFrom(ps, 0, None, []) == (Some(MaxScore(ps)), AtScore(ps, MaxScore(ps)))
  {
    assert ps[..1] == [ps[0]];
    assert AtScore([ps[0]], ps[0].score) == [ps[0].nickname] by {
      assert [ps[0]][..0] == [];
    }
    WinnersInvariant(ps, 1, Some(ps[0].score), [ps[0].nickname]);
  }

  /** How the game ended. */
  datatype Ending =
    | Inactive
    | SoloEnd(score: int)
    | MultiEnd(winners: seq<string>, score: int)

  /** Every record is the host's. */
  predicate OnlyHost(ps: seq<Player>, host: string) {
    forall p :: p in ps ==> p.id == host
  }

  /** `renderEndMessage`: the host's score alone, else the winners. */
  function EndOf(cfg: Config, host: string, ps: seq<Player>): (e: Ending)
    requires |ps| > 0 && (cfg.solo ==> OnlyHost(ps, host))
    ensures cfg.solo ==> e == SoloEnd(ps[0].score)
    ensures !cfg.solo ==> e == MultiEnd(AtScore(ps, MaxScore(ps)), MaxScore(ps))
  {
    if cfg.solo then
      assert ps[0] in ps;
      SoloEnd(Lookup(ps, host).value.score)
    else
      WinnersAtMax(ps);
      var (best, winners) := WinnersFrom(ps, 0, None, []);
      MultiEnd(winners, best.value)
  }

  // ---------------------------------------------------------------------
  // The game (`play`)
  // ---------------------------------------------------------------------

  /** No round of the history records a negative gain. */
  predicate NoNegativeGain(history: seq<Record>) {
    forall i :: 0 <= i < |history| ==> history[i].score >= 0
  }

  lemma AppendGain(history: seq<Record>, record: Record)
    requires record.score >= 0
    ensures NoNegativeGain(history) ==> NoNegativeGain(history + [record])
  {
  }

  /** The game's state: the round number, the history, the players in
      their current order, and the letter system. */
  datatype State = State(round: nat, history: seq<Record>, players: seq<Player>, letters: ScrabbleLetters.Letters)

  datatype Outcome = Outcome(ending: Ending, state: State)

  /** `terminal`: the last round has been played. */
  predicate Terminal(cfg: Config, st: State) {
    st.round == cfg.totalRounds
  }

  /** `restartRound`: every player's word and gain are cleared and the next
      rack is dealt. */
  function Restart(st: State): (r: State)
    ensures r.round == st.round && r.history == st.history
    ensures |r.players| == |st.players|
    ensures forall i :: 0 <= i < |st.players| ==> r.players[i] == Deselect(st.players[i])
    ensures r.letters == ScrabbleLetters.GetNextLetters(st.letters)
  {
    st.(players := seq(|st.players|, i requires 0 <= i < |st.players| => Deselect(st.players[i])),
        letters := ScrabbleLetters.GetNextLetters(st.letters))
  }

  /** What every round of `play` relies on: a round is left to play, the
      records are sane, and in solo mode only the host is on the board. */
  predicate Playable(cfg: Config, host: string, st: State) {
    && st.round < cfg.totalRounds
    && AllSane(st.players)
    && (cfg.solo ==> OnlyHost(st.players, host))
  }

  /** The rounds of `play` from the state's round on: round `k` (from 0)
      sees the messages `rounds[k]` sent before its time limit, and no
      qualifying message ends the game. */
  function Loop(cfg: Config, host: string, dictionary: set<string>, st: State, rounds: seq<seq<Message>>): (r: Outcome)
    requires Lexicon(dictionary) && Playable(cfg, host, st)
    ensures st.round < r.state.round <= cfg.totalRounds
    decreases cfg.totalRounds - st.round
  {
    var msgs := if st.round < |rounds| then rounds[st.round] else [];
    match PlayRound(cfg, host, dictionary, st, msgs)
    case None => Outcome(Inactive, st.(round := st.round + 1))
    case Some(done) =>
      if Terminal(cfg, done) then Outcome(EndOf(cfg, host, done.players), done)
      else
        var next := Restart(done);
        RestartKeeps(done, host);
        Loop(cfg, host, dictionary, next, rounds)
  }

  /** The loop records one round of history for every round that produced
      words: a game ends inactive exactly when its last round has no entry,
      and otherwise after all rounds; no recorded gain is negative. */
  lemma LoopHistory(cfg: Config, host: string, dictionary: set<string>, st: State, rounds: seq<seq<Message>>)
    requires Lexicon(dictionary) && Playable(cfg, host, st)
    requires |st.history| == st.round && NoNegativeGain(st.history)
    ensures var r := Loop(cfg, host, dictionary, st, rounds);
      && (r.ending.Inactive? <==> |r.state.history| == r.state.round - 1)
      && (!r.ending.Inactive? ==> |r.state.history| == r.state.round == cfg.totalRounds)
      && NoNegativeGain(r.state.history)
  {
    LoopRounds(cfg, host, dictionary, st, rounds);
    LoopGains(cfg, host, dictionary, st, rounds);
  }

  /** One round of the loop: an inactive round ends the game on the next
      round number, the last round ends it on the round's state, and any
      other round hands its restarted state to the rest of the loop. */
  lemma LoopCases(cfg: Config, host: string, dictionary: set<string>, st: State, rounds: seq<seq<Message>>)
    requires Lexicon(dictionary) && Playable(cfg, host, st)
    ensures var step := PlayRound(cfg, host, dictionary, st, if st.round < |rounds| then rounds[st.round] else []);
      var r := Loop(cfg, host, dictionary, st, rounds);
      && (step.None? ==> r == Outcome(Inactive, st.(round := st.round + 1)))
      && (step.Some? && Terminal(cfg, step.value) ==> r.state == step.value && !r.ending.Inactive?)
      && (step.Some? && !Terminal(cfg, step.value) ==>
            Playable(cfg, host, Restart(step.value)) && r == Loop(cfg, host, dictionary, Restart(step.value), rounds))
  {
    var msgs := if st.round < |rounds| then rounds[st.round] else [];
    var step := PlayRound(cfg, host, dictionary, st, msgs);
    if step.Some? {
      RestartKeeps(step.value, host);
    }
  }

  /** The history's length against the round number when the loop stops. */
  lemma {:induction false} LoopRounds(cfg: Config, host: string, dictionary: set<string>, st: State, rounds: seq<seq<Message>>)
    requires Lexicon(dictionary) && Playable(cfg, host, st)
    requires |st.history| == st.round
    ensures var r := Loop(cfg, host, dictionary, st, rounds);
      && (r.ending.Inactive? <==> |r.state.history| == r.state.round - 1)
      && (!r.ending.Inactive? ==> |r.state.history| == r.state.round == cfg.totalRounds)
    decreases cfg.totalRounds - st.round
  {
    var msgs := if st.round < |rounds| then rounds[st.round] else [];
    var step := PlayRound(cfg, host, dictionary, st, msgs);
    LoopCases(cfg, host, dictionary, st, rounds);
    if step.Some? && !Terminal(cfg, step.value) {
      LoopRounds(cfg, host, dictionary, Restart(step.value), rounds);
    }
  }

  /** No gain the loop records is negative. */
  lemma {:induction false} LoopGains(cfg: Config, host: string, dictionary: set<string>, st: State, rounds: seq<seq<Message>>)
    requires Lexicon(dictionary) && Playable(cfg, host, st)
    requires NoNegativeGain(st.history)
    ensures NoNegativeGain(Loop(cfg, host, dictionary, st, rounds).state.history)
    decreases cfg.totalRounds - st.round
  {
    var msgs := if st.round < |rounds| then rounds[st.round] else [];
    var step := PlayRound(cfg, host, dictionary, st, msgs);
    LoopCases(cfg, host, dictionary, st, rounds);
    if step.Some? && !Terminal(cfg, step.value) {
      LoopGains(cfg, host, dictionary, Restart(step.value), rounds);
    }
  }

  /** A game that does not end inactive ends on sorted, nonempty
      standings: in solo mode with the host's score, otherwise with the
      players at the top score. */
  lemma {:induction false} LoopEnding(cfg: Config, host: string, dictionary: set<string>, st: State, rounds: seq<seq<Message>>)
    requires Lexicon(dictionary) && Playable(cfg, host, st)
    ensures var r := Loop(cfg, host, dictionary, st, rounds);
      && (!r.ending.Inactive? ==> |r.state.players| > 0 && Ascending(r.state.players))
      && (!r.ending.Inactive? ==> (r.ending.SoloEnd? <==> cfg.solo))
      && (r.ending.SoloEnd? ==> OnlyHost(r.state.players, host) && r.ending == SoloEnd(r.state.players[0].score))
      && (r.ending.MultiEnd? ==> r.ending == MultiEnd(AtScore(r.state.players, MaxScore(r.state.players)), MaxScore(r.state.players)))
    decreases cfg.totalRounds - st.round
  {
    var msgs := if st.round < |rounds| then rounds[st.round] else [];
    var step := PlayRound(cfg, host, dictionary, st, msgs);
    if step.Some? && !Terminal(cfg, step.value) {
      var next := Restart(step.value);
      RestartKeeps(step.value, host);
      LoopEnding(cfg, host, dictionary, next, rounds);
    }
  }

  /** One round of `play`, from the round number's increment to the
      sorted standings: `None` when no qualifying word came. */
  function PlayRound(cfg: Config, host: string, dictionary: set<string>, st: State, msgs: seq<Message>): (r: Option<State>)
    requires Lexicon(dictionary)
    requires AllSane(st.players) && (cfg.solo ==> OnlyHost(st.players, host))
    ensures r.None? <==> |Collected(msgs, host, cfg.solo)| == 0
    ensures r.Some? ==> r.value.round == st.round + 1 && r.value.letters == st.letters
    ensures r.Some? ==> |r.value.history| == |st.history| + 1
    ensures r.Some? ==> forall i :: 0 <= i < |st.history| ==> r.value.history[i] == st.history[i]
    ensures r.Some? ==> (NoNegativeGain(st.history) ==> NoNegativeGain(r.value.history))
    ensures r.Some? ==> |r.value.players| > 0 && Ascending(r.value.players) && AllSane(r.value.players)
    ensures r.Some? && cfg.solo ==> OnlyHost(r.value.players, host)
  {
    var collected := Collected(msgs, host, cfg.solo);
    if |collected| == 0 then None
    else Some(Ranked(cfg, host, st, Scoring(cfg, host, dictionary, st, collected)))
  }

  /** The end of a round of `play` once the standing is updated: the
      round's best word goes into the history and the players are sorted
      by score. */
  function Ranked(cfg: Config, host: string, st: State, ps: seq<Player>): (r: State)
    requires |ps| > 0 && AllSane(ps) && (cfg.solo ==> OnlyHost(ps, host))
    ensures r.round == st.round + 1 && r.letters == st.letters
    ensures |r.history| == |st.history| + 1
    ensures forall i :: 0 <= i < |st.history| ==> r.history[i] == st.history[i]
    ensures r.history[|st.history|] == RoundRecord(ps, st.letters)
    ensures NoNegativeGain(st.history) ==> NoNegativeGain(r.history)
    ensures |r.players| > 0 && Ascending(r.players) && AllSane(r.players)
    ensures multiset(r.players) == multiset(ps)
    ensures cfg.solo ==> OnlyHost(r.players, host)
  {
    var record := RoundRecord(ps, st.letters);
    var sorted := SortByScore(ps);
    SortKeeps(ps, sorted, host);
    assert record.score >= 0;
    AppendGain(st.history, record);
    st.(round := st.round + 1, players := sorted, history := st.history + [record])
  }

  /** `filterUniqueMessages` then `updateStanding` on a round's collected
      messages: some player is then on the board, and in solo mode only the
      host. */
  function Scoring(cfg: Config, host: string, dictionary: set<string>, st: State, collected: seq<Message>): (ps: seq<Player>)
    requires Lexicon(dictionary) && |collected| > 0
    requires AllSane(st.players) && (cfg.solo ==> OnlyHost(st.players, host))
    requires cfg.solo ==> forall i :: 0 <= i < |collected| ==> collected[i].authorId == host
    ensures |ps| > 0 && AllSane(ps)
    ensures cfg.solo ==> OnlyHost(ps, host)
  {
    var entries := Unique(collected);
    var ps := Standing(st.players, entries, st.letters, dictionary);
    assert |ps| > 0 by {
      UniqueEmpty(collected);
      assert entries[0].authorId in Authors(entries);
      StandingSpec(st.players, entries, st.letters, dictionary, entries[0].authorId);
    }
    assert cfg.solo ==> OnlyHost(ps, host) by {
      if cfg.solo {
        SoloStanding(st.players, entries, collected, st.letters, dictionary, host);
      }
    }
    ps
  }

  /** The players of a solo round are the host alone. */
  lemma SoloStanding(ps: seq<Player>, entries: seq<Message>, collected: seq<Message>, letters: ScrabbleLetters.Letters, dictionary: set<string>, host: string)
    requires Lexicon(dictionary) && OnlyHost(ps, host)
    requires entries == Unique(collected) && forall i :: 0 <= i < |collected| ==> collected[i].authorId == host
    ensures OnlyHost(Standing(ps, entries, letters, dictionary), host)
  {
    var r := Standing(ps, entries, letters, dictionary);
    forall p | p in r
      ensures p.id == host
    {
      var i :| 0 <= i < |r| && r[i] == p;
      if i >= |ps| {
        assert Authors(entries) == Authors(collected);
        assert Lookup(r, p.id).Some?;
        StandingSpec(ps, entries, letters, dictionary, p.id);
        if EntryOf(entries, p.id).None? {
          assert Lookup(ps, p.id).Some?;
        }
      }
    }
  }

  /** Sorting keeps the records, so it keeps what holds of each. */
  lemma SortKeeps(ps: seq<Player>, sorted: seq<Player>, host: string)
    requires multiset(sorted) == multiset(ps)
    ensures AllSane(ps) ==> AllSane(sorted)
    ensures OnlyHost(ps, host) ==> OnlyHost(sorted, host)
  {
    forall p | p in sorted
      ensures p in ps
    {
      assert p in multiset(sorted);
    }
  }

  /** Clearing the words keeps what holds of each record. */
  lemma RestartKeeps(st: State, host: string)
    requires AllSane(st.players)
    ensures AllSane(Restart(st).players)
    ensures OnlyHost(st.players, host) ==> OnlyHost(Restart(st).players, host)
  {
    var r := Restart(st).players;
    forall p | p in r
      ensures Sane(p) && (OnlyHost(st.players, host) ==> p.id == host)
    {
      var i :| 0 <= i < |r| && r[i] == p;
      assert st.players[i] in st.players;
    }
  }

  /** `play`: the options are read and the first rack dealt from the
      shuffle draws `rand`; then rounds run until the last one or until
      one goes without a qualifying word. */
  function Play(o: Options, host: string, rand: seq<nat>, dictionary: set<string>, rounds: seq<seq<Message>>): (r: Outcome)
    requires ValidOptions(o) && Lexicon(dictionary)
    ensures 1 <= r.state.round <= Configure(o).totalRounds
    ensures r.ending.Inactive? <==> |r.state.history| < Configure(o).totalRounds
    ensures r.ending.Inactive? ==> |r.state.history| == r.state.round - 1
    ensures NoNegativeGain(r.state.history)
    ensures r.ending.SoloEnd? <==> !r.ending.Inactive? && Configure(o).solo
    ensures !r.ending.Inactive? ==> |r.state.players| > 0 && Ascending(r.state.players)
    ensures r.ending.SoloEnd? ==> OnlyHost(r.state.players, host) && r.ending.score == r.state.players[0].score
    ensures r.ending.MultiEnd? ==> r.ending == MultiEnd(AtScore(r.state.players, MaxScore(r.state.players)), MaxScore(r.state.players))
  {
    var cfg := Configure(o);
    var st := State(0, [], [], ScrabbleLetters.New(cfg.lettersPerRound, cfg.shouldSort, rand));
    LoopHistory(cfg, host, dictionary, st, rounds);
    LoopEnding(cfg, host, dictionary, st, rounds);
    Loop(cfg, host, dictionary, st, rounds)
  }
}

=== FILE: scrabble_letters.dfy ===
/** The scrabble letter system (`ScrabbleLetterSystem`): the tile pool,
    the letter values and word score, the rack dealt each round, its
    letter distribution, and the check that a word can be laid from the
    rack and is in the dictionary. */
module ScrabbleLetters {
  import opened Wrappers
  import Text
  import Random
  import EmojiTables

  const BLANK := '!'

  /** The number of tiles of each letter `a` to `z` in a standard
      English set. */
  const COUNTS: seq<nat> := [9, 2, 2, 4, 12, 2, 3, 2, 9, 1, 1, 4, 2, 6, 8, 2, 1, 6, 4, 6, 4, 2, 2, 1, 2, 1]

  /** The number of tiles of a kind: the letters as above, two blanks. */
  function StandardCount(c: char): nat {
    if Text.IsLower(c) then COUNTS[c as int - 'a' as int] else if c == BLANK then 2 else 0
  }

  /** `n` tiles of kind `c`. */
  function Repeat(c: char, n: nat): (r: seq<char>)
    ensures |r| == n && forall i :: 0 <= i < n ==> r[i] == c
    ensures forall x :: multiset(r)[x] == if x == c then n else 0
  {
    var r := seq(n, _ => c);
    assert multiset(r) == multiset{}[c := n] by {
      RepeatCount(c, n, r);
    }
    r
  }

  lemma {:induction false} RepeatCount(c: char, n: nat, r: seq<char>)
    requires |r| == n && forall i :: 0 <= i < n ==> r[i] == c
    ensures multiset(r) == multiset{}[c := n]
    decreases n
  {
    if n > 0 {
      assert r == r[..n - 1] + [c];
      RepeatCount(c, n - 1, r[..n - 1]);
    }
  }

  /** The `i`-th letter of the alphabet. */
  function Letter(i: nat): (c: char)
    requires i < 26
    ensures Text.IsLower(c) && c as int - 'a' as int == i
  {
    ('a' as int + i) as char
  }

  /** The tiles of the letters from the `i`-th on, in alphabetical order. */
  function LettersFrom(i: nat): (r: seq<char>)
    requires i <= 26
    ensures forall x :: multiset(r)[x] == if Text.IsLower(x) && x as int - 'a' as int >= i then StandardCount(x) else 0
    ensures |r| == CountFrom(i)
    decreases 26 - i
  {
    if i == 26 then [] else Repeat(Letter(i), COUNTS[i]) + LettersFrom(i + 1)
  }

  /** The number of tiles of the letters from the `i`-th on. */
  function CountFrom(i: nat): nat
    requires i <= 26
    decreases 26 - i
  {
    if i == 26 then 0 else COUNTS[i] + CountFrom(i + 1)
  }

  /** `LETTER_DISTRIBUTION`: the tiles of each letter in alphabetical
      order, then the two blanks. */
  function Pool(): (r: seq<char>)
    ensures |r| == CountFrom(0) + 2
  {
    LettersFrom(0) + Repeat(BLANK, 2)
  }

  /** The pool holds the standard number of tiles of every kind. */
  lemma PoolCounts(x: char)
    ensures multiset(Pool())[x] == StandardCount(x)
  {
    var a, b := LettersFrom(0), Repeat(BLANK, 2);
    assert Pool() == a + b;
    assert multiset(a + b)[x] == multiset(a)[x] + multiset(b)[x];
    if Text.IsLower(x) {
      assert multiset(b)[x] == 0;
    } else if x == BLANK {
      assert multiset(a)[x] == 0;
    } else {
      assert multiset(a)[x] == 0 && multiset(b)[x] == 0;
    }
  }

  /** The pool holds one hundred tiles. */
  lemma PoolSize()
    ensures |Pool()| == 100
  {
    CountAll();
  }

  /** The tiles of all twenty-six letters, summed one letter at a time. */
  lemma CountAll()
    ensures CountFrom(0) == 98
  {
    CountMiddle();
    assert CountFrom(5) == 69;
    assert CountFrom(4) == 81;
    assert CountFrom(3) == 85;
    assert CountFrom(2) == 87;
    assert CountFrom(1) == 89;
    assert CountFrom(0) == 98;
  }

  /** The tiles of the letters `f` to `z`. */
  lemma CountMiddle()
    ensures CountFrom(5) == 69
  {
    CountLower();
    assert CountFrom(12) == 47;
    assert CountFrom(11) == 51;
    assert CountFrom(10) == 52;
    assert CountFrom(9) == 53;
    assert CountFrom(8) == 62;
    assert CountFrom(7) == 64;
    assert CountFrom(6) == 67;
    assert CountFrom(5) == 69;
  }

  /** The tiles of the letters `n` to `z`. */
  lemma CountLower()
    ensures CountFrom(13) == 45
  {
    CountTail();
    assert CountFrom(19) == 18;
    assert CountFrom(18) == 22;
    assert CountFrom(17) == 28;
    assert CountFrom(16) == 29;
    assert CountFrom(15) == 31;
    assert CountFrom(14) == 39;
    assert CountFrom(13) == 45;
  }

  /** The tiles of the letters `u` to `z`. */
  lemma CountTail()
    ensures CountFrom(20) == 12
  {
    assert CountFrom(25) == 1;
    assert CountFrom(24) == 3;
    assert CountFrom(23) == 4;
    assert CountFrom(22) == 6;
    assert CountFrom(21) == 8;
    assert CountFrom(20) == 12;
  }

  /** `LETTER_VALUES[c]`; `None` is `undefined`. */
  function LetterValue(c: char): (v: Option<int>)
    ensures v.Some? <==> Text.IsLower(c) || c == BLANK
    ensures c == BLANK ==> v == Some(0)
    ensures Text.IsLower(c) ==> 1 <= v.value <= 10
  {
    match c
    case 'a' => Some(1) case 'b' => Some(3) case 'c' => Some(3) case 'd' => Some(2)
    case 'e' => Some(1) case 'f' => Some(4) case 'g' => Some(2) case 'h' => Some(4)
    case 'i' => Some(1) case 'j' => Some(8) case 'k' => Some(5) case 'l' => Some(1)
    case 'm' => Some(3) case 'n' => Some(1) case 'o' => Some(1) case 'p' => Some(3)
    case 'q' => Some(10) case 'r' => Some(1) case 's' => Some(1) case 't' => Some(1)
    case 'u' => Some(1) case 'v' => Some(4) case 'w' => Some(4) case 'x' => Some(8)
    case 'y' => Some(4) case 'z' => Some(10) case '!' => Some(0)
    case _ => None
  }

  /** The sum of the letter values; `None` stands for the `NaN` that an
      `undefined` value turns the sum into. */
  function LetterSum(word: string): (r: Option<int>)
    ensures r.Some? <==> forall i :: 0 <= i < |word| ==> LetterValue(word[i]).Some?
    decreases |word|
  {
    if |word| == 0 then Some(0)
    else
      var rest := LetterSum(word[..|word| - 1]);
      var v := LetterValue(word[|word| - 1]);
      if rest.Some? && v.Some? then Some(rest.value + v.value) else None
  }

  /** A word of lower-case letters sums to between one and ten points a
      letter. */
  lemma {:induction false} LetterSumBounds(word: string)
    requires forall i :: 0 <= i < |word| ==> Text.IsLower(word[i])
    ensures LetterSum(word).Some?
    ensures |word| <= LetterSum(word).value <= 10 * |word|
    decreases |word|
  {
    if |word| > 0 {
      LetterSumBounds(word[..|word| - 1]);
    }
  }

  /** `calculateWordScore`: the letter sum times the word's length, plus
      50 when the word is exactly `lettersPerRound` long. */
  function WordScore(word: string, lettersPerRound: int): (r: Option<int>)
    ensures r.Some? <==> LetterSum(word).Some?
    ensures r.Some? && |word| != lettersPerRound ==> r.value == LetterSum(word).value * |word|
    ensures r.Some? && |word| == lettersPerRound ==> r.value == LetterSum(word).value * |word| + 50
  {
    match LetterSum(word)
    case None => None
    case Some(s) => Some(s * |word| + (if |word| == lettersPerRound then 50 else 0))
  }

  // ---------------------------------------------------------------------
  // The rack
  // ---------------------------------------------------------------------

  /** `getDistribution`: how many tiles of each letter the rack holds;
      the keys are exactly the letters present. */
  function Distribution(rack: seq<char>): (d: map<char, int>)
    ensures forall c :: c in d <==> c in rack
    ensures forall c :: c in d ==> d[c] == multiset(rack)[c] && d[c] >= 1
    decreases |rack|
  {
    if |rack| == 0 then map[]
    else
      var front := rack[..|rack| - 1];
      var c := rack[|rack| - 1];
      assert rack == front + [c];
      var d := Distribution(front);
      d[c := if c in d then d[c] + 1 else 1]
  }

  /** Ascending, each character no greater than the next. */
  predicate SortedChars(s: seq<char>) {
    forall i :: 0 < i < |s| ==> s[i - 1] <= s[i]
  }

  /** Inserting into a sorted sequence keeps it sorted. */
  function Insert(x: char, s: seq<char>): (r: seq<char>)
    requires SortedChars(s)
    ensures SortedChars(r) && multiset(r) == multiset(s) + multiset{x} && |r| == |s| + 1
    ensures r[0] == x || (|s| > 0 && r[0] == s[0])
    decreases |s|
  {
    if |s| == 0 || x <= s[0] then [x] + s
    else
      assert s == [s[0]] + s[1..];
      [s[0]] + Insert(x, s[1..])
  }

  /** `Array.prototype.sort` without a comparator on one-letter strings:
      ascending character codes. */
  function Sort(s: seq<char>): (r: seq<char>)
    ensures SortedChars(r) && multiset(r) == multiset(s) && |r| == |s|
    decreases |s|
  {
    if |s| == 0 then []
    else
      assert s == s[..|s| - 1] + [s[|s| - 1]];
      Insert(s[|s| - 1], Sort(s[..|s| - 1]))
  }

  /** The letter system's state: the shuffled pool, the window of the next
      rack, the options, the current rack and its distribution. */
  datatype Letters = Letters(
    shuffled: seq<char>, start: int, end: int,
    lettersPerRound: int, shouldSort: bool,
    rack: seq<char>, distribution: map<char, int>)

  /** `getNextLetters`: the rack is the window of the shuffled pool,
      sorted when asked, and the window moves on by `lettersPerRound`. */
  function GetNextLetters(s: Letters): (r: Letters)
    ensures r.shuffled == s.shuffled && r.lettersPerRound == s.lettersPerRound && r.shouldSort == s.shouldSort
    ensures r.start == s.start + s.lettersPerRound && r.end == s.end + s.lettersPerRound
    ensures multiset(r.rack) == multiset(Text.Slice(s.shuffled, s.start, s.end))
    ensures !s.shouldSort ==> r.rack == Text.Slice(s.shuffled, s.start, s.end)
    ensures s.shouldSort ==> SortedChars(r.rack)
    ensures r.distribution == Distribution(r.rack)
  {
    var window := Text.Slice(s.shuffled, s.start, s.end);
    var rack := if s.shouldSort then Sort(window) else window;
    s.(rack := rack, start := s.start + s.lettersPerRound, end := s.end + s.lettersPerRound, distribution := Distribution(rack))
  }

  /** The constructor with the shuffle draws `rand`: the window starts at
      `[0, lettersPerRound - 1)` and the first rack is dealt. */
  function New(lettersPerRound: int, shouldSort: bool, rand: seq<nat>): (r: Letters)
    ensures multiset(r.shuffled) == multiset(Pool()) && |r.shuffled| == 100
    ensures r.lettersPerRound == lettersPerRound && r.shouldSort == shouldSort
    ensures r.start == lettersPerRound && r.end == 2 * lettersPerRound - 1
    ensures multiset(r.rack) == multiset(Text.Slice(r.shuffled, 0, lettersPerRound - 1))
  {
    PoolSize();
    var s := Letters(Random.Shuffle(Pool(), rand), 0, lettersPerRound - 1, lettersPerRound, shouldSort, [], map[]);
    GetNextLetters(s)
  }

  /** The letter system after `n` more racks. */
  function Advance(s: Letters, n: nat): (r: Letters)
    ensures r.shuffled == s.shuffled && r.lettersPerRound == s.lettersPerRound && r.shouldSort == s.shouldSort
    ensures r.start == s.start + n * s.lettersPerRound && r.end == s.end + n * s.lettersPerRound
    ensures n == 0 ==> r == s
    decreases n
  {
    if n == 0 then s else GetNextLetters(Advance(s, n - 1))
  }

  /** The rack of round `k` (from 1) holds the tiles `(k-1)·L` to `k·L - 2`
      of the shuffled pool, `L` being `lettersPerRound`: one fewer than
      `L`, so one pool tile is skipped between rounds. */
  lemma RackOfRound(lettersPerRound: int, shouldSort: bool, rand: seq<nat>, k: nat)
    requires 1 <= k
    ensures var s := Advance(New(lettersPerRound, shouldSort, rand), k - 1);
      multiset(s.rack) == multiset(Text.Slice(s.shuffled, (k - 1) * lettersPerRound, k * lettersPerRound - 1))
  {
    var first := New(lettersPerRound, shouldSort, rand);
    RackAfter(first, lettersPerRound, k);
  }

  /** The same, from any state whose window has already moved once from
      `[0, L - 1)` and whose rack is that first window. */
  lemma RackAfter(first: Letters, L: int, k: nat)
    requires 1 <= k && first.lettersPerRound == L
    requires first.start == L && first.end == 2 * L - 1
    requires multiset(first.rack) == multiset(Text.Slice(first.shuffled, 0, L - 1))
    ensures var s := Advance(first, k - 1);
      multiset(s.rack) == multiset(Text.Slice(s.shuffled, (k - 1) * L, k * L - 1))
  {
    var s := Advance(first, k - 1);
    if k == 1 {
      assert s == first;
      assert (k - 1) * L == 0 && k * L - 1 == L - 1;
    } else {
      var p := Advance(first, k - 2);
      assert s == GetNextLetters(p);
      assert p.start == (k - 1) * L && p.end == k * L - 1 by {
        WindowArithmetic(k, L);
      }
      assert s.shuffled == p.shuffled;
      assert multiset(s.rack) == multiset(Text.Slice(p.shuffled, p.start, p.end));
    }
  }

  /** The window after `k - 2` moves from `[L, 2L - 1)`. */
  lemma WindowArithmetic(k: int, L: int)
    ensures L + (k - 2) * L == (k - 1) * L
    ensures 2 * L - 1 + (k - 2) * L == k * L - 1
  {
  }

  /** While the pool lasts, a rack has exactly `L - 1` tiles. */
  lemma RackSize(shuffled: seq<char>, lettersPerRound: int, k: nat)
    requires |shuffled| == 100 && 1 <= lettersPerRound && 1 <= k && k * lettersPerRound - 1 <= 100
    ensures |Text.Slice(shuffled, (k - 1) * lettersPerRound, k * lettersPerRound - 1)| == lettersPerRound - 1
  {
    var a, b := (k - 1) * lettersPerRound, k * lettersPerRound - 1;
    assert b - a == lettersPerRound - 1 && 0 <= a;
  }

  // ---------------------------------------------------------------------
  // Word validity (`isValidWord`)
  // ---------------------------------------------------------------------

  /** The tile a letter is taken from: its own while any is left (or no
      blank exists), else a blank; `None` when the letter is not on the
      rack and no blank is either, which fails the word at once. */
  function TileFor(d: map<char, int>, c: char): (t: Option<char>)
    ensures t.Some? ==> t.value in d && (t.value == c || t.value == BLANK)
  {
    if c in d then (if d[c] == 0 && BLANK in d then Some(BLANK) else Some(c))
    else if BLANK in d then Some(BLANK)
    else None
  }

  /** The loop of `isValidWord` over the letters from `i` on: each takes
      one tile from the counts. */
  function Spend(d: map<char, int>, word: string, i: nat): (r: Option<map<char, int>>)
    requires i <= |word|
    ensures r.Some? ==> r.value.Keys == d.Keys
    decreases |word| - i
  {
    if i == |word| then Some(d)
    else
      match TileFor(d, word[i])
      case None => None
      case Some(t) => Spend(d[t := d[t] - 1], word, i + 1)
  }

  /** `isValidWord`: every letter found a tile, no count went below zero,
      and the word is in the dictionary. */
  predicate IsValidWord(s: Letters, word: string, dictionary: set<string>) {
    match Spend(s.distribution, word, 0)
    case None => false
    case Some(d) => (forall c :: c in d ==> d[c] >= 0) && word in dictionary
  }

  /** Every letter `word[i]` is laid with the tile `tiles[i]`: the letter
      itself or a blank. */
  predicate LaidWith(word: string, tiles: seq<char>) {
    |tiles| == |word| && forall i :: 0 <= i < |word| ==> tiles[i] == word[i] || tiles[i] == BLANK
  }

  /** The counts stay `rack - used` while spending: the tiles chosen for
      the letters from `i` on, added to `used`, are what the final counts
      are short of the rack. */
  lemma {:induction false} SpendTracks(d: map<char, int>, word: string, i: nat, rack: multiset<char>, used: seq<char>) returns (tiles: seq<char>)
    requires i <= |word| && |used| == i
    requires forall c :: c in d ==> d[c] == rack[c] as int - multiset(used)[c] as int
    requires forall k :: 0 <= k < i ==> used[k] in d && (used[k] == word[k] || used[k] == BLANK)
    ensures Spend(d, word, i).Some? ==>
      && LaidWith(word, tiles)
      && (forall k :: 0 <= k < |tiles| ==> tiles[k] in d)
      && (forall c :: c in d ==> Spend(d, word, i).value[c] == rack[c] as int - multiset(tiles)[c] as int)
    decreases |word| - i
  {
    if i == |word| {
      tiles := used;
    } else {
      match TileFor(d, word[i])
      case None => tiles := used;
      case Some(t) =>
        var d' := d[t := d[t] - 1];
        var used' := used + [t];
        assert multiset(used') == multiset(used) + multiset{t};
        tiles := SpendTracks(d', word, i + 1, rack, used');
    }
  }

  /** A valid word can be laid from the rack: its letters take distinct
      tiles of the rack, each the letter itself or a blank. So it is never
      longer than the rack. */
  lemma ValidWordFits(s: Letters, word: string, dictionary: set<string>) returns (tiles: seq<char>)
    requires s.distribution == Distribution(s.rack)
    requires IsValidWord(s, word, dictionary)
    ensures word in dictionary
    ensures LaidWith(word, tiles) && multiset(tiles) <= multiset(s.rack)
    ensures |word| <= |s.rack|
  {
    var d := s.distribution;
    tiles := SpendTracks(d, word, 0, multiset(s.rack), []);
    var d' := Spend(d, word, 0).value;
    forall c ensures multiset(tiles)[c] <= multiset(s.rack)[c] {
      if c in d {
        assert d'[c] >= 0;
      }
    }
    assert multiset(tiles) <= multiset(s.rack);
    SubMultisetSize(multiset(tiles), multiset(s.rack));
  }

  /** A sub-multiset is no larger. */
  lemma SubMultisetSize(a: multiset<char>, b: multiset<char>)
    requires a <= b
    ensures |a| <= |b|
  {
    assert b == a + (b - a);
  }

  /** With the rack one tile short of `lettersPerRound`, no valid word is
      `lettersPerRound` long, so the 50-point bonus is never scored. */
  lemma NoBonus(s: Letters, word: string, dictionary: set<string>)
    requires s.distribution == Distribution(s.rack)
    requires |s.rack| <= s.lettersPerRound - 1
    requires IsValidWord(s, word, dictionary)
    requires WordScore(word, s.lettersPerRound).Some?
    ensures WordScore(word, s.lettersPerRound).value == LetterSum(word).value * |word|
  {
    var _ := ValidWordFits(s, word, dictionary);
  }

  // ---------------------------------------------------------------------
  // The display (`getLettersDisplay`)
  // ---------------------------------------------------------------------

  /** The emoji of each tile: a yellow square for a blank, the letter's
      entry of `ALPHANUMERIC_TO_EMOJI` otherwise. */
  function LettersDisplay(rack: seq<char>): (r: seq<Option<EmojiTables.Emoji>>)
    ensures |r| == |rack|
    ensures forall i :: 0 <= i < |rack| && rack[i] == BLANK ==> r[i] == Some([0x1F7E8])
    ensures forall i :: 0 <= i < |rack| && Text.IsLower(rack[i]) ==>
              r[i] == Some([EmojiTables.REGIONAL_A + (rack[i] as int - 'a' as int)])
  {
    seq(|rack|, i requires 0 <= i < |rack| =>
      if rack[i] == BLANK then Some(EmojiTables.BLANK_EMOJI) else EmojiTables.AlphanumericToEmoji([rack[i]]))
  }
}

=== FILE: sub_command_handler.dfy ===
/** Text sub-commands typed in a channel while a game runs
    (`SubCommandHandler`): registration by name, prefix parsing, lookup by
    name then alias, and the cooldown notice. The same parsing and lookup
    serve the lobby's host commands. */
module SubCommandHandler {
  import opened Wrappers
  import opened Text
  import Cooldown
  import Collection

  datatype SubCommand = SubCommand(name: string, cooldown: int, aliases: seq<string>)

  type Commands = seq<Collection.Entry<SubCommand>>

  datatype Handler = Handler(commands: Commands, prefix: string, timeLimit: int, cooldowns: Cooldown.Stamps)

  /** Every entry is stored under its command's own name. */
  predicate WellKeyed(c: Commands) {
    Collection.KeysDistinct(c) && forall j :: 0 <= j < |c| ==> c[j].value.name == c[j].key
  }

  /** The constructor's loop: each command is `set` under its name in list order. */
  function Register(cmds: seq<SubCommand>): (r: Commands)
    ensures WellKeyed(r)
    ensures forall i :: 0 <= i < |cmds| ==> Collection.Has(r, cmds[i].name)
    ensures forall k :: Collection.Has(r, k) ==> exists i :: 0 <= i < |cmds| && cmds[i].name == k
    decreases |cmds|
  {
    if |cmds| == 0 then []
    else
      var prev := Register(cmds[..|cmds| - 1]);
      var last := cmds[|cmds| - 1];
      var r := Collection.Set(prev, last.name, last);
      RegisterStep(cmds, prev, r);
      r
  }

  lemma RegisterStep(cmds: seq<SubCommand>, prev: Commands, r: Commands)
    requires |cmds| > 0 && WellKeyed(prev)
    requires forall i :: 0 <= i < |cmds| - 1 ==> Collection.Has(prev, cmds[i].name)
    requires forall k :: Collection.Has(prev, k) ==> exists i :: 0 <= i < |cmds| - 1 && cmds[i].name == k
    requires r == Collection.Set(prev, cmds[|cmds| - 1].name, cmds[|cmds| - 1])
    ensures WellKeyed(r)
    ensures forall i :: 0 <= i < |cmds| ==> Collection.Has(r, cmds[i].name)
    ensures forall k :: Collection.Has(r, k) ==> exists i :: 0 <= i < |cmds| && cmds[i].name == k
  {
    var last := cmds[|cmds| - 1];
    forall k | Collection.Has(r, k) ensures exists i :: 0 <= i < |cmds| && cmds[i].name == k {
      if k != last.name {
        assert Collection.Has(prev, k);
      }
    }
  }

  /** `config.timeLimit || 600000`: a missing or zero limit falls back to ten minutes. */
  function TimeLimit(option: Option<int>): (ms: int)
    ensures option.Some? && option.value != 0 ==> ms == option.value
    ensures option.None? || option.value == 0 ==> ms == 600000
  {
    if option.Some? && option.value != 0 then option.value else 600000
  }

  /** The constructor. */
  function NewHandler(cmds: seq<SubCommand>, prefix: string, timeLimit: Option<int>): (h: Handler)
    ensures WellKeyed(h.commands)
    ensures forall i :: 0 <= i < |cmds| ==> Collection.Has(h.commands, cmds[i].name)
    ensures h.prefix == prefix && h.cooldowns == map[]
    ensures h.timeLimit == TimeLimit(timeLimit)
  {
    Handler(Register(cmds), prefix, TimeLimit(timeLimit), map[])
  }

  /** The command word of a message: the trimmed content must start with
      the prefix, and the word is the first space-separated token of the
      trimmed remainder; an empty word means the message is ignored. */
  function CommandName(content: string, prefix: string): (r: Option<string>)
    ensures r.Some? ==> StartsWith(Trim(content), prefix)
    ensures r.Some? ==> r.value != [] && forall k :: 0 <= k < |r.value| ==> r.value[k] != ' '
    ensures !StartsWith(Trim(content), prefix) ==> r.None?
  {
    var t := Trim(content);
    if !StartsWith(t, prefix) then None
    else
      var w := FirstWord(Trim(t[|prefix|..]));
      if w == "" then None else Some(w)
  }

  /** The first command, in registration order, that lists `name` as an alias. */
  function FindByAlias(c: Commands, name: string): (r: Option<SubCommand>)
    ensures r.Some? ==> exists j :: 0 <= j < |c| && c[j].value == r.value && name in c[j].value.aliases &&
                                   forall i :: 0 <= i < j ==> name !in c[i].value.aliases
    ensures r.None? ==> forall j :: 0 <= j < |c| ==> name !in c[j].value.aliases
    ensures r.Some? && |c| > 0 && name in c[0].value.aliases ==> r.value == c[0].value
    decreases |c|
  {
    if |c| == 0 then None
    else if name in c[0].value.aliases then Some(c[0].value)
    else
      var r := FindByAlias(c[1..], name);
      assert r.Some? ==> exists j :: 0 <= j < |c| && c[j].value == r.value && name in c[j].value.aliases &&
                                     forall i :: 0 <= i < j ==> name !in c[i].value.aliases by {
        if r.Some? {
          var j :| 0 <= j < |c[1..]| && c[1..][j].value == r.value && name in c[1..][j].value.aliases &&
                   forall i :: 0 <= i < j ==> name !in c[1..][i].value.aliases;
          AliasShift(c, name, j);
        }
      }
      r
  }

  /** A first alias match in the tail, behind a head that does not match,
      is a first match in the whole list one position further on. */
  lemma AliasShift(c: Commands, name: string, j: nat)
    requires 0 < |c| && name !in c[0].value.aliases && j < |c| - 1
    requires forall i :: 0 <= i < j ==> name !in c[1..][i].value.aliases
    ensures c[j + 1] == c[1..][j]
    ensures forall i :: 0 <= i < j + 1 ==> name !in c[i].value.aliases
  {
    assert forall i :: 1 <= i < j + 1 ==> c[i] == c[1..][i - 1];
  }

  /** `commands.get(name) || commands.find(cmd => cmd.aliases.includes(name))`. */
  function Lookup(c: Commands, name: string): (r: Option<SubCommand>)
    ensures Collection.Has(c, name) ==> r == Collection.Get(c, name)
    ensures !Collection.Has(c, name) ==> r == FindByAlias(c, name)
    ensures r.None? <==> !Collection.Has(c, name) && forall j :: 0 <= j < |c| ==> name !in c[j].value.aliases
  {
    var exact := Collection.Get(c, name);
    if exact.Some? then exact else FindByAlias(c, name)
  }

  /** `onMessage`: the updated cooldowns and whether `onCooldown` was
      called. No command is ever executed here. */
  function OnMessage(h: Handler, author: string, content: string, now: int): (r: (Handler, bool))
    ensures r.0.commands == h.commands && r.0.prefix == h.prefix && r.0.timeLimit == h.timeLimit
    ensures r.1 ==> CommandName(content, h.prefix).Some?
    ensures r.1 <==> (CommandName(content, h.prefix).Some? &&
                      Lookup(h.commands, CommandName(content, h.prefix).value).Some? &&
                      var cmd := Lookup(h.commands, CommandName(content, h.prefix).value).value;
                      Cooldown.Live(h.cooldowns, cmd.name, author, cmd.cooldown, now))
    ensures CommandName(content, h.prefix).None? ==> r.0 == h
  {
    match CommandName(content, h.prefix)
    case None => (h, false)
    case Some(name) =>
      match Lookup(h.commands, name)
      case None => (h, false)
      case Some(cmd) =>
        var check := Cooldown.GetCooldownData(h.cooldowns, cmd.name, cmd.cooldown, author, now);
        (h.(cooldowns := check.stamps), check.timeLeft.Some?)
  }

  /** A registered command is found by its exact name even when an earlier
      command lists that name as an alias. */
  lemma ExactNameFirst(cmds: seq<SubCommand>, i: nat)
    requires i < |cmds|
    ensures Lookup(Register(cmds), cmds[i].name).Some?
    ensures Lookup(Register(cmds), cmds[i].name).value.name == cmds[i].name
  {
    var c := Register(cmds);
    var x := Collection.IndexOf(c, cmds[i].name).value;
    assert c[x].value.name == c[x].key;
  }
}

=== FILE: text.dfy ===
/** String and sequence helpers with JavaScript's semantics: decimal
    rendering of numbers (`toString`), `Array.prototype.join`,
    `String.prototype.trim`, `startsWith`, the first word of a
    `split(/ +/)`, and `Array.prototype.slice` with negative indices. */
module Text {

  /** The characters `trim` removes: ECMAScript's WhiteSpace (tab,
      vertical tab, form feed, space, no-break space, the byte-order mark
      and the space separators of category Zs) and LineTerminator (line
      feed, carriage return, line and paragraph separators). */
  predicate IsWhitespace(c: char) {
    || ('\t' <= c <= '\r')
    || c == ' ' || c == '\U{00A0}' || c == '\U{1680}'
    || ('\U{2000}' <= c <= '\U{200A}')
    || c == '\U{2028}' || c == '\U{2029}' || c == '\U{202F}' || c == '\U{205F}'
    || c == '\U{3000}' || c == '\U{FEFF}'
  }

  predicate IsDigit(c: char) {
    '0' <= c <= '9'
  }

  predicate AllDigits(s: string) {
    forall i :: 0 <= i < |s| ==> IsDigit(s[i])
  }

  /** The character of a single decimal digit. */
  function DigitChar(d: nat): (c: char)
    requires d < 10
    ensures IsDigit(c)
    ensures DigitValue(c) == d
  {
    (48 + d) as char
  }

  /** The numeric value of a digit character. */
  function DigitValue(c: char): (d: nat)
    requires IsDigit(c)
    ensures d < 10
  {
    (c as int) - 48
  }

  /** `n.toString()` for a non-negative integer: its decimal digits, most
      significant first, with no leading zero. */
  function NatToString(n: nat): (r: string)
    ensures |r| >= 1 && AllDigits(r)
    ensures DigitValue(r[|r| - 1]) == n % 10
    ensures n < 10 <==> |r| == 1
    ensures |r| > 1 ==> r[0] != '0'
    decreases n
  {
    if n < 10 then [DigitChar(n)] else NatToString(n / 10) + [DigitChar(n % 10)]
  }

  /** Reads a string of decimal digits back as a number (`Number(s)`). */
  function ParseDigits(s: string): (n: nat)
    requires AllDigits(s)
    decreases |s|
  {
    if |s| == 0 then 0 else ParseDigits(s[..|s| - 1]) * 10 + DigitValue(s[|s| - 1])
  }

  /** Rendering a natural number in decimal and reading it back gives the number. */
  lemma {:induction false} ParseNatToString(n: nat)
    ensures ParseDigits(NatToString(n)) == n
    decreases n
  {
    var s := NatToString(n);
    if n >= 10 {
      assert s[..|s| - 1] == NatToString(n / 10);
      ParseNatToString(n / 10);
    }
  }

  /** Distinct numbers have distinct decimal renderings. */
  lemma NatToStringInjective(m: nat, n: nat)
    requires NatToString(m) == NatToString(n)
    ensures m == n
  {
    ParseNatToString(m);
    ParseNatToString(n);
  }

  /** `i.toString()` for any integer: a minus sign precedes the digits of a negative number. */
  function IntToString(i: int): (r: string)
    ensures i >= 0 ==> r == NatToString(i)
    ensures i < 0 ==> r == "-" + NatToString(-i)
  {
    if i < 0 then "-" + NatToString(-i) else NatToString(i)
  }

  /** `items.join(sep)`. */
  function Join(items: seq<string>, sep: string): (r: string)
    ensures |items| == 0 ==> r == ""
    ensures |items| >= 1 ==> |items[0]| <= |r| && r[..|items[0]|] == items[0]
    decreases |items|
  {
    if |items| == 0 then ""
    else if |items| == 1 then items[0]
    else items[0] + sep + Join(items[1..], sep)
  }

  /** Joining a list extended at the end is joining the prefix and then
      appending the separator and the new item. */
  lemma {:induction false} JoinSnoc(items: seq<string>, x: string, sep: string)
    requires |items| >= 1
    ensures Join(items + [x], sep) == Join(items, sep) + sep + x
    decreases |items|
  {
    if |items| == 1 {
      assert items + [x] == [items[0], x];
      assert (items + [x])[1..] == [x];
    } else {
      assert (items + [x])[1..] == items[1..] + [x];
      JoinSnoc(items[1..], x, sep);
    }
  }

  /** The total length of a list of strings. */
  function TotalLength(items: seq<string>): nat
    decreases |items|
  {
    if |items| == 0 then 0 else |items[0]| + TotalLength(items[1..])
  }

  /** The joined string holds every item and one separator between consecutive items. */
  lemma {:induction false} JoinLength(items: seq<string>, sep: string)
    requires |items| >= 1
    ensures |Join(items, sep)| == TotalLength(items) + (|items| - 1) * |sep|
    decreases |items|
  {
    if |items| > 1 {
      JoinLength(items[1..], sep);
    }
  }

  /** The first index from `i` on whose character is not white space,
      or `|s|`. */
  function SkipFrom(s: string, i: nat): (n: nat)
    requires i <= |s|
    ensures i <= n <= |s|
    ensures forall k :: i <= k < n ==> IsWhitespace(s[k])
    ensures n < |s| ==> !IsWhitespace(s[n])
    decreases |s| - i
  {
    if i < |s| && IsWhitespace(s[i]) then SkipFrom(s, i + 1) else i
  }

  /** The end of `s[..j]` once the white space it ends with, down to index
      `lo`, is dropped. */
  function BackFrom(s: string, lo: nat, j: nat): (m: nat)
    requires lo <= j <= |s|
    ensures lo <= m <= j
    ensures forall k :: m <= k < j ==> IsWhitespace(s[k])
    ensures m > lo ==> !IsWhitespace(s[m - 1])
    decreases j
  {
    if j > lo && IsWhitespace(s[j - 1]) then BackFrom(s, lo, j - 1) else j
  }

  /** The number of leading white-space characters `trim` drops. */
  function Lead(s: string): (n: nat)
    ensures n <= |s|
  {
    SkipFrom(s, 0)
  }

  /** `s.trim()`: the window of `s` from `Lead(s)` on, with white space
      at neither end, and only white space outside it. */
  function Trim(s: string): (r: string)
    ensures |r| > 0 ==> !IsWhitespace(r[0]) && !IsWhitespace(r[|r| - 1])
    ensures Lead(s) + |r| <= |s|
    ensures forall k :: 0 <= k < |r| ==> r[k] == s[Lead(s) + k]
    ensures forall k :: 0 <= k < Lead(s) ==> IsWhitespace(s[k])
    ensures forall k :: Lead(s) + |r| <= k < |s| ==> IsWhitespace(s[k])
  {
    s[Lead(s)..BackFrom(s, Lead(s), |s|)]
  }

  /** `s.startsWith(p)`. */
  predicate StartsWith(s: string, p: string) {
    |p| <= |s| && s[..|p|] == p
  }

  /** The first element of `s.split(/ +/)` for a string `s` that does not
      start with a space: the longest prefix free of spaces. */
  function FirstWord(s: string): (r: string)
    ensures |r| <= |s| && r == s[..|r|]
    ensures forall k :: 0 <= k < |r| ==> r[k] != ' '
    ensures |r| < |s| ==> s[|r|] == ' '
    decreases |s|
  {
    if |s| == 0 || s[0] == ' ' then "" else [s[0]] + FirstWord(s[1..])
  }

  /** Resolves a `slice` index against a length: a negative index counts
      from the end, and the result is clamped to `[0, len]`. */
  function SliceIndex(i: int, len: nat): (k: nat)
    ensures k <= len
    ensures 0 <= i <= len ==> k == i
  {
    if i < 0 then (if len + i < 0 then 0 else len + i)
    else if i > len then len
    else i
  }

  /** `s.slice(start, end)`: the elements between the resolved indices,
      empty when the end does not lie after the start. */
  function Slice<T>(s: seq<T>, start: int, end: int): (r: seq<T>)
    ensures 0 <= start <= end <= |s| ==> r == s[start..end]
    ensures 0 <= end <= start ==> r == []
    ensures end == 0 ==> r == []
    ensures |r| <= |s|
  {
    var b := SliceIndex(start, |s|);
    var e := SliceIndex(end, |s|);
    if e <= b then [] else s[b..e]
  }

  predicate IsUpper(c: char) {
    'A' <= c <= 'Z'
  }

  predicate IsLower(c: char) {
    'a' <= c <= 'z'
  }

  /** A character of the class `[A-Za-z]`. */
  predicate IsLetter(c: char) {
    IsUpper(c) || IsLower(c)
  }

  /** A non-empty string matching `^[A-Za-z]+$`. */
  predicate AllLetters(s: string) {
    |s| > 0 && forall i :: 0 <= i < |s| ==> IsLetter(s[i])
  }

  /** KELVIN SIGN, the one character outside `A-Z` that `toLowerCase`
      maps into `a-z`. */
  const KELVIN: char := '\U{212A}'

  /** `toLowerCase` on one character, for the characters whose lower
      case is an ASCII letter; every other character is left as it is. */
  function LowerChar(c: char): (r: char)
    ensures IsUpper(c) ==> IsLower(r) && r as int == c as int + 32
    ensures c == KELVIN ==> r == 'k'
    ensures !IsUpper(c) && c != KELVIN ==> r == c
  {
    if IsUpper(c) then (c as int + 32) as char else if c == KELVIN then 'k' else c
  }

  /** A character lower-cases into `a-z` exactly when it is an ASCII
      letter or the Kelvin sign. */
  lemma LowerCharIsLower(c: char)
    ensures IsLower(LowerChar(c)) <==> IsLetter(c) || c == KELVIN
  {
  }

  /** `s.toLowerCase()` restricted to the characters of `LowerChar`. */
  function Lower(s: string): (r: string)
    ensures |r| == |s|
    ensures forall i :: 0 <= i < |s| ==> r[i] == LowerChar(s[i])
    decreases |s|
  {
    if |s| == 0 then [] else [LowerChar(s[0])] + Lower(s[1..])
  }

  /** Trimming one character leaves it, or nothing when it is white
      space. */
  lemma TrimSingle(s: string)
    requires |s| == 1
    ensures IsWhitespace(s[0]) ==> Trim(s) == []
    ensures !IsWhitespace(s[0]) ==> Trim(s) == s
  {
    if !IsWhitespace(s[0]) {
      assert Lead(s) == 0;
      assert Trim(s)[0] == s[0];
    }
  }
}

=== FILE: trivia.dfy ===
/** Trivia (`Trivia`, `TriviaPlayer`): questions worth one to three
    points, answered by pressing a letter button; every press records or
    overwrites the presser's answer, and when the round's time is up the
    players holding the correct letter score and lose their answer. A
    round nobody presses a button in ends the game. */
module Trivia {
  import opened Wrappers
  import Collection
  import Random

  datatype Kind = Boolean | Multiple
  datatype Difficulty = Easy | Medium | Hard

  /** `TRIVIA_LETTERS`: the button ids. */
  datatype Letter = A | B | C | D

  /** The answer position a letter labels. */
  function Position(l: Letter): (i: nat)
    ensures i < 4
  {
    match l
    case A => 0
    case B => 1
    case C => 2
    case D => 3
  }

  // ---------------------------------------------------------------------
  // Questions
  // ---------------------------------------------------------------------

  /** `calculatePointCost`: a true/false question is worth one point; a
      multiple-choice one one, two or three by difficulty. */
  function PointCost(kind: Kind, difficulty: Difficulty): (p: int)
    ensures 1 <= p <= 3
    ensures kind == Boolean ==> p == 1
    ensures kind == Multiple ==> (p == 1 <==> difficulty == Easy) && (p == 3 <==> difficulty == Hard)
  {
    if kind == Boolean then 1
    else match difficulty
      case Easy => 1
      case Medium => 2
      case Hard => 3
  }

  /** The order of the difficulties. */
  function Rank(d: Difficulty): nat {
    match d
    case Easy => 0
    case Medium => 1
    case Hard => 2
  }

  /** A harder question is never worth fewer points. */
  lemma PointCostMonotone(kind: Kind, d: Difficulty, e: Difficulty)
    requires Rank(d) <= Rank(e)
    ensures PointCost(kind, d) <= PointCost(kind, e)
  {
  }

  /** A question as the trivia service returns it (the HTML entities
      already decoded). */
  datatype RawQuestion = RawQuestion(
    category: string, kind: Kind, question: string,
    correct: string, incorrect: seq<string>, difficulty: Difficulty)

  /** The service's format: one wrong answer to a true/false question,
      three to a multiple-choice one. */
  predicate WellFormed(q: RawQuestion) {
    |q.incorrect| == if q.kind == Boolean then 1 else 3
  }

  /** A question ready to ask (`ModifiedTriviaQuestion`); `correct` is
      `None` where the source reads `undefined`. */
  datatype Question = Question(
    category: string, question: string, shuffled: seq<string>,
    difficulty: Difficulty, correct: Option<Letter>, possible: seq<Letter>,
    kind: Kind, points: int, correctText: string)

  /** `possibleAnswers`: A and B for two answers, A to D otherwise, each
      letter labelling its own position. */
  function PossibleAnswers(count: nat): (r: seq<Letter>)
    ensures |r| == if count == 2 then 2 else 4
    ensures forall i :: 0 <= i < |r| ==> Position(r[i]) == i
  {
    if count == 2 then [A, B] else [A, B, C, D]
  }

  /** JavaScript `indexOf`: the first position of `x`, or -1. */
  function IndexOf<T(==)>(s: seq<T>, x: T): (i: int)
    ensures -1 <= i < |s|
    ensures i == -1 <==> x !in s
    ensures i >= 0 ==> s[i] == x && forall j :: 0 <= j < i ==> s[j] != x
    decreases |s|
  {
    if |s| == 0 then -1
    else if s[0] == x then 0
    else
      var k := IndexOf(s[1..], x);
      if k == -1 then -1 else k + 1
  }

  /** `possibleAnswers[shuffledAnswers.indexOf(correctAnswer)]`: the letter
      of the first position holding the correct answer, `None` when the
      index falls outside the letters. */
  function CorrectLetter(shuffled: seq<string>, correct: string): (r: Option<Letter>)
    ensures r.Some? ==> Position(r.value) < |shuffled| && shuffled[Position(r.value)] == correct
    ensures r.Some? ==> forall j :: 0 <= j < Position(r.value) ==> shuffled[j] != correct
    ensures correct in shuffled && |shuffled| <= 4 ==> r.Some?
    ensures correct !in shuffled ==> r.None?
  {
    var letters := PossibleAnswers(|shuffled|);
    var i := IndexOf(shuffled, correct);
    if 0 <= i < |letters| then Some(letters[i]) else None
  }

  /** The question built from the service's answer, the answers shuffled
      by the draws `rand`. */
  function Prepare(q: RawQuestion, rand: seq<nat>): (r: Question)
    ensures multiset(r.shuffled) == multiset(q.incorrect + [q.correct])
    ensures r.correctText == q.correct && r.kind == q.kind && r.difficulty == q.difficulty
    ensures r.points == PointCost(q.kind, q.difficulty)
    ensures r.correct.Some? ==> Position(r.correct.value) < |r.shuffled| && r.shuffled[Position(r.correct.value)] == q.correct
    ensures |q.incorrect| <= 3 ==> r.correct.Some?
  {
    var shuffled := Random.Shuffle(q.incorrect + [q.correct], rand);
    assert q.correct in multiset(shuffled);
    Question(q.category, q.question, shuffled, q.difficulty, CorrectLetter(shuffled, q.correct),
             PossibleAnswers(|shuffled|), q.kind, PointCost(q.kind, q.difficulty), q.correct)
  }

  /** `renderButtons`: the four letter buttons for a multiple-choice
      question, the first two otherwise. */
  function Buttons(kind: Kind): (r: seq<Letter>)
    ensures |r| == if kind == Multiple then 4 else 2
    ensures forall i :: 0 <= i < |r| ==> Position(r[i]) == i
  {
    var all := [A, B, C, D];
    if kind == Multiple then all else all[..2]
  }

  /** For a question in the service's format the buttons are exactly the
      answer letters, so the correct letter always has a button. */
  lemma CorrectHasButton(q: RawQuestion, rand: seq<nat>)
    requires WellFormed(q)
    ensures Prepare(q, rand).possible == Buttons(q.kind)
    ensures Prepare(q, rand).correct.Some? && Prepare(q, rand).correct.value in Buttons(q.kind)
  {
    var r := Prepare(q, rand);
    assert |r.shuffled| == |q.incorrect| + 1;
    var i := Position(r.correct.value);
    assert Buttons(q.kind)[i] == r.correct.value;
  }

  // ---------------------------------------------------------------------
  // The player (`TriviaPlayer`)
  // ---------------------------------------------------------------------

  datatype Player = Player(username: string, answer: Option<Letter>, score: int)

  /** The constructor: no answer and no points. */
  function NewPlayer(username: string): (p: Player)
    ensures p.answer.None? && p.score == 0 && p.username == username
  {
    Player(username, None, 0)
  }

  /** `earnPoints`: the points are added; the answer stays. */
  function EarnPoints(p: Player, points: int): (r: Player)
    ensures r.score == p.score + points
    ensures r.answer == p.answer && r.username == p.username
  {
    p.(score := p.score + points)
  }

  /** `setAnswer`: the answer is overwritten; the score stays. */
  function SetAnswer(p: Player, a: Letter): (r: Player)
    ensures r.answer == Some(a)
    ensures r.score == p.score && r.username == p.username
  {
    p.(answer := Some(a))
  }

  /** `removeAnswer`: the answer is cleared; the score stays. */
  function RemoveAnswer(p: Player): (r: Player)
    ensures r.answer.None?
    ensures r.score == p.score && r.username == p.username
  {
    p.(answer := None)
  }

  /** Only the last answer counts, and clearing forgets any answer. */
  lemma AnswerOverwrites(p: Player, a: Letter, b: Letter)
    ensures SetAnswer(SetAnswer(p, a), b) == SetAnswer(p, b)
    ensures RemoveAnswer(SetAnswer(p, a)) == RemoveAnswer(p)
  {
  }

  // ---------------------------------------------------------------------
  // Collecting the answers (`awaitAnswers`, the 'collect' handler)
  // ---------------------------------------------------------------------

  /** The players by user id, in the order they first answered. */
  type Board = seq<Collection.Entry<Player>>

  /** A button press: who pressed, whether the presser is a bot, whether
      it was on the game's message, and the letter. */
  datatype Click = Click(userId: string, username: string, isBot: bool, onMessage: bool, letter: Letter)

  /** The collector's filter. */
  predicate Accepted(c: Click) {
    !c.isBot && c.onMessage
  }

  /** Nothing was collected. */
  predicate NoneAccepted(clicks: seq<Click>) {
    forall i :: 0 <= i < |clicks| ==> !Accepted(clicks[i])
  }

  /** The player a press updates: the stored one, or a new one. */
  function Holder(data: Board, c: Click): Player {
    match Collection.Get(data, c.userId)
    case Some(p) => p
    case None => NewPlayer(c.username)
  }

  /** The score of user `k` before any press of the round; 0 for a
      newcomer. */
  function ScoreOf(data: Board, k: string): int {
    match Collection.Get(data, k)
    case Some(p) => p.score
    case None => 0
  }

  /** The 'collect' handler for one press: the presser's answer is set,
      on the stored player or on a new one added at the end. */
  function Record(data: Board, c: Click): (r: Board)
    requires Collection.KeysDistinct(data)
    ensures Collection.KeysDistinct(r)
    ensures Collection.Get(r, c.userId).Some?
    ensures Collection.Get(r, c.userId).value.answer == Some(c.letter)
    ensures Collection.Get(r, c.userId).value.score == ScoreOf(data, c.userId)
    ensures forall k :: k != c.userId ==> Collection.Get(r, k) == Collection.Get(data, k)
    ensures |data| <= |r| && forall j :: 0 <= j < |data| ==> r[j].key == data[j].key
  {
    Collection.Set(data, c.userId, SetAnswer(Holder(data, c), c.letter))
  }

  /** The letter of the last accepted press of user `k`, if any. */
  function LastAnswer(clicks: seq<Click>, k: string): Option<Letter>
    decreases |clicks|
  {
    if |clicks| == 0 then None
    else
      var c := clicks[|clicks| - 1];
      if Accepted(c) && c.userId == k then Some(c.letter)
      else LastAnswer(clicks[..|clicks| - 1], k)
  }

  /** All of a round's presses, in order: every user who pressed holds the
      letter of their last press and the score they had; nobody else
      changes, and the users already on the board keep their places. */
  function Collect(data: Board, clicks: seq<Click>): (r: Board)
    requires Collection.KeysDistinct(data)
    ensures Collection.KeysDistinct(r)
    ensures forall k :: LastAnswer(clicks, k).None? ==> Collection.Get(r, k) == Collection.Get(data, k)
    ensures forall k :: LastAnswer(clicks, k).Some? ==>
      && Collection.Get(r, k).Some?
      && Collection.Get(r, k).value.answer == LastAnswer(clicks, k)
      && Collection.Get(r, k).value.score == ScoreOf(data, k)
    ensures |data| <= |r| && forall j :: 0 <= j < |data| ==> r[j].key == data[j].key
    decreases |clicks|
  {
    if |clicks| == 0 then data
    else
      var prev := Collect(data, clicks[..|clicks| - 1]);
      var c := clicks[|clicks| - 1];
      if Accepted(c) then Record(prev, c) else prev
  }

  /** A user with an accepted press is on the board after the round. */
  lemma {:induction false} LastAnswerOfPresser(clicks: seq<Click>, i: nat)
    requires i < |clicks| && Accepted(clicks[i])
    ensures LastAnswer(clicks, clicks[i].userId).Some?
    decreases |clicks|
  {
    if i < |clicks| - 1 {
      var c := clicks[|clicks| - 1];
      if !(Accepted(c) && c.userId == clicks[i].userId) {
        LastAnswerOfPresser(clicks[..|clicks| - 1], i);
      }
    }
  }

  /** Without an accepted press nobody has a last answer. */
  lemma {:induction false} LastAnswerNone(clicks: seq<Click>, k: string)
    requires NoneAccepted(clicks)
    ensures LastAnswer(clicks, k).None?
    decreases |clicks|
  {
    if |clicks| > 0 {
      assert !Accepted(clicks[|clicks| - 1]);
      LastAnswerNone(clicks[..|clicks| - 1], k);
    }
  }

  // ---------------------------------------------------------------------
  // Scoring (the 'end' handler)
  // ---------------------------------------------------------------------

  /** `player.answer === correctAnswer`: `null` never equals the
      `undefined` of a missing correct letter. */
  predicate Matches(p: Player, correct: Option<Letter>) {
    p.answer.Some? && p.answer == correct
  }

  /** The two loops of the 'end' handler on one player: a matching answer
      earns the points, then is removed. */
  function Settle(p: Player, correct: Option<Letter>, points: int): (r: Player)
    ensures Matches(p, correct) ==> r.score == p.score + points && r.answer.None?
    ensures !Matches(p, correct) ==> r == p
    ensures r.username == p.username
  {
    var earned := if Matches(p, correct) then EarnPoints(p, points) else p;
    if Matches(earned, correct) then RemoveAnswer(earned) else earned
  }

  /** The usernames of the players who answered correctly, in board order
      (`correctUsers`). */
  function Winners(data: Board, correct: Option<Letter>): (r: seq<string>)
    ensures |r| <= |data|
    ensures forall u :: u in r ==> exists j :: 0 <= j < |data| && Matches(data[j].value, correct) && data[j].value.username == u
    ensures forall j :: 0 <= j < |data| && Matches(data[j].value, correct) ==> data[j].value.username in r
    ensures (forall j :: 0 <= j < |data| ==> !Matches(data[j].value, correct)) ==> r == []
    decreases |data|
  {
    if |data| == 0 then []
    else
      var rest := Winners(data[1..], correct);
      assert forall u :: u in rest ==> exists j :: 0 <= j < |data| && Matches(data[j].value, correct) && data[j].value.username == u by {
        forall u | u in rest
          ensures exists j :: 0 <= j < |data| && Matches(data[j].value, correct) && data[j].value.username == u
        {
          var j :| 0 <= j < |data[1..]| && Matches(data[1..][j].value, correct) && data[1..][j].value.username == u;
          assert data[j + 1] == data[1..][j];
        }
      }
      assert forall j :: 1 <= j < |data| ==> data[j] == data[1..][j - 1];
      if Matches(data[0].value, correct) then [data[0].value.username] + rest else rest
  }

  /** The names are listed in board order: the list for two boards laid
      end to end is the first board's list followed by the second's. */
  lemma {:induction false} WinnersAppend(a: Board, b: Board, correct: Option<Letter>)
    ensures Winners(a + b, correct) == Winners(a, correct) + Winners(b, correct)
    decreases |a|
  {
    if |a| > 0 {
      assert (a + b)[1..] == a[1..] + b;
      WinnersAppend(a[1..], b, correct);
    } else {
      assert a + b == b;
    }
  }

  /** What a round ends with: nothing collected, or the scored board and
      the names of the round's winners. */
  datatype RoundResult = Unanswered | Scored(data: Board, winners: seq<string>)

  /** `awaitAnswers`: the presses are recorded; with none the game is
      inactive, otherwise the board is settled against the question. */
  function Round(data: Board, q: Question, clicks: seq<Click>): (r: RoundResult)
    requires Collection.KeysDistinct(data)
    ensures r.Unanswered? <==> NoneAccepted(clicks)
    ensures r.Scored? ==> Collection.KeysDistinct(r.data)
  {
    if NoneAccepted(clicks) then Unanswered
    else
      var collected := Collect(data, clicks);
      var settled := Collection.MapValues(collected, p => Settle(p, q.correct, q.points));
      Collection.GetMapValues(collected, p => Settle(p, q.correct, q.points), "");
      Scored(settled, Winners(collected, q.correct))
  }

  /** The answer a user is judged on: the last one pressed this round,
      else the one left over from earlier rounds. */
  function Judged(data: Board, clicks: seq<Click>, k: string): Option<Letter> {
    if LastAnswer(clicks, k).Some? then LastAnswer(clicks, k)
    else match Collection.Get(data, k)
      case Some(p) => p.answer
      case None => None
  }

  /** A scored round, user by user: the users on the board are those there
      before and those who pressed; a user whose judged answer is the
      correct letter gains the question's points and loses the answer,
      everybody else keeps score and answer, wrong answers included. */
  lemma RoundSpec(data: Board, q: Question, clicks: seq<Click>, k: string)
    requires Collection.KeysDistinct(data) && !NoneAccepted(clicks)
    ensures var r := Round(data, q, clicks);
      && r.Scored?
      && (Collection.Get(r.data, k).Some? <==> Collection.Get(data, k).Some? || LastAnswer(clicks, k).Some?)
      && (Collection.Get(r.data, k).Some? ==>
            var p := Collection.Get(r.data, k).value;
            var judged := Judged(data, clicks, k);
            && p.score == ScoreOf(data, k) + (if judged.Some? && judged == q.correct then q.points else 0)
            && p.answer == (if judged.Some? && judged == q.correct then None else judged))
  {
    var collected := Collect(data, clicks);
    var f := p => Settle(p, q.correct, q.points);
    Collection.GetMapValues(collected, f, k);
  }

  /** Wrong answers carry over: a player who answered B to a question
      whose answer was A, and presses nothing in the next round, scores in
      it if its answer is B. */
  lemma StaleAnswerScores(q1: Question, q2: Question)
    requires q1.correct == Some(A) && q2.correct == Some(B) && q2.points == 1
    ensures var first := Round([], q1, [Click("1", "ann", false, true, B)]);
      && first.Scored?
      && var second := Round(first.data, q2, [Click("2", "bob", false, true, A)]);
      && second.Scored?
      && Collection.Get(second.data, "1") == Some(Player("ann", None, 1))
  {
    WrongAnswerKept(q1);
    var first := Round([], q1, [Click("1", "ann", false, true, B)]);
    StaleAnswerSettled(first.data, q2);
  }

  /** The first round of that example: the wrong answer B stays with no
      points. */
  lemma WrongAnswerKept(q1: Question)
    requires q1.correct == Some(A)
    ensures var first := Round([], q1, [Click("1", "ann", false, true, B)]);
      && first.Scored? && Collection.KeysDistinct(first.data)
      && Collection.Get(first.data, "1") == Some(Player("ann", Some(B), 0))
  {
    var c1 := [Click("1", "ann", false, true, B)];
    assert Accepted(c1[0]);
    RoundSpec([], q1, c1, "1");
    var first := Round([], q1, c1);
    assert LastAnswer(c1, "1") == Some(B);
    UsernameKept([], q1, c1);
  }

  /** The second round of that example: the stale answer B is judged
      against the new question and scores. */
  lemma StaleAnswerSettled(data: Board, q2: Question)
    requires Collection.KeysDistinct(data) && Collection.Get(data, "1") == Some(Player("ann", Some(B), 0))
    requires q2.correct == Some(B) && q2.points == 1
    ensures var second := Round(data, q2, [Click("2", "bob", false, true, A)]);
      && second.Scored?
      && Collection.Get(second.data, "1") == Some(Player("ann", None, 1))
  {
    var c2 := [Click("2", "bob", false, true, A)];
    assert Accepted(c2[0]);
    assert LastAnswer(c2, "1") == None by {
      assert LastAnswer(c2[..0], "1") == None;
    }
    assert Judged(data, c2, "1") == Some(B);
    assert ScoreOf(data, "1") == 0;
    var second := Round(data, q2, c2);
    RoundSpec(data, q2, c2, "1");
    assert Collection.Get(second.data, "1").Some?;
    UsernameKept(data, q2, c2);
    var p := Collection.Get(second.data, "1").value;
    assert p.username == "ann";
    assert p.answer == None && p.score == 1;
    assert p == Player("ann", None, 1);
  }

  /** Only presses and settling touch a player, and neither renames it:
      a player's name is the one of their first press. */
  lemma UsernameKept(data: Board, q: Question, clicks: seq<Click>)
    requires Collection.KeysDistinct(data) && !NoneAccepted(clicks)
    ensures forall k :: Collection.Get(data, k).Some? && Collection.Get(Round(data, q, clicks).data, k).Some? ==>
      Collection.Get(Round(data, q, clicks).data, k).value.username == Collection.Get(data, k).value.username
    ensures |clicks| == 1 && Collection.Get(data, clicks[0].userId).None? ==>
      Collection.Get(Round(data, q, clicks).data, clicks[0].userId).Some? &&
      Collection.Get(Round(data, q, clicks).data, clicks[0].userId).value.username == clicks[0].username
  {
    var collected := Collect(data, clicks);
    var f := p => Settle(p, q.correct, q.points);
    forall k | Collection.Get(data, k).Some? && Collection.Get(Round(data, q, clicks).data, k).Some?
      ensures Collection.Get(Round(data, q, clicks).data, k).value.username == Collection.Get(data, k).value.username
    {
      Collection.GetMapValues(collected, f, k);
      CollectKeepsNames(data, clicks, k);
    }
    if |clicks| == 1 && Collection.Get(data, clicks[0].userId).None? {
      var c := clicks[0];
      assert Accepted(c);
      assert clicks[..0] == [];
      assert Collect(data, clicks[..0]) == data;
      assert collected == Record(data, c);
      Collection.GetMapValues(collected, f, c.userId);
    }
  }

  /** Presses keep the names of the players already on the board. */
  lemma {:induction false} CollectKeepsNames(data: Board, clicks: seq<Click>, k: string)
    requires Collection.KeysDistinct(data) && Collection.Get(data, k).Some?
    ensures Collection.Get(Collect(data, clicks), k).Some?
    ensures Collection.Get(Collect(data, clicks), k).value.username == Collection.Get(data, k).value.username
    decreases |clicks|
  {
    if |clicks| > 0 {
      CollectKeepsNames(data, clicks[..|clicks| - 1], k);
    }
  }

  // ---------------------------------------------------------------------
  // The game (`play`, `initialize`)
  // ---------------------------------------------------------------------

  datatype Options = Options(
    rounds: Option<int>, difficulty: Option<Difficulty>, category: Option<int>,
    time: Option<int>, intermediate: Option<int>)

  /** The command's choices: 1 to 25 rounds; category 0 (any) or 9 to 32;
      5 to 60 seconds in steps of 5; 3 to 15 seconds between rounds. */
  predicate ValidOptions(o: Options) {
    && (o.rounds.Some? ==> 1 <= o.rounds.value <= 25)
    && (o.category.Some? ==> o.category.value == 0 || 9 <= o.category.value <= 32)
    && (o.time.Some? ==> 5000 <= o.time.value <= 60000 && o.time.value % 5000 == 0)
    && (o.intermediate.Some? ==> 3000 <= o.intermediate.value <= 15000 && o.intermediate.value % 1000 == 0)
  }

  datatype Config = Config(
    category: int, difficulty: Option<Difficulty>, intermediateTime: int,
    timeLimit: int, totalRounds: int)

  /** `initialize`: each missing option takes its default, one round of
      20 seconds, 5 seconds apart, any category and difficulty. */
  function Configure(o: Options): (c: Config)
    ensures c.totalRounds == (if o.rounds.Some? then o.rounds.value else 1)
    ensures c.timeLimit == (if o.time.Some? then o.time.value else 20000)
    ensures c.intermediateTime == (if o.intermediate.Some? then o.intermediate.value else 5000)
    ensures c.category == (if o.category.Some? then o.category.value else 0)
    ensures c.difficulty == o.difficulty
    ensures ValidOptions(o) ==> 1 <= c.totalRounds <= 25 && 5000 <= c.timeLimit <= 60000 && 3000 <= c.intermediateTime <= 15000
  {
    Config(o.category.GetOr(0), o.difficulty, o.intermediate.GetOr(5000), o.time.GetOr(20000), o.rounds.GetOr(1))
  }

  /** The trivia service's reply to a request for `totalRounds` questions. */
  datatype Response = Response(code: int, results: seq<RawQuestion>)

  /** How `play` ends: all rounds played, a round without a press, or an
      exception (the service refused, or it sent fewer questions than
      rounds, so that the missing question is read as `undefined`). */
  datatype Reason = Finished | Inactive | Threw

  /** The end of the game: the reason, the turn reached, the board, and
      the winners of each scored round. */
  datatype Outcome = Outcome(reason: Reason, turn: nat, data: Board, winners: seq<seq<string>>)

  /** `fetchTriviaQuestions`: the service's questions prepared with the
      shuffle draws `rand[i]`, or `None` when its code is not 0. */
  function Fetch(response: Response, rand: seq<seq<nat>>): (r: Option<seq<Question>>)
    ensures r.None? <==> response.code != 0
    ensures r.Some? ==> |r.value| == |response.results|
    ensures r.Some? ==> forall i :: 0 <= i < |r.value| ==> r.value[i].points == PointCost(response.results[i].kind, response.results[i].difficulty)
  {
    if response.code != 0 then None
    else Some(seq(|response.results|, i requires 0 <= i < |response.results| =>
      Prepare(response.results[i], if i < |rand| then rand[i] else [])))
  }

  /** The rounds of `play` from turn `turn` on: round `t` (from 0) asks
      question `t` and sees the presses `clicks[t]`. */
  function Loop(totalRounds: int, questions: seq<Question>, clicks: seq<seq<Click>>, turn: nat, data: Board, winners: seq<seq<string>>): (r: Outcome)
    requires Collection.KeysDistinct(data)
    ensures Collection.KeysDistinct(r.data)
    ensures turn <= r.turn && (turn < totalRounds ==> r.turn <= totalRounds)
    ensures r.reason == Finished <==> r.turn == turn + |r.winners| - |winners| && (r.turn >= totalRounds)
    ensures |winners| <= |r.winners| && forall i :: 0 <= i < |winners| ==> r.winners[i] == winners[i]
    decreases totalRounds - turn
  {
    if turn >= totalRounds then Outcome(Finished, turn, data, winners)
    else if turn >= |questions| then Outcome(Threw, turn + 1, data, winners)
    else
      var round := if turn < |clicks| then clicks[turn] else [];
      match Round(data, questions[turn], round)
      case Unanswered => Outcome(Inactive, turn + 1, data, winners)
      case Scored(next, w) => Loop(totalRounds, questions, clicks, turn + 1, next, winners + [w])
  }

  /** How a game from turn 0 can have ended: after all rounds with one
      list of winners each, or early, at the first missing question or at
      the first round without a press, with one list of winners for each
      round before it. */
  predicate Shaped(r: Outcome, totalRounds: int, questions: seq<Question>, clicks: seq<seq<Click>>) {
    && (r.reason == Finished ==> r.turn == totalRounds == |r.winners|)
    && (r.reason != Finished ==> 1 <= r.turn <= totalRounds && |r.winners| == r.turn - 1)
    && (r.reason == Threw ==> r.turn - 1 == |questions|)
    && (r.reason == Inactive ==> r.turn - 1 < |questions| && NoneAccepted(if r.turn - 1 < |clicks| then clicks[r.turn - 1] else []))
  }

  lemma {:induction false} LoopShape(totalRounds: int, questions: seq<Question>, clicks: seq<seq<Click>>, turn: nat, data: Board, winners: seq<seq<string>>)
    requires Collection.KeysDistinct(data) && turn <= totalRounds && turn <= |questions| && |winners| == turn
    ensures Shaped(Loop(totalRounds, questions, clicks, turn, data, winners), totalRounds, questions, clicks)
    decreases totalRounds - turn
  {
    if turn < totalRounds && turn < |questions| {
      var round := if turn < |clicks| then clicks[turn] else [];
      var res := Round(data, questions[turn], round);
      if res.Scored? {
        LoopShape(totalRounds, questions, clicks, turn + 1, res.data, winners + [res.winners]);
      }
    }
  }

  /** `play`: the options are read, the questions fetched (shuffled by
      `rand`), and rounds run while the turn is below the round count. */
  function Play(o: Options, response: Response, rand: seq<seq<nat>>, clicks: seq<seq<Click>>): (r: Outcome)
    ensures response.code != 0 ==> r.reason == Threw && r.turn == 0 && r.data == []
    ensures r.reason == Finished ==> r.turn == |r.winners| == (if Configure(o).totalRounds < 0 then 0 else Configure(o).totalRounds)
    ensures response.code == 0 && 1 <= Configure(o).totalRounds <= |response.results| ==> r.reason != Threw
    ensures r.reason == Inactive ==> 1 <= r.turn <= Configure(o).totalRounds && |r.winners| == r.turn - 1
  {
    var cfg := Configure(o);
    match Fetch(response, rand)
    case None => Outcome(Threw, 0, [], [])
    case Some(questions) =>
      if cfg.totalRounds < 1 then Loop(cfg.totalRounds, questions, clicks, 0, [], [])
      else
        LoopShape(cfg.totalRounds, questions, clicks, 0, [], []);
        Loop(cfg.totalRounds, questions, clicks, 0, [], [])
  }
}

=== FILE: wrappers.dfy ===
/** Wrappers shared by every module of the model: `Option` stands for the
    source's `null`/`undefined`. */
module Wrappers {

  /** A value that may be absent (`null` or `undefined` in the source). */
  datatype Option<+T> = None | Some(value: T) {

    /** The wrapped value, or `default` when absent (the source's `??`). */
    function GetOr(default: T): (r: T)
      ensures Some? ==> r == value
      ensures None? ==> r == default
    {
      match this
      case Some(v) => v
      case None => default
    }
  }

  /** Resolving a promise: the first resolution stands and every later
      `resolve` call is ignored. `p` is the promise's settled value so far. */
  function Settle<T>(p: Option<T>, v: T): (r: Option<T>)
    ensures r.Some?
    ensures p.Some? ==> r == p
    ensures p.None? ==> r.value == v
  {
    if p.Some? then p else Some(v)
  }

  /** `n || d` for an optional number: a missing value and zero (which
      is falsy) both give the default. */
  function OrNumber(n: Option<int>, d: int): int {
    if n.Some? && n.value != 0 then n.value else d
  }
}

=== FILE: yahtzee.dfy ===
/** Solo Yahtzee (`YahtzeePlayer`, `Yahtzee`): the dice the host keeps by
    reacting to the message, the rolling phase driven by the REROLL and
    PLAY buttons, the category menu, and the turn loop that ends when all
    thirteen categories are marked or the host stops answering. The
    buttons, reactions and menu picks the host produces, and the random
    draws, are inputs. */
module Yahtzee {
  import opened Wrappers
  import Text
  import EmojiTables
  import YahtzeeSheet

  // ---------------------------------------------------------------------
  // The player (`YahtzeePlayer`)
  // ---------------------------------------------------------------------

  /** `kept` holds the keys of `_diceToReroll` set to `true`; the keys 1
      to 5 not in it are `false`. */
  datatype Player = Player(kept: set<string>, sheet: YahtzeeSheet.Sheet)

  /** `refreshRerolls`: every die is to be rerolled again. */
  function RefreshRerolls(p: Player): (r: Player)
    ensures r.kept == {} && r.sheet == p.sheet
  {
    p.(kept := {})
  }

  /** The property `keepRoll` sets for a value of the reverse emoji table:
      its string form, or `"undefined"` for an emoji the table lacks. */
  function KeyFor(v: Option<EmojiTables.Alphanumeric>): string {
    if v.None? then "undefined" else EmojiTables.KeyOf(v.value)
  }

  /** `keepRoll`: that property becomes `true`. */
  function KeepRoll(p: Player, v: Option<EmojiTables.Alphanumeric>): (r: Player)
    ensures r.kept == p.kept + {KeyFor(v)} && r.sheet == p.sheet
  {
    p.(kept := p.kept + {KeyFor(v)})
  }

  /** The dice from `n` to 5 whose key is not kept, ascending. */
  function DiceFrom(kept: set<string>, n: int): (r: seq<int>)
    requires 1 <= n <= 6
    ensures forall i :: 0 <= i < |r| ==> n <= r[i] <= 5
    ensures forall i, j :: 0 <= i < j < |r| ==> r[i] < r[j]
    ensures forall d :: d in r <==> n <= d <= 5 && Text.IntToString(d) !in kept
    decreases 6 - n
  {
    if n == 6 then []
    else if Text.IntToString(n) in kept then DiceFrom(kept, n + 1)
    else [n] + DiceFrom(kept, n + 1)
  }

  /** `getRerollList`: the keys whose value is `false`, as numbers. The
      object lists integer keys ascending, and only the dice 1 to 5 are
      ever `false`. */
  function RerollList(p: Player): (r: seq<int>)
    ensures forall d :: d in r <==> 1 <= d <= 5 && Text.IntToString(d) !in p.kept
    ensures forall i, j :: 0 <= i < j < |r| ==> r[i] < r[j]
  {
    DiceFrom(p.kept, 1)
  }

  /** `canReroll`. */
  predicate CanReroll(p: Player) {
    p.sheet.rerolls > 0
  }

  /** The reaction of die `d`: its digit and the combining keycap. */
  function DieEmoji(d: int): EmojiTables.Emoji {
    [0x30 + d, EmojiTables.KEYCAP]
  }

  /** With the intended reverse table, a reaction keeps exactly the die
      whose keycap it is: any other reaction (a letter, a special, another
      digit, an emoji the table lacks) sets a property that is never read
      as a die. */
  lemma ReactionKeeps(p: Player, e: EmojiTables.Emoji)
    ensures forall d :: d in RerollList(KeepRoll(p, EmojiTables.IntendedEmojiToAlphanumeric(e))) <==> d in RerollList(p) && e != DieEmoji(d)
  {
    var v := EmojiTables.IntendedEmojiToAlphanumeric(e);
    forall d | 1 <= d <= 5
      ensures KeyFor(v) == Text.IntToString(d) <==> e == DieEmoji(d)
    {
      assert Text.IntToString(d) == [Text.DigitChar(d)];
      if e == DieEmoji(d) {
        assert v == Some(EmojiTables.Num(d));
      }
      if KeyFor(v) == Text.IntToString(d) {
        if v.Some? && v.value.Num? {
          Text.NatToStringInjective(v.value.n, d);
        }
      }
    }
  }

  /** Keeping a sequence of reactions, one `keepRoll` each, looked up in
      the intended reverse table. */
  function KeepAll(p: Player, reactions: seq<EmojiTables.Emoji>): (r: Player)
    ensures r.sheet == p.sheet && p.kept <= r.kept
    ensures forall d :: d in RerollList(r) <==> d in RerollList(p) && DieEmoji(d) !in reactions
    decreases |reactions|
  {
    if |reactions| == 0 then p
    else
      var q := KeepRoll(p, EmojiTables.IntendedEmojiToAlphanumeric(reactions[0]));
      ReactionKeeps(p, reactions[0]);
      KeepAll(q, reactions[1..])
  }

  /** Keeping a sequence of reactions as written: each is looked up in the
      reverse table as written. An emoji of the forward table is not found
      there, so its `keepRoll(undefined)` sets the property "undefined",
      which no die reads. */
  function WrittenKeepAll(p: Player, reactions: seq<EmojiTables.Emoji>): (r: Player)
    ensures r.sheet == p.sheet && p.kept <= r.kept
    ensures (forall i :: 0 <= i < |reactions| ==> EmojiTables.IntendedEmojiToAlphanumeric(reactions[i]).Some?) ==>
              r.kept <= p.kept + {"undefined"} && RerollList(r) == RerollList(p)
    decreases |reactions|
  {
    if |reactions| == 0 then p
    else
      var v := EmojiTables.EmojiToAlphanumeric(reactions[0]);
      var q := KeepRoll(p, v);
      var r := WrittenKeepAll(q, reactions[1..]);
      assert (forall i :: 0 <= i < |reactions| ==> EmojiTables.IntendedEmojiToAlphanumeric(reactions[i]).Some?) ==>
               r.kept <= p.kept + {"undefined"} && RerollList(r) == RerollList(p) by {
        if forall i :: 0 <= i < |reactions| ==> EmojiTables.IntendedEmojiToAlphanumeric(reactions[i]).Some? {
          assert EmojiTables.IntendedEmojiToAlphanumeric(reactions[0]).Some?;
          EmojiTables.EmojiNotWrittenKey(reactions[0]);
          assert forall i :: 0 <= i < |reactions[1..]| ==> reactions[1..][i] == reactions[i + 1];
          UndefinedKeepsDice(p, q);
        }
      }
      r
  }

  /** Setting the property "undefined" keeps no die. */
  lemma UndefinedKeepsDice(p: Player, q: Player)
    requires q.kept == p.kept + {"undefined"}
    ensures RerollList(q) == RerollList(p)
  {
    forall d | 1 <= d <= 5 ensures Text.IntToString(d) != "undefined" {
      assert Text.IntToString(d) == [Text.DigitChar(d)];
    }
    DiceFromSame(p.kept, q.kept, 1);
  }

  /** Two kept sets that agree on the keys of the dice give the same list. */
  lemma {:induction false} DiceFromSame(a: set<string>, b: set<string>, n: int)
    requires 1 <= n <= 6
    requires forall d :: n <= d <= 5 ==> (Text.IntToString(d) in a <==> Text.IntToString(d) in b)
    ensures DiceFrom(a, n) == DiceFrom(b, n)
    decreases 6 - n
  {
    if n < 6 {
      DiceFromSame(a, b, n + 1);
    }
  }

  /** A REROLL press as written: the reactions keep nothing, so every die
      not kept before is redrawn. */
  function WrittenRerollPress(p: Player, reactions: seq<EmojiTables.Emoji>, draw: YahtzeeSheet.Roll): (r: Player)
    ensures p.kept <= r.kept
    ensures r.sheet == YahtzeeSheet.Reroll(p.sheet, RerollList(r), draw)
  {
    var q := WrittenKeepAll(p, reactions);
    q.(sheet := YahtzeeSheet.Reroll(q.sheet, RerollList(q), draw))
  }

  /** As written, the first REROLL press of a turn redraws all five dice,
      whichever keycaps the host has reacted with. */
  lemma WrittenRerollRedrawsAll(p: Player, reactions: seq<EmojiTables.Emoji>, draw: YahtzeeSheet.Roll)
    requires forall i :: 0 <= i < |reactions| ==> EmojiTables.IntendedEmojiToAlphanumeric(reactions[i]).Some?
    ensures RerollList(WrittenKeepAll(RefreshRerolls(p), reactions)) == [1, 2, 3, 4, 5]
    ensures forall i :: 0 <= i < 5 ==> WrittenRerollPress(RefreshRerolls(p), reactions, draw).sheet.rolls[i] == draw[i]
  {
    NothingKept();
  }

  /** With nothing kept, every die is rerolled. */
  lemma NothingKept()
    ensures DiceFrom({}, 1) == [1, 2, 3, 4, 5]
  {
    assert DiceFrom({}, 6) == [];
    assert DiceFrom({}, 5) == [5];
    assert DiceFrom({}, 4) == [4, 5];
    assert DiceFrom({}, 3) == [3, 4, 5];
    assert DiceFrom({}, 2) == [2, 3, 4, 5];
  }


  /** A REROLL press: `keepRoll` for each reaction the host has on the
      message, then the dice of `getRerollList` are rerolled. A die kept
      earlier in the turn stays kept even if its reaction is gone. */
  function RerollPress(p: Player, reactions: seq<EmojiTables.Emoji>, draw: YahtzeeSheet.Roll): (r: Player)
    ensures p.kept <= r.kept
    ensures forall d :: d in RerollList(r) <==> d in RerollList(p) && DieEmoji(d) !in reactions
    ensures forall i :: 0 <= i < 5 ==>
      r.sheet.rolls[i] == (if i + 1 in RerollList(p) && DieEmoji(i + 1) !in reactions then draw[i] else p.sheet.rolls[i])
    ensures r.sheet == YahtzeeSheet.Reroll(p.sheet, RerollList(r), draw)
  {
    var q := KeepAll(p, reactions);
    q.(sheet := YahtzeeSheet.Reroll(q.sheet, RerollList(q), draw))
  }

  /** Right after `refreshRerolls`, a reroll rerolls exactly the dice
      whose keycap the host has not reacted with. */
  lemma RerollAfterRefresh(p: Player, reactions: seq<EmojiTables.Emoji>, draw: YahtzeeSheet.Roll)
    ensures var r := RerollPress(RefreshRerolls(p), reactions, draw);
      forall i :: 0 <= i < 5 ==> r.sheet.rolls[i] == if DieEmoji(i + 1) in reactions then p.sheet.rolls[i] else draw[i]
  {
    assert forall d :: 1 <= d <= 5 ==> d in RerollList(RefreshRerolls(p));
  }

  /** A die once kept is not rerolled by a later press of the same turn,
      whatever the reactions then. */
  lemma KeptStaysKept(p: Player, reactions: seq<EmojiTables.Emoji>, draw: YahtzeeSheet.Roll, d: int)
    requires 1 <= d <= 5 && d !in RerollList(p)
    ensures d !in RerollList(RerollPress(p, reactions, draw))
    ensures RerollPress(p, reactions, draw).sheet.rolls[d - 1] == p.sheet.rolls[d - 1]
  {
  }

  // ---------------------------------------------------------------------
  // The game (`Yahtzee`)
  // ---------------------------------------------------------------------

  datatype Status = Rolling | Categories

  datatype State = State(turn: int, status: Status, player: Player)

  function Sheet(st: State): YahtzeeSheet.Sheet {
    st.player.sheet
  }

  /** How many of the first `n` categories are marked. */
  function MarkedCount(cs: seq<YahtzeeSheet.Category>, n: nat): (k: nat)
    requires n <= |cs|
    ensures k <= n
    ensures k == n <==> forall i :: 0 <= i < n ==> cs[i].isMarked
  {
    if n == 0 then 0 else MarkedCount(cs, n - 1) + (if cs[n - 1].isMarked then 1 else 0)
  }

  lemma {:induction false} NoneMarked(cs: seq<YahtzeeSheet.Category>, n: nat)
    requires n <= |cs| && forall i :: 0 <= i < n ==> !cs[i].isMarked
    ensures MarkedCount(cs, n) == 0
    decreases n
  {
    if n > 0 {
      NoneMarked(cs, n - 1);
    }
  }

  lemma {:induction false} MarkOneMore(cs: seq<YahtzeeSheet.Category>, n: nat, k: nat, c: YahtzeeSheet.Category)
    requires n <= |cs| && k < |cs| && !cs[k].isMarked && c.isMarked
    ensures MarkedCount(cs[k := c], n) == MarkedCount(cs, n) + (if k < n then 1 else 0)
    decreases n
  {
    if n > 0 {
      MarkOneMore(cs, n - 1, k, c);
    }
  }

  /** `terminal`: every category is marked. */
  predicate Terminal(s: YahtzeeSheet.Sheet) {
    forall i :: 0 <= i < |s.categories| ==> s.categories[i].isMarked
  }

  /** The unmarked ids from `id` on, ascending. */
  function MenuFrom(cs: seq<YahtzeeSheet.Category>, id: int): (r: seq<int>)
    requires 1 <= id <= |cs| + 1
    ensures forall i :: 0 <= i < |r| ==> id <= r[i] <= |cs|
    ensures forall i, j :: 0 <= i < j < |r| ==> r[i] < r[j]
    ensures forall x :: x in r <==> id <= x <= |cs| && !cs[x - 1].isMarked
    decreases |cs| + 1 - id
  {
    if id == |cs| + 1 then []
    else if cs[id - 1].isMarked then MenuFrom(cs, id + 1)
    else [id] + MenuFrom(cs, id + 1)
  }

  /** The options of the category menu: the unmarked categories' ids, in
      key order. */
  function Menu(s: YahtzeeSheet.Sheet): (r: seq<int>)
    ensures forall x :: x in r <==> 1 <= x <= |s.categories| && !s.categories[x - 1].isMarked
    ensures forall i, j :: 0 <= i < j < |r| ==> r[i] < r[j]
  {
    MenuFrom(s.categories, 1)
  }

  /** The menu is empty exactly when the game is over. */
  lemma MenuEmptyWhenTerminal(s: YahtzeeSheet.Sheet)
    ensures Menu(s) == [] <==> Terminal(s)
  {
    if !Terminal(s) {
      var i :| 0 <= i < |s.categories| && !s.categories[i].isMarked;
      assert i + 1 in Menu(s);
    }
    if Menu(s) != [] {
      assert Menu(s)[0] in Menu(s);
    }
  }

  // --- the rolling phase (`awaitDiceRolls`) -------------------------------

  datatype Button = RerollButton | PlayButton | OtherButton

  /** A button interaction in the channel: whether the host made it, which
      button, the emoji of the reactions the host has on the message when
      it is handled, and the five random draws a reroll would use. */
  datatype Press = Press(byHost: bool, button: Button, reactions: seq<EmojiTables.Emoji>, draw: YahtzeeSheet.Roll)

  /** The state after the phase and whether the collector took any
      press. */
  datatype Phase = Phase(state: State, collected: bool)

  predicate AnyByHost(presses: seq<Press>) {
    exists i :: 0 <= i < |presses| && presses[i].byHost
  }

  /** The collector from some press on: only the host's presses are
      taken, and every one counts as collected, even a button of another
      message. REROLL keeps the dice the host has reacted to and rerolls
      the rest, ending the turn when no reroll is left; PLAY ends the turn
      at once; running out of presses is the time limit. */
  function RollDice(st: State, presses: seq<Press>, collected: bool): (r: Phase)
    ensures r.collected <==> collected || AnyByHost(presses)
    ensures r.state.turn == st.turn && Sheet(r.state).categories == Sheet(st).categories
    ensures Sheet(r.state).total == Sheet(st).total && Sheet(r.state).upper == Sheet(st).upper
    ensures Sheet(r.state).hasBonus == Sheet(st).hasBonus
    ensures st.player.kept <= r.state.player.kept
    ensures st.status == Rolling && Sheet(st).rerolls >= 1 ==>
      && Sheet(r.state).rerolls >= 0
      && (r.state.status == Rolling ==> Sheet(r.state).rerolls >= 1)
    ensures st.status == Categories ==> r.state.status == Categories
    decreases |presses|
  {
    if |presses| == 0 then Phase(st, collected)
    else
      var pr := presses[0];
      assert forall i :: 0 <= i < |presses| - 1 ==> presses[1..][i] == presses[i + 1];
      if !pr.byHost then RollDice(st, presses[1..], collected)
      else match pr.button
        case RerollButton =>
          var p2 := RerollPress(st.player, pr.reactions, pr.draw);
          if !CanReroll(p2) then Phase(st.(status := Categories, player := p2), true)
          else RollDice(st.(player := p2), presses[1..], true)
        case PlayButton => Phase(st.(status := Categories), true)
        case OtherButton => RollDice(st, presses[1..], true)
  }

  /** `awaitDiceRolls`: the kept dice are cleared, then the collector
      runs. */
  function AwaitDiceRolls(st: State, presses: seq<Press>): (r: Phase)
    ensures r.collected <==> AnyByHost(presses)
  {
    RollDice(st.(player := RefreshRerolls(st.player)), presses, false)
  }

  /** PLAY as the host's first press moves straight to the categories
      with the dice as they are. */
  lemma PlayFirst(st: State, presses: seq<Press>)
    requires |presses| > 0 && presses[0].byHost && presses[0].button == PlayButton
    ensures AwaitDiceRolls(st, presses).state.status == Categories
    ensures Sheet(AwaitDiceRolls(st, presses).state) == Sheet(st)
  {
  }

  // --- the category phase (`selectCategory`) -----------------------------

  /** A menu interaction in the channel: whether the host made it, whether
      it came from the game's message, and the value picked. */
  datatype Pick = Pick(byHost: bool, onMessage: bool, id: int)

  /** The menu exists only while the status is CATEGORIES, and a pick is
      one of its options. */
  predicate Deliverable(st: State, p: Pick) {
    st.status == Categories && p.id in Menu(Sheet(st))
  }

  /** The collector with `max: 1`: the first pick the host makes on the
      game's message; `None` is the time limit with nothing collected. */
  function Choose(st: State, picks: seq<Pick>): (r: Option<int>)
    ensures r.Some? ==> st.status == Categories && r.value in Menu(Sheet(st))
    ensures r.None? <==> !exists i :: 0 <= i < |picks| && picks[i].byHost && picks[i].onMessage && Deliverable(st, picks[i])
    decreases |picks|
  {
    if |picks| == 0 then None
    else if picks[0].byHost && picks[0].onMessage && Deliverable(st, picks[0]) then Some(picks[0].id)
    else
      var r := Choose(st, picks[1..]);
      assert forall i :: 0 <= i < |picks| - 1 ==> picks[1..][i] == picks[i + 1];
      r
  }

  // --- the turn loop (`play`) --------------------------------------------

  /** What the host does in one turn, and the draws of the reset that
      follows it. */
  datatype Turn = Turn(presses: seq<Press>, picks: seq<Pick>, next: YahtzeeSheet.Roll)

  datatype Reason = Won | Inactive

  datatype Outcome = Outcome(reason: Reason, state: State)

  /** What holds at the head of the loop: rolling, a consistent sheet,
      two rerolls while the game goes on, and one category marked per
      finished turn. */
  predicate Head(st: State) {
    && st.status == Rolling
    && YahtzeeSheet.Consistent(Sheet(st))
    && (!Terminal(Sheet(st)) ==> Sheet(st).rerolls == 2)
    && 1 <= st.turn <= 13
    && MarkedCount(Sheet(st).categories, 13) == (if Terminal(Sheet(st)) then 13 else st.turn - 1)
    && (Terminal(Sheet(st)) ==> st.turn == 13)
  }

  /** The state after the category `id` is selected: unless that was the
      last one, the next turn starts with a reset; the status goes back
      to ROLLING. */
  function AfterSelect(st: State, id: int, next: YahtzeeSheet.Roll): (r: State)
    requires YahtzeeSheet.Valid(Sheet(st)) && 1 <= id <= 13
  {
    var sheet := YahtzeeSheet.SelectCategory(Sheet(st), id).value;
    var marked := st.(player := st.player.(sheet := sheet));
    var moved := if !Terminal(sheet) then marked.(turn := st.turn + 1, player := marked.player.(sheet := YahtzeeSheet.Reset(sheet, next))) else marked;
    moved.(status := Rolling)
  }

  /** The loop: it stops with a win as soon as every category is marked,
      and with inactivity when a collector ends empty. */
  function Loop(st: State, turns: seq<Turn>): (r: Outcome)
    requires YahtzeeSheet.Valid(Sheet(st))
    decreases |turns|
  {
    if Terminal(Sheet(st)) then Outcome(Won, st)
    else if |turns| == 0 then Outcome(Inactive, st)
    else
      var ph := AwaitDiceRolls(st, turns[0].presses);
      if !ph.collected then Outcome(Inactive, ph.state)
      else match Choose(ph.state, turns[0].picks)
        case None => Outcome(Inactive, ph.state)
        case Some(id) => Loop(AfterSelect(ph.state, id, turns[0].next), turns[1..])
  }

  /** The rolling phase leaves the categories and totals as they were. */
  lemma PhaseKeepsSheet(st: State, presses: seq<Press>)
    requires YahtzeeSheet.Consistent(Sheet(st))
    ensures var s := Sheet(AwaitDiceRolls(st, presses).state);
      YahtzeeSheet.Consistent(s) && s.categories == Sheet(st).categories
  {
  }

  lemma ResetKeepsSheet(s: YahtzeeSheet.Sheet, draw: YahtzeeSheet.Roll)
    requires YahtzeeSheet.Consistent(s)
    ensures YahtzeeSheet.Consistent(YahtzeeSheet.Reset(s, draw))
  {
  }

  /** One turn kept the loop head: the pick was an unmarked category, so
      the sheet stays consistent and one more category is marked. */
  lemma TurnKeepsHead(st: State, ph: Phase, id: int, next: YahtzeeSheet.Roll)
    requires Head(st) && !Terminal(Sheet(st))
    requires YahtzeeSheet.Consistent(Sheet(ph.state)) && Sheet(ph.state).categories == Sheet(st).categories
    requires ph.state.turn == st.turn && 1 <= id <= 13 && !Sheet(st).categories[id - 1].isMarked
    ensures Head(AfterSelect(ph.state, id, next))
  {
    var s := Sheet(ph.state);
    YahtzeeSheet.SelectKeepsConsistent(s, id);
    var sheet := YahtzeeSheet.SelectCategory(s, id).value;
    MarkOneMore(s.categories, 13, id - 1, sheet.categories[id - 1]);
    assert MarkedCount(sheet.categories, 13) == st.turn;
    var r := AfterSelect(ph.state, id, next);
    if !Terminal(sheet) {
      ResetKeepsSheet(sheet, next);
      assert Sheet(r) == YahtzeeSheet.Reset(sheet, next) && r.turn == st.turn + 1;
    } else {
      assert Sheet(r) == sheet && r.turn == st.turn;
    }
  }

  /** The step of the loop from a head. */
  lemma Step(st: State, t: Turn)
    requires Head(st) && !Terminal(Sheet(st))
    requires AwaitDiceRolls(st, t.presses).collected && Choose(AwaitDiceRolls(st, t.presses).state, t.picks).Some?
    ensures Head(AfterSelect(AwaitDiceRolls(st, t.presses).state, Choose(AwaitDiceRolls(st, t.presses).state, t.picks).value, t.next))
  {
    var ph := AwaitDiceRolls(st, t.presses);
    PhaseKeepsSheet(st, t.presses);
    var id := Choose(ph.state, t.picks).value;
    TurnKeepsHead(st, ph, id, t.next);
  }

  /** How the game ends. */
  predicate Ended(o: Outcome) {
    && YahtzeeSheet.Consistent(Sheet(o.state))
    && (o.reason == Won <==> Terminal(Sheet(o.state)))
    && (o.reason == Won ==> o.state.turn == 13)
    && (o.reason == Inactive ==> 1 <= o.state.turn <= 13 && MarkedCount(Sheet(o.state).categories, 13) == o.state.turn - 1)
  }

  /** From a loop head the game ends won on turn 13 with every category
      marked, or inactive with one category marked per finished turn;
      either way the total is the categories' values plus the bonus. */
  lemma {:induction false} LoopEnds(st: State, turns: seq<Turn>)
    requires Head(st)
    ensures Ended(Loop(st, turns))
    decreases |turns|
  {
    if !Terminal(Sheet(st)) && |turns| > 0 {
      var ph := AwaitDiceRolls(st, turns[0].presses);
      PhaseKeepsSheet(st, turns[0].presses);
      if ph.collected && Choose(ph.state, turns[0].picks).Some? {
        Step(st, turns[0]);
        LoopEnds(AfterSelect(ph.state, Choose(ph.state, turns[0].picks).value, turns[0].next), turns[1..]);
      }
    }
  }

  /** `play`: the first roll, then the loop from turn 1. */
  function Play(first: YahtzeeSheet.Roll, turns: seq<Turn>): (r: Outcome)
    ensures Ended(r)
    ensures r.reason == Won ==> |turns| >= 13
  {
    var st := State(1, Rolling, Player({}, YahtzeeSheet.New(first)));
    YahtzeeSheet.NewConsistent(first);
    NoneMarked(Sheet(st).categories, 13);
    LoopEnds(st, turns);
    TurnsNeeded(st, turns);
    Loop(st, turns)
  }

  /** Each marked category took one turn of input. */
  lemma {:induction false} TurnsNeeded(st: State, turns: seq<Turn>)
    requires Head(st)
    ensures Loop(st, turns).reason == Won ==> |turns| >= 13 - MarkedCount(Sheet(st).categories, 13)
    decreases |turns|
  {
    if !Terminal(Sheet(st)) && |turns| > 0 {
      var ph := AwaitDiceRolls(st, turns[0].presses);
      PhaseKeepsSheet(st, turns[0].presses);
      if ph.collected && Choose(ph.state, turns[0].picks).Some? {
        Step(st, turns[0]);
        TurnsNeeded(AfterSelect(ph.state, Choose(ph.state, turns[0].picks).value, turns[0].next), turns[1..]);
      }
    }
  }
}

=== FILE: yahtzee_sheet.dfy ===
/** The Yahtzee score sheet (`YahtzeeScoreSheet`, `YahtzeeCategory`): five
    dice, their distribution, the thirteen categories and how each scores a
    distribution, the running totals with the upper-section bonus, and the
    rerolls. */
module YahtzeeSheet {
  import opened Wrappers

  type Face = x: int | 1 <= x <= 6 witness 1

  /** Five dice, die `i` (from 1) at index `i - 1`. */
  type Roll = s: seq<Face> | |s| == 5 witness [1, 1, 1, 1, 1]

  /** The distribution object: the count of face `f` at index `f - 1`; a
      face with count 0 is one the object has no key for. */
  type Distribution = d: seq<nat> | |d| == 6 witness [0, 0, 0, 0, 0, 0]

  function Count(d: Distribution, f: Face): nat {
    d[f - 1]
  }

  predicate Present(d: Distribution, f: Face) {
    d[f - 1] > 0
  }

  /** How many dice the distribution counts. */
  function Size(d: Distribution): nat {
    d[0] + d[1] + d[2] + d[3] + d[4] + d[5]
  }

  /** `updateDistribution`: each die adds one to the count of its face. */
  function Distribute(rolls: seq<Face>): (d: Distribution)
    ensures forall f: Face :: Count(d, f) == multiset(rolls)[f]
    ensures Size(d) == |rolls|
    decreases |rolls|
  {
    if |rolls| == 0 then [0, 0, 0, 0, 0, 0]
    else
      var front := rolls[..|rolls| - 1];
      var f := rolls[|rolls| - 1];
      var prev := Distribute(front);
      DistributeStep(rolls, front, f, prev);
      prev[f - 1 := prev[f - 1] + 1]
  }

  /** Adding the last die to the distribution of the others. */
  lemma DistributeStep(rolls: seq<Face>, front: seq<Face>, f: Face, prev: Distribution)
    requires rolls == front + [f]
    requires forall g: Face :: Count(prev, g) == multiset(front)[g]
    requires Size(prev) == |front|
    ensures forall g: Face :: Count(prev[f - 1 := prev[f - 1] + 1], g) == multiset(rolls)[g]
    ensures Size(prev[f - 1 := prev[f - 1] + 1]) == |rolls|
  {
    var d := prev[f - 1 := prev[f - 1] + 1];
    assert multiset(rolls) == multiset(front) + multiset{f};
    forall g: Face
      ensures Count(d, g) == multiset(rolls)[g]
    {
      assert Count(prev, g) == multiset(front)[g];
    }
  }

  /** The faces present from `f` on, ascending. */
  function KeysFrom(d: Distribution, f: int): (r: seq<Face>)
    requires 1 <= f <= 7
    ensures forall i :: 0 <= i < |r| ==> f <= r[i] && Present(d, r[i])
    ensures forall i, j :: 0 <= i < j < |r| ==> r[i] < r[j]
    ensures forall g: Face :: f <= g && Present(d, g) ==> g in r
    decreases 7 - f
  {
    if f == 7 then []
    else
      var rest := KeysFrom(d, f + 1);
      if d[f - 1] > 0 then [f as Face] + rest else rest
  }

  /** `Object.keys(distribution)` read as numbers: JavaScript lists
      integer keys in ascending order, so these are the faces present,
      ascending. */
  function Keys(d: Distribution): (r: seq<Face>)
    ensures forall i :: 0 <= i < |r| ==> Present(d, r[i])
    ensures forall i, j :: 0 <= i < j < |r| ==> r[i] < r[j]
    ensures forall g: Face :: Present(d, g) ==> g in r
  {
    KeysFrom(d, 1)
  }

  /** `Object.values(distribution)`: the counts in key order. */
  function Values(d: Distribution): (r: seq<nat>)
    ensures |r| == |Keys(d)|
    ensures forall i :: 0 <= i < |r| ==> r[i] == Count(d, Keys(d)[i]) && r[i] > 0
  {
    var keys := Keys(d);
    seq(|keys|, i requires 0 <= i < |keys| => Count(d, keys[i]))
  }

  // ---------------------------------------------------------------------
  // The evaluators
  // ---------------------------------------------------------------------

  /** `countSameRoll`: the face times its count, 0 when absent. */
  function CountSameRoll(d: Distribution, n: Face): int {
    Count(d, n) * n
  }

  /** `sumRolls`: each present face times its count; an absent face adds
      nothing, so every face can be counted. */
  function SumRolls(d: Distribution): int {
    1 * d[0] + 2 * d[1] + 3 * d[2] + 4 * d[3] + 5 * d[4] + 6 * d[5]
  }

  /** `isOfKind`: some value reaches `n`. */
  predicate IsOfKind(d: Distribution, n: int) {
    exists i :: 0 <= i < |Values(d)| && Values(d)[i] >= n
  }

  /** The loop of `countStraightLength` from index `i` on: `local` is the
      length of the run of consecutive keys ending at `i - 1`, `longest`
      the longest run seen at indices 1 to `i - 1`. */
  function StraightLoop(keys: seq<int>, i: nat, local: int, longest: int): int
    requires 1 <= i
    decreases |keys| - i
  {
    if i >= |keys| then longest
    else
      var next := if keys[i] == keys[i - 1] + 1 then local + 1 else 1;
      StraightLoop(keys, i + 1, next, if next > longest then next else longest)
  }

  /** `countStraightLength`. */
  function StraightLength(d: Distribution): int {
    StraightLoop(Keys(d), 1, 1, 0)
  }

  /** Full house: no value is 1, 4 or 5. */
  predicate NoSingleOrQuad(d: Distribution) {
    forall i :: 0 <= i < |Values(d)| ==> Values(d)[i] != 1 && Values(d)[i] != 4 && Values(d)[i] != 5
  }

  /** `rollEval` of category `id`. */
  function Evaluate(id: int, d: Distribution): (v: int)
    requires 1 <= id <= 13
    ensures v >= 0
  {
    if id <= 6 then CountSameRoll(d, id as Face)
    else if id == 7 then (if IsOfKind(d, 3) then SumRolls(d) else 0)
    else if id == 8 then (if IsOfKind(d, 4) then SumRolls(d) else 0)
    else if id == 9 then (if NoSingleOrQuad(d) then 25 else 0)
    else if id == 10 then (if StraightLength(d) >= 4 then 30 else 0)
    else if id == 11 then (if StraightLength(d) >= 5 then 40 else 0)
    else if id == 12 then SumRolls(d)
    else (if |Values(d)| > 0 && Values(d)[0] == 5 then 50 else 0)
  }

  // ---------------------------------------------------------------------
  // What the evaluators mean
  // ---------------------------------------------------------------------

  /** The sum of the dice. */
  function DiceSum(rolls: seq<Face>): int
    decreases |rolls|
  {
    if |rolls| == 0 then 0 else DiceSum(rolls[..|rolls| - 1]) + rolls[|rolls| - 1]
  }

  /** `sumRolls` of the distribution is the sum of the dice. */
  lemma {:induction false} SumRollsIsDiceSum(rolls: seq<Face>)
    ensures SumRolls(Distribute(rolls)) == DiceSum(rolls)
    decreases |rolls|
  {
    if |rolls| > 0 {
      SumRollsIsDiceSum(rolls[..|rolls| - 1]);
    }
  }

  /** Categories 1 to 6 score the face times the number of dice showing
      it. */
  lemma UpperScore(rolls: seq<Face>, n: Face)
    ensures Evaluate(n, Distribute(rolls)) == n * multiset(rolls)[n]
  {
  }

  /** `isOfKind(d, n)` holds exactly when some face shows on `n` dice or
      more. */
  lemma OfKind(d: Distribution, n: int)
    requires n >= 1
    ensures IsOfKind(d, n) <==> exists f: Face :: Count(d, f) >= n
  {
    if exists f: Face :: Count(d, f) >= n {
      var f: Face :| Count(d, f) >= n;
      assert f in Keys(d);
      var i :| 0 <= i < |Keys(d)| && Keys(d)[i] == f;
      assert Values(d)[i] >= n;
    }
    if IsOfKind(d, n) {
      var i :| 0 <= i < |Values(d)| && Values(d)[i] >= n;
      assert Count(d, Keys(d)[i]) >= n;
    }
  }

  /** Three and four of a kind score the dice sum exactly when some face
      shows on three (four) dice. */
  lemma OfKindScores(rolls: seq<Face>, n: int)
    requires n == 3 || n == 4
    ensures var v := Evaluate(n + 4, Distribute(rolls));
      && ((exists f: Face :: multiset(rolls)[f] >= n) ==> v == DiceSum(rolls))
      && (!(exists f: Face :: multiset(rolls)[f] >= n) ==> v == 0)
  {
    var d := Distribute(rolls);
    OfKind(d, n);
    SumRollsIsDiceSum(rolls);
    if exists f: Face :: multiset(rolls)[f] >= n {
      var f: Face :| multiset(rolls)[f] >= n;
      assert Count(d, f) >= n;
    }
  }

  /** Every present face shows on 2 or 3 dice. */
  predicate PairsAndTriples(d: Distribution) {
    forall f: Face :: Present(d, f) ==> Count(d, f) == 2 || Count(d, f) == 3
  }

  lemma NoSingleOrQuadFaces(d: Distribution)
    requires Size(d) == 5
    ensures NoSingleOrQuad(d) <==> PairsAndTriples(d)
  {
    if NoSingleOrQuad(d) {
      CountsOfKeys(d);
    }
    if PairsAndTriples(d) {
      KeysOfCounts(d);
    }
  }

  /** No value of 1, 4 or 5: every present face, being a key, shows on 2
      or 3 dice. */
  lemma CountsOfKeys(d: Distribution)
    requires Size(d) == 5 && NoSingleOrQuad(d)
    ensures PairsAndTriples(d)
  {
    forall f: Face | Present(d, f)
      ensures Count(d, f) == 2 || Count(d, f) == 3
    {
      var i := KeyAt(d, f);
      var v := Values(d)[i];
      assert v != 1 && v != 4 && v != 5;
      CountWithinSize(d, f);
    }
  }

  /** One face's count is at most the number of dice. */
  lemma CountWithinSize(d: Distribution, f: Face)
    ensures Count(d, f) <= Size(d)
  {
    if f == 1 { assert Count(d, f) == d[0]; }
    else if f == 2 { assert Count(d, f) == d[1]; }
    else if f == 3 { assert Count(d, f) == d[2]; }
    else if f == 4 { assert Count(d, f) == d[3]; }
    else if f == 5 { assert Count(d, f) == d[4]; }
    else { assert Count(d, f) == d[5]; }
  }

  /** A present face is a key: its index among the keys. */
  lemma KeyAt(d: Distribution, f: Face) returns (i: nat)
    requires Present(d, f)
    ensures i < |Keys(d)| && Keys(d)[i] == f
  {
    assert f in Keys(d);
    i :| i < |Keys(d)| && Keys(d)[i] == f;
  }

  /** Every present face on 2 or 3 dice: no value, the count of a key, is
      1, 4 or 5. */
  lemma KeysOfCounts(d: Distribution)
    requires PairsAndTriples(d)
    ensures NoSingleOrQuad(d)
  {
    var values := Values(d);
    forall i | 0 <= i < |values|
      ensures values[i] != 1 && values[i] != 4 && values[i] != 5
    {
      assert Present(d, Keys(d)[i]);
    }
  }

  /** Five dice in counts of 2 or 3 are one pair and one triple. */
  lemma PairPlusTriple(d: Distribution)
    requires Size(d) == 5
    ensures PairsAndTriples(d) <==> exists a: Face, b: Face :: a != b && Count(d, a) == 3 && Count(d, b) == 2
  {
    if PairsAndTriples(d) {
      forall i | 0 <= i < 6
        ensures d[i] == 0 || d[i] == 2 || d[i] == 3
      {
        assert Count(d, (i + 1) as Face) == d[i];
      }
      var i, j := ThreeTwo(d);
      assert Count(d, (i + 1) as Face) == 3 && Count(d, (j + 1) as Face) == 2;
    }
    if exists a: Face, b: Face :: a != b && Count(d, a) == 3 && Count(d, b) == 2 {
      var a: Face, b: Face :| a != b && Count(d, a) == 3 && Count(d, b) == 2;
      TripleAndPairOnly(d, a, b);
    }
  }

  /** Six counts of 0, 2 or 3 adding up to 5: one 3 and one 2. */
  lemma ThreeTwo(d: Distribution) returns (i: nat, j: nat)
    requires Size(d) == 5
    requires forall k :: 0 <= k < 6 ==> d[k] == 0 || d[k] == 2 || d[k] == 3
    ensures i < 6 && j < 6 && i != j && d[i] == 3 && d[j] == 2
  {
    i := if d[0] == 3 then 0 else if d[1] == 3 then 1 else if d[2] == 3 then 2
      else if d[3] == 3 then 3 else if d[4] == 3 then 4 else 5;
    j := if d[0] == 2 then 0 else if d[1] == 2 then 1 else if d[2] == 2 then 2
      else if d[3] == 2 then 3 else if d[4] == 2 then 4 else 5;
  }

  /** A triple and a pair of two faces use all five dice, so every present
      face is one of them. */
  lemma TripleAndPairOnly(d: Distribution, a: Face, b: Face)
    requires Size(d) == 5 && a != b && Count(d, a) == 3 && Count(d, b) == 2
    ensures PairsAndTriples(d)
  {
    forall f: Face | Present(d, f)
      ensures Count(d, f) == 2 || Count(d, f) == 3
    {
      assert f == a || f == b;
    }
  }

  /** Full house scores 25 exactly when the dice are a pair and a triple
      of another face. */
  lemma FullHouse(rolls: Roll)
    ensures var d := Distribute(rolls);
      Evaluate(9, d) == (if exists a: Face, b: Face :: a != b && Count(d, a) == 3 && Count(d, b) == 2 then 25 else 0)
  {
    var d := Distribute(rolls);
    NoSingleOrQuadFaces(d);
    PairPlusTriple(d);
  }

  /** Yahtzee scores 50 exactly when all five dice show one face: the
      first value is the count of the lowest face present. */
  lemma AllFive(d: Distribution)
    requires Size(d) == 5
    ensures Evaluate(13, d) == (if exists f: Face :: Count(d, f) == 5 then 50 else 0)
  {
    if exists f: Face :: Count(d, f) == 5 {
      var f: Face :| Count(d, f) == 5;
      FiveGivesFirst(d, f);
    } else if |Values(d)| > 0 && Values(d)[0] == 5 {
      FirstGivesFive(d);
    }
  }

  /** All five dice on face `f`: `f` is the only key, so the first value
      is 5. */
  lemma FiveGivesFirst(d: Distribution, f: Face)
    requires Size(d) == 5 && Count(d, f) == 5
    ensures |Values(d)| > 0 && Values(d)[0] == 5
  {
    var i := KeyAt(d, f);
    OnlyFace(d, f, Keys(d)[0]);
    assert Values(d)[0] == Count(d, Keys(d)[0]);
  }

  /** With all five dice on face `f`, no other face is present. */
  lemma OnlyFace(d: Distribution, f: Face, g: Face)
    requires Size(d) == 5 && Count(d, f) == 5 && Present(d, g)
    ensures g == f
  {
  }

  /** A first value of 5 is the count of the lowest face present. */
  lemma FirstGivesFive(d: Distribution)
    requires |Values(d)| > 0 && Values(d)[0] == 5
    ensures exists f: Face :: Count(d, f) == 5
  {
    assert Count(d, Keys(d)[0]) == 5;
  }

  // ---------------------------------------------------------------------
  // Straights
  // ---------------------------------------------------------------------

  /** The length of the run of consecutive keys ending at index `i`. */
  function RunEnding(keys: seq<int>, i: nat): (n: nat)
    requires i < |keys|
    ensures 1 <= n <= i + 1
  {
    if i == 0 || keys[i] != keys[i - 1] + 1 then 1 else RunEnding(keys, i - 1) + 1
  }

  /** The longest run ending at indices 1 to `n - 1` (0 when there are
      none): the loop never counts the run at index 0. */
  function LongestRun(keys: seq<int>, n: nat): nat
    requires n <= |keys|
  {
    if n <= 1 then 0
    else
      var m := LongestRun(keys, n - 1);
      var r := RunEnding(keys, n - 1);
      if r > m then r else m
  }

  /** The loop of `countStraightLength` keeps its two counters as
      described, so it returns the longest run. */
  lemma {:induction false} StraightLoopIsLongest(keys: seq<int>, i: nat)
    requires 1 <= i <= |keys|
    ensures StraightLoop(keys, i, RunEnding(keys, i - 1), LongestRun(keys, i)) == LongestRun(keys, |keys|)
    decreases |keys| - i
  {
    if i < |keys| {
      StraightLoopIsLongest(keys, i + 1);
    }
  }

  /** A run of `k >= 2` is found exactly when some index has one. */
  lemma {:induction false} LongestRunReaches(keys: seq<int>, n: nat, k: int)
    requires n <= |keys| && k >= 2
    ensures LongestRun(keys, n) >= k <==> exists i :: 0 <= i < n && RunEnding(keys, i) >= k
    decreases n
  {
    if n > 1 {
      LongestRunReaches(keys, n - 1, k);
      assert LongestRun(keys, n) >= LongestRun(keys, n - 1) && LongestRun(keys, n) >= RunEnding(keys, n - 1);
      if LongestRun(keys, n) >= k {
        if RunEnding(keys, n - 1) < k {
          var i :| 0 <= i < n - 1 && RunEnding(keys, i) >= k;
          assert 0 <= i < n;
        }
      }
      if exists i :: 0 <= i < n && RunEnding(keys, i) >= k {
        var i :| 0 <= i < n && RunEnding(keys, i) >= k;
        if i < n - 1 {
          assert exists j :: 0 <= j < n - 1 && RunEnding(keys, j) >= k;
        }
      }
    } else if n == 1 {
      assert RunEnding(keys, 0) == 1;
    }
  }

  /** The number of consecutive faces present ending at face `f`. */
  function Run(d: Distribution, f: Face): (n: nat)
    ensures 1 <= n <= f
  {
    if f == 1 || d[f - 2] == 0 then 1 else Run(d, (f - 1) as Face) + 1
  }

  /** `keys` lists the faces present, ascending. */
  predicate Lists(d: Distribution, keys: seq<Face>) {
    && (forall i :: 0 <= i < |keys| ==> Present(d, keys[i]))
    && (forall i, j :: 0 <= i < j < |keys| ==> keys[i] < keys[j])
    && (forall g: Face :: Present(d, g) ==> g in keys)
  }

  /** The run of keys ending at a key is the run of faces ending at that
      face: no present face lies between two neighbouring keys. */
  lemma {:induction false} RunEndingIsRun(d: Distribution, keys: seq<Face>, i: nat)
    requires Lists(d, keys) && i < |keys|
    ensures RunEnding(keys, i) == Run(d, keys[i])
    decreases i
  {
    var f := keys[i];
    if f > 1 && d[f - 2] > 0 {
      var g := (f - 1) as Face;
      assert Present(d, g);
      var j :| 0 <= j < |keys| && keys[j] == g;
      assert j < i;
      assert keys[j] <= keys[i - 1] < keys[i];
      RunEndingIsRun(d, keys, i - 1);
    } else if i > 0 {
      assert Present(d, keys[i - 1]);
    }
  }

  /** `k` faces from `s` on are all present. */
  predicate AllPresent(d: Distribution, s: int, k: int) {
    1 <= s && s + k - 1 <= 6 && forall g: Face :: s <= g < s + k ==> Present(d, g)
  }

  /** A run of at least `k` ends at `f` exactly when the `k` faces up to
      `f` are present. */
  lemma {:induction false} RunReaches(d: Distribution, f: Face, k: int)
    requires Present(d, f) && k >= 1
    ensures Run(d, f) >= k <==> AllPresent(d, f - k + 1, k)
    decreases f
  {
    if k > 1 && f > 1 && d[f - 2] > 0 {
      RunReaches(d, (f - 1) as Face, k - 1);
      if AllPresent(d, f - k + 1, k) {
        assert AllPresent(d, f - k + 1, k - 1);
      }
      if AllPresent(d, f - k + 1, k - 1) {
        forall g: Face | f - k + 1 <= g < f + 1
          ensures Present(d, g)
        {
          if g < f {
            assert f - k + 1 <= g < (f - 1) - (k - 1) + 1 + (k - 1);
          }
        }
      }
    } else if k > 1 && f > 1 {
      assert !Present(d, (f - 1) as Face);
    }
  }

  /** `countStraightLength` reaches `k >= 2` exactly when `k` consecutive
      faces are present. */
  lemma StraightReaches(d: Distribution, k: int)
    requires k >= 2
    ensures StraightLength(d) >= k <==> exists s :: AllPresent(d, s, k)
  {
    var keys := Keys(d);
    assert Lists(d, keys);
    if |keys| >= 1 {
      StraightLoopIsLongest(keys, 1);
    }
    LongestRunReaches(keys, |keys|, k);
    if StraightLength(d) >= k {
      var i :| 0 <= i < |keys| && RunEnding(keys, i) >= k;
      RunEndingIsRun(d, keys, i);
      RunReaches(d, keys[i], k);
    }
    if exists s :: AllPresent(d, s, k) {
      var s :| AllPresent(d, s, k);
      var f := (s + k - 1) as Face;
      assert Present(d, f);
      var i :| 0 <= i < |keys| && keys[i] == f;
      RunReaches(d, f, k);
      RunEndingIsRun(d, keys, i);
    }
  }

  /** A small straight scores 30 exactly when four consecutive faces
      show, a large one 40 exactly when five do. */
  lemma Straights(d: Distribution)
    ensures Evaluate(10, d) == (if exists s :: AllPresent(d, s, 4) then 30 else 0)
    ensures Evaluate(11, d) == (if exists s :: AllPresent(d, s, 5) then 40 else 0)
  {
    StraightReaches(d, 4);
    StraightReaches(d, 5);
  }

  /** The quirk of the loop: a single face present is a straight of
      length 0, not 1. */
  lemma SingleFaceLengthZero()
    ensures StraightLength([5, 0, 0, 0, 0, 0]) == 0
  {
    assert Keys([5, 0, 0, 0, 0, 0]) == [1];
  }

  // ---------------------------------------------------------------------
  // Categories (`YahtzeeCategory`)
  // ---------------------------------------------------------------------

  /** The translation key of each category's name, as written: the small
      straight reuses the four-of-a-kind key. */
  function CategoryName(id: int): string {
    if id == 1 then "yahtzee.categoryOnes"
    else if id == 2 then "yahtzee.categoryTwos"
    else if id == 3 then "yahtzee.categoryThrees"
    else if id == 4 then "yahtzee.categoryFours"
    else if id == 5 then "yahtzee.categoryFives"
    else if id == 6 then "yahtzee.categorySixes"
    else if id == 7 then "yahtzee.categoryThreeOfAKind"
    else if id == 8 then "yahtzee.categoryFourOfAKind"
    else if id == 9 then "yahtzee.categoryFullHouse"
    else if id == 10 then "yahtzee.categoryFourOfAKind"
    else if id == 11 then "yahtzee.categoryLargeStraight"
    else if id == 12 then "yahtzee.categoryChance"
    else "yahtzee.name"
  }

  /** Two categories share a name on the sheet. */
  lemma SmallStraightMislabelled()
    ensures CategoryName(10) == CategoryName(8)
  {
  }

  /** The names with the small straight's own key. */
  function IntendedCategoryName(id: int): (name: string)
    ensures id != 10 ==> name == CategoryName(id)
  {
    if id == 10 then "yahtzee.categorySmallStraight" else CategoryName(id)
  }

  /** With that key every category has a name of its own. */
  lemma IntendedNamesDistinct(a: int, b: int)
    requires 1 <= a <= 13 && 1 <= b <= 13 && a != b
    ensures IntendedCategoryName(a) != IntendedCategoryName(b)
  {
  }

  datatype Category = Category(id: int, name: string, isMarked: bool, value: int)

  /** The constructor: unmarked, worth 0. */
  function NewCategory(id: int): (c: Category)
    ensures c.id == id && !c.isMarked && c.value == 0
  {
    Category(id, IntendedCategoryName(id), false, 0)
  }

  /** `getDisplayValue`: what the category would score now. */
  function DisplayValue(c: Category, d: Distribution): int
    requires 1 <= c.id <= 13
  {
    Evaluate(c.id, d)
  }

  /** `mark`: marked, and worth what it scores now. */
  function Mark(c: Category, d: Distribution): (r: Category)
    requires 1 <= c.id <= 13
    ensures r.isMarked && r.value == DisplayValue(c, d)
    ensures r.id == c.id && r.name == c.name
  {
    c.(isMarked := true, value := DisplayValue(c, d))
  }

  /** Nothing stops a second `mark`: it overwrites the value. */
  lemma MarkOverwrites(c: Category, d: Distribution, e: Distribution)
    requires 1 <= c.id <= 13
    ensures Mark(Mark(c, d), e) == Mark(c, e)
  {
  }

  // ---------------------------------------------------------------------
  // The sheet (`YahtzeeScoreSheet`)
  // ---------------------------------------------------------------------

  datatype Sheet = Sheet(
    upper: int, hasBonus: bool, total: int,
    rolls: Roll, rerolls: int, categories: seq<Category>)

  /** The thirteen categories, category `id` at index `id - 1`. */
  predicate Valid(s: Sheet) {
    |s.categories| == 13 && forall i :: 0 <= i < 13 ==> s.categories[i].id == i + 1
  }

  function Dist(s: Sheet): Distribution {
    Distribute(s.rolls)
  }

  /** The categories of a new sheet. */
  function NewCategories(): (cs: seq<Category>)
    ensures |cs| == 13
    ensures forall i :: 0 <= i < 13 ==> cs[i] == NewCategory(i + 1)
  {
    seq(13, i requires 0 <= i < 13 => NewCategory(i + 1))
  }

  /** The dice after `forEach` over `selections`: each selected die `n`
      (from 1) takes the draw `draw[n - 1]`. */
  function RerollEach(rolls: Roll, selections: seq<int>, draw: Roll): (r: Roll)
    ensures forall i :: 0 <= i < 5 ==> r[i] == if i + 1 in selections then draw[i] else rolls[i]
    decreases |selections|
  {
    if |selections| == 0 then rolls
    else
      var n := selections[|selections| - 1];
      var prev := RerollEach(rolls, selections[..|selections| - 1], draw);
      assert forall x :: x in selections <==> x in selections[..|selections| - 1] || x == n by {
        assert selections == selections[..|selections| - 1] + [n];
      }
      if 1 <= n <= 5 then prev[n - 1 := draw[n - 1]] else prev
  }

  /** `reroll`: one reroll fewer; the selected dice are rolled again and
      the others stay. */
  function Reroll(s: Sheet, selections: seq<int>, draw: Roll): (r: Sheet)
    ensures r.rerolls == s.rerolls - 1
    ensures forall i :: 0 <= i < 5 ==> r.rolls[i] == if i + 1 in selections then draw[i] else s.rolls[i]
    ensures r.categories == s.categories && r.total == s.total && r.upper == s.upper && r.hasBonus == s.hasBonus
  {
    s.(rerolls := s.rerolls - 1, rolls := RerollEach(s.rolls, selections, draw))
  }

  /** `rerollAll`: every die is rolled. */
  function RerollAll(s: Sheet, draw: Roll): (r: Sheet)
    ensures r.rolls == draw && r.rerolls == s.rerolls - 1
    ensures r.categories == s.categories && r.total == s.total && r.upper == s.upper && r.hasBonus == s.hasBonus
  {
    var r := Reroll(s, [1, 2, 3, 4, 5], draw);
    assert r.rolls == draw;
    r
  }

  /** `reset`: back to three rerolls, then `rerollAll`, which leaves two. */
  function Reset(s: Sheet, draw: Roll): (r: Sheet)
    ensures r.rolls == draw && r.rerolls == 2
    ensures r.categories == s.categories && r.total == s.total && r.upper == s.upper && r.hasBonus == s.hasBonus
  {
    RerollAll(s.(rerolls := 3), draw)
  }

  /** A new sheet after its first `rerollAll`: nothing scored, two
      rerolls left. (The dice are `null` before that roll; they are never
      read then.) */
  function New(draw: Roll): (s: Sheet)
    ensures Valid(s) && s.rolls == draw && s.rerolls == 2
    ensures s.total == 0 && s.upper == 0 && !s.hasBonus
    ensures forall i :: 0 <= i < 13 ==> !s.categories[i].isMarked && s.categories[i].value == 0
  {
    RerollAll(Sheet(0, false, 0, [1, 1, 1, 1, 1], 3, NewCategories()), draw)
  }

  /** `selectCategory(id)`: the category is marked with what it scores
      now, which is added to the total; for 1 to 6 it is also added to the
      upper score, and the first time that reaches 63 the total gains the
      35-point bonus. `None` where an unknown id makes the source throw. */
  function SelectCategory(s: Sheet, id: int): (r: Option<Sheet>)
    requires Valid(s)
    ensures r.None? <==> !(1 <= id <= 13)
    ensures r.Some? ==> Valid(r.value) && r.value.rolls == s.rolls && r.value.rerolls == s.rerolls
    ensures r.Some? ==> r.value.categories == s.categories[id - 1 := Mark(s.categories[id - 1], Dist(s))]
    ensures r.Some? ==> var v := Evaluate(id, Dist(s));
      var bonus := 1 <= id <= 6 && !s.hasBonus && s.upper + v >= 63;
      && r.value.total == s.total + v + (if bonus then 35 else 0)
      && r.value.upper == s.upper + (if 1 <= id <= 6 then v else 0)
      && r.value.hasBonus == (s.hasBonus || bonus)
  {
    if !(1 <= id <= 13) then None
    else
      var c := Mark(s.categories[id - 1], Dist(s));
      var s1 := s.(categories := s.categories[id - 1 := c], total := s.total + c.value);
      if 1 <= id <= 6 then
        var s2 := s1.(upper := s1.upper + c.value);
        if s2.upper >= 63 && !s2.hasBonus then Some(s2.(total := s2.total + 35, hasBonus := true))
        else Some(s2)
      else Some(s1)
  }

  // ---------------------------------------------------------------------
  // The totals
  // ---------------------------------------------------------------------

  /** The values of categories `lo` to `hi - 1` (indices). */
  function SumValues(cs: seq<Category>, lo: nat, hi: nat): int
    requires lo <= hi <= |cs|
    decreases hi - lo
  {
    if lo == hi then 0 else cs[lo].value + SumValues(cs, lo + 1, hi)
  }

  lemma {:induction false} SumValuesUpdate(cs: seq<Category>, lo: nat, hi: nat, k: nat, c: Category)
    requires lo <= hi <= |cs| && k < |cs|
    ensures SumValues(cs[k := c], lo, hi) == SumValues(cs, lo, hi) + (if lo <= k < hi then c.value - cs[k].value else 0)
    decreases hi - lo
  {
    if lo < hi {
      SumValuesUpdate(cs, lo + 1, hi, k, c);
    }
  }

  lemma {:induction false} SumValuesZero(cs: seq<Category>, lo: nat, hi: nat)
    requires lo <= hi <= |cs|
    requires forall i :: lo <= i < hi ==> cs[i].value == 0
    ensures SumValues(cs, lo, hi) == 0
    decreases hi - lo
  {
    if lo < hi {
      SumValuesZero(cs, lo + 1, hi);
    }
  }

  /** What the sheet keeps consistent: the total is the categories'
      values plus the bonus if earned, the upper score is that of 1 to 6,
      the bonus is earned exactly when the upper score is 63 or more, and
      an unmarked category is worth nothing. */
  predicate Consistent(s: Sheet) {
    && Valid(s)
    && s.total == SumValues(s.categories, 0, 13) + (if s.hasBonus then 35 else 0)
    && s.upper == SumValues(s.categories, 0, 6)
    && (s.hasBonus <==> s.upper >= 63)
    && (forall i :: 0 <= i < 13 && !s.categories[i].isMarked ==> s.categories[i].value == 0)
  }

  lemma NewConsistent(draw: Roll)
    ensures Consistent(New(draw))
  {
    SumValuesZero(New(draw).categories, 0, 13);
    SumValuesZero(New(draw).categories, 0, 6);
  }

  /** Selecting an unmarked category keeps the sheet consistent, so the
      bonus is added once only. */
  lemma SelectKeepsConsistent(s: Sheet, id: int)
    requires Consistent(s) && 1 <= id <= 13 && !s.categories[id - 1].isMarked
    ensures Consistent(SelectCategory(s, id).value)
  {
    var r := SelectCategory(s, id).value;
    var c := r.categories[id - 1];
    var v := Evaluate(id, Dist(s));
    assert c.value == v;
    MarkKeepsConsistent(s, r, id - 1, c);
  }

  /** The bookkeeping of one selection, apart from what the category
      scores: marking category `k` with a value `c.value >= 0` and adding
      that value to the totals keeps the sheet consistent. */
  lemma MarkKeepsConsistent(s: Sheet, r: Sheet, k: nat, c: Category)
    requires Consistent(s) && k < 13 && !s.categories[k].isMarked
    requires c.isMarked && c.value >= 0
    requires Valid(r) && r.categories == s.categories[k := c]
    requires r.total == s.total + c.value + (if k < 6 && !s.hasBonus && s.upper + c.value >= 63 then 35 else 0)
    requires r.upper == s.upper + (if k < 6 then c.value else 0)
    requires r.hasBonus == (s.hasBonus || (k < 6 && !s.hasBonus && s.upper + c.value >= 63))
    ensures Consistent(r)
  {
    SumValuesUpdate(s.categories, 0, 13, k, c);
    SumValuesUpdate(s.categories, 0, 6, k, c);
  }

  /** Nothing stops a lower category being selected again: its new
      value replaces the old one on the sheet, but the total keeps both,
      so a category once worth something leaves the sheet inconsistent. */
  lemma SelectAgainOvercounts(s: Sheet, id: int)
    requires Consistent(s) && 7 <= id <= 13 && s.categories[id - 1].isMarked
    ensures var r := SelectCategory(s, id).value;
      r.total == SumValues(r.categories, 0, 13) + (if r.hasBonus then 35 else 0) + s.categories[id - 1].value
    ensures s.categories[id - 1].value > 0 ==> !Consistent(SelectCategory(s, id).value)
  {
    var r := SelectCategory(s, id).value;
    SumValuesUpdate(s.categories, 0, 13, id - 1, r.categories[id - 1]);
  }
}
